=== FILE: README.md ===
# Navi comment-analysis core, modelled in Dafny

Navi helps readers of federal rulemakings understand the public comments filed
on a regulations.gov document. Its Python back end has five parts:

- it fetches the comments through the regulations.gov v4 API;
- it runs two keyword-driven analyzers over them: the basic `CommentAnalyzer`
  and the advanced `GPTOSSAnalyzer`;
- it exposes the analyses as tools that a local LLM can call
  (`GPTOSSToolInterface`, and the Ollama bridge that prompts the model and
  parses its reply);
- it renders a short "see more" summary of a finished analysis;
- a separate AWS Lambda function serves stored documents from S3 with
  offset/limit pagination.

This project restates each of those parts as pure Dafny functions over
immutable datatypes and proves what each part promises its callers.

| module | file | models |
|---|---|---|
| `Wrappers` | wrappers.dfy | `Option` / `Result`, used for Python's `None` and raised exceptions |
| `Strings` | strings.dfy | the `str` operations the analyzers use: `lower`, `count`, `find`, `split`, `strip`, `join`, `title`, `int()` |
| `StableSort` | stable_sort.dfy | `sorted(..., reverse=True)` / `list.sort(reverse=True)`: a stable descending sort, and taking its top entries |
| `Counter` | counter.dfy | `collections.Counter(...).most_common()` |
| `Json` | json.dfy | Python dictionaries and lists: `.get`, `[...]`, `len`, slicing, truthiness |
| `Comments` | comments.dfy | the `RegulationsComment` record and `_prepare_comment_data` |
| `ThemeDetectors` | theme_detectors.dfy | regulatory themes, impact assessments and stakeholder-concern routing of the advanced analyzer |
| `SentenceExtractors` | sentence_extractors.dfy | the sentence-level extractors: recommendations, technical, economic, timeline and implementation issues |
| `AdvancedAnalyzer` | advanced_analyzer.dfy | key points, perspectives, sentiment, stakeholder categories, confidence, the summary and the whole `AdvancedCommentAnalysis` |
| `AnalysisPayload` | analysis_payload.dfy | the analysis as a dictionary (`asdict`) and `synthesize_key_insights` |
| `RegulationsApi` | regulations_api.dfy | `RegulationsGovAPI`: requests, object ids, counts, comment fetching, docket ids, the key check |
| `BasicAnalyzer` | basic_analyzer.dfy | `CommentAnalyzer` and the three tool closures of `create_regulations_analysis_tool` |
| `Tools` | tools.dfy | `GPTOSSToolInterface`: tool schemas, argument binding, dispatch and the six tools |
| `LlmBridge` | llm_bridge.dfy | `OllamaCommentAnalyzer`: prompt, reply handling, response parsing, connection test |
| `SeeMore` | see_more.dfy | `generate_see_more_summary` |
| `DocumentsLambda` | documents_lambda.dfy | `lambda_function.py`: key listing, pagination, document extraction, the handler |

The rest of the system enters as parameters:

- the regulations.gov HTTP transport and per-comment detail fetches;
- the Ollama HTTP replies;
- `json.loads`;
- the S3 listing and object reads.

The model is therefore deterministic, and every error path of the source is a
`Result` error or an error envelope.

## Model

| member | source | states |
|---|---|---|
| Strings.Lower | backend/ai_comment_analyzer.py:174 | lower-casing keeps the length and maps every character independently |
| Strings.LowerConcat | backend/ai_comment_analyzer.py:174 | lower-casing a `' '.join` is the join of the lower-cased parts |
| Strings.FindFrom | backend/ollama_comment_analyzer.py:220-221 | `str.find` returns the first occurrence at or after the start, or -1 exactly when there is none |
| Strings.StripSlice | backend/ai_comment_analyzer.py:354 | `strip()` removes exactly the leading and trailing whitespace, leaving a contiguous slice |
| Strings.StripKeepsKeyword | backend/ai_comment_analyzer.py:353-354 | a keyword without surrounding spaces found in a sentence is still found after the sentence is stripped |
| Strings.SplitWhitespaceWord | backend/ai_comment_analyzer.py:330 | `split()` of a non-empty word without whitespace is that single word |
| Strings.Dedup | backend/ai_comment_analyzer.py:334 | `list(set(xs))` holds every element of `xs` exactly once and nothing else |
| Strings.Take | backend/ai_comment_analyzer.py:334 | `xs[:n]` is the prefix of length `min(n, len(xs))` |
| Strings.CountOccBound | backend/ai_comment_analyzer.py:207 | `str.count` counts non-overlapping occurrences, so count times keyword length never exceeds the text length |
| Strings.SplitCount | backend/regulations_gov_api.py:252 | `split('-')` yields one more piece than there are hyphens |
| Strings.JoinOfSplit | backend/regulations_gov_api.py:252-255 | joining the pieces of `split('-')` with '-' restores the string |
| Strings.SplitJoin | backend/regulations_gov_api.py:252-255 | splitting a '-'-join of hyphen-free pieces gives the pieces back |
| Strings.SplitLower | backend/ai_comment_analyzer.py:328-330 | splitting at sentence delimiters commutes with lower-casing, piece by piece |
| Strings.ParseIntRoundTrip | lambda_function.py:212-220 | `int(str(i)) == i` for every integer, including negatives |
| Strings.ParseGroups | lambda_function.py:212-220 | digits grouped by single underscores parse as the value of the digits alone |
| Strings.GroupingKeepsValue | lambda_function.py:212-220 | an underscore between two digit runs is accepted and leaves the value unchanged |
| Strings.GroupedThousand | lambda_function.py:212-220 | "1_000" parses as 1000, as Python's `int()` reads it |
| StableSort.SortDesc | backend/ai_comment_analyzer.py:217 | the reverse sort is ordered by non-increasing key and keeps the length |
| StableSort.SortDescPermutes | backend/ai_comment_analyzer.py:217 | sorting is a permutation of its input |
| StableSort.SortDescStable | backend/ai_comment_analyzer.py:217 | sorting keeps the input order of the entries with each key |
| StableSort.TopMembers | backend/ai_comment_analyzer.py:501-505 | every entry of the top-n list comes from the input |
| StableSort.TopKeepsBest | backend/ai_comment_analyzer.py:501-505 | an input left out of the top n only happens when n entries with at least its key were kept |
| StableSort.TopStable | backend/ai_comment_analyzer.py:217 | entries with equal keys keep their input order (Python's sort is stable) |
| Counter.MostCommon | backend/ai_comment_analyzer.py:561 | `most_common()` is sorted by count, has one entry per distinct element, and its counts add up to the input length |
| Counter.MostCommonCounts | backend/ai_comment_analyzer.py:561 | each reported count is the multiplicity of its element in the input |
| Counter.MostCommonCovers | backend/ai_comment_analyzer.py:561 | every element of the input is reported |
| Counter.MostCommonStable | backend/ai_comment_analyzer.py:561 | elements with equal counts appear in first-insertion order |
| Counter.CounterCounts | backend/ai_comment_analyzer.py:558 | the counter holds, for every element, its multiplicity in the input |
| Json.Lookup | backend/gpt_oss_tools.py:349-361 | dictionary lookup finds a key exactly when it is present and returns its first binding |
| Json.IndexFirst | backend/gpt_oss_tools.py:349-361 | `d[key]` and `d.get(key, default)` both return the first binding when the key is present |
| Json.LookupFirst | backend/gpt_oss_tools.py:349-361 | the first binding of a key shadows every later one |
| Json.Get | backend/gpt_oss_tools.py:455 | `.get` succeeds exactly on dictionaries (anything else raises `AttributeError`) and otherwise yields the bound value or the default |
| Json.Index | backend/ai_comment_analyzer.py:664-673 | `d[key]` succeeds exactly when `d` is a dictionary holding `key` |
| Json.SliceTo | backend/gpt_oss_tools.py:455 | `v[:n]` succeeds exactly on lists and strings and yields their prefix of length at most n |
| Json.AsStrings | backend/example_integration.py:184 | a list is read as strings exactly when every item is a string, item by item |
| Comments.Or | backend/ai_comment_analyzer.py:132 | `a or b` on strings yields `a` when it is non-empty and `b` otherwise |
| Comments.StakeholderOf | backend/ai_comment_analyzer.py:131-135 | a stakeholder is an organization exactly when it has an organization name; its name falls back from submitter to organization |
| Comments.Contribution | backend/ai_comment_analyzer.py:128-138 | a comment contributes one text and one stakeholder exactly when its text is non-empty |
| Comments.PrepareCommentData | backend/ai_comment_analyzer.py:121-145 | texts and stakeholders stay paired, at most one per comment, dates at most one per text, and the total counts every comment |
| Comments.PrepareTexts | backend/ai_comment_analyzer.py:128-129 | every prepared text is non-empty and every non-empty comment text is kept |
| Comments.PrepareOne | backend/ai_comment_analyzer.py:127-138 | a single comment yields its text and stakeholder when its text is non-empty, and nothing otherwise |
| Comments.PrepareIsKept | backend/ai_comment_analyzer.py:127-138 | the prepared texts and stakeholders are exactly those of the comments with text, in order |
| Comments.PrepareConcat | backend/ai_comment_analyzer.py:127-138 | preparing a concatenation of comment lists is the concatenation of the preparations |
| ThemeDetectors.KeywordsFound | backend/ai_comment_analyzer.py:212 | the keywords found are exactly the table keywords occurring in the text |
| ThemeDetectors.CappedRatio | backend/ai_comment_analyzer.py:213 | relevance is frequency over comment count capped at 1.0, and positive when the frequency is |
| ThemeDetectors.ThemeCandidatesExact | backend/ai_comment_analyzer.py:206-214 | every candidate theme comes from one table row, and every row whose keywords occur yields a candidate |
| ThemeDetectors.ThemeCandidatesSound | backend/ai_comment_analyzer.py:206-214 | every candidate theme is the theme of one table row |
| ThemeDetectors.ThemeCandidatesComplete | backend/ai_comment_analyzer.py:206-214 | every table row whose keywords occur yields its theme |
| ThemeDetectors.ThemeKeywordsFound | backend/ai_comment_analyzer.py:207-213 | a theme with positive frequency lists at least one found keyword |
| ThemeDetectors.IdentifyThemes | backend/ai_comment_analyzer.py:171-218 | at most five themes, ordered by relevance, each with a positive frequency and a relevance in (0, 1] |
| ThemeDetectors.ThemesStable | backend/ai_comment_analyzer.py:217 | themes of equal relevance keep the order of the theme table |
| ThemeDetectors.ThemesTopFive | backend/ai_comment_analyzer.py:217-218 | a candidate is dropped only when five themes at least as relevant were kept |
| ThemeDetectors.Affected | backend/ai_comment_analyzer.py:249-253 | the affected comment indices are increasing and are exactly the comments mentioning a category keyword |
| ThemeDetectors.Ratio | backend/ai_comment_analyzer.py:260 | the impact score is the fraction of comments affected, in (0, 1] |
| ThemeDetectors.AssessImpacts | backend/ai_comment_analyzer.py:220-263 | at most four impacts, each with a non-empty affected list, matching mention count and score |
| ThemeDetectors.ImpactsExact | backend/ai_comment_analyzer.py:245-261 | every impact comes from one category row, and every category that some comment mentions yields one |
| ThemeDetectors.ImpactsSound | backend/ai_comment_analyzer.py:245-261 | every impact is the impact of one category row |
| ThemeDetectors.ImpactsComplete | backend/ai_comment_analyzer.py:245-261 | every category that some comment mentions yields its impact |
| ThemeDetectors.ImpactMentions | backend/ai_comment_analyzer.py:249-261 | a comment is affected by a category exactly when it mentions one of its keywords, and that category is then reported |
| ThemeDetectors.AddEntries | backend/ai_comment_analyzer.py:284-299 | the loop appending concern entries agrees with the reference routing of all entries |
| ThemeDetectors.AnalyzeStakeholderConcerns | backend/ai_comment_analyzer.py:265-301 | the concerns of paired texts and stakeholders are the reference routing of their concern entries |
| ThemeDetectors.CommonIsUnionOfBuckets | backend/ai_comment_analyzer.py:292-299 | the common concerns are duplicate-free and are exactly the union of organization and individual concerns |
| ThemeDetectors.BucketMembers | backend/ai_comment_analyzer.py:292-295 | a concern is in a stakeholder bucket exactly when an entry of that kind raised it |
| ThemeDetectors.EntriesFromPairs | backend/ai_comment_analyzer.py:284-295 | every concern entry comes from one comment, carries that commenter's kind and matches a concern row |
| ThemeDetectors.ConcernRouting | backend/ai_comment_analyzer.py:292-295 | a concern in a stakeholder bucket was raised by a commenter of that kind |
| ThemeDetectors.ConcernReachesBucket | backend/ai_comment_analyzer.py:284-299 | conversely, a comment that mentions a concern row puts that row's concern text into its commenter's bucket (`organizations` for an organization, `individuals` otherwise) and into `common` |
| ThemeDetectors.TableRouting | backend/ai_comment_analyzer.py:284-295 | for any concern table: an entry in a stakeholder bucket was raised by a paired commenter of that kind for a row their comment mentions |
| ThemeDetectors.TableReachesBucket | backend/ai_comment_analyzer.py:284-299 | for any concern table: a paired comment mentioning a row puts that row's concern text into its commenter's bucket and into `common` |
| ThemeDetectors.TextEntriesSound | backend/ai_comment_analyzer.py:288-290 | each concern entry of a comment is the concern text of a row whose keyword the lower-cased comment contains |
| ThemeDetectors.TextEntriesComplete | backend/ai_comment_analyzer.py:288-290 | a comment yields the concern entry of every row whose keyword it contains |
| SentenceExtractors.DistinctCapped | backend/ai_comment_analyzer.py:356 | `list(set(xs))[:cap]` is duplicate-free, within the cap, drawn from `xs`, and complete when under the cap |
| SentenceExtractors.FragmentOrigin | backend/ai_comment_analyzer.py:348-354 | every extracted fragment is a stripped sentence of some comment that mentions a keyword |
| SentenceExtractors.ExtractIssues | backend/ai_comment_analyzer.py:336-356 | at most five distinct fragments, all keyword sentences, and all of them when fewer than five exist |
| SentenceExtractors.IssueMentionsKeyword | backend/ai_comment_analyzer.py:353-354 | every reported issue still mentions one of the keywords after stripping |
| SentenceExtractors.IssueTablesTrimmed | backend/ai_comment_analyzer.py:341-411 | none of the four keyword tables has leading or trailing spaces |
| SentenceExtractors.IdentifyTechnicalIssues | backend/ai_comment_analyzer.py:336-356 | at most five distinct technical issues, each mentioning a technical keyword |
| SentenceExtractors.IdentifyEconomicConcerns | backend/ai_comment_analyzer.py:358-377 | at most five distinct economic concerns, each mentioning an economic keyword |
| SentenceExtractors.IdentifyTimelineConcerns | backend/ai_comment_analyzer.py:379-398 | at most five distinct timeline concerns, each mentioning a timeline keyword |
| SentenceExtractors.IdentifyImplementationChallenges | backend/ai_comment_analyzer.py:400-419 | at most five distinct implementation challenges, each mentioning a challenge keyword |
| SentenceExtractors.FirstHit | backend/ai_comment_analyzer.py:329-332 | the first matching sentence is found exactly when some sentence matches |
| SentenceExtractors.ExtractRecommendationsAsWritten | backend/ai_comment_analyzer.py:303-334 | at most ten distinct fragments, drawn from the sentences the written word test accepts |
| SentenceExtractors.RecommendationsNeedBackslash | backend/ai_comment_analyzer.py:330 | as written, no comment without a backslash ever yields a recommendation |
| SentenceExtractors.WrittenMissesRecommendation | backend/ai_comment_analyzer.py:323-331 | a comment that matches "recommend that" yields no recommendation as written |
| SentenceExtractors.ExtractRecommendations | backend/ai_comment_analyzer.py:303-334 | with the intended word test: at most ten distinct matching fragments, and at least one whenever a matching fragment exists |
| SentenceExtractors.MatchHasSentence | backend/ai_comment_analyzer.py:324-330 | a comment whose lower-cased text matches a pattern has a sentence containing one of the pattern's words |
| SentenceExtractors.IntendedFindsRecommendation | backend/ai_comment_analyzer.py:323-334 | with the intended word test, any comment matching a pattern yields a recommendation |
| AdvancedAnalyzer.TopTerms | backend/ai_comment_analyzer.py:483-505 | at most five scored terms, ordered by score |
| AdvancedAnalyzer.TermScoresExact | backend/ai_comment_analyzer.py:494-498 | the term scores are exactly those of the table terms that occur |
| AdvancedAnalyzer.KeyPointsOccur | backend/ai_comment_analyzer.py:494-505 | every key point is a table term that occurs, scored as its occurrence count times its weight |
| AdvancedAnalyzer.KeyPointsTopFive | backend/ai_comment_analyzer.py:501-505 | an occurring term is left out only when five terms with at least its score were kept |
| AdvancedAnalyzer.Stance | backend/ai_comment_analyzer.py:527-534 | supportive exactly when support exceeds 1.5 times opposition, concerned symmetrically, mixed otherwise |
| AdvancedAnalyzer.IdentifyPerspectives | backend/ai_comment_analyzer.py:509-537 | the first perspective is the stance of the support and opposition counts; a second, constructive note appears exactly when a constructive word occurs |
| AdvancedAnalyzer.ConstructiveNoteIff | backend/ai_comment_analyzer.py:525-536 | two perspectives exactly when the corpus contains a constructive word |
| AdvancedAnalyzer.SentimentLabel | backend/ai_comment_analyzer.py:549-554 | positive or negative exactly when one count dominates the other by 1.5 times, mixed otherwise |
| AdvancedAnalyzer.AnalyzeSentiment | backend/ai_comment_analyzer.py:539-554 | the sentiment is one of three labels, decided by the positive and negative word counts |
| AdvancedAnalyzer.SentimentMatchesStance | backend/ai_comment_analyzer.py:509-554 | when "valuable" and "difficult" are absent (the only words the two word lists differ in), sentiment and stance agree |
| AdvancedAnalyzer.CategorizeStakeholders | backend/ai_comment_analyzer.py:556-564 | one label per distinct stakeholder type, in `most_common` order |
| AdvancedAnalyzer.CategoriesCount | backend/ai_comment_analyzer.py:558-562 | the category counts are the positive multiplicities of each type and add up to the stakeholder count |
| AdvancedAnalyzer.PerformBasicAnalysis | backend/ai_comment_analyzer.py:147-169 | at most five key points, one or two perspectives, one of three sentiments, at most one category per stakeholder |
| AdvancedAnalyzer.CalculateConfidenceScores | backend/ai_comment_analyzer.py:421-453 | overall is 0.8 from 20 comments, 0.6 from 10, 0.4 from 5 and 0.2 below, each tier exactly; key points and impact add 0.1, stakeholder 0.05 and theme 0.15, sentiment equals overall, so every score lies in [0.2, 1) |
| AdvancedAnalyzer.ConfidenceMonotone | backend/ai_comment_analyzer.py:437-451 | more comments never lower any confidence score |
| AdvancedAnalyzer.FirstMax | backend/ai_comment_analyzer.py:474 | `max(..., key=impact_score)` picks the first impact of maximal score |
| AdvancedAnalyzer.GenerateComprehensiveSummary | backend/ai_comment_analyzer.py:455-480 | the summary opens with the comment count and the sentiment sentence |
| AdvancedAnalyzer.SummaryPartsShape | backend/ai_comment_analyzer.py:455-480 | one sentence per non-empty section: the top theme, the highest-scoring impact, and the concern count last |
| AdvancedAnalyzer.AnalysisInvariants | backend/ai_comment_analyzer.py:60-119 | the full analysis has relevance-ordered themes, duplicate-free common concerns and a summary opening with the count and sentiment |
| AdvancedAnalyzer.AnalyzeCommentsAdvanced | backend/ai_comment_analyzer.py:60-119 | the driver's concern loop yields the reference routing of the kept texts, the count is that of the comments received, and the result is the analysis whose fields the next five rows state |
| AdvancedAnalyzer.ThemesOfTexts | backend/ai_comment_analyzer.py:171-218 | each reported theme is a theme-table row whose keywords occur, and an occurring row is left out only when five themes at least as relevant were reported |
| AdvancedAnalyzer.AnalysisThemes | backend/ai_comment_analyzer.py:73 | the analysis reports at most five themes, each a theme row its kept texts support |
| AdvancedAnalyzer.AnalysisImpacts | backend/ai_comment_analyzer.py:220-263 | the analysis reports at most four impacts: an impact for a row exactly when some kept text mentions it |
| AdvancedAnalyzer.AnalysisRecommendations | backend/ai_comment_analyzer.py:303-334 | the analysis keeps at most ten recommendations, and, as written, none when no comment text holds a backslash |
| AdvancedAnalyzer.AnalysisBounds | backend/ai_comment_analyzer.py:336-419 | the key points and the technical, economic, timeline and implementation lists hold at most five entries each |
| AdvancedAnalyzer.AnalysisConfidence | backend/ai_comment_analyzer.py:425-445 | the confidence tier of the analysis follows the number of comments received, including those without text |
| AdvancedAnalyzer.SampleStakeholderTypes | backend/ai_comment_analyzer.py:700-721 | the two sample comments from organizations are categorized as "Organizations (2)" |
| AnalysisPayload.ThemeNamesFromJson | backend/ai_comment_analyzer.py:670 | reading the theme names back from the dictionary form gives the first themes' names |
| AnalysisPayload.ImpactTypesFromJson | backend/ai_comment_analyzer.py:671 | reading the impact types back from the dictionary form gives the first impacts' types |
| AnalysisPayload.InsightsOfAnalysis | backend/ai_comment_analyzer.py:664-674 | the insights of a serialized analysis are computed from its own summary, themes, impacts, concerns, recommendations and confidence |
| AnalysisPayload.SynthesizeKeyInsights | backend/ai_comment_analyzer.py:650-687 | an unsuccessful result passes through unchanged, and a non-dictionary reports the `AttributeError` |
| AnalysisPayload.SynthesizeAnalysis | backend/ai_comment_analyzer.py:636-680 | a successful analysis envelope yields success, its insights and its document id |
| AnalysisPayload.SynthesizeEnvelope | backend/ai_comment_analyzer.py:650-687 | any successful envelope whose analysis has insights yields those insights with the document id |
| RegulationsApi.MakeRequest | backend/regulations_gov_api.py:88-106 | a request succeeds exactly on a non-error status with a decodable body; 401, 403 and 429 each have their own message, other error statuses report status and reason, transport failures the connection message |
| RegulationsApi.ObjectIdOfDocument | backend/regulations_gov_api.py:108-123 | the object id is the document's `objectId` attribute when truthy, and none otherwise |
| RegulationsApi.GetDocumentCommentCount | backend/regulations_gov_api.py:129-153 | the count is 0 when the document is unknown or the listing request fails |
| RegulationsApi.CountOfMeta | backend/regulations_gov_api.py:143-147 | when the listing succeeds the count is its `meta.totalElements` |
| RegulationsApi.KeptDetail | backend/regulations_gov_api.py:222-236 | a summary contributes at most its fetched detail, re-attributed to the document; a summary with an id whose detail names the document contributes exactly that detail |
| RegulationsApi.MatchesMembers | backend/regulations_gov_api.py:222-236 | the reference filter holds a comment exactly when some summary has an id whose detail is that comment and names the document |
| RegulationsApi.KeptDetailsOkIff | backend/regulations_gov_api.py:222-236 | detail collection fails exactly when a summary is not a dictionary |
| RegulationsApi.KeptDetailsExact | backend/regulations_gov_api.py:222-236 | successful detail collection keeps exactly the reference filter's comments, in summary order |
| RegulationsApi.KeptDetailsMeans | backend/regulations_gov_api.py:222-236 | detail collection fails exactly when a summary is not a dictionary, and otherwise keeps exactly the matching details in summary order: at most one per summary, all attributed to the document |
| RegulationsApi.CommentsOfListing | backend/regulations_gov_api.py:203-241 | a listing without a non-empty `data` list gives no comments; otherwise at most `max` comments, all attributed to the document, collected from the first `max` summaries |
| RegulationsApi.ListingMatches | backend/regulations_gov_api.py:203-241 | a successful collection from a listing holds exactly the matching details of its first `max` summaries, in order |
| RegulationsApi.FetchCommentsByDocumentId | backend/regulations_gov_api.py:185-245 | no comments for an unknown document, the request error when listing fails, at most the maximum, all attributed to the document; on a successful listing, exactly the matching details of the first `max` summaries, in order |
| RegulationsApi.FetchOfList | backend/regulations_gov_api.py:203-241 | a successful listing yields the details of its first `max` summaries |
| RegulationsApi.FetchKeepsMatches | backend/regulations_gov_api.py:185-245 | for a listed document, fetching succeeds exactly when the first `max` summaries are dictionaries, and then returns exactly their matching details in order |
| RegulationsApi.DocketIdWhenTwoHyphens | backend/regulations_gov_api.py:247-257 | a docket id is derived exactly when the document id has at least two hyphens |
| RegulationsApi.DocketIdPrefix | backend/regulations_gov_api.py:253-255 | the docket id is a prefix of the document id |
| RegulationsApi.DocketIdIdempotent | backend/regulations_gov_api.py:253-255 | deriving from a docket id gives it back |
| RegulationsApi.RemapConnectionError | backend/regulations_gov_api.py:278-284 | failures mentioning "Invalid" or "401" become the invalid-key message, then "403" or "access denied" the denied message, anything else the generic one |
| RegulationsApi.TestApiConnection | backend/regulations_gov_api.py:259-284 | the key is reported valid exactly when the dockets probe returns data |
| RegulationsApi.UnauthorizedIsInvalidKey | backend/regulations_gov_api.py:259-284 | a 401 on the dockets probe is reported as an invalid key |
| RegulationsApi.BothEmptyIsDenied | backend/regulations_gov_api.py:266-282 | empty replies to both probes are reported as denied access |
| RegulationsApi.CommentsOnlyIsLimited | backend/regulations_gov_api.py:270-274 | data from the comments probe alone is reported as limited access |
| BasicAnalyzer.ExtractStakeholderInfo | backend/regulations_gov_api.py:326-351 | organization, individual and other counts add up to the comment count; at most ten names are kept, in order |
| BasicAnalyzer.TallyCounts | backend/regulations_gov_api.py:338-346 | organizations count the comments with an organization name, individuals those with only a submitter name, and the names follow the same fall-back |
| BasicAnalyzer.CategorizeStakeholders | backend/regulations_gov_api.py:440-454 | one label per positive count, in the order organizations, individuals, agencies, companies: each positive category's label sits right after the labels of the positive categories before it |
| BasicAnalyzer.CategoryMembership | backend/regulations_gov_api.py:440-454 | a category's label is reported exactly when its count is positive |
| BasicAnalyzer.CategoriesOfTally | backend/regulations_gov_api.py:440-454 | at most two categories, and none exactly when no commenter gave a name |
| BasicAnalyzer.FrequentIsCount | backend/regulations_gov_api.py:394 | a term is frequent exactly when it occurs at least three times |
| BasicAnalyzer.KeyPointsAreFrequent | backend/regulations_gov_api.py:378-397 | every key point names a regulatory term occurring at least three times |
| BasicAnalyzer.FrequentTermsMembers | backend/regulations_gov_api.py:393-395 | a term is kept exactly when it is a regulatory term occurring at least three times |
| BasicAnalyzer.IdentifyPerspectives | backend/regulations_gov_api.py:399-420 | exactly one perspective: supportive, concerned or mixed by strict comparison of the two counts |
| BasicAnalyzer.AnalyzeSentiment | backend/regulations_gov_api.py:422-438 | positive exactly when the positive count exceeds 1.5 times the negative count, negative exactly when the negative count exceeds 1.5 times the positive count, mixed exactly when neither does |
| BasicAnalyzer.SentimentAgreesWithPerspective | backend/regulations_gov_api.py:399-438 | when "necessary" is absent, a positive or negative sentiment implies the matching perspective |
| BasicAnalyzer.PerformAnalysis | backend/regulations_gov_api.py:353-376 | the analysis counts every comment, keeps at most five key points and one perspective |
| BasicAnalyzer.SummaryShape | backend/regulations_gov_api.py:456-469 | the summary opens with the count and sentiment and closes with the key themes, or else the perspectives, when present |
| BasicAnalyzer.AnalyzeComments | backend/regulations_gov_api.py:293-324 | fails exactly when fetching fails, with the fetch error; no comments give the empty analysis |
| BasicAnalyzer.AnalysisOfComments | backend/regulations_gov_api.py:300-320 | fetched comments are all counted, with the sentiment of their texts and at most two categories |
| BasicAnalyzer.AnalyzeDocumentComments | backend/regulations_gov_api.py:479-513 | the tool reports success exactly when the analysis succeeds, with the analysis or the error |
| BasicAnalyzer.GetCommentCount | backend/regulations_gov_api.py:515-540 | the count tool always succeeds with the document's comment count |
| BasicAnalyzer.TestApiConnectionTool | backend/regulations_gov_api.py:542-562 | the connection tool succeeds exactly when the key check does, carrying its message or error |
| BasicAnalyzer.ToolReportsInvalidKey | backend/regulations_gov_api.py:542-562 | a 401 from the API reaches the tool as an invalid-key failure |
| Tools.Dispatch | backend/gpt_oss_tools.py:162-179 | a name is dispatched exactly when it is one of the six tool names |
| Tools.AvailableToolsAreDispatched | backend/gpt_oss_tools.py:33-154 | the advertised tool names are exactly the dispatched names, in order |
| Tools.FunctionNamesOf | backend/gpt_oss_tools.py:178 | reading `tool["function"]["name"]` back from the definitions gives each tool's name in order |
| Tools.SchemasMatchSignatures | backend/gpt_oss_tools.py:33-154 | each advertised schema names its method and agrees with its parameters, required set and defaults |
| Tools.AnalyzeToolAgrees | backend/gpt_oss_tools.py:39-67 | the analyze schema agrees with the method's signature |
| Tools.CountToolAgrees | backend/gpt_oss_tools.py:68-84 | the count schema agrees with the method's signature |
| Tools.SynthesizeToolAgrees | backend/gpt_oss_tools.py:85-107 | the synthesize schema agrees with the method's signature |
| Tools.ThemesToolAgrees | backend/gpt_oss_tools.py:108-124 | the themes schema agrees with the method's signature |
| Tools.ConcernsToolAgrees | backend/gpt_oss_tools.py:125-141 | the concerns schema agrees with the method's signature |
| Tools.ConnectionToolAgrees | backend/gpt_oss_tools.py:142-153 | the connection schema agrees with the method's signature |
| Tools.UnexpectedKey | backend/gpt_oss_tools.py:163-173 | a keyword argument is rejected exactly when the method has no parameter of that name |
| Tools.MissingNames | backend/gpt_oss_tools.py:163-173 | a call is missing arguments exactly when some parameter has neither a value nor a default |
| Tools.Bind | backend/gpt_oss_tools.py:163-173 | `**parameters` binds exactly when there are no unknown and no missing names, taking the given value or the default for each parameter |
| Tools.AnalyzeRegulatoryComments | backend/gpt_oss_tools.py:188-243 | fetch errors, no comments and analysed comments each give their own envelope, with the analysis chosen by depth |
| Tools.DepthDispatch | backend/gpt_oss_tools.py:215-221 | depth "basic" gives the basic dictionary and "advanced" the full analysis |
| Tools.OtherDepthIsComprehensive | backend/gpt_oss_tools.py:219-220 | any other depth gives the full analysis with the comprehensive metadata appended |
| Tools.GetCommentCount | backend/gpt_oss_tools.py:245-260 | the count tool succeeds, echoing the document id and the client's count unchanged |
| Tools.TestApiConnection | backend/gpt_oss_tools.py:377-391 | the connection tool succeeds exactly when the client's test does, with its message or its error |
| Tools.CommentQuality | backend/gpt_oss_tools.py:493-503 | a comment scores 0.4, 0.3, 0.2 and 0.1 for its four criteria, so its quality lies in [0, 1] and is 1 exactly when all four hold |
| Tools.DataQualityScore | backend/gpt_oss_tools.py:487-505 | the data quality lies in [0, 1], is 0 with no comments, and is 1 exactly when every comment is of full quality |
| Tools.ExecutiveSummary | backend/gpt_oss_tools.py:451-463 | a non-dictionary raises; otherwise six fields with at most three key findings and three primary themes |
| Tools.TechnicalSummary | backend/gpt_oss_tools.py:465-474 | a non-dictionary raises; otherwise six fields with at most five issues, challenges and recommendations |
| Tools.StakeholderSummary | backend/gpt_oss_tools.py:476-485 | a non-dictionary raises; otherwise six fields with at most five economic and five timeline concerns |
| Tools.SummariesOfEmptyAnalysis | backend/gpt_oss_tools.py:451-485 | on an empty analysis the three summaries hold their defaults field by field |
| Tools.SynthesizeCommentInsights | backend/gpt_oss_tools.py:262-290 | an unsuccessful result passes through unchanged, and a non-dictionary reports the `AttributeError`; the success case is the next row |
| Tools.InsightsResult | backend/gpt_oss_tools.py:262-290 | on a successful envelope: success, the insights of the selected view, the summary type and the envelope's document id; a view that raises gives the failure dictionary |
| Tools.InsightsChoice | backend/gpt_oss_tools.py:271-277 | "executive" and "technical" select their views, and any other type selects the stakeholder view |
| Tools.FirstCategory | backend/gpt_oss_tools.py:311-324 | a theme goes to the first category whose name occurs in the theme name, and to none when no category name does |
| Tools.ThemeTags | backend/gpt_oss_tools.py:311-324 | each theme is tagged with its category independently |
| Tools.IdentifyRegulatoryThemes | backend/gpt_oss_tools.py:292-338 | an unsuccessful result passes through unchanged, and a non-dictionary reports the `AttributeError`; the success case is the next row |
| Tools.ThemesResult | backend/gpt_oss_tools.py:292-338 | on a successful envelope: `total_themes` is the number of themes, each of the six categories lists exactly the themes tagged with it, the lists together hold at most `total_themes` themes, and the document id is passed on; a theme name that cannot be tested fails the tool |
| Tools.CategoryLookup | backend/gpt_oss_tools.py:302-324 | each category of `theme_categories` lists exactly its own bucket |
| Tools.BucketsPartition | backend/gpt_oss_tools.py:311-324 | the category buckets together hold exactly the matched themes, never more than the themes |
| Tools.BucketMembers | backend/gpt_oss_tools.py:311-324 | a theme is in a category bucket exactly when it was tagged with that category |
| Tools.ThemeTotalsBound | backend/gpt_oss_tools.py:311-329 | the categorized themes number exactly the matched themes, never more than `total_themes` |
| Tools.AssessStakeholderConcerns | backend/gpt_oss_tools.py:340-375 | an unsuccessful result passes through unchanged, and a non-dictionary reports the `AttributeError`; the success case is the next row |
| Tools.ConcernsResult | backend/gpt_oss_tools.py:340-375 | on a successful envelope: success, the concern analysis of the envelope's concerns and its document id, or the failure dictionary when that analysis raises |
| Tools.ConcernAnalysisOfConcerns | backend/gpt_oss_tools.py:349-361 | the concern analysis of the analyzer's concerns totals the three lists, counts each bucket and samples 5 common, 3 organization and 3 individual concerns |
| Tools.ExecuteTool | backend/gpt_oss_tools.py:156-186 | an unknown tool name gives an unsuccessful three-field envelope |
| Tools.ExecuteUnknownTool | backend/gpt_oss_tools.py:174-179 | an unknown name reports the list of the six available tools |
| Tools.UnknownToolListsAll | backend/gpt_oss_tools.py:174-179 | the list reported for an unknown name is the list of advertised tool names |
| Tools.ExecuteKnownTool | backend/gpt_oss_tools.py:162-186 | a known name runs its tool, and an argument that fails to bind is reported as that tool's failure |
| Tools.UnexpectedKeyFails | backend/gpt_oss_tools.py:162-186 | a parameter the method does not accept makes the call fail |
| LlmBridge.CreatePrompt | backend/ollama_comment_analyzer.py:112-210 | the prompt opens with the fixed introduction and mentions the document id, title, comment maximum and tool definitions |
| LlmBridge.Abbreviate | backend/ollama_comment_analyzer.py:232 | replies up to 500 characters are kept whole, longer ones cut to 500 plus "..." |
| LlmBridge.Degraded | backend/ollama_comment_analyzer.py:231-251 | a non-JSON reply gives the fallback analysis with the abbreviated summary, confidence 0.5 and the raw reply |
| LlmBridge.ParseFailure | backend/ollama_comment_analyzer.py:253-276 | a JSON decoding error gives the fallback analysis with confidence 0.3, the raw reply and the parse error |
| LlmBridge.FencedBlockParsed | backend/ollama_comment_analyzer.py:218-224 | a reply whose first "```json" is followed by a non-empty body free of "```" is decoded from that stripped body, whatever text and backticks surround the block |
| LlmBridge.FencedBodyOf | backend/ollama_comment_analyzer.py:218-223 | the block read is the text between the first "```json" and the next "```", stripped |
| LlmBridge.InlineCodeBeforeBlock | backend/ollama_comment_analyzer.py:218-224 | inline code before the block and backticks after it do not change which text is decoded |
| LlmBridge.BareObjectParsed | backend/ollama_comment_analyzer.py:227-228 | an unfenced reply starting with `{` is decoded whole |
| LlmBridge.DegradedWhenNotJson | backend/ollama_comment_analyzer.py:218-251 | a reply that is neither fenced nor an object gives the degraded analysis |
| LlmBridge.DegradedHasNoParseError | backend/ollama_comment_analyzer.py:231-251 | the degraded analysis has no parse error field |
| LlmBridge.ParseFailureFields | backend/ollama_comment_analyzer.py:253-276 | the decoding-failure analysis carries the error text and confidence 0.3 |
| LlmBridge.ReadReply | backend/ollama_comment_analyzer.py:84-102 | server errors report the unreachable URL, client errors the HTTP status and text, success parses the `response` text |
| LlmBridge.Analyze | backend/ollama_comment_analyzer.py:35-110 | success, an analysis, a raw reply and the absence of an error all go together, and the analysis is the parse of the raw reply |
| LlmBridge.AnalyzeDocumentComments | backend/ollama_comment_analyzer.py:35-110 | the result keeps the document id and succeeds exactly when it has no error |
| LlmBridge.ServerErrorNamesUrl | backend/ollama_comment_analyzer.py:84-87 | a 5xx reply fails with the cannot-connect message naming the URL |
| LlmBridge.ClientErrorIsHttp | backend/ollama_comment_analyzer.py:84-88 | a 4xx reply fails with "HTTP status: text" |
| LlmBridge.TextReplySucceeds | backend/ollama_comment_analyzer.py:91-102 | a successful reply with a `response` text succeeds with its parse |
| LlmBridge.PyAnd | backend/ollama_comment_analyzer.py:332 | Python's `and` is truthy exactly when both operands are |
| LlmBridge.TestConnection | backend/ollama_comment_analyzer.py:294-348 | the combined test succeeds exactly when the API test reports success and the model replies with a non-error status |
| SeeMore.ConfidenceSentence | backend/example_integration.py:200-206 | the closing sentence is one of the three confidence sentences |
| SeeMore.ConfidenceMonotone | backend/example_integration.py:200-206 | higher confidence never gives a weaker sentence; high exactly above 0.7, limited exactly at or below 0.4 |
| SeeMore.RenderShape | backend/example_integration.py:169-208 | the summary opens with the overview and closes with the confidence sentence, with one part per non-empty section, and concern heads cut at the colon |
| SeeMore.HeadBeforeColon | backend/example_integration.py:196 | `concern.split(":")[0]` is the prefix of the concern before its first colon |
| SeeMore.OverviewIsNotIncomplete | backend/example_integration.py:166-208 | a rendered summary is never the incomplete-analysis message |
| SeeMore.FirstTextsOfList | backend/example_integration.py:184 | the first n texts of a list of strings are its first n entries |
| SeeMore.ReadDigest | backend/example_integration.py:169-206 | at most three themes, three stakeholder types and two concerns are read |
| SeeMore.ReadRepliesDigest | backend/example_integration.py:169-206 | replies holding a sentiment string and lists of strings are read into the count's text, the sentiment, the first three themes and stakeholder types, the first two concerns and the confidence |
| SeeMore.SummaryOfReplies | backend/example_integration.py:166-208 | when all four replies succeed and hold such fields, the summary is the rendering of exactly that digest |
| SeeMore.FirstConcernsOfList | backend/example_integration.py:194-196 | a list of string concerns yields its first two |
| SeeMore.ConcernTextsOfStrings | backend/example_integration.py:196 | string concerns are read as their texts |
| SeeMore.AnyFailureIsIncomplete | backend/example_integration.py:166-167 | if any of the four results is unsuccessful the summary is the incomplete-analysis message |
| SeeMore.AllSucceededMeans | backend/example_integration.py:166 | `all(result.get("success") ...)` holds exactly when every result succeeded, and raises only on a non-dictionary |
| SeeMore.AllSucceededRenders | backend/example_integration.py:166-208 | when all four results succeed the summary is rendered |
| DocumentsLambda.ValidatePagination | lambda_function.py:182-194 | limits below 1 become 10, above 1000 become 1000, others are kept; negative offsets become 0 |
| DocumentsLambda.ValidatePaginationIdempotent | lambda_function.py:182-194 | validating twice changes nothing and always gives a valid page |
| DocumentsLambda.ValidPageIsFixedPoint | lambda_function.py:182-194 | validation leaves a page unchanged exactly when it is already valid |
| DocumentsLambda.PySliceElements | lambda_function.py:57-60 | Python slicing with non-negative bounds is the clamped sub-sequence |
| DocumentsLambda.ListedKeys | lambda_function.py:43-63 | a listing pass fails exactly when it raised before holding `limit + offset` `.json` keys, with its exception; otherwise the keys are the offset/limit window of the delivered `.json` keys |
| DocumentsLambda.ListJsonKeys | lambda_function.py:43-63 | the loop with its early stop agrees with that reference on every valid page: a failure on a page after the stop is never reached; on any page it fails exactly when the pass raised before the stop |
| DocumentsLambda.JsonKeysMembers | lambda_function.py:53-54 | the listed keys are exactly the objects whose lower-cased key ends in ".json" |
| DocumentsLambda.JsonKeysConcat | lambda_function.py:50-54 | listing page by page gives the same keys as listing all objects at once |
| DocumentsLambda.FormatDocument | lambda_function.py:144-163 | each of the nine text fields is copied when present and is "" otherwise, the embedding likewise with [] as default; the key is the S3 key, and the embedding flag and length follow the embedding |
| DocumentsLambda.HasEmbeddingIffNonEmpty | lambda_function.py:159-160 | a document has an embedding exactly when its embedding is non-empty |
| DocumentsLambda.ErrorItemSkipped | lambda_function.py:114-116 | an item holding an error contributes no document |
| DocumentsLambda.JsonlItemDocuments | lambda_function.py:121-127 | a JSON-lines item contributes one document per dictionary record, each with the item's key |
| DocumentsLambda.RecordsKeyed | lambda_function.py:124-127 | every document from a JSON-lines item carries the item key |
| DocumentsLambda.EmbeddingItemDocument | lambda_function.py:129-133 | a single object with an embedding contributes exactly its formatted document |
| DocumentsLambda.NonDictItemEmpty | lambda_function.py:121-137 | a non-dictionary payload contributes no document |
| DocumentsLambda.DictWithoutEmbeddingEmpty | lambda_function.py:121-136 | a dictionary payload that is neither JSON lines nor holds an embedding contributes no document |
| DocumentsLambda.ExtractConcat | lambda_function.py:107-142 | extracting a concatenation is the concatenation of the extractions |
| DocumentsLambda.TotalCount | lambda_function.py:165-180 | the total is the number of `.json` keys of the count pass, or 0 when that pass fails at any page |
| DocumentsLambda.FetchAll | lambda_function.py:86-105 | one item per key, in order, holding that key and its fetch outcome |
| DocumentsLambda.FailedFetchSkipped | lambda_function.py:91-116 | a failed read is recorded as an error item and contributes no document |
| DocumentsLambda.MakeResponse | lambda_function.py:25-41 | the response keeps status and body, and each header is the caller's value or the CORS default |
| DocumentsLambda.ParseParams | lambda_function.py:205-222 | limit and offset are parsed with `int()`, digit groups such as "1_000" included; an absent or unparsable limit is none, an absent or unparsable offset 0 |
| DocumentsLambda.BadParamsFallBack | lambda_function.py:211-225 | unparsable limit and offset give the default page |
| DocumentsLambda.HasMoreIffNextPage | lambda_function.py:261 | corrected: `has_more` holds exactly when the next window is non-empty |
| DocumentsLambda.ServePage | lambda_function.py:227-286 | a page is served with status 200 or 500, with `has_more` as the handler writes it |
| DocumentsLambda.ServedPage | lambda_function.py:227-279 | when the key pass completes or stops early the answer is 200: an empty window gives no documents and `has_more` false; otherwise the documents extracted, the count pass's total (0 if it failed), the document count as page size and `has_more` as offset plus documents below the total |
| DocumentsLambda.ServedHasMoreOnePerKey | lambda_function.py:261 | when every key yields exactly one document, the written `has_more` holds exactly when the next window is non-empty |
| DocumentsLambda.ServePageFails | lambda_function.py:227-286 | the page fails exactly when the key pass raises before its early stop or a non-empty window cannot be extracted; a failing count pass never fails the page |
| DocumentsLambda.Handler | lambda_function.py:196-295 | preflight requests get 200 with the preflight message, and every response is 200 or 500 |
| DocumentsLambda.HandlerServes | lambda_function.py:205-232 | any other request is served with the validated page, whose limit is unset exactly when the query gives no parsable limit |
| DocumentsLambda.PageBounded | lambda_function.py:185-189 | a page never holds more than its limit, which is at most 1000 |
| DocumentsLambda.AsWrittenMissesNextPage | lambda_function.py:261 | as written, a key holding two records under limit 1 reports no further page although the next key exists |
| DocumentsLambda.ServedMissesNextPage | lambda_function.py:227-279 | served through the handler's page logic, that example answers 200 with `has_more` false while the page at offset 1 holds "b.json" |
| DocumentsLambda.ThrottledFirstPage | lambda_function.py:165-279 | when both passes fail after the first listing page, the page of limit 1 is still served with 200: the key pass stops at "a.json", and the total is 0 with `has_more` false |

## Left out

- Network, S3, Ollama and `fetch_comment_details` calls are parameters. The model states what each caller does with every possible reply, not how the reply is obtained.
- `json.loads` is a parameter of the response parser. `json.dumps` of the tool definitions enters the prompt as an opaque string.
- Casing, whitespace and `title()` are modelled over ASCII only. Unicode case mapping is outside the model.
- Sets: `list(set(xs))` is modelled as first-seen de-duplication, because Python's set order is unspecified. Only the order is a modelling choice; the contracts state membership, distinctness and the cap.
- Floating point is modelled as exact `real` arithmetic. The 1.5-times comparisons are stated as `2 * a > 3 * b`.
- Timestamps (`datetime.now()`) are omitted from every payload.
- Logging, `print`, the demonstration `__main__` blocks and the module-level convenience wrappers in backend/ollama_comment_analyzer.py:352-370 are omitted. They only forward to the modelled methods.
- API-key configuration and constructors (`__init__`, `_get_api_key_from_config`, backend/setup_api_key.py) are omitted. The key only appears in request headers.
- `get_comment_count_only` in backend/ollama_comment_analyzer.py:278-292 is omitted. It is a thin wrapper over the modelled `get_document_comment_count`.
- The `status_code == 0` test in backend/ollama_comment_analyzer.py:86 is modelled, but it is unreachable: `Response.ok` is false only for statuses 400 to 599.
- Json.PyStr: `str()` is exact for `None`, booleans, integers and strings only. Floats, lists and dicts are rendered by a fixed placeholder ("<float>", "<list>", "<dict>"), because Python's float and container repr are not modelled; a comment count, the Ollama host and port, or a document item key receives such a placeholder only when that value is neither an integer nor a string.
- Error messages of built-in exceptions (`AttributeError`, `TypeError`) are symbolic strings, not CPython's exact wording.
- The Lambda `context` argument is unused by the source and is not modelled.
- The web server, desktop client and other back-end scripts (main.py, simple_main.py, comment_analysis_api.py, local_storage_reader.py, start_comment_analysis_server.py, fix_lambda_500.py, test_lambda.py) are not part of this model.
- Tools.ExecuteTool: its own contract states only the unknown-tool case. The known-tool and binding-failure cases are stated by Tools.ExecuteKnownTool and Tools.UnexpectedKeyFails.
- LlmBridge.AnalyzeDocumentComments: its own contract states only the id and the success/error pairing. The full reply handling is stated on LlmBridge.Analyze, which it calls.
- DocumentsLambda.ParseParams: `int()` is read over ASCII digits only. Other Unicode decimal digits, which Python also accepts, are treated as unparsable.
- DocumentsLambda.ListJsonKeys: with an invalid page its contract only says when it fails and that a result is a window over some delivered prefix. The handler always validates the page first.
- DocumentsLambda.Listing: a listing pass is the keys of the pages delivered before it stopped, plus the exception raised fetching the next page. Paginator calls and page boundaries are not modelled further, because a failure can only come between pages.
- DocumentsLambda.ServePage and DocumentsLambda.Handler: the response headers and the text of the 500 bodies are not stated. The 200 bodies are stated by DocumentsLambda.ServedPage, and the failure conditions by DocumentsLambda.ServePageFails.
- The analysis (AdvancedAnalyzer.AnalysisOf) and the handler (DocumentsLambda.ServePage) follow the source as written for recommendations and `has_more`. The corrected definitions in the Findings are proved on their own, and no other member uses them.

## Findings

| source | as written | input that shows it | evidently intended | confidence | as-written member | corrected member |
|---|---|---|---|---|---|---|
| backend/ai_comment_analyzer.py:330 | the sentence test uses `pattern.split()` of the regular expression; every pattern is written with `\s+`, so its words keep a backslash, and a sentence only passes if it contains a backslash | the comment "we recommend that the rule be delayed." matches `recommend\s+that` yet yields no recommendation | the sentence test should use the pattern's plain words, so any matching comment yields its sentence | not executed | SentenceExtractors.ExtractRecommendationsAsWritten (with SentenceExtractors.RecommendationsNeedBackslash, SentenceExtractors.WrittenMissesRecommendation, and AdvancedAnalyzer.AnalysisRecommendations in the analysis) | SentenceExtractors.ExtractRecommendations (with SentenceExtractors.IntendedFindsRecommendation) |
| lambda_function.py:261 | `has_more` adds the number of documents extracted to the key offset, but one JSON-lines key can hold several documents | limit 1, offset 0 and two keys, where the first key holds two records: 0 + 2 < 2 is false, although the key "b.json" remains | compare the key offset plus the number of keys served with the key total | not executed | DocumentsLambda.AsWrittenMissesNextPage (with DocumentsLambda.ServedMissesNextPage in the handler) | DocumentsLambda.HasMoreIffNextPage |

=== FILE: advanced_analyzer.dfy ===
/**
  The advanced analyzer's basic analysis (weighted key terms, perspectives,
  sentiment, stakeholder types), its tiered confidence scores, the templated
  summary, and the pipeline that runs every stage over one corpus.
 */
module AdvancedAnalyzer {
  import opened Wrappers
  import opened Strings
  import opened StableSort
  import opened Counter
  import opened Comments
  import opened ThemeDetectors
  import opened SentenceExtractors

  // ---------------------------------------------------------------- key points

  /** A dict from term to weight, in insertion order. */
  type WeightTable = seq<(string, nat)>

  const KeyTerms: WeightTable := [
    ("compliance", 3), ("cost", 3), ("burden", 2), ("impact", 2), ("implementation", 2),
    ("safety", 2), ("environment", 2), ("economic", 2), ("technical", 2), ("timeline", 2),
    ("standard", 1), ("requirement", 1), ("regulation", 1), ("enforcement", 1)
  ]

  datatype TermScore = TermScore(term: string, score: nat)

  function Score(t: TermScore): real {
    t.score as real
  }

  function ScoreOf(all: string, row: (string, nat)): TermScore {
    TermScore(row.0, PyCount(all, row.0) * row.1)
  }

  /** The occurring terms, each scored by its count times its weight, in table order. */
  function TermScores(all: string, table: WeightTable): (r: seq<TermScore>)
    ensures |r| <= |table|
    decreases |table|
  {
    if |table| == 0 then []
    else
      (if PyCount(all, table[0].0) > 0 then [ScoreOf(all, table[0])] else [])
      + TermScores(all, table[1..])
  }

  /** `t` is the score of a row whose term occurs. */
  predicate RowScore(all: string, table: WeightTable, t: TermScore) {
    exists k | 0 <= k < |table| :: PyCount(all, table[k].0) > 0 && t == ScoreOf(all, table[k])
  }

  /** The scores are exactly those of the rows whose term occurs. */
  lemma {:induction false} TermScoresExact(all: string, table: WeightTable)
    ensures forall i | 0 <= i < |TermScores(all, table)| :: RowScore(all, table, TermScores(all, table)[i])
    ensures forall k | 0 <= k < |table| && PyCount(all, table[k].0) > 0 ::
      ScoreOf(all, table[k]) in TermScores(all, table)
    decreases |table|
  {
    if |table| > 0 {
      TermScoresExact(all, table[1..]);
      var r := TermScores(all, table);
      var rest := TermScores(all, table[1..]);
      var o := if PyCount(all, table[0].0) > 0 then 1 else 0;
      assert r == (if o == 1 then [ScoreOf(all, table[0])] else []) + rest;
      forall i | 0 <= i < |r|
        ensures RowScore(all, table, r[i])
      {
        if i >= o {
          assert r[i] == rest[i - o];
          assert RowScore(all, table[1..], rest[i - o]);
          var k :| 0 <= k < |table[1..]| && PyCount(all, table[1..][k].0) > 0
            && rest[i - o] == ScoreOf(all, table[1..][k]);
          assert table[1..][k] == table[k + 1];
        }
      }
      forall k | 0 <= k < |table| && PyCount(all, table[k].0) > 0
        ensures ScoreOf(all, table[k]) in r
      {
        if k > 0 {
          assert table[k] == table[1..][k - 1];
        }
      }
    }
  }

  function KeyTermScores(all: string): seq<TermScore> {
    TermScores(all, KeyTerms)
  }

  /** The five best-scoring terms, stable on ties. */
  function TopTerms(texts: seq<string>): (r: seq<TermScore>)
    ensures |r| <= 5
    ensures SortedDesc(r, Score)
  {
    Top(KeyTermScores(AllText(texts)), Score, 5)
  }

  function KeyPointText(t: TermScore): string {
    "'" + t.term + "' mentioned " + NatToString(t.score) + " times across comments"
  }

  /** One line per scored term, in order. */
  function KeyPointTexts(top: seq<TermScore>): (r: seq<string>)
    ensures |r| == |top|
    ensures forall i | 0 <= i < |r| :: r[i] == KeyPointText(top[i])
  {
    seq(|top|, i requires 0 <= i < |top| => KeyPointText(top[i]))
  }

  /** `_extract_key_points` */
  function ExtractKeyPoints(texts: seq<string>): (r: seq<string>)
    ensures |r| <= 5
    ensures r == KeyPointTexts(TopTerms(texts))
  {
    KeyPointTexts(TopTerms(texts))
  }

  /**
    A key term that occurs in the corpus but is not reported leaves five
    reported terms, each scoring at least as much; every reported term occurs.
   */
  lemma KeyPointsTopFive(texts: seq<string>, k: nat)
    requires k < |KeyTerms| && PyCount(AllText(texts), KeyTerms[k].0) > 0
    requires ScoreOf(AllText(texts), KeyTerms[k]) !in TopTerms(texts)
    ensures |TopTerms(texts)| == 5
    ensures forall i | 0 <= i < 5 :: TopTerms(texts)[i].score >= ScoreOf(AllText(texts), KeyTerms[k]).score
  {
    var all := AllText(texts);
    TermScoresExact(all, KeyTerms);
    TopKeepsBest(KeyTermScores(all), Score, 5, ScoreOf(all, KeyTerms[k]));
  }

  /** Every term the top five report is a scored row of the table. */
  lemma TopScoresOccur(all: string, table: WeightTable)
    ensures forall i | 0 <= i < |Top(TermScores(all, table), Score, 5)| ::
      RowScore(all, table, Top(TermScores(all, table), Score, 5)[i])
  {
    var top := Top(TermScores(all, table), Score, 5);
    TermScoresExact(all, table);
    TopMembers(TermScores(all, table), Score, 5);
    forall i | 0 <= i < |top|
      ensures RowScore(all, table, top[i])
    {
      var j :| 0 <= j < |TermScores(all, table)| && TermScores(all, table)[j] == top[i];
    }
  }

  /** Every reported term occurs in the corpus and carries its weighted count. */
  lemma KeyPointsOccur(texts: seq<string>)
    ensures forall i | 0 <= i < |TopTerms(texts)| :: RowScore(AllText(texts), KeyTerms, TopTerms(texts)[i])
  {
    TopScoresOccur(AllText(texts), KeyTerms);
  }


  // ---------------------------------------------------------------- perspectives and sentiment

  const SupportWords: seq<string> := ["support", "agree", "beneficial", "good", "effective", "necessary", "important"]
  const OppositionWords: seq<string> := ["oppose", "concern", "problem", "burden", "costly", "unnecessary", "harmful"]
  const ConstructiveWords: seq<string> := ["suggest", "recommend", "propose", "modify", "improve", "clarify"]
  const PositiveWords: seq<string> := SupportWords + ["valuable"]
  const NegativeWords: seq<string> := OppositionWords + ["difficult"]

  /** `a > b * 1.5` on counts */
  predicate Dominates(a: nat, b: nat) {
    2 * a > 3 * b
  }

  const Supportive := "Generally supportive of the proposed regulation"
  const Concerned := "Generally concerned about the proposed regulation"
  const MixedPerspectives := "Mixed perspectives with both support and concerns"
  const ConstructiveNote := "Many comments provide constructive suggestions for improvement"

  /** The stance: at most one side can dominate the other, so the order of the tests does not matter. */
  function Stance(support: nat, opposition: nat): (r: string)
    ensures r == Supportive <==> Dominates(support, opposition)
    ensures r == Concerned <==> Dominates(opposition, support)
    ensures r == MixedPerspectives <==> !Dominates(support, opposition) && !Dominates(opposition, support)
  {
    if Dominates(support, opposition) then Supportive
    else if Dominates(opposition, support) then Concerned
    else MixedPerspectives
  }

  /** `_identify_perspectives` */
  function IdentifyPerspectives(texts: seq<string>): (r: seq<string>)
    ensures 1 <= |r| <= 2
    ensures r[0] == Stance(CountAll(AllText(texts), SupportWords), CountAll(AllText(texts), OppositionWords))
    ensures |r| == 2 <==> CountAll(AllText(texts), ConstructiveWords) > 0
    ensures |r| == 2 ==> r[1] == ConstructiveNote
  {
    var all := AllText(texts);
    [Stance(CountAll(all, SupportWords), CountAll(all, OppositionWords))]
    + (if CountAll(all, ConstructiveWords) > 0 then [ConstructiveNote] else [])
  }

  /** The constructive note appears exactly when some constructive word occurs in the corpus. */
  lemma ConstructiveNoteIff(texts: seq<string>)
    ensures |IdentifyPerspectives(texts)| == 2 <==> ContainsAny(AllText(texts), ConstructiveWords)
  {
    CountAllPositive(AllText(texts), ConstructiveWords);
  }

  const PositiveSentiment := "Predominantly positive sentiment"
  const NegativeSentiment := "Predominantly negative sentiment"
  const MixedSentiment := "Mixed sentiment with both support and concerns"

  function SentimentLabel(positive: nat, negative: nat): (r: string)
    ensures r == PositiveSentiment <==> Dominates(positive, negative)
    ensures r == NegativeSentiment <==> Dominates(negative, positive)
    ensures r == MixedSentiment <==> !Dominates(positive, negative) && !Dominates(negative, positive)
  {
    if Dominates(positive, negative) then PositiveSentiment
    else if Dominates(negative, positive) then NegativeSentiment
    else MixedSentiment
  }

  /** `_analyze_sentiment` */
  function AnalyzeSentiment(texts: seq<string>): (r: string)
    ensures r in {PositiveSentiment, NegativeSentiment, MixedSentiment}
    ensures r == SentimentLabel(CountAll(AllText(texts), PositiveWords), CountAll(AllText(texts), NegativeWords))
  {
    SentimentLabel(CountAll(AllText(texts), PositiveWords), CountAll(AllText(texts), NegativeWords))
  }

  lemma WordAbsent(all: string, w: string)
    requires |w| > 0 && !Contains(all, w)
    ensures CountAll(all, [w]) == 0
  {
    CountOccPositive(all, w);
  }

  /**
    Sentiment and perspective use the same words except "valuable" and
    "difficult": on a corpus with neither, the sentiment is positive exactly
    when the perspective is supportive, and negative exactly when it is concerned.
   */
  lemma SentimentMatchesStance(texts: seq<string>)
    requires !Contains(AllText(texts), "valuable") && !Contains(AllText(texts), "difficult")
    ensures AnalyzeSentiment(texts) == PositiveSentiment <==> IdentifyPerspectives(texts)[0] == Supportive
    ensures AnalyzeSentiment(texts) == NegativeSentiment <==> IdentifyPerspectives(texts)[0] == Concerned
  {
    var all := AllText(texts);
    CountAllConcat(all, SupportWords, ["valuable"]);
    CountAllConcat(all, OppositionWords, ["difficult"]);
    WordAbsent(all, "valuable");
    WordAbsent(all, "difficult");
  }

  // ---------------------------------------------------------------- stakeholder types

  /** `stakeholder['type'].title()` */
  function KindTitle(k: StakeholderKind): string {
    match k
    case Organization => "Organization"
    case Individual => "Individual"
  }

  function CategoryLabel(item: (StakeholderKind, nat)): string {
    KindTitle(item.0) + "s (" + NatToString(item.1) + ")"
  }

  function Kinds(stakeholders: seq<Stakeholder>): (r: seq<StakeholderKind>)
    ensures |r| == |stakeholders|
    ensures forall i | 0 <= i < |r| :: r[i] == stakeholders[i].kind
  {
    seq(|stakeholders|, i requires 0 <= i < |stakeholders| => stakeholders[i].kind)
  }

  /** `_categorize_stakeholders`: one label per kind, most common first, ties in first-seen order. */
  function CategorizeStakeholders(stakeholders: seq<Stakeholder>): (r: seq<string>)
    ensures |r| == |MostCommon(Kinds(stakeholders))|
    ensures forall i | 0 <= i < |r| :: r[i] == CategoryLabel(MostCommon(Kinds(stakeholders))[i])
  {
    var items := MostCommon(Kinds(stakeholders));
    seq(|items|, i requires 0 <= i < |items| => CategoryLabel(items[i]))
  }

  /**
    The labelled counts are the multiplicities of distinct kinds that occur,
    and they add up to the number of stakeholders.
   */
  lemma CategoriesCount(stakeholders: seq<Stakeholder>)
    ensures Total(MostCommon(Kinds(stakeholders))) == |stakeholders|
    ensures forall i | 0 <= i < |MostCommon(Kinds(stakeholders))| ::
      MostCommon(Kinds(stakeholders))[i].1 == multiset(Kinds(stakeholders))[MostCommon(Kinds(stakeholders))[i].0]
      && MostCommon(Kinds(stakeholders))[i].1 > 0
  {
    MostCommonCounts(Kinds(stakeholders));
  }

  // ---------------------------------------------------------------- basic analysis

  datatype BasicAnalysis = BasicAnalysis(
    keyPoints: seq<string>,
    perspectives: seq<string>,
    sentiment: string,
    stakeholderTypes: seq<string>)

  /** `_perform_basic_analysis` */
  function PerformBasicAnalysis(d: Corpus): (b: BasicAnalysis)
    ensures |b.keyPoints| <= 5 && 1 <= |b.perspectives| <= 2
    ensures b.sentiment in {PositiveSentiment, NegativeSentiment, MixedSentiment}
    ensures |b.stakeholderTypes| <= |d.stakeholders|
  {
    BasicAnalysis(
      ExtractKeyPoints(d.texts),
      IdentifyPerspectives(d.texts),
      AnalyzeSentiment(d.texts),
      CategorizeStakeholders(d.stakeholders))
  }

  // ---------------------------------------------------------------- confidence

  datatype Confidence = Confidence(
    overall: real,
    keyPoints: real,
    sentiment: real,
    stakeholder: real,
    theme: real,
    impact: real)

  /** `min(x, 1.0)` */
  function CapOne(x: real): (r: real)
    ensures r <= 1.0 && r <= x
    ensures r == x || r == 1.0
  {
    if 1.0 < x then 1.0 else x
  }

  function BaseConfidence(total: nat): real {
    if total >= 20 then 0.8
    else if total >= 10 then 0.6
    else if total >= 5 then 0.4
    else 0.2
  }

  /**
    `_calculate_confidence_scores`: only the total comment count matters.
    The overall tier is 0.8 from 20 comments, 0.6 from 10, 0.4 from 5 and 0.2
    below; the other scores add fixed offsets to it, and since the highest tier
    plus the largest offset stays below 1.0, the cap at 1.0 never binds.
   */
  function CalculateConfidenceScores(d: Corpus): (c: Confidence)
    ensures d.totalComments >= 20 <==> c.overall == 0.8
    ensures 10 <= d.totalComments < 20 <==> c.overall == 0.6
    ensures 5 <= d.totalComments < 10 <==> c.overall == 0.4
    ensures d.totalComments < 5 <==> c.overall == 0.2
    ensures c.keyPoints == c.overall + 0.1 && c.impact == c.overall + 0.1
    ensures c.stakeholder == c.overall + 0.05 && c.theme == c.overall + 0.15
    ensures c.sentiment == c.overall
    ensures 0.2 <= c.overall <= c.stakeholder <= c.keyPoints <= c.theme < 1.0
  {
    var base := BaseConfidence(d.totalComments);
    Confidence(base, CapOne(base + 0.1), base, CapOne(base + 0.05), CapOne(base + 0.15), CapOne(base + 0.1))
  }

  predicate AtMost(a: Confidence, b: Confidence) {
    a.overall <= b.overall && a.keyPoints <= b.keyPoints && a.sentiment <= b.sentiment
    && a.stakeholder <= b.stakeholder && a.theme <= b.theme && a.impact <= b.impact
  }

  /** More comments never lower any confidence score. */
  lemma ConfidenceMonotone(d: Corpus, e: Corpus)
    requires d.totalComments <= e.totalComments
    ensures AtMost(CalculateConfidenceScores(d), CalculateConfidenceScores(e))
  {
    var a, b := BaseConfidence(d.totalComments), BaseConfidence(e.totalComments);
    assert a <= b;
  }

  // ---------------------------------------------------------------- summary

  /** `max(impacts, key=impact_score)`: the first impact with the highest score. */
  function FirstMax(impacts: seq<Impact>): (k: nat)
    requires |impacts| > 0
    ensures k < |impacts|
    ensures forall i | 0 <= i < |impacts| :: impacts[i].impactScore <= impacts[k].impactScore
    ensures forall i | 0 <= i < k :: impacts[i].impactScore < impacts[k].impactScore
    decreases |impacts|
  {
    if |impacts| == 1 then 0
    else
      var j := FirstMax(impacts[1..]) + 1;
      assert forall i | 1 <= i < |impacts| :: impacts[i] == impacts[1..][i - 1];
      if impacts[j].impactScore > impacts[0].impactScore then j else 0
  }

  function HeadPart(total: nat): string {
    "Analysis of " + NatToString(total) + " public comments reveals:"
  }

  function SentimentPart(sentiment: string): string {
    "Overall sentiment: " + sentiment
  }

  function PerspectivesPart(perspectives: seq<string>): string {
    "Common perspectives: " + Join("; ", perspectives)
  }

  function ThemePart(t: Theme): string {
    "Primary regulatory theme: " + t.theme + " (mentioned " + NatToString(t.frequency) + " times)"
  }

  function ImpactPart(imp: Impact): string {
    "Main impact area: " + imp.impactType + " (mentioned in " + NatToString(imp.mentionCount) + " comments)"
  }

  function ConcernsPart(common: seq<string>): string {
    "Common concerns identified: " + NatToString(|common|) + " distinct issues"
  }

  function SummaryParts(b: BasicAnalysis, themes: seq<Theme>, impacts: seq<Impact>, concerns: Concerns, total: nat)
    : (parts: seq<string>)
    ensures 2 <= |parts| <= 6
  {
    [HeadPart(total), SentimentPart(b.sentiment)]
    + (if |b.perspectives| > 0 then [PerspectivesPart(b.perspectives)] else [])
    + (if |themes| > 0 then [ThemePart(themes[0])] else [])
    + (if |impacts| > 0 then [ImpactPart(impacts[FirstMax(impacts)])] else [])
    + (if |concerns.common| > 0 then [ConcernsPart(concerns.common)] else [])
  }

  /** `_generate_comprehensive_summary` */
  function GenerateComprehensiveSummary(
    b: BasicAnalysis, themes: seq<Theme>, impacts: seq<Impact>, concerns: Concerns, total: nat): (r: string)
    ensures StartsWith(r, HeadPart(total) + " " + SentimentPart(b.sentiment))
  {
    var parts := SummaryParts(b, themes, impacts, concerns, total);
    JoinFirstTwo(" ", parts);
    Join(" ", parts)
  }

  /**
    Which optional parts the summary carries: the perspectives part when there
    are perspectives, the theme part (from the first theme) when there are
    themes, the impact part (from the first highest-scoring impact) when there
    are impacts, and the concern count when `common` is non-empty.
   */
  lemma SummaryPartsShape(b: BasicAnalysis, themes: seq<Theme>, impacts: seq<Impact>, concerns: Concerns, total: nat)
    ensures var parts := SummaryParts(b, themes, impacts, concerns, total);
      parts[0] == HeadPart(total) && parts[1] == SentimentPart(b.sentiment)
      && |parts| == 2 + (if |b.perspectives| > 0 then 1 else 0) + (if |themes| > 0 then 1 else 0)
                      + (if |impacts| > 0 then 1 else 0) + (if |concerns.common| > 0 then 1 else 0)
      && (|themes| > 0 ==> ThemePart(themes[0]) in parts)
      && (|impacts| > 0 ==> ImpactPart(impacts[FirstMax(impacts)]) in parts)
      && (|concerns.common| > 0 ==> parts[|parts| - 1] == ConcernsPart(concerns.common))
  {
  }

  // ---------------------------------------------------------------- the pipeline

  datatype Analysis = Analysis(
    keyPoints: seq<string>,
    commonPerspectives: seq<string>,
    sentimentSummary: string,
    stakeholderTypes: seq<string>,
    summary: string,
    totalCommentsAnalyzed: nat,
    regulatoryThemes: seq<Theme>,
    impactAssessments: seq<Impact>,
    stakeholderConcerns: Concerns,
    recommendationPatterns: seq<string>,
    technicalIssues: seq<string>,
    economicConcerns: seq<string>,
    timelineConcerns: seq<string>,
    implementationChallenges: seq<string>,
    confidenceScores: Confidence)

  /** The stakeholder concerns of a corpus, by their reference definition. */
  function ConcernsOf(d: Corpus): (c: Concerns)
    ensures NoDup(c.common)
  {
    var n := if |d.texts| <= |d.stakeholders| then |d.texts| else |d.stakeholders|;
    CommonIsUnionOfBuckets(Entries(d.texts, d.stakeholders, n), "");
    Reference(Entries(d.texts, d.stakeholders, n))
  }

  /**
    `analyze_comments_advanced`: every stage runs over the same corpus; the
    summary and the confidence tier use the number of comments received,
    including those without text. Recommendations are extracted as the source
    writes them, with the `pattern.split()` test.
   */
  function AnalysisOf(comments: seq<Comment>): (a: Analysis)
    ensures a.totalCommentsAnalyzed == |comments|
  {
    CorpusAnalysis(PrepareCommentData(comments), |comments|)
  }

  /** The analysis of a prepared corpus, `total` being the number of comments received. */
  function CorpusAnalysis(d: Corpus, total: nat): (a: Analysis)
    ensures a.totalCommentsAnalyzed == total
  {
    var basic := PerformBasicAnalysis(d);
    var themes := IdentifyThemes(d.texts);
    var impacts := AssessImpacts(d.texts);
    var concerns := ConcernsOf(d);
    Analysis(
      basic.keyPoints, basic.perspectives, basic.sentiment, basic.stakeholderTypes,
      GenerateComprehensiveSummary(basic, themes, impacts, concerns, total), total,
      themes, impacts, concerns,
      ExtractRecommendationsAsWritten(d.texts),
      IdentifyTechnicalIssues(d.texts),
      IdentifyEconomicConcerns(d.texts),
      IdentifyTimelineConcerns(d.texts),
      IdentifyImplementationChallenges(d.texts),
      CalculateConfidenceScores(d))
  }

  /** The themes are ranked, the common concerns distinct, and the summary opens with the count and the sentiment. */
  lemma AnalysisInvariants(comments: seq<Comment>)
    ensures SortedDesc(AnalysisOf(comments).regulatoryThemes, Relevance)
    ensures NoDup(AnalysisOf(comments).stakeholderConcerns.common)
    ensures StartsWith(AnalysisOf(comments).summary, HeadPart(|comments|) + " " + SentimentPart(AnalysisOf(comments).sentimentSummary))
  {
  }

  /**
    The reported themes are theme rows whose keywords occur in the texts, and a
    row whose keywords occur is reported unless five themes at least as
    relevant were.
   */
  lemma ThemesOfTexts(texts: seq<string>)
    ensures var all, t := AllText(texts), IdentifyThemes(texts);
      && (forall i | 0 <= i < |t| :: RowTheme(all, |texts|, ThemePatterns, t[i]))
      && (forall k | 0 <= k < |ThemePatterns| && CountAll(all, ThemePatterns[k].1) > 0 ::
            |texts| > 0
            && (ThemeOf(all, |texts|, ThemePatterns[k]) in t
                || (|t| == 5 && forall i | 0 <= i < 5 ::
                      t[i].relevanceScore >= ThemeOf(all, |texts|, ThemePatterns[k]).relevanceScore)))
  {
    var all, n := AllText(texts), |texts|;
    ThemeTableWellFormed();
    JoinEmpty();
    ThemeCandidatesExact(all, n, ThemePatterns);
    var cands := ThemeCandidatesOf(texts);
    var t := IdentifyThemes(texts);
    TopMembers(cands, Relevance, 5);
    forall k | 0 <= k < |ThemePatterns| && CountAll(all, ThemePatterns[k].1) > 0
      ensures n > 0
      ensures ThemeOf(all, n, ThemePatterns[k]) in t
              || (|t| == 5 && forall i | 0 <= i < 5 :: t[i].relevanceScore >= ThemeOf(all, n, ThemePatterns[k]).relevanceScore)
    {
      var c := ThemeOf(all, n, ThemePatterns[k]);
      if c !in t {
        ThemesTopFive(texts, c);
      }
    }
  }

  /** The analysis reports, at most five, the themes its kept texts support, as `ThemesOfTexts` reads them. */
  lemma AnalysisThemes(comments: seq<Comment>)
    ensures var d := PrepareCommentData(comments);
      var t := AnalysisOf(comments).regulatoryThemes;
      && |t| <= 5
      && (forall i | 0 <= i < |t| :: RowTheme(AllText(d.texts), |d.texts|, ThemePatterns, t[i]))
  {
    var d := PrepareCommentData(comments);
    assert AnalysisOf(comments).regulatoryThemes == IdentifyThemes(d.texts);
    ThemesOfTexts(d.texts);
  }

  /** The impacts are exactly the impact rows some kept text mentions, at most four. */
  lemma AnalysisImpacts(comments: seq<Comment>)
    ensures var d := PrepareCommentData(comments);
      var m := AnalysisOf(comments).impactAssessments;
      && |m| <= 4
      && (forall i | 0 <= i < |m| :: RowImpact(d.texts, ImpactCategories, m[i]))
      && (forall k | 0 <= k < |ImpactCategories| && |Affected(d.texts, ImpactCategories[k].1)| > 0 ::
            ImpactOf(d.texts, ImpactCategories[k]) in m)
  {
    var d := PrepareCommentData(comments);
    assert AnalysisOf(comments).impactAssessments == AssessImpacts(d.texts);
    ImpactsExact(d.texts, ImpactCategories);
  }

  /**
    As written, the recommendations are empty whenever no comment text holds a
    backslash, which is the case for ordinary prose.
   */
  lemma AnalysisRecommendations(comments: seq<Comment>)
    ensures |AnalysisOf(comments).recommendationPatterns| <= 10
    ensures (forall i | 0 <= i < |comments| :: '\\' !in comments[i].commentText)
      ==> AnalysisOf(comments).recommendationPatterns == []
  {
    if forall i | 0 <= i < |comments| :: '\\' !in comments[i].commentText {
      var d := PrepareCommentData(comments);
      PrepareIsKept(comments);
      KeptMembers(comments);
      forall i | 0 <= i < |d.texts|
        ensures '\\' !in d.texts[i]
      {
        var c := Kept(comments)[i];
        var j :| 0 <= j < |comments| && comments[j] == c;
      }
      RecommendationsNeedBackslash(d.texts);
    }
  }

  /** The key points and the four extracted issue lists are each bounded by five. */
  lemma AnalysisBounds(comments: seq<Comment>)
    ensures var a := AnalysisOf(comments);
      && |a.keyPoints| <= 5 && |a.technicalIssues| <= 5 && |a.economicConcerns| <= 5
      && |a.timelineConcerns| <= 5 && |a.implementationChallenges| <= 5
  {
    CorpusBounds(PrepareCommentData(comments), |comments|);
  }

  lemma CorpusBounds(d: Corpus, total: nat)
    ensures var a := CorpusAnalysis(d, total);
      && |a.keyPoints| <= 5 && |a.technicalIssues| <= 5 && |a.economicConcerns| <= 5
      && |a.timelineConcerns| <= 5 && |a.implementationChallenges| <= 5
  {
  }

  /** The confidence tier follows the number of comments received, including those without text. */
  lemma AnalysisConfidence(comments: seq<Comment>)
    ensures var c := AnalysisOf(comments).confidenceScores;
      && (|comments| >= 20 <==> c.overall == 0.8)
      && (10 <= |comments| < 20 <==> c.overall == 0.6)
      && (5 <= |comments| < 10 <==> c.overall == 0.4)
      && (|comments| < 5 <==> c.overall == 0.2)
  {
    var d := PrepareCommentData(comments);
    assert AnalysisOf(comments).confidenceScores == CalculateConfidenceScores(d);
  }

  /**
    The analysis as the analyzer computes it, with the concern loop run step by
    step: the concerns follow the reference routing of the kept texts. What the
    other fields mean is stated by the lemmas about `AnalysisOf` above.
   */
  method AnalyzeCommentsAdvanced(comments: seq<Comment>) returns (a: Analysis)
    ensures a == AnalysisOf(comments)
    ensures var d := PrepareCommentData(comments);
      a.stakeholderConcerns == Reference(Entries(d.texts, d.stakeholders, |d.texts|))
    ensures a.totalCommentsAnalyzed == |comments|
  {
    var d := PrepareCommentData(comments);
    var basic := PerformBasicAnalysis(d);
    var themes := IdentifyThemes(d.texts);
    var impacts := AssessImpacts(d.texts);
    var concerns := AnalyzeStakeholderConcerns(d.texts, d.stakeholders);
    var summary := GenerateComprehensiveSummary(basic, themes, impacts, concerns, |comments|);
    a := Analysis(
      basic.keyPoints, basic.perspectives, basic.sentiment, basic.stakeholderTypes,
      summary, |comments|,
      themes, impacts, concerns,
      ExtractRecommendationsAsWritten(d.texts),
      IdentifyTechnicalIssues(d.texts),
      IdentifyEconomicConcerns(d.texts),
      IdentifyTimelineConcerns(d.texts),
      IdentifyImplementationChallenges(d.texts),
      CalculateConfidenceScores(d));
    assert a == CorpusAnalysis(d, |comments|);
  }

  // ---------------------------------------------------------------- the module's example

  const SampleComments: seq<Comment> := [
    Comment("1", "EPA-HQ-OAR-2021-0317-0001",
      "We support this regulation but are concerned about the implementation timeline. "
      + "The costs may be too high for small businesses.",
      Some("John Smith"), Some("Small Business Association"), None, None, "2023-01-15", None, "", ""),
    Comment("2", "EPA-HQ-OAR-2021-0317-0001",
      "This regulation is necessary for environmental protection. "
      + "We recommend extending the compliance deadline by 6 months.",
      Some("Jane Doe"), Some("Environmental Defense Fund"), None, None, "2023-01-16", None, "", "")
  ]

  lemma SampleKinds()
    ensures Kinds(PrepareCommentData(SampleComments).stakeholders) == [Organization, Organization]
  {
    var c1, c2 := SampleComments[0], SampleComments[1];
    assert SampleComments == [c1] + [c2];
    PrepareConcat([c1], [c2]);
    PrepareOne(c1);
    PrepareOne(c2);
  }

  /** Two organization stakeholders are labelled "Organizations (2)". */
  lemma TwoOrganizations(ss: seq<Stakeholder>)
    requires Kinds(ss) == [Organization, Organization]
    ensures CategorizeStakeholders(ss) == ["Organizations (2)"]
  {
    var kinds := Kinds(ss);
    assert kinds[..1] == [Organization];
    assert CounterOf(kinds[..1]) == [(Organization, 1)];
    assert CounterOf(kinds) == [(Organization, 2)];
    assert MostCommon(kinds) == [(Organization, 2)];
    assert NatToString(2) == "2";
    assert CategoryLabel((Organization, 2)) == "Organizations (2)";
  }

  /** Both sample commenters name an organization, so the stakeholder types read "Organizations (2)". */
  lemma SampleStakeholderTypes()
    ensures CategorizeStakeholders(PrepareCommentData(SampleComments).stakeholders) == ["Organizations (2)"]
  {
    SampleKinds();
    TwoOrganizations(PrepareCommentData(SampleComments).stakeholders);
  }
}

=== FILE: analysis_payload.dfy ===
/**
  The advanced analysis as the dictionary `asdict` produces, the envelope of
  the advanced analysis tool, and `synthesize_key_insights`, which reads the
  first few entries of each list back out of such an envelope.
 */
module AnalysisPayload {
  import opened Wrappers
  import opened Strings
  import opened Json
  import opened ThemeDetectors
  import opened AdvancedAnalyzer

  function NatList(xs: seq<nat>): (r: Json)
    ensures r.JArr? && |r.items| == |xs|
  {
    JArr(seq(|xs|, i requires 0 <= i < |xs| => JInt(xs[i])))
  }

  function ThemeJson(t: Theme): Json {
    JObj([
      ("theme", JStr(t.theme)),
      ("frequency", JInt(t.frequency)),
      ("keywords_found", StrList(t.keywordsFound)),
      ("relevance_score", JReal(t.relevanceScore))])
  }

  function ImpactJson(imp: Impact): Json {
    JObj([
      ("impact_type", JStr(imp.impactType)),
      ("mention_count", JInt(imp.mentionCount)),
      ("affected_comments", NatList(imp.affectedComments)),
      ("impact_score", JReal(imp.impactScore))])
  }

  function ConcernsJson(c: Concerns): Json {
    JObj([
      ("organizations", StrList(c.organizations)),
      ("individuals", StrList(c.individuals)),
      ("common", StrList(c.common))])
  }

  function ConfidenceJson(c: Confidence): Json {
    JObj([
      ("overall_confidence", JReal(c.overall)),
      ("key_points_confidence", JReal(c.keyPoints)),
      ("sentiment_confidence", JReal(c.sentiment)),
      ("stakeholder_confidence", JReal(c.stakeholder)),
      ("theme_confidence", JReal(c.theme)),
      ("impact_confidence", JReal(c.impact))])
  }

  function ThemesJson(ts: seq<Theme>): (r: Json)
    ensures r.JArr? && |r.items| == |ts|
    ensures forall i | 0 <= i < |ts| :: r.items[i] == ThemeJson(ts[i])
  {
    JArr(seq(|ts|, i requires 0 <= i < |ts| => ThemeJson(ts[i])))
  }

  function ImpactsJson(imps: seq<Impact>): (r: Json)
    ensures r.JArr? && |r.items| == |imps|
    ensures forall i | 0 <= i < |imps| :: r.items[i] == ImpactJson(imps[i])
  {
    JArr(seq(|imps|, i requires 0 <= i < |imps| => ImpactJson(imps[i])))
  }

  /** `asdict(analysis)`, in field order; the timestamp is not part of this model. */
  function AnalysisJson(a: Analysis): Json {
    JObj([
      ("key_points", StrList(a.keyPoints)),
      ("common_perspectives", StrList(a.commonPerspectives)),
      ("sentiment_summary", JStr(a.sentimentSummary)),
      ("stakeholder_types", StrList(a.stakeholderTypes)),
      ("summary", JStr(a.summary)),
      ("total_comments_analyzed", JInt(a.totalCommentsAnalyzed)),
      ("regulatory_themes", ThemesJson(a.regulatoryThemes)),
      ("impact_assessments", ImpactsJson(a.impactAssessments)),
      ("stakeholder_concerns", ConcernsJson(a.stakeholderConcerns)),
      ("recommendation_patterns", StrList(a.recommendationPatterns)),
      ("technical_issues", StrList(a.technicalIssues)),
      ("economic_concerns", StrList(a.economicConcerns)),
      ("timeline_concerns", StrList(a.timelineConcerns)),
      ("implementation_challenges", StrList(a.implementationChallenges)),
      ("confidence_scores", ConfidenceJson(a.confidenceScores))])
  }

  /** The success envelope of `analyze_comments_with_ai`. */
  function AnalysisEnvelope(a: Analysis, documentId: string): Json {
    JObj([("success", JBool(true)), ("document_id", JStr(documentId)), ("analysis", AnalysisJson(a))])
  }

  /** `[item[key] for item in items]` */
  function IndexEach(items: seq<Json>, key: string): (r: Result<seq<Json>, string>)
    ensures r.Ok? ==> |r.value| == |items|
    ensures r.Ok? ==> forall i | 0 <= i < |items| :: Index(items[i], key) == Ok(r.value[i])
    decreases |items|
  {
    if |items| == 0 then Ok([])
    else
      var head :- Index(items[0], key);
      var rest :- IndexEach(items[1..], key);
      assert forall i | 1 <= i < |items| :: items[i] == items[1..][i - 1];
      Ok([head] + rest)
  }

  /** `[item[key] for item in seq[:n]]` */
  function FirstKeys(j: Json, n: nat, key: string): (r: Result<seq<Json>, string>)
    ensures r.Ok? ==> |r.value| <= n
  {
    var sliced :- SliceTo(j, n);
    var items :- Iterate(sliced);
    IndexEach(items, key)
  }

  /** The insights dictionary, or the first exception raised while building it. */
  function Insights(analysis: Json): Result<Json, string> {
    var summary :- Index(analysis, "summary");
    var concerns :- Index(analysis, "stakeholder_concerns");
    var common :- Index(concerns, "common");
    var topConcerns :- SliceTo(common, 3);
    var themes :- Index(analysis, "regulatory_themes");
    var themeNames :- FirstKeys(themes, 3, "theme");
    var impacts :- Index(analysis, "impact_assessments");
    var impactTypes :- FirstKeys(impacts, 3, "impact_type");
    var recommendations :- Index(analysis, "recommendation_patterns");
    var keyRecommendations :- SliceTo(recommendations, 3);
    var scores :- Index(analysis, "confidence_scores");
    var confidence :- Index(scores, "overall_confidence");
    Ok(JObj([
      ("executive_summary", summary),
      ("top_concerns", topConcerns),
      ("primary_themes", JArr(themeNames)),
      ("main_impacts", JArr(impactTypes)),
      ("key_recommendations", keyRecommendations),
      ("confidence_level", confidence)]))
  }

  function SynthesisResult(results: Json): Result<Json, string> {
    var success :- Get(results, "success", JNull);
    if !Truthy(success) then Ok(results)
    else
      var analysis :- Index(results, "analysis");
      var insights :- Insights(analysis);
      var documentId :- Index(results, "document_id");
      Ok(JObj([("success", JBool(true)), ("insights", insights), ("document_id", documentId)]))
  }

  /**
    `synthesize_key_insights`: never raises. A dictionary whose `success` is
    falsy comes back unchanged; any exception becomes a failure envelope.
   */
  function SynthesizeKeyInsights(results: Json): (r: Json)
    ensures results.JObj? && !Truthy(Lookup(results.fields, "success").GetOr(JNull)) ==> r == results
    ensures !results.JObj? ==> r == JObj([("success", JBool(false)), ("error", JStr(AttributeError(results, "get")))])
  {
    match SynthesisResult(results)
    case Ok(v) => v
    case Err(e) => JObj([("success", JBool(false)), ("error", JStr(e))])
  }

  function ThemeNames(ts: seq<Theme>): (r: seq<Json>)
    ensures |r| == |ts|
  {
    seq(|ts|, i requires 0 <= i < |ts| => JStr(ts[i].theme))
  }

  function ImpactTypes(imps: seq<Impact>): (r: seq<Json>)
    ensures |r| == |imps|
  {
    seq(|imps|, i requires 0 <= i < |imps| => JStr(imps[i].impactType))
  }

  lemma ThemeJsonName(t: Theme)
    ensures Index(ThemeJson(t), "theme") == Ok(JStr(t.theme))
  {
    LookupFirst(ThemeJson(t).fields, "theme", 0);
  }

  lemma ImpactJsonType(imp: Impact)
    ensures Index(ImpactJson(imp), "impact_type") == Ok(JStr(imp.impactType))
  {
    LookupFirst(ImpactJson(imp).fields, "impact_type", 0);
  }

  lemma ThemeNamesFromJson(ts: seq<Theme>, n: nat)
    ensures FirstKeys(ThemesJson(ts), n, "theme") == Ok(ThemeNames(Take(ts, n)))
  {
    var sliced := Take(ThemesJson(ts).items, n);
    assert SliceTo(ThemesJson(ts), n) == Ok(JArr(sliced));
    forall i | 0 <= i < |sliced|
      ensures Index(sliced[i], "theme") == Ok(ThemeNames(Take(ts, n))[i])
    {
      ThemeJsonName(ts[i]);
    }
    IndexEachAll(sliced, "theme", ThemeNames(Take(ts, n)));
  }

  lemma ImpactTypesFromJson(imps: seq<Impact>, n: nat)
    ensures FirstKeys(ImpactsJson(imps), n, "impact_type") == Ok(ImpactTypes(Take(imps, n)))
  {
    var sliced := Take(ImpactsJson(imps).items, n);
    assert SliceTo(ImpactsJson(imps), n) == Ok(JArr(sliced));
    forall i | 0 <= i < |sliced|
      ensures Index(sliced[i], "impact_type") == Ok(ImpactTypes(Take(imps, n))[i])
    {
      ImpactJsonType(imps[i]);
    }
    IndexEachAll(sliced, "impact_type", ImpactTypes(Take(imps, n)));
  }

  /** When every item has `key`, the comprehension succeeds with their values. */
  lemma {:induction false} IndexEachAll(items: seq<Json>, key: string, values: seq<Json>)
    requires |values| == |items|
    requires forall i | 0 <= i < |items| :: Index(items[i], key) == Ok(values[i])
    ensures IndexEach(items, key) == Ok(values)
    decreases |items|
  {
    if |items| > 0 {
      var tail, rest := items[1..], values[1..];
      forall i | 0 <= i < |tail|
        ensures Index(tail[i], key) == Ok(rest[i])
      {
        assert tail[i] == items[i + 1];
      }
      IndexEachAll(tail, key, rest);
      assert Index(items[0], key) == Ok(values[0]);
      assert values == [values[0]] + rest;
    }
  }

  /** The insights the synthesis reads from an analysis dictionary. */
  function ExpectedInsights(a: Analysis): Json {
    JObj([
      ("executive_summary", JStr(a.summary)),
      ("top_concerns", StrList(Take(a.stakeholderConcerns.common, 3))),
      ("primary_themes", JArr(ThemeNames(Take(a.regulatoryThemes, 3)))),
      ("main_impacts", JArr(ImpactTypes(Take(a.impactAssessments, 3)))),
      ("key_recommendations", StrList(Take(a.recommendationPatterns, 3))),
      ("confidence_level", JReal(a.confidenceScores.overall))])
  }

  lemma StrListTake(xs: seq<string>, n: nat)
    ensures SliceTo(StrList(xs), n) == Ok(StrList(Take(xs, n)))
  {
    assert Take(StrList(xs).items, n) == StrList(Take(xs, n)).items;
  }

  // The fields the synthesis reads from an analysis dictionary.

  lemma AnalysisSummaryField(a: Analysis)
    ensures Index(AnalysisJson(a), "summary") == Ok(JStr(a.summary))
  {
    LookupFirst(AnalysisJson(a).fields, "summary", 4);
  }

  lemma AnalysisThemesField(a: Analysis)
    ensures Index(AnalysisJson(a), "regulatory_themes") == Ok(ThemesJson(a.regulatoryThemes))
  {
    LookupFirst(AnalysisJson(a).fields, "regulatory_themes", 6);
  }

  lemma AnalysisImpactsField(a: Analysis)
    ensures Index(AnalysisJson(a), "impact_assessments") == Ok(ImpactsJson(a.impactAssessments))
  {
    LookupFirst(AnalysisJson(a).fields, "impact_assessments", 7);
  }

  lemma AnalysisConcernsField(a: Analysis)
    ensures Index(AnalysisJson(a), "stakeholder_concerns") == Ok(ConcernsJson(a.stakeholderConcerns))
  {
    LookupFirst(AnalysisJson(a).fields, "stakeholder_concerns", 8);
  }

  lemma AnalysisRecommendationsField(a: Analysis)
    ensures Index(AnalysisJson(a), "recommendation_patterns") == Ok(StrList(a.recommendationPatterns))
  {
    LookupFirst(AnalysisJson(a).fields, "recommendation_patterns", 9);
  }

  lemma AnalysisConfidenceField(a: Analysis)
    ensures Index(AnalysisJson(a), "confidence_scores") == Ok(ConfidenceJson(a.confidenceScores))
  {
    LookupFirst(AnalysisJson(a).fields, "confidence_scores", 14);
  }

  lemma NestedFields(a: Analysis)
    ensures Index(ConcernsJson(a.stakeholderConcerns), "common") == Ok(StrList(a.stakeholderConcerns.common))
    ensures Index(ConfidenceJson(a.confidenceScores), "overall_confidence") == Ok(JReal(a.confidenceScores.overall))
  {
    LookupFirst(ConcernsJson(a.stakeholderConcerns).fields, "common", 2);
    LookupFirst(ConfidenceJson(a.confidenceScores).fields, "overall_confidence", 0);
  }

  lemma InsightsOfAnalysis(a: Analysis)
    ensures Insights(AnalysisJson(a)) == Ok(ExpectedInsights(a))
  {
    AnalysisSummaryField(a);
    AnalysisThemesField(a);
    AnalysisImpactsField(a);
    AnalysisConcernsField(a);
    AnalysisRecommendationsField(a);
    AnalysisConfidenceField(a);
    NestedFields(a);
    ThemeNamesFromJson(a.regulatoryThemes, 3);
    ImpactTypesFromJson(a.impactAssessments, 3);
    StrListTake(a.stakeholderConcerns.common, 3);
    StrListTake(a.recommendationPatterns, 3);
  }

  /**
    Synthesizing the envelope of an analysis never fails: the insights are the
    summary, the first three common concerns, theme names, impact types and
    recommendations, and the overall confidence.
   */
  lemma SynthesizeAnalysis(a: Analysis, documentId: string)
    ensures SynthesizeKeyInsights(AnalysisEnvelope(a, documentId))
         == JObj([("success", JBool(true)), ("insights", ExpectedInsights(a)), ("document_id", JStr(documentId))])
  {
    InsightsOfAnalysis(a);
    SynthesizeEnvelope(AnalysisJson(a), documentId, ExpectedInsights(a));
  }

  /** The synthesis of a successful envelope wraps the insights of its analysis. */
  lemma SynthesizeEnvelope(analysis: Json, documentId: string, insights: Json)
    requires Insights(analysis) == Ok(insights)
    ensures SynthesizeKeyInsights(JObj([("success", JBool(true)), ("document_id", JStr(documentId)), ("analysis", analysis)]))
         == JObj([("success", JBool(true)), ("insights", insights), ("document_id", JStr(documentId))])
  {
    EnvelopeSynthesis(analysis, documentId, insights);
  }

  lemma EnvelopeSynthesis(analysis: Json, documentId: string, insights: Json)
    requires Insights(analysis) == Ok(insights)
    ensures SynthesisResult(JObj([("success", JBool(true)), ("document_id", JStr(documentId)), ("analysis", analysis)]))
         == Ok(JObj([("success", JBool(true)), ("insights", insights), ("document_id", JStr(documentId))]))
  {
    EnvelopeFields(analysis, documentId);
  }

  lemma EnvelopeFields(analysis: Json, documentId: string)
    ensures Get(JObj([("success", JBool(true)), ("document_id", JStr(documentId)), ("analysis", analysis)]), "success", JNull) == Ok(JBool(true))
    ensures Index(JObj([("success", JBool(true)), ("document_id", JStr(documentId)), ("analysis", analysis)]), "analysis") == Ok(analysis)
    ensures Index(JObj([("success", JBool(true)), ("document_id", JStr(documentId)), ("analysis", analysis)]), "document_id") == Ok(JStr(documentId))
  {
    var e: Fields := [("success", JBool(true)), ("document_id", JStr(documentId)), ("analysis", analysis)];
    IndexFirst(e, "success", 0);
    IndexFirst(e, "analysis", 2);
    IndexFirst(e, "document_id", 1);
  }
}

=== FILE: basic_analyzer.dfy ===
/**
  The keyword analyzer that sits next to the regulations.gov client: it
  fetches a document's comments, tallies who submitted them, counts
  regulatory terms and sentiment words, and writes a one-paragraph summary.
  The three tool functions wrap the analyzer, the comment count and the
  connection test in JSON envelopes that never raise.
 */
module BasicAnalyzer {
  import opened Wrappers
  import opened Strings
  import opened Json
  import opened Comments
  import opened ThemeDetectors
  import opened RegulationsApi
  import AdvancedAnalyzer

  // ---------------------------------------------------------------- stakeholders

  datatype StakeholderCounts = StakeholderCounts(
    individuals: nat, organizations: nat, agencies: nat, companies: nat, other: nat)

  datatype StakeholderInfo = StakeholderInfo(counts: StakeholderCounts, names: seq<string>)

  /** The name a comment is counted under: its organization, else its submitter. */
  function NameOf(c: Comment): (r: Option<string>)
    ensures r.Some? <==> Present(c.organizationName) || Present(c.submitterName)
    ensures r.Some? ==> |r.value| > 0
  {
    if Present(c.organizationName) then c.organizationName
    else if Present(c.submitterName) then c.submitterName
    else None
  }

  /** One pass of the tally loop. */
  function Tally1(info: StakeholderInfo, c: Comment): StakeholderInfo {
    var k := info.counts;
    if Present(c.organizationName) then
      StakeholderInfo(k.(organizations := k.organizations + 1), info.names + [c.organizationName.value])
    else if Present(c.submitterName) then
      StakeholderInfo(k.(individuals := k.individuals + 1), info.names + [c.submitterName.value])
    else StakeholderInfo(k.(other := k.other + 1), info.names)
  }

  /**
    The tally loop over `comments`, before the names are cut to ten: every
    comment is counted once, agencies and companies are never counted, and
    each organization or individual contributes its name.
   */
  function Tally(comments: seq<Comment>): (r: StakeholderInfo)
    ensures r.counts.organizations + r.counts.individuals + r.counts.other == |comments|
    ensures r.counts.agencies == 0 && r.counts.companies == 0
    ensures |r.names| == r.counts.organizations + r.counts.individuals
    decreases |comments|
  {
    if |comments| == 0 then StakeholderInfo(StakeholderCounts(0, 0, 0, 0, 0), [])
    else Tally1(Tally(comments[..|comments| - 1]), comments[|comments| - 1])
  }

  /** The names, in comment order, of the comments that have one. */
  function Names(comments: seq<Comment>): seq<string>
    decreases |comments|
  {
    if |comments| == 0 then []
    else
      var c := comments[|comments| - 1];
      Names(comments[..|comments| - 1]) + (if NameOf(c).Some? then [NameOf(c).value] else [])
  }

  /** The number of comments satisfying a test. */
  function CountWhere(comments: seq<Comment>, p: Comment -> bool): (n: nat)
    ensures n <= |comments|
    decreases |comments|
  {
    if |comments| == 0 then 0
    else CountWhere(comments[..|comments| - 1], p) + (if p(comments[|comments| - 1]) then 1 else 0)
  }

  /**
    The tally counts the comments with an organization as organizations,
    those with only a submitter as individuals, and keeps their names in
    order.
   */
  lemma {:induction false} TallyCounts(comments: seq<Comment>)
    ensures Tally(comments).counts.organizations == CountWhere(comments, (c: Comment) => Present(c.organizationName))
    ensures Tally(comments).counts.individuals
      == CountWhere(comments, (c: Comment) => !Present(c.organizationName) && Present(c.submitterName))
    ensures Tally(comments).names == Names(comments)
    decreases |comments|
  {
    if |comments| > 0 {
      TallyCounts(comments[..|comments| - 1]);
    }
  }

  /** `_extract_stakeholder_info`: the tally with the first ten names. */
  function ExtractStakeholderInfo(comments: seq<Comment>): (r: StakeholderInfo)
    ensures r.counts == Tally(comments).counts
    ensures r.names == Take(Names(comments), 10)
  {
    TallyCounts(comments);
    var t := Tally(comments);
    StakeholderInfo(t.counts, Take(t.names, 10))
  }

  /** `"{title} ({n})"` */
  function CategoryLabel(title: string, n: nat): string {
    title + " (" + NatToString(n) + ")"
  }

  /** The four categories with their counts, in the order they are reported. */
  function Titled(counts: StakeholderCounts): seq<(string, nat)> {
    [("Organizations", counts.organizations), ("Individuals", counts.individuals),
     ("Government Agencies", counts.agencies), ("Companies", counts.companies)]
  }

  /** How many of the first `j` rows have a positive count. */
  function PositivesBefore(rows: seq<(string, nat)>, j: nat): (n: nat)
    requires j <= |rows|
    ensures n <= j
  {
    if j == 0 then 0 else PositivesBefore(rows, j - 1) + (if rows[j - 1].1 > 0 then 1 else 0)
  }

  /**
    `_categorize_stakeholders`: one label per positive count, in the fixed
    order Organizations, Individuals, Government Agencies, Companies; the
    label of a category with a positive count sits after the labels of the
    positive categories before it.
   */
  function CategorizeStakeholders(counts: StakeholderCounts): (r: seq<string>)
    ensures |r| == PositivesBefore(Titled(counts), 4)
    ensures forall j | 0 <= j < 4 && Titled(counts)[j].1 > 0 ::
      PositivesBefore(Titled(counts), j) < |r|
      && r[PositivesBefore(Titled(counts), j)] == CategoryLabel(Titled(counts)[j].0, Titled(counts)[j].1)
  {
    TitledPositives(counts);
    (if counts.organizations > 0 then [CategoryLabel("Organizations", counts.organizations)] else [])
    + (if counts.individuals > 0 then [CategoryLabel("Individuals", counts.individuals)] else [])
    + (if counts.agencies > 0 then [CategoryLabel("Government Agencies", counts.agencies)] else [])
    + (if counts.companies > 0 then [CategoryLabel("Companies", counts.companies)] else [])
  }

  lemma TitledPositives(counts: StakeholderCounts)
    ensures var rows, o, i, a, c := Titled(counts),
        (if counts.organizations > 0 then 1 else 0), (if counts.individuals > 0 then 1 else 0),
        (if counts.agencies > 0 then 1 else 0), (if counts.companies > 0 then 1 else 0);
      && PositivesBefore(rows, 0) == 0 && PositivesBefore(rows, 1) == o && PositivesBefore(rows, 2) == o + i
      && PositivesBefore(rows, 3) == o + i + a && PositivesBefore(rows, 4) == o + i + a + c
  {
    var rows := Titled(counts);
    assert PositivesBefore(rows, 1) == PositivesBefore(rows, 0) + (if rows[0].1 > 0 then 1 else 0);
    assert PositivesBefore(rows, 2) == PositivesBefore(rows, 1) + (if rows[1].1 > 0 then 1 else 0);
    assert PositivesBefore(rows, 3) == PositivesBefore(rows, 2) + (if rows[2].1 > 0 then 1 else 0);
    assert PositivesBefore(rows, 4) == PositivesBefore(rows, 3) + (if rows[3].1 > 0 then 1 else 0);
  }

  /** A category's label is reported exactly when its count is positive. */
  lemma CategoryMembership(counts: StakeholderCounts)
    ensures forall j | 0 <= j < 4 ::
      CategoryLabel(Titled(counts)[j].0, Titled(counts)[j].1) in CategorizeStakeholders(counts) <==> Titled(counts)[j].1 > 0
  {
    forall j | 0 <= j < 4
      ensures CategoryLabel(Titled(counts)[j].0, Titled(counts)[j].1) in CategorizeStakeholders(counts) ==> Titled(counts)[j].1 > 0
    {
      var rows := Titled(counts);
      var l := CategoryLabel(rows[j].0, rows[j].1);
      if l in CategorizeStakeholders(counts) {
        ReportedInitials(counts, l);
        assert l[0] == rows[j].0[0];
      }
    }
  }

  /** Every reported label starts with the initial of a category whose count is positive. */
  lemma ReportedInitials(counts: StakeholderCounts, x: string)
    requires x in CategorizeStakeholders(counts)
    ensures |x| > 0
    ensures x[0] == 'O' ==> counts.organizations > 0
    ensures x[0] == 'I' ==> counts.individuals > 0
    ensures x[0] == 'G' ==> counts.agencies > 0
    ensures x[0] == 'C' ==> counts.companies > 0
  {
    var o := if counts.organizations > 0 then [CategoryLabel("Organizations", counts.organizations)] else [];
    var i := if counts.individuals > 0 then [CategoryLabel("Individuals", counts.individuals)] else [];
    var a := if counts.agencies > 0 then [CategoryLabel("Government Agencies", counts.agencies)] else [];
    var c := if counts.companies > 0 then [CategoryLabel("Companies", counts.companies)] else [];
    assert CategorizeStakeholders(counts) == o + i + a + c;
    assert x in o || x in i || x in a || x in c;
  }

  /**
    For the tally of real comments there are at most two categories, and
    none exactly when no comment names an organization or a submitter.
   */
  lemma CategoriesOfTally(comments: seq<Comment>)
    ensures |CategorizeStakeholders(ExtractStakeholderInfo(comments).counts)| <= 2
    ensures |CategorizeStakeholders(ExtractStakeholderInfo(comments).counts)| == 0
      <==> Tally(comments).counts.other == |comments|
  {
  }

  // ---------------------------------------------------------------- key points

  const RegulatoryTerms: seq<string> := [
    "cost", "benefit", "impact", "implementation", "compliance",
    "burden", "efficiency", "effectiveness", "safety", "risk",
    "environment", "health", "economic", "social", "technical"]

  /** `term in all_text and all_text.count(term) >= 3` */
  predicate Frequent(all: string, term: string) {
    Contains(all, term) && PyCount(all, term) >= 3
  }

  /** For a non-empty term the containment test is implied by the count. */
  lemma FrequentIsCount(all: string, term: string)
    requires |term| > 0
    ensures Frequent(all, term) <==> CountOcc(all, term) >= 3
  {
    CountOccPositive(all, term);
  }

  /** The terms passing the test, in table order. */
  function FrequentTerms(all: string, terms: seq<string>): (r: seq<string>)
    ensures |r| <= |terms|
    decreases |terms|
  {
    if |terms| == 0 then []
    else (if Frequent(all, terms[0]) then [terms[0]] else []) + FrequentTerms(all, terms[1..])
  }

  /** A term is kept exactly when it is in the table and frequent. */
  lemma {:induction false} FrequentTermsMembers(all: string, terms: seq<string>)
    ensures forall t :: t in FrequentTerms(all, terms) <==> t in terms && Frequent(all, t)
    decreases |terms|
  {
    if |terms| > 0 {
      FrequentTermsMembers(all, terms[1..]);
      assert forall t :: t in terms <==> t == terms[0] || t in terms[1..];
    }
  }

  function KeyPointText(term: string): string {
    "Concerns about " + term + " mentioned frequently"
  }

  /** The sentence for each term, in order. */
  function KeyPointTexts(terms: seq<string>): (r: seq<string>)
    ensures |r| == |terms|
    ensures forall i | 0 <= i < |terms| :: r[i] == KeyPointText(terms[i])
  {
    seq(|terms|, i requires 0 <= i < |terms| => KeyPointText(terms[i]))
  }

  /** `_extract_key_points_basic`: the first five frequent terms, as sentences. */
  function ExtractKeyPoints(texts: seq<string>): (r: seq<string>)
    ensures |r| <= 5
  {
    Take(KeyPointTexts(FrequentTerms(AllText(texts), RegulatoryTerms)), 5)
  }

  /**
    Every key point names a frequent term of the table, and the points
    follow the table's order.
   */
  lemma KeyPointsAreFrequent(texts: seq<string>, i: nat)
    requires i < |ExtractKeyPoints(texts)|
    ensures ExtractKeyPoints(texts)[i] == KeyPointText(FrequentTerms(AllText(texts), RegulatoryTerms)[i])
    ensures FrequentTerms(AllText(texts), RegulatoryTerms)[i] in RegulatoryTerms
    ensures Frequent(AllText(texts), FrequentTerms(AllText(texts), RegulatoryTerms)[i])
  {
    var found := FrequentTerms(AllText(texts), RegulatoryTerms);
    FrequentTermsMembers(AllText(texts), RegulatoryTerms);
    assert found[i] in found;
  }

  // ---------------------------------------------------------------- perspectives and sentiment

  const PositiveWords: seq<string> := ["support", "agree", "beneficial", "good", "effective"]
  const NegativeWords: seq<string> := ["oppose", "concern", "problem", "burden", "costly"]
  const SentimentPositive: seq<string> := PositiveWords + ["necessary"]
  const SentimentNegative: seq<string> := NegativeWords + ["unnecessary"]

  const MixedPerspectives := "Mixed perspectives on the proposed regulation"

  /** `_identify_common_perspectives_basic`: one stance decided by the plain majority. */
  function IdentifyPerspectives(texts: seq<string>): (r: seq<string>)
    ensures |r| == 1
    ensures r[0] == AdvancedAnalyzer.Supportive
      <==> CountAll(AllText(texts), PositiveWords) > CountAll(AllText(texts), NegativeWords)
    ensures r[0] == AdvancedAnalyzer.Concerned
      <==> CountAll(AllText(texts), NegativeWords) > CountAll(AllText(texts), PositiveWords)
    ensures r[0] == MixedPerspectives
      <==> CountAll(AllText(texts), PositiveWords) == CountAll(AllText(texts), NegativeWords)
  {
    var all := AllText(texts);
    var positive, negative := CountAll(all, PositiveWords), CountAll(all, NegativeWords);
    if positive > negative then [AdvancedAnalyzer.Supportive]
    else if negative > positive then [AdvancedAnalyzer.Concerned]
    else [MixedPerspectives]
  }

  /** `_analyze_sentiment_basic`: the 1.5-times rule over the word lists with "necessary". */
  function AnalyzeSentiment(texts: seq<string>): (r: string)
    ensures r in {AdvancedAnalyzer.PositiveSentiment, AdvancedAnalyzer.NegativeSentiment, AdvancedAnalyzer.MixedSentiment}
    ensures var positive, negative := CountAll(AllText(texts), SentimentPositive), CountAll(AllText(texts), SentimentNegative);
      && (r == AdvancedAnalyzer.PositiveSentiment <==> AdvancedAnalyzer.Dominates(positive, negative))
      && (r == AdvancedAnalyzer.NegativeSentiment <==> AdvancedAnalyzer.Dominates(negative, positive))
      && (r == AdvancedAnalyzer.MixedSentiment
          <==> !AdvancedAnalyzer.Dominates(positive, negative) && !AdvancedAnalyzer.Dominates(negative, positive))
  {
    var all := AllText(texts);
    AdvancedAnalyzer.SentimentLabel(CountAll(all, SentimentPositive), CountAll(all, SentimentNegative))
  }

  /** "unnecessary" contains "necessary". */
  lemma UnnecessaryHasNecessary(all: string)
    requires Contains(all, "unnecessary")
    ensures Contains(all, "necessary")
  {
    var i :| 0 <= i <= |all| - 11 && OccursAt(all, "unnecessary", i);
    assert all[i + 2..i + 11] == all[i..i + 11][2..];
    ContainsWitness(all, "necessary", i + 2);
  }

  /**
    On a corpus without "necessary" the two read the same counts: a
    positive sentiment comes with a supportive perspective, a negative one
    with a concerned perspective, and a tie with mixed sentiment.
   */
  lemma SentimentAgreesWithPerspective(texts: seq<string>)
    requires !Contains(AllText(texts), "necessary")
    ensures AnalyzeSentiment(texts) == AdvancedAnalyzer.PositiveSentiment
      ==> IdentifyPerspectives(texts)[0] == AdvancedAnalyzer.Supportive
    ensures AnalyzeSentiment(texts) == AdvancedAnalyzer.NegativeSentiment
      ==> IdentifyPerspectives(texts)[0] == AdvancedAnalyzer.Concerned
    ensures IdentifyPerspectives(texts)[0] == MixedPerspectives
      ==> AnalyzeSentiment(texts) == AdvancedAnalyzer.MixedSentiment
  {
    var all := AllText(texts);
    CountAllConcat(all, PositiveWords, ["necessary"]);
    CountAllConcat(all, NegativeWords, ["unnecessary"]);
    AdvancedAnalyzer.WordAbsent(all, "necessary");
    if Contains(all, "unnecessary") {
      UnnecessaryHasNecessary(all);
    }
    AdvancedAnalyzer.WordAbsent(all, "unnecessary");
  }

  // ---------------------------------------------------------------- summary

  function SummaryHead(total: nat): string {
    "Analysis of " + NatToString(total) + " public comments reveals:"
  }

  function SummaryParts(keyPoints: seq<string>, perspectives: seq<string>, sentiment: string, total: nat): (r: seq<string>)
    ensures 2 <= |r| <= 4
  {
    [SummaryHead(total), "Sentiment: " + sentiment]
    + (if |perspectives| > 0 then ["Common perspectives: " + Join("; ", perspectives)] else [])
    + (if |keyPoints| > 0 then ["Key themes: " + Join("; ", keyPoints)] else [])
  }

  /** `_generate_summary` */
  function GenerateSummary(keyPoints: seq<string>, perspectives: seq<string>, sentiment: string, total: nat): string {
    Join(" ", SummaryParts(keyPoints, perspectives, sentiment, total))
  }

  /**
    The summary opens with the head and the sentiment, and ends with the
    key themes when there are any, else with the perspectives when there are
    any, else with the sentiment.
   */
  lemma {:induction false} SummaryShape(keyPoints: seq<string>, perspectives: seq<string>, sentiment: string, total: nat)
    ensures StartsWith(GenerateSummary(keyPoints, perspectives, sentiment, total),
      SummaryHead(total) + " " + "Sentiment: " + sentiment)
    ensures |keyPoints| > 0 ==>
      EndsWith(GenerateSummary(keyPoints, perspectives, sentiment, total), "Key themes: " + Join("; ", keyPoints))
    ensures |keyPoints| == 0 && |perspectives| > 0 ==>
      EndsWith(GenerateSummary(keyPoints, perspectives, sentiment, total), "Common perspectives: " + Join("; ", perspectives))
    ensures |keyPoints| == 0 && |perspectives| == 0 ==>
      GenerateSummary(keyPoints, perspectives, sentiment, total) == SummaryHead(total) + " " + "Sentiment: " + sentiment
  {
    var parts := SummaryParts(keyPoints, perspectives, sentiment, total);
    JoinFirstTwo(" ", parts);
    JoinLast(" ", parts);
    if |parts| == 2 {
      assert parts[1..] == ["Sentiment: " + sentiment];
      assert Join(" ", parts) == parts[0] + " " + Join(" ", parts[1..]);
    }
  }

  // ---------------------------------------------------------------- analysis

  datatype CommentAnalysis = CommentAnalysis(
    keyPoints: seq<string>,
    commonPerspectives: seq<string>,
    sentimentSummary: string,
    stakeholderTypes: seq<string>,
    summary: string,
    totalCommentsAnalyzed: nat)

  const NoComments := "No comments found for analysis"
  const NoCommentsSummary := "No public comments were found for this document."
  const AnalyzeFailure := "Failed to analyze comments: "

  const EmptyAnalysis := CommentAnalysis([], [], NoComments, [], NoCommentsSummary, 0)

  /** `_perform_ai_analysis` */
  function PerformAnalysis(texts: seq<string>, info: StakeholderInfo, total: nat): (a: CommentAnalysis)
    ensures a.totalCommentsAnalyzed == total
    ensures |a.keyPoints| <= 5 && |a.commonPerspectives| == 1
    ensures a.sentimentSummary == AnalyzeSentiment(texts)
    ensures a.summary == GenerateSummary(a.keyPoints, a.commonPerspectives, a.sentimentSummary, total)
  {
    var keyPoints := ExtractKeyPoints(texts);
    var perspectives := IdentifyPerspectives(texts);
    var sentiment := AnalyzeSentiment(texts);
    CommentAnalysis(keyPoints, perspectives, sentiment, CategorizeStakeholders(info.counts),
      GenerateSummary(keyPoints, perspectives, sentiment, total), total)
  }

  /**
    `analyze_comments`: no comments give the fixed empty analysis; otherwise
    the texts that are not empty are analysed; a failed fetch is raised
    again with a prefix.
   */
  function AnalyzeComments(api: Api, documentId: string, max: int): (r: Result<CommentAnalysis, string>)
    ensures FetchCommentsByDocumentId(api, documentId, max).Err? <==> r.Err?
    ensures r.Err? ==> r.error == AnalyzeFailure + FetchCommentsByDocumentId(api, documentId, max).error
    ensures r.Ok? && r.value.totalCommentsAnalyzed > 0 ==> r.value.totalCommentsAnalyzed <= max
    ensures FetchCommentsByDocumentId(api, documentId, max) == Ok([]) ==> r == Ok(EmptyAnalysis)
  {
    match FetchCommentsByDocumentId(api, documentId, max)
    case Err(e) => Err(AnalyzeFailure + e)
    case Ok(comments) =>
      if |comments| == 0 then Ok(EmptyAnalysis)
      else
        Ok(PerformAnalysis(PrepareCommentData(comments).texts, ExtractStakeholderInfo(comments), |comments|))
  }

  /**
    For fetched comments the analysis counts every comment, reads only the
    texts that are not empty, and names the stakeholder kinds the tally found.
   */
  lemma AnalysisOfComments(api: Api, documentId: string, max: int)
    requires FetchCommentsByDocumentId(api, documentId, max).Ok?
    requires |FetchCommentsByDocumentId(api, documentId, max).value| > 0
    ensures AnalyzeComments(api, documentId, max).Ok?
    ensures var comments := FetchCommentsByDocumentId(api, documentId, max).value;
      var a := AnalyzeComments(api, documentId, max).value;
      a.totalCommentsAnalyzed == |comments|
      && a.sentimentSummary == AnalyzeSentiment(PrepareCommentData(comments).texts)
      && |a.stakeholderTypes| <= 2
      && (|a.stakeholderTypes| == 0 <==> Tally(comments).counts.other == |comments|)
  {
    CategoriesOfTally(FetchCommentsByDocumentId(api, documentId, max).value);
  }

  // ---------------------------------------------------------------- tool envelopes

  function AnalysisJson(a: CommentAnalysis): Json {
    JObj([
      ("key_points", StrList(a.keyPoints)),
      ("common_perspectives", StrList(a.commonPerspectives)),
      ("sentiment_summary", JStr(a.sentimentSummary)),
      ("stakeholder_types", StrList(a.stakeholderTypes)),
      ("summary", JStr(a.summary)),
      ("total_comments_analyzed", JInt(a.totalCommentsAnalyzed))])
  }

  /** `analyze_document_comments`: the analysis, or the error, never an exception. */
  function AnalyzeDocumentComments(api: Api, documentId: string, max: int): (r: Json)
    ensures r.JObj? && |r.fields| == 3
    ensures r.fields[0] == ("success", JBool(AnalyzeComments(api, documentId, max).Ok?))
    ensures AnalyzeComments(api, documentId, max).Ok? ==>
      r.fields[2] == ("analysis", AnalysisJson(AnalyzeComments(api, documentId, max).value))
    ensures AnalyzeComments(api, documentId, max).Err? ==>
      r.fields[1] == ("error", JStr(AnalyzeComments(api, documentId, max).error))
  {
    match AnalyzeComments(api, documentId, max)
    case Ok(a) => JObj([("success", JBool(true)), ("document_id", JStr(documentId)), ("analysis", AnalysisJson(a))])
    case Err(e) => JObj([("success", JBool(false)), ("error", JStr(e)), ("document_id", JStr(documentId))])
  }

  /** `get_comment_count`: the count never fails, so the envelope always succeeds. */
  function GetCommentCount(api: Api, documentId: string): (r: Json)
    ensures r.JObj? && |r.fields| == 3 && r.fields[0] == ("success", JBool(true))
    ensures r.fields[2] == ("comment_count", GetDocumentCommentCount(api, documentId))
  {
    JObj([
      ("success", JBool(true)),
      ("document_id", JStr(documentId)),
      ("comment_count", GetDocumentCommentCount(api, documentId))])
  }

  /** `test_api_connection` as a tool: the message, or the reworded error. */
  function TestApiConnectionTool(dockets: Transport, comments: Transport): (r: Json)
    ensures r.JObj? && |r.fields| == 2
    ensures r.fields[0] == ("success", JBool(TestApiConnection(dockets, comments).Ok?))
    ensures TestApiConnection(dockets, comments).Ok? ==>
      r.fields[1] == ("message", JStr(TestApiConnection(dockets, comments).value))
    ensures TestApiConnection(dockets, comments).Err? ==>
      r.fields[1] == ("error", JStr(TestApiConnection(dockets, comments).error))
  {
    match TestApiConnection(dockets, comments)
    case Ok(message) => JObj([("success", JBool(true)), ("message", JStr(message))])
    case Err(e) => JObj([("success", JBool(false)), ("error", JStr(e))])
  }

  /** A rejected key surfaces in the tool's envelope as the invalid-key error. */
  lemma ToolReportsInvalidKey(reason: string, body: Result<Json, string>, comments: Transport)
    ensures TestApiConnectionTool(Response(401, reason, body), comments)
      == JObj([("success", JBool(false)), ("error", JStr(InvalidApiKey))])
  {
    UnauthorizedIsInvalidKey(reason, body, comments);
  }
}

=== FILE: comments.dfy ===
/**
  A public comment as the regulations.gov client returns it, and the corpus
  the advanced analyzer builds from a list of comments before any detector
  runs: the non-empty texts, one stakeholder record per kept text, the
  non-empty posting dates of kept comments and the total comment count.
 */
module Comments {
  import opened Wrappers

  datatype Comment = Comment(
    id: string,
    commentOnDocumentId: string,
    commentText: string,
    submitterName: Option<string>,
    organizationName: Option<string>,
    firstName: Option<string>,
    lastName: Option<string>,
    postedDate: string,
    title: Option<string>,
    docketId: string,
    agencyId: string)

  /** Python truthiness of an optional string: present and non-empty. */
  predicate Present(o: Option<string>) {
    o.Some? && |o.value| > 0
  }

  /** `a or b` on optional strings */
  function Or(a: Option<string>, b: Option<string>): (r: Option<string>)
    ensures Present(a) ==> r == a
    ensures !Present(a) ==> r == b
  {
    if Present(a) then a else b
  }

  datatype StakeholderKind = Organization | Individual

  datatype Stakeholder = Stakeholder(name: Option<string>, kind: StakeholderKind, organization: Option<string>)

  datatype Corpus = Corpus(
    texts: seq<string>,
    stakeholders: seq<Stakeholder>,
    dates: seq<string>,
    totalComments: nat)

  /** The stakeholder record of one comment: named by its submitter, else its organization. */
  function StakeholderOf(c: Comment): (s: Stakeholder)
    ensures s.kind == Organization <==> Present(c.organizationName)
    ensures Present(c.submitterName) ==> s.name == c.submitterName
    ensures !Present(c.submitterName) ==> s.name == c.organizationName
    ensures s.organization == c.organizationName
  {
    Stakeholder(
      Or(c.submitterName, c.organizationName),
      if Present(c.organizationName) then Organization else Individual,
      c.organizationName)
  }

  predicate HasText(c: Comment) {
    |c.commentText| > 0
  }

  /** What one comment adds to the three corpus lists. */
  function Contribution(c: Comment): (r: Corpus)
    ensures |r.texts| == |r.stakeholders| <= 1
    ensures HasText(c) <==> |r.texts| == 1
  {
    if !HasText(c) then Corpus([], [], [], 1)
    else Corpus([c.commentText], [StakeholderOf(c)], if |c.postedDate| > 0 then [c.postedDate] else [], 1)
  }

  /**
    The corpus of `comments`: kept texts in input order with a parallel
    stakeholder list; `totalComments` counts the comments without text too.
   */
  function PrepareCommentData(comments: seq<Comment>): (d: Corpus)
    ensures d.totalComments == |comments|
    ensures |d.texts| == |d.stakeholders| <= |comments|
    ensures |d.dates| <= |d.texts|
    decreases |comments|
  {
    if |comments| == 0 then Corpus([], [], [], 0)
    else
      Append(Contribution(comments[0]), PrepareCommentData(comments[1..]))
  }

  /** Two corpora one after the other. */
  function Append(a: Corpus, b: Corpus): Corpus {
    Corpus(a.texts + b.texts, a.stakeholders + b.stakeholders, a.dates + b.dates, a.totalComments + b.totalComments)
  }

  /** The comments that carry text, in input order (the reference filter). */
  function Kept(comments: seq<Comment>): seq<Comment>
    decreases |comments|
  {
    if |comments| == 0 then []
    else (if HasText(comments[0]) then [comments[0]] else []) + Kept(comments[1..])
  }

  /** The filter keeps exactly the comments with text. */
  lemma {:induction false} KeptMembers(comments: seq<Comment>)
    ensures forall i | 0 <= i < |Kept(comments)| :: HasText(Kept(comments)[i]) && Kept(comments)[i] in comments
    ensures forall c | c in comments && HasText(c) :: c in Kept(comments)
    decreases |comments|
  {
    if |comments| > 0 {
      KeptMembers(comments[1..]);
      var t := Kept(comments[1..]);
      var h: seq<Comment> := if HasText(comments[0]) then [comments[0]] else [];
      assert Kept(comments) == h + t;
      assert forall c | c in comments[1..] :: c in comments;
      assert forall c | c in comments :: c == comments[0] || c in comments[1..];
    }
  }

  /**
    The corpus lists are the kept comments' texts and stakeholder records,
    position by position.
   */
  lemma {:induction false} PrepareIsKept(comments: seq<Comment>)
    ensures |PrepareCommentData(comments).texts| == |Kept(comments)|
    ensures forall i | 0 <= i < |Kept(comments)| ::
      PrepareCommentData(comments).texts[i] == Kept(comments)[i].commentText
      && PrepareCommentData(comments).stakeholders[i] == StakeholderOf(Kept(comments)[i])
    decreases |comments|
  {
    if |comments| > 0 {
      PrepareIsKept(comments[1..]);
      var k := Kept(comments);
      var k' := Kept(comments[1..]);
      var d := PrepareCommentData(comments);
      var d' := PrepareCommentData(comments[1..]);
      var o := if HasText(comments[0]) then 1 else 0;
      assert |k| == o + |k'|;
      forall i | o <= i < |k|
        ensures d.texts[i] == k[i].commentText && d.stakeholders[i] == StakeholderOf(k[i])
      {
        assert k[i] == k'[i - o];
        assert d.texts[i] == d'.texts[i - o];
        assert d.stakeholders[i] == d'.stakeholders[i - o];
      }
    }
  }

  /** Every kept text is non-empty, and every comment with text contributes it. */
  lemma PrepareTexts(comments: seq<Comment>)
    ensures forall i | 0 <= i < |PrepareCommentData(comments).texts| ::
      |PrepareCommentData(comments).texts[i]| > 0
    ensures forall c | c in comments && HasText(c) :: c.commentText in PrepareCommentData(comments).texts
  {
    PrepareIsKept(comments);
    KeptMembers(comments);
    var d := PrepareCommentData(comments);
    var k := Kept(comments);
    forall c | c in comments && HasText(c)
      ensures c.commentText in d.texts
    {
      var i :| 0 <= i < |k| && k[i] == c;
      assert d.texts[i] == c.commentText;
    }
  }

  lemma AppendAssoc(x: Corpus, y: Corpus, z: Corpus)
    ensures Append(x, Append(y, z)) == Append(Append(x, y), z)
  {
  }

  /**
    Building the corpus of a concatenation appends the two corpora: the
    kept texts, stakeholders and dates keep their input order.
   */
  lemma {:induction false} PrepareConcat(a: seq<Comment>, b: seq<Comment>)
    ensures PrepareCommentData(a + b) == Append(PrepareCommentData(a), PrepareCommentData(b))
    decreases |a|
  {
    if |a| == 0 {
      assert a + b == b;
    } else {
      var ab := a + b;
      assert ab[0] == a[0] && ab[1..] == a[1..] + b;
      PrepareConcat(a[1..], b);
      var h := Contribution(a[0]);
      calc {
        PrepareCommentData(ab);
        Append(h, PrepareCommentData(a[1..] + b));
        Append(h, Append(PrepareCommentData(a[1..]), PrepareCommentData(b)));
        { AppendAssoc(h, PrepareCommentData(a[1..]), PrepareCommentData(b)); }
        Append(Append(h, PrepareCommentData(a[1..])), PrepareCommentData(b));
      }
    }
  }

  /** A single comment is kept exactly when its text is non-empty, with its own stakeholder record. */
  lemma PrepareOne(c: Comment)
    ensures PrepareCommentData([c]).texts == (if HasText(c) then [c.commentText] else [])
    ensures PrepareCommentData([c]).stakeholders == (if HasText(c) then [StakeholderOf(c)] else [])
  {
    assert [c][1..] == [];
  }
}

=== FILE: counter.dfy ===
/**
  Python's `collections.Counter` built from a sequence, and its
  `most_common()`: the distinct elements in first-seen order with their
  multiplicities, then a stable sort by descending count.
 */
module Counter {
  import opened Strings
  import opened StableSort

  /** A counter's items, in insertion order. */
  type Tally<T> = seq<(T, nat)>

  /** The first components of a sequence of pairs (a dictionary's keys). */
  function Keys<K, V>(c: seq<(K, V)>): (r: seq<K>)
    ensures |r| == |c|
    ensures forall i | 0 <= i < |c| :: r[i] == c[i].0
  {
    seq(|c|, i requires 0 <= i < |c| => c[i].0)
  }

  /** The sum of the counts. */
  function Total<T>(c: Tally<T>): nat
    decreases |c|
  {
    if |c| == 0 then 0 else c[0].1 + Total(c[1..])
  }

  /** `c[y]`: the count of the first item with key `y`, or 0. */
  function CountIn<T(==)>(c: Tally<T>, y: T): nat
    decreases |c|
  {
    if |c| == 0 then 0
    else if c[0].0 == y then c[0].1
    else CountIn(c[1..], y)
  }

  /** `c[x] += 1`: bumps the item of `x`, or appends a new one. */
  function Bump<T(==)>(c: Tally<T>, x: T): Tally<T>
    decreases |c|
  {
    if |c| == 0 then [(x, 1)]
    else if c[0].0 == x then [(x, c[0].1 + 1)] + c[1..]
    else [c[0]] + Bump(c[1..], x)
  }

  lemma {:induction false} BumpKeys<T>(c: Tally<T>, x: T)
    ensures Keys(Bump(c, x)) == if x in Keys(c) then Keys(c) else Keys(c) + [x]
    decreases |c|
  {
    if |c| > 0 {
      BumpKeys(c[1..], x);
      assert Keys(c) == [c[0].0] + Keys(c[1..]);
      if c[0].0 != x {
        assert Keys(Bump(c, x)) == [c[0].0] + Keys(Bump(c[1..], x));
      } else {
        assert Keys(Bump(c, x)) == [x] + Keys(c[1..]);
      }
    }
  }

  lemma {:induction false} BumpTotal<T>(c: Tally<T>, x: T)
    ensures Total(Bump(c, x)) == Total(c) + 1
    decreases |c|
  {
    if |c| > 0 && c[0].0 != x {
      BumpTotal(c[1..], x);
      assert Bump(c, x)[1..] == Bump(c[1..], x);
    } else if |c| > 0 {
      assert Bump(c, x)[1..] == c[1..];
    }
  }

  lemma {:induction false} BumpCount<T>(c: Tally<T>, x: T, y: T)
    ensures CountIn(Bump(c, x), y) == CountIn(c, y) + (if x == y then 1 else 0)
    decreases |c|
  {
    if |c| > 0 && c[0].0 != x {
      BumpCount(c[1..], x, y);
      assert Bump(c, x)[1..] == Bump(c[1..], x);
    } else if |c| > 0 {
      assert Bump(c, x)[1..] == c[1..];
    }
  }

  /** With distinct keys, every item carries the count of its key. */
  lemma {:induction false} ItemCount<T>(c: Tally<T>, i: nat)
    requires NoDup(Keys(c)) && i < |c|
    ensures c[i].1 == CountIn(c, c[i].0)
    decreases i
  {
    if i > 0 {
      assert Keys(c)[0] != Keys(c)[i];
      assert NoDup(Keys(c[1..])) by {
        forall a, b | 0 <= a < b < |c| - 1
          ensures Keys(c[1..])[a] != Keys(c[1..])[b]
        {
          assert Keys(c)[a + 1] != Keys(c)[b + 1];
        }
      }
      ItemCount(c[1..], i - 1);
    }
  }

  /** `Counter(xs)` */
  function CounterOf<T(==)>(xs: seq<T>): Tally<T>
    decreases |xs|
  {
    if |xs| == 0 then [] else Bump(CounterOf(xs[..|xs| - 1]), xs[|xs| - 1])
  }

  /** The counter's keys are the distinct elements in first-seen order. */
  lemma {:induction false} CounterKeys<T>(xs: seq<T>)
    ensures Keys(CounterOf(xs)) == Dedup(xs)
    decreases |xs|
  {
    if |xs| > 0 {
      CounterKeys(xs[..|xs| - 1]);
      BumpKeys(CounterOf(xs[..|xs| - 1]), xs[|xs| - 1]);
    }
  }

  /** The counts add up to the length of the input. */
  lemma {:induction false} CounterTotal<T>(xs: seq<T>)
    ensures Total(CounterOf(xs)) == |xs|
    decreases |xs|
  {
    if |xs| > 0 {
      CounterTotal(xs[..|xs| - 1]);
      BumpTotal(CounterOf(xs[..|xs| - 1]), xs[|xs| - 1]);
    }
  }

  /** The counter holds each element's multiplicity. */
  lemma {:induction false} CounterCounts<T>(xs: seq<T>, y: T)
    ensures CountIn(CounterOf(xs), y) == multiset(xs)[y]
    decreases |xs|
  {
    if |xs| > 0 {
      var init, x := xs[..|xs| - 1], xs[|xs| - 1];
      var c := CounterOf(init);
      CounterCounts(init, y);
      BumpCount(c, x, y);
      assert xs == init + [x];
      calc {
        CountIn(CounterOf(xs), y);
        CountIn(Bump(c, x), y);
        CountIn(c, y) + (if x == y then 1 else 0);
        multiset(init)[y] + multiset{x}[y];
        (multiset(init) + multiset{x})[y];
        multiset(xs)[y];
      }
    }
  }

  function CountKey<T>(item: (T, nat)): real {
    item.1 as real
  }

  lemma {:induction false} TotalConcat<T>(a: Tally<T>, b: Tally<T>)
    ensures Total(a + b) == Total(a) + Total(b)
    decreases |a|
  {
    if |a| == 0 {
      assert a + b == b;
    } else {
      assert (a + b)[1..] == a[1..] + b;
      TotalConcat(a[1..], b);
    }
  }

  lemma {:induction false} InsertTotal<T>(x: (T, nat), c: Tally<T>)
    ensures Total(Insert(x, c, CountKey)) == x.1 + Total(c)
    decreases |c|
  {
    if |c| > 0 && CountKey(c[0]) >= CountKey(x) {
      InsertTotal(x, c[1..]);
      assert Insert(x, c, CountKey)[1..] == Insert(x, c[1..], CountKey);
    } else if |c| > 0 {
      assert Insert(x, c, CountKey)[1..] == c;
    }
  }

  lemma {:induction false} SortTotal<T>(c: Tally<T>)
    ensures Total(SortDesc(c, CountKey)) == Total(c)
    decreases |c|
  {
    if |c| > 0 {
      var init, last := c[..|c| - 1], c[|c| - 1];
      SortTotal(init);
      InsertTotal(last, SortDesc(init, CountKey));
      assert c == init + [last];
      TotalConcat(init, [last]);
      assert Total([last]) == last.1;
    }
  }

  /** `Counter(xs).most_common()` */
  function MostCommon<T(==)>(xs: seq<T>): (r: Tally<T>)
    ensures SortedDesc(r, CountKey)
    ensures Total(r) == |xs|
    ensures |r| == |Dedup(xs)| <= |xs|
  {
    CounterKeys(xs);
    CounterTotal(xs);
    assert |CounterOf(xs)| == |Keys(CounterOf(xs))|;
    SortTotal(CounterOf(xs));
    SortDesc(CounterOf(xs), CountKey)
  }

  /** Every item of `most_common()` is an element of `xs` with its multiplicity. */
  lemma MostCommonCounts<T>(xs: seq<T>)
    ensures forall i | 0 <= i < |MostCommon(xs)| ::
      MostCommon(xs)[i].0 in xs && MostCommon(xs)[i].1 == multiset(xs)[MostCommon(xs)[i].0]
  {
    var c := CounterOf(xs);
    var r := MostCommon(xs);
    SortDescPermutes(c, CountKey);
    forall i | 0 <= i < |r|
      ensures r[i].0 in xs && r[i].1 == multiset(xs)[r[i].0]
    {
      ItemOfCounter(xs, r[i]);
    }
  }

  lemma ItemOfCounter<T>(xs: seq<T>, item: (T, nat))
    requires item in multiset(CounterOf(xs))
    ensures item.0 in xs && item.1 == multiset(xs)[item.0]
  {
    var c := CounterOf(xs);
    CounterKeys(xs);
    var j :| 0 <= j < |c| && c[j] == item;
    assert Keys(c)[j] == item.0;
    ItemCount(c, j);
    CounterCounts(xs, item.0);
  }

  /** Every element of `xs` has an item in `most_common()`. */
  lemma MostCommonCovers<T>(xs: seq<T>)
    ensures forall x | x in xs :: x in Keys(MostCommon(xs))
  {
    var c := CounterOf(xs);
    var r := MostCommon(xs);
    CounterKeys(xs);
    SortDescPermutes(c, CountKey);
    forall x | x in xs
      ensures x in Keys(r)
    {
      assert x in Keys(c);
      var j :| 0 <= j < |c| && Keys(c)[j] == x;
      assert c[j] in multiset(r);
      var i :| 0 <= i < |r| && r[i] == c[j];
      assert Keys(r)[i] == x;
    }
  }

  /** Ties keep first-seen order. */
  lemma MostCommonStable<T>(xs: seq<T>, v: real)
    ensures WithKey(MostCommon(xs), CountKey, v) == WithKey(CounterOf(xs), CountKey, v)
  {
    SortDescStable(CounterOf(xs), CountKey, v);
  }
}

=== FILE: documents_lambda.dfy ===
/**
  The document-listing Lambda: pagination parameters, the `.json` key window
  over a bucket listing, document extraction from fetched objects and the API
  Gateway responses. The bucket is an input: its listing (all object keys
  under the prefix, in listing order, or the exception listing raised) and
  the outcome of fetching and decoding each object.
 */
module DocumentsLambda {
  import opened Wrappers
  import opened Strings
  import opened Json

  // ---------------------------------------------------------------------
  // Pagination parameters

  const DefaultLimit := 10
  const MaxLimit := 1000

  /**
    `_validate_pagination_params`: a given limit ends up in `1 .. 1000`
    (unchanged when already there, 10 when not positive, 1000 when larger),
    an absent limit stays absent, and a negative offset becomes 0.
   */
  function ValidatePagination(limit: Option<int>, offset: int): (r: (Option<int>, int))
    ensures r.0.None? <==> limit.None?
    ensures r.0.Some? ==> 1 <= r.0.value <= MaxLimit
    ensures limit.Some? && 1 <= limit.value <= MaxLimit ==> r.0 == limit
    ensures limit.Some? && limit.value <= 0 ==> r.0 == Some(DefaultLimit)
    ensures limit.Some? && limit.value > MaxLimit ==> r.0 == Some(MaxLimit)
    ensures r.1 >= 0 && (offset >= 0 ==> r.1 == offset)
  {
    var l :=
      if limit.None? then None
      else if limit.value <= 0 then Some(DefaultLimit)
      else if limit.value > MaxLimit then Some(MaxLimit)
      else limit;
    (l, if offset < 0 then 0 else offset)
  }

  /** Parameters the handler may pass on to the listing. */
  predicate ValidPage(limit: Option<int>, offset: int) {
    offset >= 0 && (limit.Some? ==> 1 <= limit.value <= MaxLimit)
  }

  /** Validated parameters are valid, and validating them again changes nothing. */
  lemma ValidatePaginationIdempotent(limit: Option<int>, offset: int)
    ensures ValidPage(ValidatePagination(limit, offset).0, ValidatePagination(limit, offset).1)
    ensures var (l, o) := ValidatePagination(limit, offset); ValidatePagination(l, o) == (l, o)
  {
  }

  /** Valid parameters are exactly the fixed points of the validation. */
  lemma ValidPageIsFixedPoint(limit: Option<int>, offset: int)
    ensures ValidPage(limit, offset) <==> ValidatePagination(limit, offset) == (limit, offset)
  {
  }

  // ---------------------------------------------------------------------
  // Python slicing

  /** A slice bound normalised as Python does: negative counts from the end, then clamped. */
  function ClampIndex(i: int, n: nat): (r: nat)
    ensures r <= n
    ensures 0 <= i <= n ==> r == i
  {
    if i < 0 then (if i + n < 0 then 0 else i + n)
    else if i > n then n
    else i
  }

  /** `xs[start:stop]`, with `None` for an omitted stop. */
  function PySlice<T>(xs: seq<T>, start: int, stop: Option<int>): (r: seq<T>)
    ensures |r| <= |xs|
  {
    var lo := ClampIndex(start, |xs|);
    var hi := if stop.None? then |xs| else ClampIndex(stop.value, |xs|);
    if lo <= hi then xs[lo..hi] else []
  }

  /** For a non-negative start the slice is the run of elements from `start` up to `stop`. */
  lemma PySliceElements<T>(xs: seq<T>, start: int, stop: Option<int>)
    requires start >= 0 && (stop.Some? ==> stop.value >= 0)
    ensures var hi := if stop.None? || stop.value > |xs| then |xs| else stop.value;
      PySlice(xs, start, stop) == if start < hi then xs[start..hi] else []
  {
  }

  /** A slice that ends inside `xs` does not see what follows `xs`. */
  lemma PySlicePrefix<T>(xs: seq<T>, ys: seq<T>, start: int, stop: int)
    requires 0 <= start <= stop <= |xs|
    ensures PySlice(xs + ys, start, Some(stop)) == xs[start..stop] == PySlice(xs, start, Some(stop))
  {
    var zs := xs + ys;
    assert zs[start..stop] == xs[start..stop];
  }

  // ---------------------------------------------------------------------
  // JSON keys

  /** `key.lower().endswith(".json")` */
  predicate IsJsonKey(k: string) {
    EndsWith(Lower(k), ".json")
  }

  /** The keys ending in `.json` in any letter case, in listing order. */
  function JsonKeys(keys: seq<string>): (r: seq<string>)
    ensures |r| <= |keys|
    decreases |keys|
  {
    if |keys| == 0 then []
    else
      var k := keys[|keys| - 1];
      JsonKeys(keys[..|keys| - 1]) + (if IsJsonKey(k) then [k] else [])
  }

  /** The filter keeps exactly the `.json` keys. */
  lemma {:induction false} JsonKeysMembers(keys: seq<string>)
    ensures forall k :: k in JsonKeys(keys) <==> k in keys && IsJsonKey(k)
    decreases |keys|
  {
    if |keys| > 0 {
      var init := keys[..|keys| - 1];
      JsonKeysMembers(init);
      assert keys == init + [keys[|keys| - 1]];
    }
  }

  /** Filtering a listing piece by piece gives the filter of the whole listing. */
  lemma {:induction false} JsonKeysConcat(a: seq<string>, b: seq<string>)
    ensures JsonKeys(a + b) == JsonKeys(a) + JsonKeys(b)
    decreases |b|
  {
    if |b| > 0 {
      var init := b[..|b| - 1];
      JsonKeysConcat(a, init);
      assert (a + b)[..|a + b| - 1] == a + init;
    } else {
      assert a + b == a;
    }
  }

  /** Python truthiness of the optional limit: present and non-zero. */
  predicate LimitSet(limit: Option<int>) {
    limit.Some? && limit.value != 0
  }

  /** `keys[offset:offset + limit] if limit else keys[offset:]` */
  function Window(keys: seq<string>, limit: Option<int>, offset: int): (r: seq<string>)
    ensures LimitSet(limit) && limit.value > 0 ==> |r| <= limit.value
  {
    if LimitSet(limit) then PySlice(keys, offset, Some(offset + limit.value))
    else PySlice(keys, offset, None)
  }

  /**
    One pass of the paginator over the prefix: the object keys of the pages
    it delivered, in listing order, and the text of the exception raised
    fetching the next page, if one was.
   */
  datatype Listing = Listing(objects: seq<string>, failure: Option<string>)

  /** Whether a pass that collects `limit + offset` `.json` keys stops before the end of `objects`. */
  predicate Stops(objects: seq<string>, limit: Option<int>, offset: int) {
    LimitSet(limit) && |JsonKeys(objects)| > 0 && |JsonKeys(objects)| >= limit.value + offset
  }

  /**
    What `_list_json_keys` returns for valid parameters, stated without the
    loop: the window of the delivered `.json` keys, unless the pass failed
    before it held enough keys to stop, when the exception propagates.
   */
  function ListedKeys(l: Listing, limit: Option<int>, offset: int): (r: Result<seq<string>, string>)
    ensures r.Err? <==> l.failure.Some? && !Stops(l.objects, limit, offset)
    ensures r.Err? ==> r.error == l.failure.value
    ensures r.Ok? ==> r.value == Window(JsonKeys(l.objects), limit, offset)
  {
    if l.failure.Some? && !Stops(l.objects, limit, offset) then Err(l.failure.value)
    else Ok(Window(JsonKeys(l.objects), limit, offset))
  }

  /**
    `_list_json_keys` over a listing pass: it collects `.json` keys in order
    and returns once it holds `limit + offset` of them, so a failure on a
    later page is never reached; otherwise a failed pass re-raises. For the
    parameters the handler passes the early stop returns the same window as
    a full pass; for any parameters a result is the window of some prefix of
    the delivered keys.
   */
  method ListJsonKeys(listing: Listing, limit: Option<int>, offset: int) returns (r: Result<seq<string>, string>)
    ensures ValidPage(limit, offset) ==> r == ListedKeys(listing, limit, offset)
    ensures r.Err? <==> listing.failure.Some? && !Stops(listing.objects, limit, offset)
    ensures r.Err? ==> r.error == listing.failure.value
    ensures r.Ok? ==> exists m | 0 <= m <= |listing.objects| ::
      r.value == Window(JsonKeys(listing.objects[..m]), limit, offset)
  {
    var objects := listing.objects;
    var keys: seq<string> := [];
    var i := 0;
    while i < |objects|
      invariant 0 <= i <= |objects|
      invariant keys == JsonKeys(objects[..i])
      invariant LimitSet(limit) && |keys| >= limit.value + offset ==> |keys| == 0
    {
      var key := objects[i];
      assert objects[..i + 1][..i] == objects[..i];
      if IsJsonKey(key) {
        var before := keys;
        keys := keys + [key];
        if LimitSet(limit) && |keys| >= limit.value + offset {
          r := Ok(Window(keys, limit, offset));
          JsonKeysSnoc(objects, i);
          EarlyStop(objects, i, before, limit, offset);
          AllKeysSplit(objects, i, keys);
          return;
        }
      }
      i := i + 1;
    }
    assert objects[..|objects|] == objects;
    if listing.failure.Some? {
      r := Err(listing.failure.value);
    } else {
      r := Ok(Window(keys, limit, offset));
    }
  }

  /** The early stop happens exactly when the window is complete. */
  lemma EarlyStop(objects: seq<string>, i: nat, before: seq<string>, limit: Option<int>, offset: int)
    requires i < |objects| && IsJsonKey(objects[i])
    requires before + [objects[i]] == JsonKeys(objects[..i + 1])
    requires LimitSet(limit) && |before| + 1 >= limit.value + offset
    requires |before| >= limit.value + offset ==> |before| == 0
    ensures ValidPage(limit, offset) ==>
      Window(before + [objects[i]], limit, offset) == Window(JsonKeys(objects), limit, offset)
  {
    if ValidPage(limit, offset) {
      var keys := before + [objects[i]];
      var n := limit.value;
      assert |keys| == offset + n;
      var all := JsonKeys(objects);
      AllKeysSplit(objects, i, keys);
      PySlicePrefix(keys, JsonKeys(objects[i + 1..]), offset, offset + n);
      calc {
        Window(keys, limit, offset);
        PySlice(keys, offset, Some(offset + n));
        PySlice(keys + JsonKeys(objects[i + 1..]), offset, Some(offset + n));
        PySlice(all, offset, Some(offset + n));
        Window(all, limit, offset);
      }
    }
  }

  lemma AllKeysSplit(objects: seq<string>, i: nat, keys: seq<string>)
    requires i < |objects| && keys == JsonKeys(objects[..i + 1])
    ensures JsonKeys(objects) == keys + JsonKeys(objects[i + 1..])
  {
    JsonKeysConcat(objects[..i + 1], objects[i + 1..]);
    assert objects[..i + 1] + objects[i + 1..] == objects;
  }

  lemma JsonKeysSnoc(objects: seq<string>, i: nat)
    requires i < |objects| && IsJsonKey(objects[i])
    ensures JsonKeys(objects[..i + 1]) == JsonKeys(objects[..i]) + [objects[i]]
  {
    assert objects[..i + 1][..i] == objects[..i];
  }

  // ---------------------------------------------------------------------
  // Documents

  /** The record `_format_document` builds. */
  datatype Document = Document(
    documentId: Json,
    title: Json,
    content: Json,
    docketId: Json,
    agencyId: Json,
    documentType: Json,
    webDocumentLink: Json,
    webDocketLink: Json,
    webCommentLink: Json,
    embedding: Json,
    s3Key: string,
    hasEmbedding: bool,
    embeddingLength: nat,
    contentLength: nat)

  /** `v` is what `data.get(name, default)` yields: the bound value when `name` is present, else the default. */
  predicate CopiedOr(data: Fields, name: string, default: Json, v: Json) {
    (Lookup(data, name).Some? && v == Lookup(data, name).value) || (Lookup(data, name).None? && v == default)
  }

  /**
    `_format_document`: copies the fields with `""` (or `[]` for the
    embedding) as default, and derives the metadata. `len` fails on an
    embedding or content that has no length.
   */
  function FormatDocument(data: Fields, key: string): (r: Result<Document, string>)
    ensures r.Ok? <==> Len(Field(data, "embedding", JArr([]))).Ok? && Len(Field(data, "content", JStr(""))).Ok?
    ensures r.Ok? ==> r.value.s3Key == key
    ensures r.Ok? ==>
      && CopiedOr(data, "documentId", JStr(""), r.value.documentId)
      && CopiedOr(data, "title", JStr(""), r.value.title)
      && CopiedOr(data, "content", JStr(""), r.value.content)
      && CopiedOr(data, "docketId", JStr(""), r.value.docketId)
      && CopiedOr(data, "agencyId", JStr(""), r.value.agencyId)
      && CopiedOr(data, "documentType", JStr(""), r.value.documentType)
      && CopiedOr(data, "webDocumentLink", JStr(""), r.value.webDocumentLink)
      && CopiedOr(data, "webDocketLink", JStr(""), r.value.webDocketLink)
      && CopiedOr(data, "webCommentLink", JStr(""), r.value.webCommentLink)
    ensures r.Ok? ==> CopiedOr(data, "embedding", JArr([]), r.value.embedding)
    ensures r.Ok? ==> r.value.embedding == Field(data, "embedding", JArr([]))
    ensures r.Ok? ==> r.value.hasEmbedding == Truthy(Field(data, "embedding", JNull))
    ensures r.Ok? ==> Ok(r.value.embeddingLength) == Len(r.value.embedding)
    ensures r.Ok? ==> Ok(r.value.contentLength) == Len(r.value.content)
  {
    var embedding := Field(data, "embedding", JArr([]));
    var content := Field(data, "content", JStr(""));
    var embeddingLength :- Len(embedding);
    var contentLength :- Len(content);
    Ok(Document(
      Field(data, "documentId", JStr("")),
      Field(data, "title", JStr("")),
      content,
      Field(data, "docketId", JStr("")),
      Field(data, "agencyId", JStr("")),
      Field(data, "documentType", JStr("")),
      Field(data, "webDocumentLink", JStr("")),
      Field(data, "webDocketLink", JStr("")),
      Field(data, "webCommentLink", JStr("")),
      embedding,
      key,
      Truthy(Field(data, "embedding", JNull)),
      embeddingLength,
      contentLength))
  }

  /** `hasEmbedding` holds exactly when the embedding has a non-zero length. */
  lemma HasEmbeddingIffNonEmpty(data: Fields, key: string)
    requires FormatDocument(data, key).Ok?
    ensures FormatDocument(data, key).value.hasEmbedding <==> FormatDocument(data, key).value.embeddingLength > 0
  {
    var d := FormatDocument(data, key).value;
    if Lookup(data, "embedding").None? {
      assert Field(data, "embedding", JNull) == JNull;
      assert d.embedding == JArr([]);
    }
  }

  function DocumentJson(d: Document): Json {
    JObj([
      ("documentId", d.documentId),
      ("title", d.title),
      ("content", d.content),
      ("docketId", d.docketId),
      ("agencyId", d.agencyId),
      ("documentType", d.documentType),
      ("webDocumentLink", d.webDocumentLink),
      ("webDocketLink", d.webDocketLink),
      ("webCommentLink", d.webCommentLink),
      ("embedding", d.embedding),
      ("s3Key", JStr(d.s3Key)),
      ("metadata", JObj([
        ("hasEmbedding", JBool(d.hasEmbedding)),
        ("embeddingLength", JInt(d.embeddingLength)),
        ("contentLength", JInt(d.contentLength))]))])
  }

  /** The item key as `item["key"]` reads it; a key that is not a string is rendered by `str`. */
  function ItemKey(item: Json): Result<string, string> {
    var k :- Index(item, "key");
    Ok(PyStr(k))
  }

  /** The documents of the JSONL records that are dicts, in record order. */
  function RecordDocuments(item: Json, records: seq<Json>): (r: Result<seq<Document>, string>)
    ensures r.Ok? ==> |r.value| == |DictRecords(records)|
    decreases |records|
  {
    if |records| == 0 then Ok([])
    else
      var first: seq<Document> :-
        if records[0].JObj? then
          var key :- ItemKey(item);
          var d :- FormatDocument(records[0].fields, key);
          Ok([d])
        else Ok([]);
      var rest :- RecordDocuments(item, records[1..]);
      Ok(first + rest)
  }

  function DictRecords(records: seq<Json>): (r: seq<Json>)
    decreases |records|
  {
    if |records| == 0 then []
    else (if records[0].JObj? then [records[0]] else []) + DictRecords(records[1..])
  }

  /** `isinstance(data, dict) and "format" in data and data["format"] == "jsonl"` */
  predicate IsJsonl(data: Json) {
    data.JObj? && Lookup(data.fields, "format") == Some(JStr("jsonl"))
  }

  /** The document of a single JSON object, tagged with the item's key. */
  function SingleDocument(item: Json, data: Fields): Result<seq<Document>, string> {
    var key :- ItemKey(item);
    var d :- FormatDocument(data, key);
    Ok([d])
  }

  /** What one fetched item contributes to `_extract_document_data`. */
  function ItemDocuments(item: Json): (r: Result<seq<Document>, string>)
  {
    var failed :- In("error", item);
    if failed then Ok([])
    else
      var data :- Get(item, "data", JObj([]));
      if IsJsonl(data) then
        var records :- Iterate(Field(data.fields, "items", JArr([])));
        RecordDocuments(item, records)
      else if data.JObj? && Lookup(data.fields, "embedding").Some? then SingleDocument(item, data.fields)
      else Ok([])
  }

  /** The results of `f` on each item, concatenated in item order; the first failure propagates. */
  function Collect(items: seq<Json>, f: Json -> Result<seq<Document>, string>): (r: Result<seq<Document>, string>)
    decreases |items|
  {
    if |items| == 0 then Ok([])
    else
      var first :- f(items[0]);
      var rest :- Collect(items[1..], f);
      Ok(first + rest)
  }

  /** `_extract_document_data` */
  function ExtractDocumentData(items: seq<Json>): (r: Result<seq<Document>, string>) {
    Collect(items, ItemDocuments)
  }

  /** Items that carry an error are skipped. */
  lemma ErrorItemSkipped(fields: Fields)
    requires Lookup(fields, "error").Some?
    ensures ItemDocuments(JObj(fields)) == Ok([])
  {
    assert In("error", JObj(fields)) == Ok(true);
  }

  /** The JSONL wrapper `_get_object_json` builds around decoded lines. */
  function JsonlData(records: seq<Json>): Json {
    JObj([("items", JArr(records)), ("format", JStr("jsonl"))])
  }

  /** A fetched JSONL object is read record by record. */
  lemma JsonlItemRecords(key: string, records: seq<Json>)
    ensures var item := FetchedItem(key, Ok(JsonlData(records)));
      ItemDocuments(item) == RecordDocuments(item, records) && ItemKey(item) == Ok(key)
  {
    var data := JsonlData(records);
    var item := FetchedItem(key, Ok(data));
    FetchedItemReads(key, Ok(data));
    LookupFirst(data.fields, "format", 1);
    LookupFirst(data.fields, "items", 0);
    assert IsJsonl(data);
    assert Iterate(Field(data.fields, "items", JArr([]))) == Ok(records);
  }

  /** A JSONL item yields one document per dict record, each tagged with the item's key. */
  lemma JsonlItemDocuments(key: string, records: seq<Json>)
    requires forall i | 0 <= i < |records| :: records[i].JObj? ==> FormatDocument(records[i].fields, key).Ok?
    ensures var item := FetchedItem(key, Ok(JsonlData(records)));
      ItemDocuments(item).Ok? && |ItemDocuments(item).value| == |DictRecords(records)|
      && forall d | d in ItemDocuments(item).value :: d.s3Key == key
  {
    var item := FetchedItem(key, Ok(JsonlData(records)));
    JsonlItemRecords(key, records);
    RecordsKeyed(item, key, records);
  }

  /** A fetched single object with an embedding yields exactly its one document. */
  lemma EmbeddingItemDocument(key: string, data: Fields)
    requires Lookup(data, "embedding").Some? && !IsJsonl(JObj(data))
    requires FormatDocument(data, key).Ok?
    ensures ItemDocuments(FetchedItem(key, Ok(JObj(data)))) == Ok([FormatDocument(data, key).value])
  {
    var item := FetchedItem(key, Ok(JObj(data)));
    FetchedItemReads(key, Ok(JObj(data)));
    assert ItemDocuments(item) == SingleDocument(item, data);
  }

  /** A fetched value that is not a dict yields no document. */
  lemma NonDictItemEmpty(key: string, data: Json)
    requires !data.JObj?
    ensures ItemDocuments(FetchedItem(key, Ok(data))) == Ok([])
  {
    FetchedItemReads(key, Ok(data));
  }

  /** A fetched dict that is neither a JSONL wrapper nor holds an embedding yields no document. */
  lemma {:induction false} DictWithoutEmbeddingEmpty(key: string, data: Json)
    requires data.JObj? && !IsJsonl(data) && Lookup(data.fields, "embedding").None?
    ensures ItemDocuments(FetchedItem(key, Ok(data))) == Ok([])
  {
    FetchedItemReads(key, Ok(data));
  }

  lemma {:induction false} RecordsKeyed(item: Json, key: string, records: seq<Json>)
    requires ItemKey(item) == Ok(key)
    requires forall i | 0 <= i < |records| :: records[i].JObj? ==> FormatDocument(records[i].fields, key).Ok?
    ensures RecordDocuments(item, records).Ok?
    ensures forall d | d in RecordDocuments(item, records).value :: d.s3Key == key
    decreases |records|
  {
    if |records| > 0 {
      RecordsKeyed(item, key, records[1..]);
    }
  }

  /** Extraction works item by item and keeps item order. */
  lemma ExtractConcat(a: seq<Json>, b: seq<Json>)
    requires ExtractDocumentData(a).Ok? && ExtractDocumentData(b).Ok?
    ensures ExtractDocumentData(a + b) == Ok(ExtractDocumentData(a).value + ExtractDocumentData(b).value)
  {
    CollectConcat(a, b, ItemDocuments);
  }

  lemma {:induction false} CollectConcat(a: seq<Json>, b: seq<Json>, f: Json -> Result<seq<Document>, string>)
    requires Collect(a, f).Ok? && Collect(b, f).Ok?
    ensures Collect(a + b, f) == Ok(Collect(a, f).value + Collect(b, f).value)
    decreases |a|
  {
    if |a| == 0 {
      assert a + b == b;
      assert Collect(b, f).value == [] + Collect(b, f).value;
    } else {
      assert (a + b)[0] == a[0] && (a + b)[1..] == a[1..] + b;
      var x := f(a[0]);
      var u, v, w := x.value, Collect(a[1..], f).value, Collect(b, f).value;
      assert u + (v + w) == (u + v) + w;
      assert x.Ok? && Collect(a[1..], f).Ok?;
      CollectConcat(a[1..], b, f);
      calc {
        Collect(a + b, f);
        Ok(x.value + Collect(a[1..] + b, f).value);
        Ok(x.value + (Collect(a[1..], f).value + Collect(b, f).value));
        Ok((x.value + Collect(a[1..], f).value) + Collect(b, f).value);
      }
    }
  }

  // ---------------------------------------------------------------------
  // The bucket

  /**
    The bucket as the handler sees it: the pass `_get_total_count` makes over
    the prefix, the separate pass `_list_json_keys` makes (the two may meet
    different failures, or a changed bucket), and the outcome of
    `_get_object_json` for each key (a decoded value, a JSONL wrapper, or the
    text of the exception, `NoSuchKey` for a missing object).
   */
  datatype Bucket = Bucket(countListing: Listing, keyListing: Listing, fetch: string -> Result<Json, string>)

  /**
    `_get_total_count`: the number of `.json` keys of a complete pass; any
    failure of the pass is caught and counts as 0, whatever was counted.
   */
  function TotalCount(b: Bucket): (r: nat)
    ensures b.countListing.failure.None? ==> r == |JsonKeys(b.countListing.objects)|
    ensures b.countListing.failure.Some? ==> r == 0
  {
    if b.countListing.failure.None? then |JsonKeys(b.countListing.objects)| else 0
  }

  /** One entry of `_get_many_objects_json`. */
  function FetchedItem(key: string, outcome: Result<Json, string>): (r: Json)
    ensures r.JObj? && |r.fields| == 2 && r.fields[0] == ("key", JStr(key))
  {
    match outcome
    case Ok(data) => JObj([("key", JStr(key)), ("data", data)])
    case Err(e) => JObj([("key", JStr(key)), ("error", JStr(e))])
  }

  /** How the extraction reads a fetched item: its key, whether it failed, and its data. */
  lemma FetchedItemReads(key: string, outcome: Result<Json, string>)
    ensures ItemKey(FetchedItem(key, outcome)) == Ok(key)
    ensures In("error", FetchedItem(key, outcome)) == Ok(outcome.Err?)
    ensures outcome.Ok? ==> Get(FetchedItem(key, outcome), "data", JObj([])) == Ok(outcome.value)
  {
    var item := FetchedItem(key, outcome);
    ItemKeyFirst(item.fields, key);
    LookupFirst(item.fields, if outcome.Ok? then "data" else "error", 1);
    if outcome.Ok? {
      assert Lookup(item.fields, "error").None?;
    }
  }

  lemma ItemKeyFirst(fields: Fields, key: string)
    requires |fields| > 0 && fields[0] == ("key", JStr(key))
    ensures ItemKey(JObj(fields)) == Ok(key)
  {
    LookupFirst(fields, "key", 0);
  }

  /** `_get_many_objects_json`: one item per key, in key order. */
  function FetchAll(b: Bucket, keys: seq<string>): (r: seq<Json>)
    ensures |r| == |keys|
    ensures forall i | 0 <= i < |keys| :: r[i] == FetchedItem(keys[i], b.fetch(keys[i]))
  {
    seq(|keys|, i requires 0 <= i < |keys| => FetchedItem(keys[i], b.fetch(keys[i])))
  }

  /** A failed fetch contributes no document. */
  lemma FailedFetchSkipped(key: string, e: string)
    ensures ItemDocuments(FetchedItem(key, Err(e))) == Ok([])
  {
    FetchedItemReads(key, Err(e));
  }

  // ---------------------------------------------------------------------
  // Responses

  type Headers = seq<(string, string)>

  const BaseHeaders: Headers := [
    ("Content-Type", "application/json"),
    ("Access-Control-Allow-Origin", "*"),
    ("Access-Control-Allow-Headers", "Content-Type,X-Amz-Date,Authorization,X-Api-Key,X-Amz-Security-Token"),
    ("Access-Control-Allow-Methods", "GET,OPTIONS")]

  /** The body stays a value: its `json.dumps` text is not part of this model. */
  datatype Response = Response(statusCode: int, headers: Headers, body: Json)

  /** `h[k]` on a header dict, first entry wins. */
  function Header(h: Headers, k: string): (r: Option<string>)
    decreases |h|
  {
    if |h| == 0 then None else if h[0].0 == k then Some(h[0].1) else Header(h[1..], k)
  }

  /** `h[k] = v`: an existing entry keeps its place, a new one goes last. */
  function SetHeader(h: Headers, k: string, v: string): (r: Headers)
    decreases |h|
  {
    if |h| == 0 then [(k, v)]
    else if h[0].0 == k then [(k, v)] + h[1..]
    else [h[0]] + SetHeader(h[1..], k, v)
  }

  /** `base.update(extra)` */
  function UpdateHeaders(base: Headers, extra: Headers): (r: Headers)
    decreases |extra|
  {
    if |extra| == 0 then base else UpdateHeaders(SetHeader(base, extra[0].0, extra[0].1), extra[1..])
  }

  /** The last value `extra` gives `k`, which is the one an update leaves. */
  function LastHeader(extra: Headers, k: string): (r: Option<string>)
    decreases |extra|
  {
    if |extra| == 0 then None
    else
      var later := LastHeader(extra[1..], k);
      if later.Some? then later else if extra[0].0 == k then Some(extra[0].1) else None
  }

  lemma {:induction false} SetHeaderLookup(h: Headers, k: string, v: string, j: string)
    ensures Header(SetHeader(h, k, v), j) == if j == k then Some(v) else Header(h, j)
    decreases |h|
  {
    if |h| > 0 && h[0].0 != k {
      SetHeaderLookup(h[1..], k, v, j);
    }
  }

  /** After the update a header reads the caller's value if the caller set it, else the base value. */
  lemma {:induction false} UpdateHeadersLookup(base: Headers, extra: Headers, j: string)
    ensures Header(UpdateHeaders(base, extra), j)
         == if LastHeader(extra, j).Some? then LastHeader(extra, j) else Header(base, j)
    decreases |extra|
  {
    if |extra| > 0 {
      var base' := SetHeader(base, extra[0].0, extra[0].1);
      UpdateHeadersLookup(base', extra[1..], j);
      SetHeaderLookup(base, extra[0].0, extra[0].1, j);
    }
  }

  /** The header `j` after caller headers are laid over the CORS defaults. */
  function Overridden(headers: Option<Headers>, j: string): Option<string> {
    if headers.Some? && LastHeader(headers.value, j).Some? then LastHeader(headers.value, j) else Header(BaseHeaders, j)
  }

  /** `_response`: the status and body are kept, caller headers override the CORS defaults. */
  function MakeResponse(status: int, body: Json, headers: Option<Headers>): (r: Response)
    ensures r.statusCode == status && r.body == body
    ensures forall j :: Header(r.headers, j) == Overridden(headers, j)
  {
    var h := if headers.Some? && |headers.value| > 0 then UpdateHeaders(BaseHeaders, headers.value) else BaseHeaders;
    assert forall j :: Header(h, j) == Overridden(headers, j) by {
      forall j ensures Header(h, j) == Overridden(headers, j) {
        if headers.Some? && |headers.value| > 0 {
          UpdateHeadersLookup(BaseHeaders, headers.value, j);
        }
      }
    }
    Response(status, h, body)
  }

  // ---------------------------------------------------------------------
  // The handler

  /** The parts of the API Gateway event the handler reads; query values are strings. */
  datatype Event = Event(httpMethod: Option<string>, query: Option<Headers>)

  /** `event.get("queryStringParameters") or {}` */
  function QueryOf(e: Event): Headers {
    if e.query.Some? then e.query.value else []
  }

  /**
    The raw `limit` and `offset`: a parameter that is absent or does not parse
    as an integer leaves the default, `None` for the limit and 0 for the offset.
   */
  function ParseParams(query: Headers): (r: (Option<int>, int))
    ensures Header(query, "limit").None? ==> r.0.None?
    ensures Header(query, "limit").Some? ==> r.0 == ParseInt(Header(query, "limit").value)
    ensures Header(query, "offset").Some? && ParseInt(Header(query, "offset").value).Some?
      ==> r.1 == ParseInt(Header(query, "offset").value).value
    ensures Header(query, "offset").None? || ParseInt(Header(query, "offset").value).None? ==> r.1 == 0
  {
    var limit := if Header(query, "limit").Some? then ParseInt(Header(query, "limit").value) else None;
    var offset := Header(query, "offset");
    (limit, if offset.Some? && ParseInt(offset.value).Some? then ParseInt(offset.value).value else 0)
  }

  /**
    `has_more` as the handler is meant to compute it: the keys of this page
    (not the documents they held) after the offset fall short of the total.
   */
  function HasMore(offset: int, pageKeys: nat, total: nat): bool {
    if total > 0 then offset + pageKeys < total else false
  }

  /** `has_more` as written: it adds the number of documents extracted to a key offset. */
  function HasMoreAsWritten(offset: int, documents: nat, total: nat): bool {
    if total > 0 then offset + documents < total else false
  }

  /** With valid parameters, `has_more` holds exactly when the next page of keys is non-empty. */
  lemma HasMoreIffNextPage(keys: seq<string>, limit: Option<int>, offset: int)
    requires ValidPage(limit, offset)
    ensures var page := Window(keys, limit, offset);
      HasMore(offset, |page|, |keys|) <==> |Window(keys, limit, offset + |page|)| > 0
  {
    var n := |keys|;
    var page := Window(keys, limit, offset);
    if limit.None? {
      PySliceElements(keys, offset, None);
      assert |page| == if offset < n then n - offset else 0;
      PySliceElements(keys, offset + |page|, None);
    } else {
      var l := limit.value;
      var stop := if offset + l > n then n else offset + l;
      PySliceElements(keys, offset, Some(offset + l));
      assert |page| == if offset < stop then stop - offset else 0;
      PySliceElements(keys, offset + |page|, Some(offset + |page| + l));
    }
  }

  function PaginationJson(limit: Option<int>, offset: int, total: nat, hasMore: bool, size: nat): Json {
    JObj([
      ("limit", if limit.Some? then JInt(limit.value) else JNull),
      ("offset", JInt(offset)),
      ("total", JInt(total)),
      ("has_more", JBool(hasMore)),
      ("current_page_size", JInt(size))])
  }

  function DocumentsJson(docs: seq<Document>): (r: Json)
    ensures r.JArr? && |r.items| == |docs|
  {
    JArr(seq(|docs|, i requires 0 <= i < |docs| => DocumentJson(docs[i])))
  }

  function ServerError(detail: string, message: string): Json {
    JObj([
      ("success", JBool(false)),
      ("error", JStr("Internal server error: " + detail)),
      ("message", JStr(message))])
  }

  /** The body of a page: its documents and the pagination metadata. */
  function PageBody(docs: seq<Document>, pagination: Json, message: string): Json {
    JObj([
      ("success", JBool(true)),
      ("data", JObj([("documents", DocumentsJson(docs)), ("pagination", pagination)])),
      ("message", JStr(message))])
  }

  /**
    The request once the parameters are validated. The total comes from the
    count pass, the keys from the key pass; `has_more` is computed as the
    handler writes it, from the number of documents extracted.
   */
  function ServePage(b: Bucket, limit: Option<int>, offset: int): (r: Response)
    requires ValidPage(limit, offset)
    ensures r.statusCode == 200 || r.statusCode == 500
  {
    var total := TotalCount(b);
    match ListedKeys(b.keyListing, limit, offset)
    case Err(e) => MakeResponse(500, ServerError(e, "Failed to retrieve documents from S3"), None)
    case Ok(keys) =>
      if |keys| == 0 then
        MakeResponse(200, PageBody([], PaginationJson(limit, offset, total, false, 0), "No documents found"), None)
      else
        match ExtractDocumentData(FetchAll(b, keys))
        case Err(e) => MakeResponse(500, ServerError(e, "Failed to retrieve documents from S3"), None)
        case Ok(docs) =>
          var pagination := PaginationJson(limit, offset, total, HasMoreAsWritten(offset, |docs|, total), |docs|);
          MakeResponse(200, PageBody(docs, pagination,
            "Successfully retrieved " + NatToString(|docs|) + " documents"), None)
  }

  /** `handler`: preflight, parameter parsing and validation, then the page. */
  function Handler(e: Event, b: Bucket): (r: Response)
    ensures e.httpMethod == Some("OPTIONS") ==> r.statusCode == 200
    ensures e.httpMethod == Some("OPTIONS") ==> r.body == JObj([("message", JStr("CORS preflight successful"))])
    ensures r.statusCode == 200 || r.statusCode == 500
  {
    if e.httpMethod == Some("OPTIONS") then
      MakeResponse(200, JObj([("message", JStr("CORS preflight successful"))]), None)
    else
      var (rawLimit, rawOffset) := ParseParams(QueryOf(e));
      var (limit, offset) := ValidatePagination(rawLimit, rawOffset);
      ValidatePaginationIdempotent(rawLimit, rawOffset);
      ServePage(b, limit, offset)
  }

  /**
    The page is answered with 500 exactly when the key pass fails before it
    holds `limit + offset` keys, or a non-empty page cannot be extracted. A
    failure of the count pass, or of the key pass after the early stop, is
    never one.
   */
  lemma ServePageFails(b: Bucket, limit: Option<int>, offset: int)
    requires ValidPage(limit, offset)
    ensures var listingFails := b.keyListing.failure.Some? && !Stops(b.keyListing.objects, limit, offset);
      var keys := Window(JsonKeys(b.keyListing.objects), limit, offset);
      ServePage(b, limit, offset).statusCode == 500 <==>
        listingFails || (|keys| > 0 && ExtractDocumentData(FetchAll(b, keys)).Err?)
  {
  }

  /** `response["body"]["data"][key]`, when the body has a data dictionary holding `key`. */
  function DataOf(r: Response, key: string): Option<Json> {
    if r.body.JObj? && Lookup(r.body.fields, "data").Some? && Lookup(r.body.fields, "data").value.JObj? then
      Lookup(Lookup(r.body.fields, "data").value.fields, key)
    else None
  }

  lemma PageBodyData(r: Response, docs: seq<Document>, pagination: Json, message: string)
    requires r.body == PageBody(docs, pagination, message)
    ensures DataOf(r, "documents") == Some(DocumentsJson(docs))
    ensures DataOf(r, "pagination") == Some(pagination)
  {
    var f := PageBody(docs, pagination, message).fields;
    LookupFirst(f, "data", 1);
    var data := [("documents", DocumentsJson(docs)), ("pagination", pagination)];
    LookupFirst(data, "documents", 0);
    LookupFirst(data, "pagination", 1);
  }

  /**
    A bucket whose key pass completes, or stops early, is answered with 200
    and the page's documents. An empty page reports no further page;
    otherwise the pagination carries the count pass's total (0 when it
    failed), the number of documents as the page size, and `has_more` from
    the documents extracted, as the handler writes it.
   */
  lemma ServedPage(b: Bucket, limit: Option<int>, offset: int)
    requires ValidPage(limit, offset)
    requires b.keyListing.failure.None? || Stops(b.keyListing.objects, limit, offset)
    ensures var keys, total := Window(JsonKeys(b.keyListing.objects), limit, offset), TotalCount(b);
      var r := ServePage(b, limit, offset);
      |keys| == 0 ==>
        && r.statusCode == 200
        && DataOf(r, "documents") == Some(JArr([]))
        && DataOf(r, "pagination") == Some(PaginationJson(limit, offset, total, false, 0))
    ensures var keys, total := Window(JsonKeys(b.keyListing.objects), limit, offset), TotalCount(b);
      var r, extracted := ServePage(b, limit, offset), ExtractDocumentData(FetchAll(b, keys));
      |keys| > 0 && extracted.Ok? ==>
        && r.statusCode == 200
        && DataOf(r, "documents") == Some(DocumentsJson(extracted.value))
        && DataOf(r, "pagination")
           == Some(PaginationJson(limit, offset, total, HasMoreAsWritten(offset, |extracted.value|, total), |extracted.value|))
  {
    var keys, total := Window(JsonKeys(b.keyListing.objects), limit, offset), TotalCount(b);
    var r := ServePage(b, limit, offset);
    if |keys| == 0 {
      assert DocumentsJson([]) == JArr([]);
      PageBodyData(r, [], PaginationJson(limit, offset, total, false, 0), "No documents found");
    } else {
      var extracted := ExtractDocumentData(FetchAll(b, keys));
      if extracted.Ok? {
        var docs := extracted.value;
        PageBodyData(r, docs, PaginationJson(limit, offset, total, HasMoreAsWritten(offset, |docs|, total), |docs|),
          "Successfully retrieved " + NatToString(|docs|) + " documents");
      }
    }
  }

  /**
    When every key of the page yields exactly one document, the served
    `has_more` holds exactly when the next page of keys is non-empty: the
    formula as written is right in that case, and only then. Both passes
    are taken to complete over the same objects.
   */
  lemma ServedHasMoreOnePerKey(b: Bucket, limit: Option<int>, offset: int)
    requires ValidPage(limit, offset) && b.keyListing.failure.None? && b.countListing == b.keyListing
    requires var keys := Window(JsonKeys(b.keyListing.objects), limit, offset);
      |keys| > 0 && ExtractDocumentData(FetchAll(b, keys)).Ok?
      && |ExtractDocumentData(FetchAll(b, keys)).value| == |keys|
    ensures var keys := Window(JsonKeys(b.keyListing.objects), limit, offset);
      var docs := ExtractDocumentData(FetchAll(b, keys)).value;
      var next := Window(JsonKeys(b.keyListing.objects), limit, offset + |keys|);
      HasMoreAsWritten(offset, |docs|, TotalCount(b)) <==> |next| > 0
  {
    HasMoreIffNextPage(JsonKeys(b.keyListing.objects), limit, offset);
  }

  /**
    Any other request is served with the validated parameters: a valid page
    whose limit is unset exactly when the query sets none that parses.
   */
  lemma HandlerServes(e: Event, b: Bucket)
    requires e.httpMethod != Some("OPTIONS")
    ensures var raw := ParseParams(QueryOf(e));
      var page := ValidatePagination(raw.0, raw.1);
      && ValidPage(page.0, page.1)
      && (page.0.None? <==> raw.0.None?)
      && Handler(e, b) == ServePage(b, page.0, page.1)
  {
    var raw := ParseParams(QueryOf(e));
    ValidatePaginationIdempotent(raw.0, raw.1);
  }

  /** A limit or offset that is not an integer falls back before validation. */
  lemma BadParamsFallBack(query: Headers)
    requires Header(query, "limit").Some? && ParseInt(Header(query, "limit").value).None?
    requires Header(query, "offset").Some? && ParseInt(Header(query, "offset").value).None?
    ensures ValidatePagination(ParseParams(query).0, ParseParams(query).1) == (None, 0)
  {
  }

  /** A page never holds more keys than the limit, and never more than 1000. */
  lemma PageBounded(objects: seq<string>, limit: Option<int>, offset: int)
    requires ValidPage(limit, offset)
    ensures limit.Some? ==> |Window(JsonKeys(objects), limit, offset)| <= limit.value <= MaxLimit
  {
  }

  // ---------------------------------------------------------------------
  // The has_more discrepancy

  /** A JSONL object with two records holding embeddings. */
  const TwoRecords := JsonlData([JObj([("embedding", JArr([JReal(0.5)]))]), JObj([("embedding", JArr([JReal(0.25)]))])])

  lemma JsonName(stem: string)
    requires forall i | 0 <= i < |stem| :: !IsUpper(stem[i])
    ensures IsJsonKey(stem + ".json")
  {
    var k := stem + ".json";
    LowerOfLowercase(k);
    assert k[|k| - 5..] == ".json";
  }

  /** The objects of the example: two `.json` keys. */
  const ExampleObjects: seq<string> := ["a.json", "b.json"]

  lemma JsonKeyNamed(stem: string, k: string)
    requires forall i | 0 <= i < |stem| :: !IsUpper(stem[i])
    requires k == stem + ".json"
    ensures IsJsonKey(k)
  {
    JsonName(stem);
  }

  lemma JsonKeysSingle(k: string)
    requires IsJsonKey(k)
    ensures JsonKeys([k]) == [k]
  {
    assert [k][..0] == [];
  }

  lemma FirstIsJson()
    ensures IsJsonKey("a.json")
  {
    JsonKeyNamed("a", "a.json");
  }

  lemma SecondIsJson()
    ensures IsJsonKey("b.json")
  {
    JsonKeyNamed("b", "b.json");
  }

  /** Both keys of the listing are `.json` keys. */
  lemma TwoKeys()
    ensures JsonKeys(ExampleObjects) == ExampleObjects
  {
    FirstIsJson();
    SecondIsJson();
    JsonKeysPair("a.json", "b.json");
  }

  lemma JsonKeysPair(a: string, b: string)
    requires IsJsonKey(a) && IsJsonKey(b)
    ensures JsonKeys([a, b]) == [a, b]
  {
    JsonKeysSingle(a);
    JsonKeysSingle(b);
    JsonKeysConcat([a], [b]);
    assert [a] + [b] == [a, b];
  }

  /** The first object, two JSONL records with embeddings, yields two documents. */
  lemma TwoRecordsTwoDocuments()
    ensures ItemDocuments(FetchedItem("a.json", Ok(TwoRecords))).Ok?
    ensures |ItemDocuments(FetchedItem("a.json", Ok(TwoRecords))).value| == 2
  {
    var recs := [JObj([("embedding", JArr([JReal(0.5)]))]), JObj([("embedding", JArr([JReal(0.25)]))])];
    forall i | 0 <= i < |recs| ensures recs[i].JObj? ==> FormatDocument(recs[i].fields, "a.json").Ok? {
      LookupFirst(recs[i].fields, "embedding", 0);
    }
    JsonlItemDocuments("a.json", recs);
    assert DictRecords(recs[1..]) == recs[1..];
  }

  /** The two pages of limit 1. */
  lemma ListingPages()
    ensures Window(ExampleObjects, Some(1), 0) == ["a.json"]
    ensures Window(ExampleObjects, Some(1), 1) == ["b.json"]
  {
    PySliceElements(ExampleObjects, 0, Some(1));
    PySliceElements(ExampleObjects, 1, Some(2));
  }

  /**
    Listing `a.json` and `b.json` with limit 1 and offset 0, where `a.json`
    holds two JSONL records: the page yields two documents, so the formula as
    written reports no further page, yet the page at offset 1 holds `b.json`.
   */
  lemma AsWrittenMissesNextPage()
    ensures JsonKeys(ExampleObjects) == ExampleObjects
    ensures Window(ExampleObjects, Some(1), 0) == ["a.json"]
    ensures ItemDocuments(FetchedItem("a.json", Ok(TwoRecords))).Ok?
    ensures |ItemDocuments(FetchedItem("a.json", Ok(TwoRecords))).value| == 2
    ensures !HasMoreAsWritten(0, 2, |ExampleObjects|)
    ensures Window(ExampleObjects, Some(1), 1) == ["b.json"]
    ensures HasMore(0, 1, |ExampleObjects|)
  {
    TwoKeys();
    TwoRecordsTwoDocuments();
    ListingPages();
  }

  /** The example's reads: `a.json` holds the two records; any other read fails. */
  function ExampleFetch(k: string): Result<Json, string> {
    if k == "a.json" then Ok(TwoRecords) else Err("NoSuchKey")
  }

  /** The example's bucket: both passes list the two keys and complete. */
  function ExampleBucket(): Bucket {
    Bucket(Listing(ExampleObjects, None), Listing(ExampleObjects, None), ExampleFetch)
  }

  lemma ExampleFirstPage()
    ensures ExtractDocumentData(FetchAll(ExampleBucket(), ["a.json"])).Ok?
    ensures |ExtractDocumentData(FetchAll(ExampleBucket(), ["a.json"])).value| == 2
  {
    var item := FetchedItem("a.json", Ok(TwoRecords));
    assert FetchAll(ExampleBucket(), ["a.json"]) == [item];
    TwoRecordsTwoDocuments();
    assert [item][1..] == [];
  }

  /**
    Served through the handler's page logic, the example's first page of
    limit 1 reports `has_more` false, although the page at offset 1 holds
    `b.json`.
   */
  lemma ServedMissesNextPage()
    ensures ServePage(ExampleBucket(), Some(1), 0).statusCode == 200
    ensures DataOf(ServePage(ExampleBucket(), Some(1), 0), "pagination")
            == Some(PaginationJson(Some(1), 0, 2, false, 2))
    ensures Window(JsonKeys(ExampleBucket().keyListing.objects), Some(1), 1) == ["b.json"]
  {
    TwoKeys();
    ListingPages();
    ExampleFirstPage();
    ServedPage(ExampleBucket(), Some(1), 0);
  }

  /** The example's objects, where both passes fail fetching the page after the first. */
  function ThrottledBucket(): Bucket {
    Bucket(Listing(ExampleObjects, Some("SlowDown")), Listing(ExampleObjects, Some("SlowDown")), ExampleFetch)
  }

  /**
    The first page of limit 1 in the throttled bucket is still served: the
    key pass stops at `a.json` before the failing page, and the failed count
    pass gives total 0, so `has_more` is false.
   */
  lemma ThrottledFirstPage()
    ensures ListedKeys(ThrottledBucket().keyListing, Some(1), 0) == Ok(["a.json"])
    ensures ServePage(ThrottledBucket(), Some(1), 0).statusCode == 200
    ensures DataOf(ServePage(ThrottledBucket(), Some(1), 0), "pagination")
            == Some(PaginationJson(Some(1), 0, 0, false, 2))
  {
    TwoKeys();
    ListingPages();
    ExampleFirstPage();
    assert FetchAll(ThrottledBucket(), ["a.json"]) == FetchAll(ExampleBucket(), ["a.json"]);
    ServedPage(ThrottledBucket(), Some(1), 0);
  }
}

=== FILE: json.dfy ===
/**
  The untyped payloads the tool layer passes around: Python values built from
  `None`, `bool`, `int`, `float`, `str`, `list` and `dict`, with dicts kept as
  ordered field lists (first field with a key wins). The operations the code
  applies to them (`d.get`, `len`, iteration, slicing, `in`, truthiness,
  `str()`) are modelled with their Python failure cases; a failure carries
  the text of the exception Python raises.
 */
module Json {
  import opened Wrappers
  import opened Strings

  datatype Json =
    | JNull
    | JBool(b: bool)
    | JInt(i: int)
    | JReal(r: real)
    | JStr(s: string)
    | JArr(items: seq<Json>)
    | JObj(fields: seq<(string, Json)>)

  type Fields = seq<(string, Json)>

  /** The value stored under `key`, if any. */
  function Lookup(fields: Fields, key: string): (r: Option<Json>)
    ensures r.Some? <==> exists i | 0 <= i < |fields| :: fields[i].0 == key
    ensures r.Some? ==>
      exists i | 0 <= i < |fields| ::
        fields[i] == (key, r.value) && forall j | 0 <= j < i :: fields[j].0 != key
  {
    if |fields| == 0 then None
    else if fields[0].0 == key then Some(fields[0].1)
    else
      var r := Lookup(fields[1..], key);
      assert r.Some? ==> exists i | 0 <= i < |fields[1..]| :: fields[1..][i].0 == key;
      r
  }

  /** The first field named `key` is the one found. */
  lemma {:induction false} LookupFirst(fields: Fields, key: string, i: nat)
    requires i < |fields| && fields[i].0 == key
    requires forall j | 0 <= j < i :: fields[j].0 != key
    ensures Lookup(fields, key) == Some(fields[i].1)
    decreases i
  {
    if i > 0 {
      assert fields[0].0 != key;
      LookupFirst(fields[1..], key, i - 1);
    }
  }

  /** `d[key]` and `d.get(key, default)` both find the first field named `key`. */
  lemma IndexFirst(fields: Fields, key: string, i: nat)
    requires i < |fields| && fields[i].0 == key
    requires forall j | 0 <= j < i :: fields[j].0 != key
    ensures Index(JObj(fields), key) == Ok(fields[i].1)
    ensures forall d :: Get(JObj(fields), key, d) == Ok(fields[i].1)
  {
    LookupFirst(fields, key, i);
  }

  function TypeName(j: Json): string {
    match j
    case JNull => "NoneType"
    case JBool(_) => "bool"
    case JInt(_) => "int"
    case JReal(_) => "float"
    case JStr(_) => "str"
    case JArr(_) => "list"
    case JObj(_) => "dict"
  }

  function AttributeError(j: Json, attr: string): string {
    "'" + TypeName(j) + "' object has no attribute '" + attr + "'"
  }

  /** Python truthiness: `bool(j)` */
  predicate Truthy(j: Json) {
    match j
    case JNull => false
    case JBool(b) => b
    case JInt(i) => i != 0
    case JReal(r) => r != 0.0
    case JStr(s) => |s| > 0
    case JArr(a) => |a| > 0
    case JObj(f) => |f| > 0
  }

  /** `d.get(key, default)` on a dict */
  function Field(fields: Fields, key: string, default: Json): (r: Json)
    ensures (exists i | 0 <= i < |fields| :: fields[i].0 == key) || r == default
  {
    Lookup(fields, key).GetOr(default)
  }

  /** `j.get(key, default)`: only dicts have `get`. */
  function Get(j: Json, key: string, default: Json): (r: Result<Json, string>)
    ensures r.Ok? <==> j.JObj?
    ensures r.Ok? ==> r.value == Field(j.fields, key, default)
  {
    if j.JObj? then Ok(Field(j.fields, key, default))
    else Err(AttributeError(j, "get"))
  }

  /** `j[key]` on a dict */
  function Index(j: Json, key: string): (r: Result<Json, string>)
    ensures r.Ok? <==> j.JObj? && Lookup(j.fields, key).Some?
  {
    if !j.JObj? then Err("'" + TypeName(j) + "' object is not subscriptable")
    else if Lookup(j.fields, key).None? then Err("'" + key + "'")
    else Ok(Lookup(j.fields, key).value)
  }

  /** `len(j)` */
  function Len(j: Json): Result<nat, string> {
    match j
    case JStr(s) => Ok(|s|)
    case JArr(a) => Ok(|a|)
    case JObj(f) => Ok(|f|)
    case _ => Err("object of type '" + TypeName(j) + "' has no len()")
  }

  function Chars(s: string): (r: seq<Json>)
    ensures |r| == |s|
  {
    seq(|s|, i requires 0 <= i < |s| => JStr([s[i]]))
  }

  function Keys(f: Fields): (r: seq<Json>)
    ensures |r| == |f|
  {
    seq(|f|, i requires 0 <= i < |f| => JStr(f[i].0))
  }

  /** `for x in j`: list items, string characters or dict keys. */
  function Iterate(j: Json): (r: Result<seq<Json>, string>)
    ensures r.Ok? ==> Len(j) == Ok(|r.value|)
    ensures r.Ok? <==> Len(j).Ok?
  {
    match j
    case JStr(s) => Ok(Chars(s))
    case JArr(a) => Ok(a)
    case JObj(f) => Ok(Keys(f))
    case _ => Err("'" + TypeName(j) + "' object is not iterable")
  }

  /** `j[:n]` for a non-negative `n`: lists and strings slice, other values fail. */
  function SliceTo(j: Json, n: nat): (r: Result<Json, string>)
    ensures r.Ok? <==> j.JArr? || j.JStr?
    ensures r.Ok? && j.JArr? ==> r.value == JArr(Take(j.items, n))
    ensures r.Ok? && j.JStr? ==> r.value == JStr(Take(j.s, n))
  {
    match j
    case JArr(a) => Ok(JArr(Take(a, n)))
    case JStr(s) => Ok(JStr(Take(s, n)))
    case JObj(_) => Err("unhashable type: 'slice'")
    case _ => Err("'" + TypeName(j) + "' object is not subscriptable")
  }

  /** `needle in hay` for a string needle */
  function In(needle: string, hay: Json): Result<bool, string> {
    match hay
    case JStr(s) => Ok(Contains(s, needle))
    case JArr(a) => Ok(JStr(needle) in a)
    case JObj(f) => Ok(Lookup(f, needle).Some?)
    case _ => Err("argument of type '" + TypeName(hay) + "' is not iterable")
  }

  /**
    `str(j)` for the scalar values the templates interpolate. Floats and
    containers are rendered by a placeholder: Python's shortest round-trip
    float repr and container repr are not part of this model.
   */
  function PyStr(j: Json): string {
    match j
    case JNull => "None"
    case JBool(b) => if b then "True" else "False"
    case JInt(i) => IntToString(i)
    case JStr(s) => s
    case JReal(_) => "<float>"
    case JArr(_) => "<list>"
    case JObj(_) => "<dict>"
  }

  /** Numeric view of `bool`, `int` and `float` for comparisons. */
  function AsNumber(j: Json): Option<real> {
    match j
    case JBool(b) => Some(if b then 1.0 else 0.0)
    case JInt(i) => Some(i as real)
    case JReal(r) => Some(r)
    case _ => None
  }

  /** `j > bound` against a float literal */
  function GreaterThan(j: Json, bound: real): Result<bool, string> {
    if AsNumber(j).Some? then Ok(AsNumber(j).value > bound)
    else Err("'>' not supported between instances of '" + TypeName(j) + "' and 'float'")
  }

  function StrList(xs: seq<string>): (r: Json)
    ensures r.JArr? && |r.items| == |xs|
    ensures forall i | 0 <= i < |xs| :: r.items[i] == JStr(xs[i])
  {
    JArr(seq(|xs|, i requires 0 <= i < |xs| => JStr(xs[i])))
  }

  /** Every item is a string; their texts. */
  function AsStrings(items: seq<Json>): (r: Result<seq<string>, string>)
    ensures r.Ok? ==> |r.value| == |items|
    ensures r.Ok? ==> forall i | 0 <= i < |items| :: items[i] == JStr(r.value[i])
    ensures r.Err? ==> exists i | 0 <= i < |items| :: !items[i].JStr?
  {
    if |items| == 0 then Ok([])
    else if !items[0].JStr? then
      Err("sequence item: expected str instance, " + TypeName(items[0]) + " found")
    else
      var rest := AsStrings(items[1..]);
      if rest.Err? then
        assert exists i | 0 <= i < |items[1..]| :: !items[1..][i].JStr?;
        rest
      else Ok([items[0].s] + rest.value)
  }
}

=== FILE: llm_bridge.dfy ===
/**
  The bridge to the Ollama server: the prompt that lists the tools, the
  call to the generate endpoint with its status classification, the
  three-stage reading of the model's reply (a fenced JSON block, else a
  bare JSON object, else a degraded record), and the combined connection
  test.

  The HTTP post is a caller-supplied function from URL and payload to a
  reply, and `json.loads` is a caller-supplied function from text to a
  value or the decoding error's message.
 */
module LlmBridge {
  import opened Wrappers
  import opened Strings
  import opened Json
  import opened RegulationsApi

  // ---------------------------------------------------------------- the prompt

  const PromptIntro := "You are an AI assistant specialized in analyzing regulatory comments using advanced tools. You have access to powerful tools for fetching and analyzing public comments from regulations.gov."

  /** The text after the tool list, one line per piece, with the doubled braces of the template read as single ones. */
  const Closing: string :=
    "TASK: Analyze the public comments for this regulatory document and provide a comprehensive analysis.\n"
    + "\n"
    + "INSTRUCTIONS:\n"
    + "1. First, test the API connection using the test_api_connection tool\n"
    + "2. Get the comment count using the get_comment_count tool\n"
    + "3. If comments exist, perform a comprehensive analysis using the analyze_regulatory_comments tool\n"
    + "4. Synthesize insights using the synthesize_comment_insights tool\n"
    + "5. Identify regulatory themes using the identify_regulatory_themes tool\n"
    + "6. Assess stakeholder concerns using the assess_stakeholder_concerns tool\n"
    + "\n"
    + "TOOL USAGE FORMAT:\n"
    + "When you need to use a tool, respond with:\n"
    + "```json\n"
    + "{\n"
    + "  \"tool\": \"tool_name\",\n"
    + "  \"parameters\": {\n"
    + "    \"param1\": \"value1\",\n"
    + "    \"param2\": \"value2\"\n"
    + "  }\n"
    + "}\n"
    + "```\n"
    + "\n"
    + "ANALYSIS REQUIREMENTS:\n"
    + "- Provide key insights and common perspectives\n"
    + "- Identify main regulatory themes and concerns\n"
    + "- Analyze stakeholder engagement and sentiment\n"
    + "- Extract recommendations and suggestions\n"
    + "- Assess potential impacts and challenges\n"
    + "- Provide confidence levels for your analysis\n"
    + "\n"
    + "RESPONSE FORMAT:\n"
    + "Provide a comprehensive analysis in the following JSON format:\n"
    + "\n"
    + "```json\n"
    + "{\n"
    + "  \"summary\": \"Executive summary of the comment analysis\",\n"
    + "  \"key_insights\": [\n"
    + "    \"Key insight 1\",\n"
    + "    \"Key insight 2\",\n"
    + "    \"Key insight 3\"\n"
    + "  ],\n"
    + "  \"common_perspectives\": [\n"
    + "    \"Perspective 1\",\n"
    + "    \"Perspective 2\"\n"
    + "  ],\n"
    + "  \"regulatory_themes\": [\n"
    + "    {\n"
    + "      \"theme\": \"theme_name\",\n"
    + "      \"description\": \"description\",\n"
    + "      \"frequency\": \"high/medium/low\"\n"
    + "    }\n"
    + "  ],\n"
    + "  \"stakeholder_concerns\": [\n"
    + "    {\n"
    + "      \"concern\": \"concern_description\",\n"
    + "      \"stakeholder_type\": \"organizations/individuals/common\",\n"
    + "      \"severity\": \"high/medium/low\"\n"
    + "    }\n"
    + "  ],\n"
    + "  \"recommendations\": [\n"
    + "    \"Recommendation 1\",\n"
    + "    \"Recommendation 2\"\n"
    + "  ],\n"
    + "  \"sentiment_analysis\": {\n"
    + "    \"overall_sentiment\": \"positive/negative/mixed\",\n"
    + "    \"confidence\": 0.85,\n"
    + "    \"details\": \"Detailed sentiment analysis\"\n"
    + "  },\n"
    + "  \"impact_assessment\": {\n"
    + "    \"economic_impact\": \"high/medium/low\",\n"
    + "    \"implementation_challenges\": [\"challenge1\", \"challenge2\"],\n"
    + "    \"timeline_concerns\": [\"concern1\", \"concern2\"]\n"
    + "  },\n"
    + "  \"confidence_score\": 0.8,\n"
    + "  \"total_comments_analyzed\": 25\n"
    + "}\n"
    + "```\n"
    + "\n"
    + "Begin the analysis now. Start by testing the API connection and then proceed with the full analysis."

  /**
    The prompt template with its fixed texts as parameters: the opening
    paragraph, then the document block and the tool list, then the closing
    text.
   */
  function PromptTemplate(intro: string, documentId: string, title: string, max: string, toolsJson: string, closing: string): (r: string)
    ensures Contains(r, documentId) && Contains(r, title)
    ensures Contains(r, max) && Contains(r, toolsJson)
    ensures StartsWith(r, intro)
  {
    var parts := [
      intro + "\n\nDOCUMENT TO ANALYZE:\n- Document ID: ", documentId,
      "\n- Title: ", title,
      "\n- Max Comments: ", max,
      "\n\nAVAILABLE TOOLS:\n", toolsJson,
      "\n\n" + closing];
    JoinContainsPart("", parts, 1);
    JoinContainsPart("", parts, 3);
    JoinContainsPart("", parts, 5);
    JoinContainsPart("", parts, 7);
    JoinHead("", parts);
    assert parts[0][..|intro|] == intro;
    Join("", parts)
  }

  /** `_create_analysis_prompt`: the document, its title, the limit and the serialized tools, verbatim. */
  function CreatePrompt(documentId: string, title: string, maxComments: int, toolsJson: string): (r: string)
    ensures Contains(r, documentId) && Contains(r, title)
    ensures Contains(r, IntToString(maxComments)) && Contains(r, toolsJson)
    ensures StartsWith(r, PromptIntro)
  {
    PromptTemplate(PromptIntro, documentId, title, IntToString(maxComments), toolsJson, Closing)
  }

  // ---------------------------------------------------------------- reading the reply

  const Fence := "```json"
  const Ticks := "```"

  /**
    The stripped text of the first fenced JSON block, when a closing fence
    follows it with at least one character in between.
   */
  function FencedBody(response: string): (r: Option<string>)
  {
    if !Contains(response, Fence) then None
    else
      var start := FindFrom(response, Fence, 0) + |Fence|;
      var end := FindFrom(response, Ticks, start);
      if end > start then Some(Strip(response[start..end])) else None
  }

  /** `response[:500] + "..." if len(response) > 500 else response` */
  function Abbreviate(response: string): (r: string)
    ensures |r| <= 503
    ensures |response| <= 500 ==> r == response
    ensures |response| > 500 ==> StartsWith(r, response[..500]) && EndsWith(r, "...")
  {
    if |response| > 500 then response[..500] + "..." else response
  }

  /** The `sentiment_analysis` record of the two fallback results. */
  function UnknownSentiment(confidence: real, details: string): Json {
    JObj([("overall_sentiment", JStr("unknown")), ("confidence", JReal(confidence)), ("details", JStr(details))])
  }

  const UnknownImpact := JObj([
    ("economic_impact", JStr("unknown")),
    ("implementation_challenges", JArr([])),
    ("timeline_concerns", JArr([]))])

  /** The fields the two fallback results share, after the summary and the two notes. */
  function FallbackFields(confidence: real, details: string, response: string): (r: Fields)
    ensures |r| == 8
    ensures r[3] == ("sentiment_analysis", UnknownSentiment(confidence, details))
    ensures r[5] == ("confidence_score", JReal(confidence))
    ensures r[7] == ("raw_response", JStr(response))
  {
    [("regulatory_themes", JArr([])),
     ("stakeholder_concerns", JArr([])),
     ("recommendations", JArr([])),
     ("sentiment_analysis", UnknownSentiment(confidence, details)),
     ("impact_assessment", UnknownImpact),
     ("confidence_score", JReal(confidence)),
     ("total_comments_analyzed", JInt(0)),
     ("raw_response", JStr(response))]
  }

  /** The record built when the reply is not JSON at all. */
  function Degraded(response: string): (r: Json)
    ensures r.JObj? && |r.fields| == 11
    ensures r.fields[0] == ("summary", JStr(Abbreviate(response)))
    ensures r.fields[6] == ("sentiment_analysis", UnknownSentiment(0.5, "Response format was not JSON"))
    ensures r.fields[8] == ("confidence_score", JReal(0.5))
    ensures r.fields[10] == ("raw_response", JStr(response))
  {
    JObj([
      ("summary", JStr(Abbreviate(response))),
      ("key_insights", StrList(["Analysis completed but response format was not JSON"])),
      ("common_perspectives", StrList(["Response parsing required manual review"]))]
      + FallbackFields(0.5, "Response format was not JSON", response))
  }

  /** The record built when a JSON text fails to decode, carrying the decoder's message. */
  function ParseFailure(response: string, error: string): (r: Json)
    ensures r.JObj? && |r.fields| == 12
    ensures r.fields[6] == ("sentiment_analysis", UnknownSentiment(0.3, "JSON parsing error: " + error))
    ensures r.fields[8] == ("confidence_score", JReal(0.3))
    ensures r.fields[10] == ("raw_response", JStr(response))
    ensures r.fields[11] == ("parse_error", JStr(error))
  {
    JObj([
      ("summary", JStr("Analysis completed but response could not be parsed as JSON")),
      ("key_insights", StrList(["Response parsing failed"])),
      ("common_perspectives", StrList(["Manual review required"]))]
      + FallbackFields(0.3, "JSON parsing error: " + error, response)
      + [("parse_error", JStr(error))])
  }

  /** `json.loads(text)` inside the handler that turns a decoding error into the failure record. */
  function Loaded(response: string, decoded: Result<Json, string>): (r: Json)
    ensures decoded.Ok? ==> r == decoded.value
    ensures decoded.Err? ==> r == ParseFailure(response, decoded.error)
  {
    match decoded
    case Ok(j) => j
    case Err(e) => ParseFailure(response, e)
  }

  /** `_parse_analysis_response` */
  function ParseAnalysisResponse(response: string, loads: string -> Result<Json, string>): (r: Json)
  {
    match FencedBody(response)
    case Some(body) => Loaded(response, loads(body))
    case None =>
      if StartsWith(Strip(response), "{") then Loaded(response, loads(response))
      else Degraded(response)
  }

  /**
    A reply holding a fenced JSON block is read from that block alone: the
    decoded block, or the failure record when it does not decode, whatever
    the surrounding text looks like. The block is the first "```json" of the
    reply, and no "```" starts inside it; backticks may appear anywhere else.
   */
  lemma FencedBlockParsed(prefix: string, body: string, suffix: string, loads: string -> Result<Json, string>)
    requires |body| > 0
    requires forall i | 0 <= i < |prefix| :: !OccursAt(prefix + Fence + body + Ticks + suffix, Fence, i)
    requires forall i | |prefix| + |Fence| <= i < |prefix| + |Fence| + |body| ::
      !OccursAt(prefix + Fence + body + Ticks + suffix, Ticks, i)
    ensures var response := prefix + Fence + body + Ticks + suffix;
      ParseAnalysisResponse(response, loads) == Loaded(response, loads(Strip(body)))
  {
    FencedBodyOf(prefix, body, suffix);
  }

  /** The block is found between the first "```json" and the next "```". */
  lemma FencedBodyOf(prefix: string, body: string, suffix: string)
    requires |body| > 0
    requires forall i | 0 <= i < |prefix| :: !OccursAt(prefix + Fence + body + Ticks + suffix, Fence, i)
    requires forall i | |prefix| + |Fence| <= i < |prefix| + |Fence| + |body| ::
      !OccursAt(prefix + Fence + body + Ticks + suffix, Ticks, i)
    ensures FencedBody(prefix + Fence + body + Ticks + suffix) == Some(Strip(body))
  {
    var response := prefix + Fence + body + Ticks + suffix;
    var start := |prefix| + |Fence|;
    var end := start + |body|;
    assert response == prefix + Fence + (body + Ticks + suffix);
    OccursBetween(prefix, Fence, body + Ticks + suffix);
    FindFromFirst(response, Fence, 0, |prefix|);
    assert response == (prefix + Fence + body) + Ticks + suffix;
    OccursBetween(prefix + Fence + body, Ticks, suffix);
    FindFromFirst(response, Ticks, start, end);
    assert response[start..end] == body;
  }

  /** Inline code before the block and backticks after it do not disturb the reading. */
  lemma InlineCodeBeforeBlock(loads: string -> Result<Json, string>)
    ensures var response := "Use `x` here " + Fence + "{}" + Ticks + " `y`";
      ParseAnalysisResponse(response, loads) == Loaded(response, loads("{}"))
  {
    var prefix, body, suffix := "Use `x` here ", "{}", " `y`";
    var response := prefix + Fence + body + Ticks + suffix;
    forall i | 0 <= i < |prefix| ensures !OccursAt(response, Fence, i) {
      assert response[i] == prefix[i] && response[i + 1] == (prefix + Fence)[i + 1];
      assert response[i] != '`' || response[i + 1] != '`';
      assert response[i..i + 7][0] == response[i] && response[i..i + 7][1] == response[i + 1];
    }
    forall i | |prefix| + |Fence| <= i < |prefix| + |Fence| + |body| ensures !OccursAt(response, Ticks, i) {
      assert response[i] == '{' || response[i] == '}';
    }
    FencedBlockParsed(prefix, body, suffix, loads);
    assert Strip(body) == body by {
      NoSpaceStrip(body);
    }
  }

  /** Without a fenced block, a reply that starts with `{` is decoded whole. */
  lemma BareObjectParsed(response: string, loads: string -> Result<Json, string>)
    requires !Contains(response, Fence)
    requires StartsWith(Strip(response), "{")
    ensures ParseAnalysisResponse(response, loads) == Loaded(response, loads(response))
  {
  }

  /**
    A reply with neither a usable fenced block nor a leading `{` becomes the
    degraded record.
   */
  lemma DegradedWhenNotJson(response: string, loads: string -> Result<Json, string>)
    requires FencedBody(response).None?
    requires !StartsWith(Strip(response), "{")
    ensures ParseAnalysisResponse(response, loads) == Degraded(response)
  {
  }

  /** The degraded record, unlike the failure record, has no parse error. */
  lemma DegradedHasNoParseError(response: string)
    ensures Lookup(Degraded(response).fields, "parse_error").None?
  {
    var f := Degraded(response).fields;
    forall i | 0 <= i < |f| ensures f[i].0 != "parse_error" {
      assert |f[i].0| != |"parse_error"|;
    }
  }

  /** The failure record names the decoding error and has confidence 0.3. */
  lemma ParseFailureFields(response: string, error: string)
    ensures Lookup(ParseFailure(response, error).fields, "parse_error") == Some(JStr(error))
    ensures Lookup(ParseFailure(response, error).fields, "confidence_score") == Some(JReal(0.3))
  {
    var f := ParseFailure(response, error).fields;
    forall i | 0 <= i < 11 ensures f[i].0 != "parse_error" {
      assert |f[i].0| != |"parse_error"|;
    }
    forall i | 0 <= i < 8 ensures f[i].0 != "confidence_score" {
      assert |f[i].0| != |"confidence_score"|;
    }
    LookupFirst(f, "parse_error", 11);
    LookupFirst(f, "confidence_score", 8);
  }

  // ---------------------------------------------------------------- the generate call

  /** What the post to the generate endpoint brought back. */
  datatype Reply =
    | Reply(status: int, text: string, body: Result<Json, string>)
    | ReplyError(error: string)

  /** The three settings read from the stored configuration, with their defaults. */
  function Host(config: Fields): Json { Field(config, "gptHost", JStr("10.0.4.52")) }
  function Port(config: Fields): Json { Field(config, "gptPort", JStr("11434")) }
  function Model(config: Fields): Json { Field(config, "gptModel", JStr("gpt-oss:20b")) }

  function GenerateUrl(config: Fields): string {
    "http://" + PyStr(Host(config)) + ":" + PyStr(Port(config)) + "/api/generate"
  }

  function Payload(model: Json, prompt: string): Json {
    JObj([
      ("model", model),
      ("prompt", JStr(prompt)),
      ("stream", JBool(false)),
      ("reasoning_level", JStr("high")),
      ("options", JObj([("temperature", JReal(0.3)), ("top_p", JReal(0.8)), ("max_tokens", JInt(4000))]))])
  }

  function CannotConnect(url: string): string {
    "Cannot connect to GPT model at " + url + ". Please check if the model is running."
  }

  /**
    The `response` field as text. A value of another type fails inside the
    parser: the `in` test raises for scalars, and lists and dicts have no
    `find` or `strip`.
   */
  function ResponseText(raw: Json): (r: Result<string, string>)
    ensures r.Ok? <==> raw.JStr?
    ensures r.Ok? ==> r.value == raw.s
  {
    if raw.JStr? then Ok(raw.s)
    else
      var hasFence :- In(Fence, raw);
      Err(AttributeError(raw, if hasFence then "find" else "strip"))
  }

  /** The reply read as (analysis, raw text), or the message of the exception raised. */
  function ReadReply(url: string, reply: Reply, loads: string -> Result<Json, string>): (r: Result<(Json, string), string>)
    ensures reply.ReplyError? ==> r == Err(reply.error)
    ensures reply.Reply? && !StatusOk(reply.status) ==>
      r == Err(if reply.status == 0 || reply.status >= 500 then CannotConnect(url)
               else "HTTP " + IntToString(reply.status) + ": " + reply.text)
    ensures r.Ok? ==> r.value.0 == ParseAnalysisResponse(r.value.1, loads)
  {
    match reply
    case ReplyError(e) => Err(e)
    case Reply(status, text, body) =>
      if !StatusOk(status) then
        if status == 0 || status >= 500 then Err(CannotConnect(url))
        else Err("HTTP " + IntToString(status) + ": " + text)
      else
        var result :- body;
        var raw :- Get(result, "response", JStr(""));
        var response :- ResponseText(raw);
        Ok((ParseAnalysisResponse(response, loads), response))
  }

  datatype AnalysisResult = AnalysisResult(
    success: bool,
    documentId: string,
    analysis: Option<Json>,
    error: Option<string>,
    rawResponse: Option<string>)

  /** Everything the analysis depends on besides its arguments. */
  datatype Bridge = Bridge(
    config: Fields,
    toolsJson: string,
    post: (string, Json) -> Reply,
    loads: string -> Result<Json, string>)

  function RequestFor(b: Bridge, documentId: string, title: string, maxComments: int): Reply {
    b.post(GenerateUrl(b.config), Payload(Model(b.config), CreatePrompt(documentId, title, maxComments, b.toolsJson)))
  }

  /** The result built from the generate endpoint's reply. */
  function Analyze(url: string, documentId: string, reply: Reply, loads: string -> Result<Json, string>): (r: AnalysisResult)
    ensures r.documentId == documentId
    ensures r.success <==> r.analysis.Some?
    ensures r.success <==> r.error.None?
    ensures r.success <==> r.rawResponse.Some?
    ensures r.success ==> r.analysis.value == ParseAnalysisResponse(r.rawResponse.value, loads)
  {
    match ReadReply(url, reply, loads)
    case Ok((analysis, raw)) => AnalysisResult(true, documentId, Some(analysis), None, Some(raw))
    case Err(e) => AnalysisResult(false, documentId, None, Some(e), None)
  }

  /**
    `analyze_document_comments`: never raises; a success carries the parsed
    analysis and the raw reply, a failure carries the error message.
   */
  function AnalyzeDocumentComments(b: Bridge, documentId: string, title: string, maxComments: int): (r: AnalysisResult)
    ensures r.documentId == documentId
    ensures r.success <==> r.error.None?
  {
    Analyze(GenerateUrl(b.config), documentId, RequestFor(b, documentId, title, maxComments), b.loads)
  }

  /** A server error from the generate endpoint is reported as "cannot connect", naming the URL. */
  lemma ServerErrorNamesUrl(url: string, documentId: string, status: int, text: string, body: Result<Json, string>,
                            loads: string -> Result<Json, string>)
    requires 500 <= status < 600
    ensures var r := Analyze(url, documentId, Reply(status, text, body), loads);
      !r.success && r.error == Some(CannotConnect(url))
  {
  }

  /** A client error is reported with its status code and the reply's text. */
  lemma ClientErrorIsHttp(url: string, documentId: string, status: int, text: string, body: Result<Json, string>,
                          loads: string -> Result<Json, string>)
    requires 400 <= status < 500
    ensures Analyze(url, documentId, Reply(status, text, body), loads).error
      == Some("HTTP " + IntToString(status) + ": " + text)
  {
  }

  /** A reply whose `response` field is text succeeds with that text parsed. */
  lemma TextReplySucceeds(url: string, documentId: string, status: int, text: string, raw: string,
                          loads: string -> Result<Json, string>)
    requires StatusOk(status)
    ensures var r := Analyze(url, documentId, Reply(status, text, Ok(JObj([("response", JStr(raw))]))), loads);
      r.success && r.rawResponse == Some(raw) && r.analysis == Some(ParseAnalysisResponse(raw, loads))
  {
  }

  // ---------------------------------------------------------------- connection test

  function TestPayload(model: Json): Json {
    JObj([
      ("model", model),
      ("prompt", JStr("Test connection")),
      ("stream", JBool(false)),
      ("options", JObj([("temperature", JReal(0.1)), ("max_tokens", JInt(10))]))])
  }

  const NotTested := JObj([("success", JBool(false)), ("error", JStr("Not tested"))])

  function Untested(error: string): Json {
    JObj([("success", JBool(false)), ("error", JStr(error)), ("regulations_api", NotTested), ("ollama", NotTested)])
  }

  function OllamaTest(status: int): Json {
    JObj([
      ("success", JBool(StatusOk(status))),
      ("message", JStr(if StatusOk(status) then "Ollama connection successful"
                       else "Ollama connection failed: " + IntToString(status)))])
  }

  /** Python's `a and b`: `a` when it is falsy, else `b`. */
  function PyAnd(a: Json, b: Json): (r: Json)
    ensures Truthy(r) <==> Truthy(a) && Truthy(b)
  {
    if Truthy(a) then b else a
  }

  /**
    `test_connection`: the regulations.gov tool's outcome `apiTest` and a
    test post to the generate endpoint; the overall `success` is the
    tool's `success` and the endpoint's status, combined by `and`.
   */
  function TestConnection(b: Bridge, apiTest: Json): (r: Json)
    ensures r.JObj? && |r.fields| == 4 && r.fields[0].0 == "success"
    ensures Truthy(r.fields[0].1) <==>
      var reply := b.post(GenerateUrl(b.config), TestPayload(Model(b.config)));
      apiTest.JObj? && Truthy(Field(apiTest.fields, "success", JBool(false))) && reply.Reply? && StatusOk(reply.status)
  {
    match b.post(GenerateUrl(b.config), TestPayload(Model(b.config)))
    case ReplyError(e) => Untested(e)
    case Reply(status, _, _) =>
      match Get(apiTest, "success", JBool(false))
      case Err(e) => Untested(e)
      case Ok(apiSuccess) =>
        JObj([
          ("success", PyAnd(apiSuccess, JBool(StatusOk(status)))),
          ("regulations_api", apiTest),
          ("ollama", OllamaTest(status)),
          ("config", JObj([("gpt_host", Host(b.config)), ("gpt_port", Port(b.config)), ("gpt_model", Model(b.config))]))])
  }
}

=== FILE: regulations_api.dfy ===
/**
  The regulations.gov client: one request with its status-code errors, the
  document's object id, the comment count, the comments of one document,
  the docket id derived from a document id, and the connection test.

  Each HTTP exchange is a `Transport` value given by the caller: either a
  response (status, reason phrase, and the body as decoded JSON or the
  decoding failure) or a connection failure. The details of one comment are
  fetched by a caller-supplied function, since that call never raises and
  returns a comment or nothing.
 */
module RegulationsApi {
  import opened Wrappers
  import opened Strings
  import opened Json
  import opened Comments

  datatype Transport =
    | Response(status: int, reason: string, body: Result<Json, string>)
    | TransportError(error: string)

  /** `requests`' `Response.ok`: neither a client nor a server error status. */
  predicate StatusOk(status: int) {
    !(400 <= status < 600)
  }

  // The longer messages are written in pieces; the texts are the source's.
  const InvalidKey := "Invalid regulations.gov API key. " + "Please check your API key."
  const AccessDenied := "API key access denied. " + "Please verify your regulations.gov " + "API key permissions."
  const RateLimited := "API rate limit exceeded. " + "Please try again later."
  const ConnectFailure := "Failed to connect to " + "regulations.gov API: "

  function HttpError(status: int, reason: string): string {
    "HTTP " + IntToString(status) + ": " + reason
  }

  // ---------------------------------------------------------------- one request

  /** `_make_request`: the decoded body of a successful response, or the error raised. */
  function MakeRequest(t: Transport): (r: Result<Json, string>)
    ensures r.Ok? <==> t.Response? && StatusOk(t.status) && t.body.Ok?
    ensures r.Ok? ==> r.value == t.body.value
    ensures t.TransportError? ==> r == Err(ConnectFailure + t.error)
    ensures t.Response? && t.status == 401 ==> r == Err(InvalidKey)
    ensures t.Response? && t.status == 403 ==> r == Err(AccessDenied)
    ensures t.Response? && t.status == 429 ==> r == Err(RateLimited)
    ensures t.Response? && t.status !in {401, 403, 429} && !StatusOk(t.status) ==>
      r == Err(HttpError(t.status, t.reason))
    ensures t.Response? && StatusOk(t.status) && t.body.Err? ==> r == Err(ConnectFailure + t.body.error)
  {
    match t
    case TransportError(e) => Err(ConnectFailure + e)
    case Response(status, reason, body) =>
      if status == 401 then Err(InvalidKey)
      else if status == 403 then Err(AccessDenied)
      else if status == 429 then Err(RateLimited)
      else if !StatusOk(status) then Err(HttpError(status, reason))
      else if body.Err? then Err(ConnectFailure + body.error)
      else Ok(body.value)
  }

  // ---------------------------------------------------------------- object id

  /** `get_document_object_id`, with every failure read as "no object id". */
  function ObjectIdOf(t: Transport): (r: Option<Json>)
    ensures r.Some? ==> Truthy(r.value)
    ensures r.Some? ==> MakeRequest(t).Ok?
  {
    match ReadObjectId(t)
    case Ok(Some(id)) => if Truthy(id) then Some(id) else None
    case _ => None
  }

  /** The lookups of `get_document_object_id` before its error handler. */
  function ReadObjectId(t: Transport): (r: Result<Option<Json>, string>)
    ensures r.Ok? && r.value.Some? ==> MakeRequest(t).Ok?
  {
    var data :- MakeRequest(t);
    if !Truthy(data) then Ok(None)
    else
      var hasData :- In("data", data);
      if !hasData then Ok(None)
      else
        var inner :- Index(data, "data");
        var hasAttributes :- In("attributes", inner);
        if !hasAttributes then Ok(None)
        else
          var attributes :- Index(inner, "attributes");
          var id :- Get(attributes, "objectId", JNull);
          Ok(Some(id))
  }

  /** The document body the endpoint sends: `{"data": {"attributes": {"objectId": id}}}`. */
  function DocumentBody(id: Json): Json {
    JObj([("data", JObj([("attributes", JObj([("objectId", id)]))]))])
  }

  /** A well-formed document response yields its object id exactly when the id is truthy. */
  lemma ObjectIdOfDocument(status: int, reason: string, id: Json)
    requires StatusOk(status)
    ensures ObjectIdOf(Response(status, reason, Ok(DocumentBody(id)))) == (if Truthy(id) then Some(id) else None)
  {
  }

  // ---------------------------------------------------------------- endpoints

  /**
    The three endpoints the client calls: the document (by document id), the
    comment list (by object id and page size), and the details of one
    comment (by comment id; `fetch_comment_details`, which never raises).
   */
  datatype Api = Api(
    document: string -> Transport,
    commentList: (Json, int) -> Transport,
    commentDetail: Json -> Option<Comment>)

  /** The page size the comment count asks for. */
  const CountPageSize := 5

  /** `get_document_comment_count`: `meta.totalElements`, or 0 on any failure. */
  function GetDocumentCommentCount(api: Api, documentId: string): (r: Json)
    ensures ObjectIdOf(api.document(documentId)).None? ==> r == JInt(0)
    ensures ObjectIdOf(api.document(documentId)).Some? ==>
      var list := api.commentList(ObjectIdOf(api.document(documentId)).value, CountPageSize);
      MakeRequest(list).Err? ==> r == JInt(0)
  {
    match ObjectIdOf(api.document(documentId))
    case None => JInt(0)
    case Some(id) =>
      match ReadTotal(api.commentList(id, CountPageSize))
      case Ok(total) => total
      case Err(_) => JInt(0)
  }

  /** The lookups of `get_document_comment_count` before its error handler. */
  function ReadTotal(t: Transport): (r: Result<Json, string>)
    ensures MakeRequest(t).Err? ==> r.Err?
  {
    var data :- MakeRequest(t);
    if !Truthy(data) then Ok(JInt(0))
    else
      var hasMeta :- In("meta", data);
      if !hasMeta then Ok(JInt(0))
      else
        var meta :- Index(data, "meta");
        Get(meta, "totalElements", JInt(0))
  }

  /** A list body `{"meta": {"totalElements": n}}`. */
  function CountBody(total: Json): Json {
    JObj([("meta", JObj([("totalElements", total)]))])
  }

  /** The count is the total the list endpoint reports for the document's object id. */
  lemma CountOfMeta(api: Api, documentId: string, total: Json)
    requires ObjectIdOf(api.document(documentId)).Some?
    requires api.commentList(ObjectIdOf(api.document(documentId)).value, CountPageSize)
      == Response(200, "OK", Ok(CountBody(total)))
    ensures GetDocumentCommentCount(api, documentId) == total
  {
  }

  // ---------------------------------------------------------------- comments

  /**
    One comment summary: a dict with an `id` whose details belong to the
    document gives that comment; a dict without `id` or whose details are
    missing or belong elsewhere gives nothing; anything else fails, because
    the error handler calls `.get` on it.
   */
  function KeptDetail(api: Api, documentId: string, summary: Json): (r: Result<seq<Comment>, string>)
    ensures r.Ok? <==> summary.JObj?
    ensures r.Ok? ==> |r.value| <= 1
    ensures r.Ok? && |r.value| == 1 ==>
      Lookup(summary.fields, "id").Some? &&
      api.commentDetail(Lookup(summary.fields, "id").value) == Some(r.value[0]) &&
      r.value[0].commentOnDocumentId == documentId
    ensures summary.JObj? && Lookup(summary.fields, "id").Some?
      && api.commentDetail(Lookup(summary.fields, "id").value).Some?
      && api.commentDetail(Lookup(summary.fields, "id").value).value.commentOnDocumentId == documentId
      ==> r == Ok([api.commentDetail(Lookup(summary.fields, "id").value).value])
  {
    match summary
    case JObj(fields) =>
      (match Lookup(fields, "id")
       case None => Ok([])
       case Some(id) =>
         match api.commentDetail(id)
         case Some(c) => if c.commentOnDocumentId == documentId then Ok([c]) else Ok([])
         case None => Ok([]))
    case _ => Err(AttributeError(summary, "get"))
  }

  /** The loop over the summaries to process, in order. */
  function KeptDetails(api: Api, documentId: string, summaries: seq<Json>): (r: Result<seq<Comment>, string>)
    decreases |summaries|
  {
    if |summaries| == 0 then Ok([])
    else
      var head :- KeptDetail(api, documentId, summaries[0]);
      var rest :- KeptDetails(api, documentId, summaries[1..]);
      Ok(head + rest)
  }

  /**
    The loop fails exactly when some summary is not a dict; otherwise it
    keeps exactly the comments the summaries stand for, in list order: at
    most one per summary, and every one of them for the document.
   */
  lemma KeptDetailsMeans(api: Api, documentId: string, summaries: seq<Json>)
    ensures KeptDetails(api, documentId, summaries).Ok? <==> forall i | 0 <= i < |summaries| :: summaries[i].JObj?
    ensures KeptDetails(api, documentId, summaries).Ok?
      ==> KeptDetails(api, documentId, summaries).value == Matches(api, documentId, summaries)
    ensures KeptDetails(api, documentId, summaries).Ok? ==>
      |KeptDetails(api, documentId, summaries).value| <= |summaries|
    ensures KeptDetails(api, documentId, summaries).Ok? ==>
      forall c | c in KeptDetails(api, documentId, summaries).value :: c.commentOnDocumentId == documentId
  {
    KeptDetailsOkIff(api, documentId, summaries);
    KeptDetailsExact(api, documentId, summaries);
    var r := KeptDetails(api, documentId, summaries);
    if r.Ok? {
      forall c | c in r.value ensures c.commentOnDocumentId == documentId {
        MatchesMembers(api, documentId, summaries, c);
      }
    }
  }

  /** The loop fails exactly when some summary is not a dict. */
  lemma {:induction false} KeptDetailsOkIff(api: Api, documentId: string, summaries: seq<Json>)
    ensures KeptDetails(api, documentId, summaries).Ok? <==> forall i | 0 <= i < |summaries| :: summaries[i].JObj?
    decreases |summaries|
  {
    if |summaries| > 0 {
      KeptDetailsOkIff(api, documentId, summaries[1..]);
      var head := KeptDetail(api, documentId, summaries[0]);
      var rest := KeptDetails(api, documentId, summaries[1..]);
      if !summaries[0].JObj? {
        assert KeptDetails(api, documentId, summaries).Err?;
      } else if rest.Err? {
        var i :| 0 <= i < |summaries[1..]| && !summaries[1..][i].JObj?;
        assert !summaries[i + 1].JObj?;
      } else {
        assert KeptDetails(api, documentId, summaries) == Ok(head.value + rest.value);
        forall i | 0 <= i < |summaries| ensures summaries[i].JObj? {
          if i > 0 { assert summaries[i] == summaries[1..][i - 1]; }
        }
      }
    }
  }

  /** The comment a summary stands for: a dict with an `id` whose details name the document. */
  function MatchedDetail(api: Api, documentId: string, summary: Json): Option<Comment> {
    if summary.JObj? && Lookup(summary.fields, "id").Some? then
      var detail := api.commentDetail(Lookup(summary.fields, "id").value);
      if detail.Some? && detail.value.commentOnDocumentId == documentId then detail else None
    else None
  }

  /** The reference filter: the comments the summaries stand for, in list order. */
  function Matches(api: Api, documentId: string, summaries: seq<Json>): (r: seq<Comment>)
    ensures |r| <= |summaries|
    decreases |summaries|
  {
    if |summaries| == 0 then []
    else
      (match MatchedDetail(api, documentId, summaries[0]) case Some(c) => [c] case None => [])
      + Matches(api, documentId, summaries[1..])
  }

  /** A comment is matched exactly when some summary stands for it. */
  lemma {:induction false} MatchesMembers(api: Api, documentId: string, summaries: seq<Json>, c: Comment)
    ensures c in Matches(api, documentId, summaries)
      <==> exists i | 0 <= i < |summaries| :: MatchedDetail(api, documentId, summaries[i]) == Some(c)
    decreases |summaries|
  {
    if |summaries| > 0 {
      MatchesMembers(api, documentId, summaries[1..], c);
      if exists i | 0 <= i < |summaries[1..]| :: MatchedDetail(api, documentId, summaries[1..][i]) == Some(c) {
        var i :| 0 <= i < |summaries[1..]| && MatchedDetail(api, documentId, summaries[1..][i]) == Some(c);
        assert summaries[1..][i] == summaries[i + 1];
      }
      if exists i | 0 <= i < |summaries| :: MatchedDetail(api, documentId, summaries[i]) == Some(c) {
        var i :| 0 <= i < |summaries| && MatchedDetail(api, documentId, summaries[i]) == Some(c);
        if i > 0 {
          assert summaries[1..][i - 1] == summaries[i];
        }
      }
    }
  }

  /** A successful loop keeps exactly the reference filter's comments. */
  lemma {:induction false} KeptDetailsExact(api: Api, documentId: string, summaries: seq<Json>)
    ensures KeptDetails(api, documentId, summaries).Ok?
      ==> KeptDetails(api, documentId, summaries).value == Matches(api, documentId, summaries)
    decreases |summaries|
  {
    var r := KeptDetails(api, documentId, summaries);
    if |summaries| > 0 && r.Ok? {
      var head := KeptDetail(api, documentId, summaries[0]);
      var rest := KeptDetails(api, documentId, summaries[1..]);
      KeptDetailsExact(api, documentId, summaries[1..]);
      assert head.value == (match MatchedDetail(api, documentId, summaries[0]) case Some(c) => [c] case None => []);
    }
  }

  /** The loop over two runs of summaries is the two loops one after the other. */
  lemma {:induction false} KeptDetailsAppend(api: Api, documentId: string, a: seq<Json>, b: seq<Json>)
    requires KeptDetails(api, documentId, a).Ok? && KeptDetails(api, documentId, b).Ok?
    ensures KeptDetails(api, documentId, a + b)
      == Ok(KeptDetails(api, documentId, a).value + KeptDetails(api, documentId, b).value)
    decreases |a|
  {
    if |a| == 0 {
      assert a + b == b;
      var rb := KeptDetails(api, documentId, b);
      assert KeptDetails(api, documentId, a).value == [];
      assert [] + rb.value == rb.value;
      assert rb == Ok(rb.value);
    } else {
      assert (a + b)[0] == a[0] && (a + b)[1..] == a[1..] + b;
      var head := KeptDetail(api, documentId, a[0]);
      assert head.Ok? && KeptDetails(api, documentId, a[1..]).Ok?;
      KeptDetailsAppend(api, documentId, a[1..], b);
      var restA, restB := KeptDetails(api, documentId, a[1..]).value, KeptDetails(api, documentId, b).value;
      assert KeptDetails(api, documentId, a) == Ok(head.value + restA);
      assert KeptDetails(api, documentId, a + b) == Ok(head.value + (restA + restB));
      assert head.value + (restA + restB) == (head.value + restA) + restB;
    }
  }

  /** `comment_summaries[i]` for the first `k` summaries, which `len` accepted. */
  function Summaries(summaries: Json, k: nat): (r: Result<seq<Json>, string>)
    requires Len(summaries).Ok? && k <= Len(summaries).value
    ensures r.Ok? ==> |r.value| == k
    ensures summaries.JArr? ==> r == Ok(summaries.items[..k])
  {
    match summaries
    case JArr(items) => Ok(items[..k])
    case JStr(s) => Ok(Chars(s)[..k])
    case JObj(_) => if k == 0 then Ok([]) else Err("0")
  }

  /**
    `fetch_comments_by_document_id`: no object id, an empty body or an
    empty `data` gives no comments; a failed list request is raised; of the
    first `max` summaries, the comments whose details name the document are
    kept in order.
   */
  function FetchCommentsByDocumentId(api: Api, documentId: string, max: int): (r: Result<seq<Comment>, string>)
    ensures ObjectIdOf(api.document(documentId)).None? ==> r == Ok([])
    ensures ObjectIdOf(api.document(documentId)).Some? ==>
      var list := api.commentList(ObjectIdOf(api.document(documentId)).value, max);
      MakeRequest(list).Err? ==> r == Err(MakeRequest(list).error)
    ensures r.Ok? && |r.value| > 0 ==> |r.value| <= max
    ensures r.Ok? ==> forall c | c in r.value :: c.commentOnDocumentId == documentId
    ensures ObjectIdOf(api.document(documentId)).Some? ==>
      var list := MakeRequest(api.commentList(ObjectIdOf(api.document(documentId)).value, max));
      list.Ok? && list.value.JObj? && Lookup(list.value.fields, "data").Some? && Lookup(list.value.fields, "data").value.JArr?
      ==> r == KeptDetails(api, documentId, Take(Lookup(list.value.fields, "data").value.items, if max < 0 then 0 else max))
    ensures ObjectIdOf(api.document(documentId)).Some? ==>
      var list := MakeRequest(api.commentList(ObjectIdOf(api.document(documentId)).value, max));
      list.Ok? && list.value.JObj? && Lookup(list.value.fields, "data").Some? && Lookup(list.value.fields, "data").value.JArr?
      ==> r.Ok? ==> r.value == Matches(api, documentId, Take(Lookup(list.value.fields, "data").value.items, if max < 0 then 0 else max))
  {
    match ObjectIdOf(api.document(documentId))
    case None => Ok([])
    case Some(id) =>
      var data :- MakeRequest(api.commentList(id, max));
      ListingMatches(api, documentId, data, max);
      CommentsOfListing(api, documentId, data, max)
  }

  /** On a listed array the comments are exactly those the first `max` summaries stand for. */
  lemma ListingMatches(api: Api, documentId: string, data: Json, max: int)
    ensures data.JObj? && Lookup(data.fields, "data").Some? && Lookup(data.fields, "data").value.JArr?
      && CommentsOfListing(api, documentId, data, max).Ok?
      ==> CommentsOfListing(api, documentId, data, max).value
          == Matches(api, documentId, Take(Lookup(data.fields, "data").value.items, if max < 0 then 0 else max))
  {
    if data.JObj? && Lookup(data.fields, "data").Some? && Lookup(data.fields, "data").value.JArr? {
      KeptDetailsMeans(api, documentId, Take(Lookup(data.fields, "data").value.items, if max < 0 then 0 else max));
    }
  }

  /**
    The comments of a listing body: none for an empty body, a body without
    `data` or an empty `data`; otherwise the loop over the first `max`
    summaries.
   */
  function CommentsOfListing(api: Api, documentId: string, data: Json, max: int): (r: Result<seq<Comment>, string>)
    ensures r.Ok? && |r.value| > 0 ==> |r.value| <= max
    ensures r.Ok? ==> forall c | c in r.value :: c.commentOnDocumentId == documentId
    ensures data.JObj? && Lookup(data.fields, "data").Some? && Lookup(data.fields, "data").value.JArr?
      ==> r == KeptDetails(api, documentId, Take(Lookup(data.fields, "data").value.items, if max < 0 then 0 else max))
  {
    if !Truthy(data) then Ok([])
    else
      var hasData :- In("data", data);
      if !hasData then Ok([])
      else
        var summaries :- Index(data, "data");
        if !Truthy(summaries) then
          assert summaries.JArr? ==> Take(summaries.items, if max < 0 then 0 else max) == [];
          Ok([])
        else
          var n :- Len(summaries);
          var k := if n < max then n else max;
          if k <= 0 then
            assert summaries.JArr? ==> Take(summaries.items, if max < 0 then 0 else max) == [];
            Ok([])
          else
            var items :- Summaries(summaries, k);
            assert summaries.JArr? ==> items == Take(summaries.items, max);
            KeptDetailsMeans(api, documentId, items);
            KeptDetails(api, documentId, items)
  }

  /** A list body `{"data": summaries}`. */
  function ListBody(summaries: seq<Json>): Json {
    JObj([("data", JArr(summaries))])
  }

  /** For a list of summaries, the comments are those of the first `max` summaries. */
  lemma FetchOfList(api: Api, documentId: string, max: int, summaries: seq<Json>)
    requires ObjectIdOf(api.document(documentId)).Some?
    requires api.commentList(ObjectIdOf(api.document(documentId)).value, max)
      == Response(200, "OK", Ok(ListBody(summaries)))
    requires 0 < max
    ensures FetchCommentsByDocumentId(api, documentId, max)
      == KeptDetails(api, documentId, Take(summaries, max))
  {
    var body := ListBody(summaries);
    assert Index(body, "data") == Ok(JArr(summaries));
    if |summaries| == 0 {
      assert KeptDetails(api, documentId, Take(summaries, max)) == Ok([]);
    } else {
      var k := if |summaries| < max then |summaries| else max;
      assert Take(summaries, max) == summaries[..k];
    }
  }

  /**
    For a list of summaries the fetch succeeds exactly when each of the first
    `max` summaries is a dict, and then returns exactly the comments those
    summaries stand for, in list order.
   */
  lemma FetchKeepsMatches(api: Api, documentId: string, max: int, summaries: seq<Json>)
    requires ObjectIdOf(api.document(documentId)).Some?
    requires api.commentList(ObjectIdOf(api.document(documentId)).value, max)
      == Response(200, "OK", Ok(ListBody(summaries)))
    requires 0 < max
    ensures var r, kept := FetchCommentsByDocumentId(api, documentId, max), Take(summaries, max);
      && (r.Ok? <==> forall i | 0 <= i < |kept| :: kept[i].JObj?)
      && (r.Ok? ==> r.value == Matches(api, documentId, kept))
  {
    FetchOfList(api, documentId, max, summaries);
    KeptDetailsMeans(api, documentId, Take(summaries, max));
  }

  // ---------------------------------------------------------------- docket id

  /** `derive_docket_id`: the first three `-`-separated parts of the document id. */
  function DeriveDocketId(documentId: string): (r: Option<string>)
  {
    if |documentId| == 0 then None
    else
      var parts := SplitOn(documentId, {'-'});
      if |parts| >= 3 then Some(Join("-", parts[..3])) else None
  }

  /** A docket id is derived exactly when the document id has at least two hyphens. */
  lemma DocketIdWhenTwoHyphens(documentId: string)
    ensures DeriveDocketId(documentId).Some? <==> multiset(documentId)['-'] >= 2
  {
    SplitCount(documentId, '-');
  }

  /** The docket id is the front of the document id. */
  lemma DocketIdPrefix(documentId: string)
    requires DeriveDocketId(documentId).Some?
    ensures StartsWith(documentId, DeriveDocketId(documentId).value)
  {
    JoinOfSplit(documentId, '-');
    JoinPrefix("-", SplitOn(documentId, {'-'}), 3);
  }

  /** The docket id has two hyphens, and deriving from it again gives it back. */
  lemma DocketIdIdempotent(documentId: string)
    requires DeriveDocketId(documentId).Some?
    ensures multiset(DeriveDocketId(documentId).value)['-'] == 2
    ensures DeriveDocketId(DeriveDocketId(documentId).value) == DeriveDocketId(documentId)
  {
    var three := SplitOn(documentId, {'-'})[..3];
    var docket := Join("-", three);
    ThreePiecesFree(documentId);
    SplitJoin(three, '-');
    SplitCount(docket, '-');
    assert |docket| > 0 by {
      assert three[1..][1..] == [three[2]];
      assert docket == three[0] + "-" + Join("-", three[1..]);
    }
    assert three[..3] == three;
  }

  /** The first three parts of a split on `-` hold no `-`. */
  lemma ThreePiecesFree(documentId: string)
    requires |SplitOn(documentId, {'-'})| >= 3
    ensures forall i | 0 <= i < 3 :: FreeOf(SplitOn(documentId, {'-'})[..3][i], {'-'})
  {
    var parts := SplitOn(documentId, {'-'});
    SplitPieces(documentId, {'-'});
    forall i | 0 <= i < 3 ensures FreeOf(parts[..3][i], {'-'}) {
      assert parts[..3][i] in parts;
    }
  }

  // ---------------------------------------------------------------- connection test

  const KeyValid := "API key is valid and working!"
  const KeyLimited := "API key is valid! (Limited access - " + "dockets endpoint restricted)"
  const NoPermission := "API key access denied. " + "Your API key may not have " + "the required permissions."
  const InvalidApiKey := "Invalid API key. " + "Please check your regulations.gov API key."
  const DeniedApiKey := "API key access denied. " + "Please contact regulations.gov support " + "to enable comment access."
  const TestFailure := "Failed to test API connection: "

  /** The error handler of `test_api_connection`, which reads the message text. */
  function RemapConnectionError(e: string): (r: string)
    ensures Contains(e, "Invalid") || Contains(e, "401") <==> r == InvalidApiKey
    ensures !(Contains(e, "Invalid") || Contains(e, "401")) && (Contains(e, "403") || Contains(e, "access denied"))
      <==> r == DeniedApiKey
    ensures !(Contains(e, "Invalid") || Contains(e, "401") || Contains(e, "403") || Contains(e, "access denied"))
      <==> r == TestFailure + e
  {
    assert InvalidApiKey[0] == 'I' && DeniedApiKey[0] == 'A' && (TestFailure + e)[0] == 'F';
    if Contains(e, "Invalid") || Contains(e, "401") then InvalidApiKey
    else if Contains(e, "403") || Contains(e, "access denied") then DeniedApiKey
    else TestFailure + e
  }

  /**
    `test_api_connection`: the dockets endpoint first; only when it answers
    with an empty body is the comments endpoint asked; every failure is
    reworded by the error handler.
   */
  function TestApiConnection(dockets: Transport, comments: Transport): (r: Result<string, string>)
    ensures r.Ok? ==> r.value == KeyValid || r.value == KeyLimited
    ensures r.Ok? && r.value == KeyValid <==> MakeRequest(dockets).Ok? && Truthy(MakeRequest(dockets).value)
    ensures r.Err? ==> exists e :: r.error == RemapConnectionError(e)
  {
    assert |KeyValid| == 29 && |KeyLimited| == 64;
    match Probe(dockets, comments)
    case Ok(message) => Ok(message)
    case Err(e) => Err(RemapConnectionError(e))
  }

  /** The body of `test_api_connection` before its error handler. */
  function Probe(dockets: Transport, comments: Transport): (r: Result<string, string>)
    ensures MakeRequest(dockets).Err? ==> r == Err(MakeRequest(dockets).error)
  {
    var data :- MakeRequest(dockets);
    if Truthy(data) then Ok(KeyValid)
    else
      var commentsData :- MakeRequest(comments);
      if Truthy(commentsData) then Ok(KeyLimited)
      else Err(NoPermission)
  }

  /** A rejected key at the dockets endpoint is reported as an invalid key. */
  lemma UnauthorizedIsInvalidKey(reason: string, body: Result<Json, string>, comments: Transport)
    ensures TestApiConnection(Response(401, reason, body), comments) == Err(InvalidApiKey)
  {
    assert InvalidKey[..7] == "Invalid";
    ContainsWitness(InvalidKey, "Invalid", 0);
  }

  /** Two empty answers are reported as access denied. */
  lemma BothEmptyIsDenied(dockets: Transport, comments: Transport)
    requires MakeRequest(dockets).Ok? && !Truthy(MakeRequest(dockets).value)
    requires MakeRequest(comments).Ok? && !Truthy(MakeRequest(comments).value)
    ensures TestApiConnection(dockets, comments) == Err(DeniedApiKey)
  {
    NoPermissionIsDenied();
  }

  /** The "no permissions" message is reworded as access denied. */
  lemma NoPermissionIsDenied()
    ensures RemapConnectionError(NoPermission) == DeniedApiKey
  {
    NoPermissionNeither();
    NoPermissionSaysDenied();
  }

  /** The "no permissions" message names neither an invalid key nor status 401. */
  lemma NoPermissionNeither()
    ensures !Contains(NoPermission, "Invalid") && !Contains(NoPermission, "401")
  {
    NoPermissionLacks('l');
    NoPermissionLacks('4');
    MissingCharNotContained(NoPermission, "Invalid", 'l');
    MissingCharNotContained(NoPermission, "401", '4');
  }

  /** Neither `l` nor `4` occurs in the "no permissions" message. */
  lemma NoPermissionLacks(c: char)
    requires c == 'l' || c == '4'
    ensures c !in NoPermission
  {
    assert c !in "API key access denied. " && c !in "Your API key may not have " && c !in "the required permissions.";
  }

  /** The "no permissions" message says "access denied". */
  lemma NoPermissionSaysDenied()
    ensures Contains(NoPermission, "access denied")
  {
    assert NoPermission[8..8 + 13] == "access denied";
    ContainsWitness(NoPermission, "access denied", 8);
  }

  /** An empty dockets answer and a non-empty comments answer mean limited access. */
  lemma CommentsOnlyIsLimited(dockets: Transport, comments: Transport)
    requires MakeRequest(dockets).Ok? && !Truthy(MakeRequest(dockets).value)
    requires MakeRequest(comments).Ok? && Truthy(MakeRequest(comments).value)
    ensures TestApiConnection(dockets, comments) == Ok(KeyLimited)
  {
  }
}

=== FILE: see_more.dfy ===
/**
  The "See More" paragraph of the example integration
  (`generate_see_more_summary`): four tool replies in, one line of prose out.
  The replies are the untyped payloads of the tool layer, read with Python's
  failure cases: a `.get` on a value that is not a dict, a `.lower()` or
  `.split()` on a value that is not a string, or a comparison of a
  non-number with a float raises, and the raise is an `Err`.
 */
module SeeMore {
  import opened Wrappers
  import opened Strings
  import opened Json

  const Incomplete := "Analysis incomplete. Please try again."
  const HighConfidence := "High confidence analysis based on comprehensive comment review."
  const ModerateConfidence := "Moderate confidence analysis with some limitations."
  const LimitedConfidence := "Limited analysis due to small comment sample."

  // ---------------------------------------------------------------------
  // The gate

  /** `result.get("success")` is truthy. */
  predicate Succeeded(result: Json) {
    result.JObj? && Truthy(Field(result.fields, "success", JNull))
  }

  /** `all(r.get("success") for r in results)`: stops at the first falsy reply; a reply that is not a dict raises. */
  function AllSucceeded(results: seq<Json>): Result<bool, string>
    decreases |results|
  {
    if |results| == 0 then Ok(true)
    else
      var s :- Get(results[0], "success", JNull);
      if !Truthy(s) then Ok(false) else AllSucceeded(results[1..])
  }

  /**
    The gate passes exactly when every reply succeeded, and it only raises on
    a reply that is not a dict.
   */
  lemma {:induction false} AllSucceededMeans(results: seq<Json>)
    ensures AllSucceeded(results) == Ok(true) <==> forall i | 0 <= i < |results| :: Succeeded(results[i])
    ensures AllSucceeded(results).Err? ==> exists i | 0 <= i < |results| :: !results[i].JObj?
    decreases |results|
  {
    if |results| > 0 {
      AllSucceededMeans(results[1..]);
      assert forall i | 1 <= i < |results| :: results[i] == results[1..][i - 1];
      if AllSucceeded(results).Err? && results[0].JObj? {
        var i :| 0 <= i < |results[1..]| && !results[1..][i].JObj?;
        assert !results[i + 1].JObj?;
      }
    }
  }

  // ---------------------------------------------------------------------
  // The text

  /** The confidence sentence: above 0.7 high, above 0.4 moderate, otherwise limited. */
  function ConfidenceSentence(c: real): (r: string)
    ensures r == HighConfidence || r == ModerateConfidence || r == LimitedConfidence
  {
    if c > 0.7 then HighConfidence
    else if c > 0.4 then ModerateConfidence
    else LimitedConfidence
  }

  /** The tier a confidence sentence names: 0 limited, 1 moderate, 2 high. */
  function Rank(sentence: string): nat {
    if sentence == HighConfidence then 2
    else if sentence == ModerateConfidence then 1
    else 0
  }

  /** A higher confidence never yields a lower tier, and the tiers break exactly at 0.7 and 0.4. */
  lemma ConfidenceMonotone(c: real, d: real)
    requires c <= d
    ensures Rank(ConfidenceSentence(c)) <= Rank(ConfidenceSentence(d))
    ensures Rank(ConfidenceSentence(c)) == 2 <==> c > 0.7
    ensures Rank(ConfidenceSentence(c)) == 0 <==> c <= 0.4
  {
    assert |HighConfidence| == 63 && |ModerateConfidence| == 51 && |LimitedConfidence| == 45;
  }

  /** `concern.split(":")[0]` */
  function Head(concern: string): string {
    SplitOn(concern, {':'})[0]
  }

  /**
    The head of a concern is its text up to the first colon: a colon-free
    prefix that is either the whole text or is followed by a colon.
   */
  lemma {:induction false} HeadBeforeColon(concern: string)
    ensures Head(concern) <= concern
    ensures ':' !in Head(concern)
    ensures |Head(concern)| < |concern| ==> concern[|Head(concern)|] == ':'
    decreases |concern|
  {
    if |concern| > 0 {
      HeadBeforeColon(concern[1..]);
      var rest := SplitOn(concern[1..], {':'});
      if concern[0] != ':' {
        assert Head(concern) == [concern[0]] + rest[0];
      }
    }
  }

  /** What the summary is made from, once the replies have been read. */
  datatype Digest = Digest(
    total: string,            // `str()` of `total_comments_analyzed`
    sentiment: string,
    themes: seq<string>,      // the first primary themes
    stakeholderTypes: seq<string>,
    concerns: seq<string>,    // the first top concerns
    confidence: real)

  function Overview(d: Digest): string {
    "Analysis of " + d.total + " public comments shows " + Lower(d.sentiment) + "."
  }

  /** The optional middle sentences, each present only when its list is non-empty. */
  function Middle(d: Digest): (r: seq<string>)
    ensures |r| <= 3
  {
    (if |d.themes| > 0 then ["Primary themes include: " + Join(", ", Take(d.themes, 3)) + "."] else [])
    + (if |d.stakeholderTypes| > 0 then ["Comments from " + Join(", ", Take(d.stakeholderTypes, 3)) + "."] else [])
    + (if |d.concerns| > 0 then ["Main concerns: " + Join("; ", Heads(Take(d.concerns, 2))) + "."] else [])
  }

  function Heads(concerns: seq<string>): (r: seq<string>)
    ensures |r| == |concerns|
  {
    seq(|concerns|, i requires 0 <= i < |concerns| => Head(concerns[i]))
  }

  /** The summary's sentences: overview, the optional ones, the confidence sentence. */
  function Parts(d: Digest): seq<string> {
    [Overview(d)] + Middle(d) + [ConfidenceSentence(d.confidence)]
  }

  function Render(d: Digest): string {
    Join(" ", Parts(d))
  }

  /**
    The paragraph opens with the overview, closes with exactly one
    confidence sentence, and has between two and five sentences; every
    concern quoted is a colon-free prefix of a concern.
   */
  lemma RenderShape(d: Digest)
    ensures 2 <= |Parts(d)| <= 5
    ensures Parts(d)[0] == Overview(d)
    ensures StartsWith(Render(d), Overview(d))
    ensures EndsWith(Render(d), ConfidenceSentence(d.confidence))
    ensures |Parts(d)| == 2 <==> |d.themes| == 0 && |d.stakeholderTypes| == 0 && |d.concerns| == 0
    ensures forall i | 0 <= i < |Heads(Take(d.concerns, 2))| ::
      Heads(Take(d.concerns, 2))[i] <= d.concerns[i] && ':' !in Heads(Take(d.concerns, 2))[i]
  {
    var ps := Parts(d);
    JoinHead(" ", ps);
    JoinLast(" ", ps);
    var hs := Heads(Take(d.concerns, 2));
    forall i | 0 <= i < |hs|
      ensures hs[i] <= d.concerns[i] && ':' !in hs[i]
    {
      HeadBeforeColon(d.concerns[i]);
    }
  }

  /** The overview never reads like the failure message. */
  lemma OverviewIsNotIncomplete(d: Digest)
    ensures Render(d) != Incomplete
  {
    RenderShape(d);
    var o := Overview(d);
    assert o[9] == 'o';
    assert Render(d)[9] == 'o';
    assert Incomplete[9] == 'i';
  }

  // ---------------------------------------------------------------------
  // Reading the replies

  /**
    `xs[:n]` of a value taken from a reply, as the list of texts `join`
    sees: nothing when the value is falsy, its first `n` characters when it
    is a string.
   */
  function FirstTexts(j: Json, n: nat): (r: Result<seq<string>, string>)
    ensures r.Ok? ==> |r.value| <= n
    ensures r.Ok? && n > 0 && |r.value| == 0 ==> !Truthy(j)
  {
    if !Truthy(j) then Ok([])
    else
      var first :- SliceTo(j, n);
      var items :- Iterate(first);
      var texts :- AsStrings(items);
      Ok(texts)
  }

  /** A list of strings yields its first `n` texts. */
  lemma FirstTextsOfList(xs: seq<string>, n: nat)
    ensures FirstTexts(StrList(xs), n) == Ok(Take(xs, n))
  {
    var items := Take(StrList(xs).items, n);
    if |xs| > 0 {
      assert Truthy(StrList(xs));
      var r := AsStrings(items);
      assert r.value == Take(xs, n) by {
        forall i | 0 <= i < |items|
          ensures r.value[i] == Take(xs, n)[i]
        {
          assert items[i] == JStr(r.value[i]);
          assert items[i] == JStr(xs[i]);
        }
      }
    }
  }

  /** `[c.split(":")... for c in items]` needs every item to be a string. */
  function ConcernTexts(items: seq<Json>): (r: Result<seq<string>, string>)
    ensures r.Ok? ==> |r.value| == |items|
    decreases |items|
  {
    if |items| == 0 then Ok([])
    else if !items[0].JStr? then Err(AttributeError(items[0], "split"))
    else
      var rest :- ConcernTexts(items[1..]);
      Ok([items[0].s] + rest)
  }

  /** `top_concerns[:2]` */
  function FirstConcerns(j: Json): (r: Result<seq<string>, string>)
    ensures r.Ok? ==> |r.value| <= 2
  {
    if !Truthy(j) then Ok([])
    else
      var first :- SliceTo(j, 2);
      var items :- Iterate(first);
      ConcernTexts(items)
  }

  /** The concern texts of string items are their texts. */
  lemma {:induction false} ConcernTextsOfStrings(items: seq<Json>, xs: seq<string>)
    requires |items| == |xs| && forall i | 0 <= i < |items| :: items[i] == JStr(xs[i])
    ensures ConcernTexts(items) == Ok(xs)
    decreases |items|
  {
    if |items| > 0 {
      ConcernTextsOfStrings(items[1..], xs[1..]);
      assert xs == [xs[0]] + xs[1..];
    }
  }

  /** A list of strings yields its first two concerns. */
  lemma FirstConcernsOfList(xs: seq<string>)
    ensures FirstConcerns(StrList(xs)) == Ok(Take(xs, 2))
  {
    if |xs| > 0 {
      ConcernTextsOfStrings(Take(StrList(xs).items, 2), Take(xs, 2));
    }
  }

  /** `x.lower()` on a reply's value */
  function LowerText(j: Json): (r: Result<string, string>)
    ensures r.Ok? <==> j.JStr?
  {
    if j.JStr? then Ok(j.s) else Err(AttributeError(j, "lower"))
  }

  /** `confidence > 0.7`, then `confidence > 0.4`: both raise on a non-number. */
  function Confidence(j: Json): (r: Result<real, string>)
    ensures r.Ok? <==> AsNumber(j).Some?
  {
    var _ :- GreaterThan(j, 0.7);
    Ok(AsNumber(j).value)
  }

  /** Everything the summary reads, in the order the source reads it. */
  function ReadDigest(analysisResult: Json, insightsResult: Json, concernsResult: Json): (r: Result<Digest, string>)
    ensures r.Ok? ==> |r.value.themes| <= 3 && |r.value.stakeholderTypes| <= 3 && |r.value.concerns| <= 2
  {
    var analysis :- Get(analysisResult, "analysis", JObj([]));
    var insights :- Get(insightsResult, "insights", JObj([]));
    var concernAnalysis :- Get(concernsResult, "concern_analysis", JObj([]));
    var total :- Get(analysis, "total_comments_analyzed", JInt(0));
    var sentiment :- Get(insights, "sentiment", JStr("Unknown"));
    // `insights` is a dict from here on: its other `.get` calls cannot raise.
    var mood :- LowerText(sentiment);
    var themes :- FirstTexts(Field(insights.fields, "primary_themes", JArr([])), 3);
    var engagement := Field(insights.fields, "stakeholder_engagement", JObj([]));
    var types :- Get(engagement, "stakeholder_types", JArr([]));
    var typeTexts :- FirstTexts(types, 3);
    var top :- Get(concernAnalysis, "top_concerns", JArr([]));
    var concerns :- FirstConcerns(top);
    var confidence :- Confidence(Field(insights.fields, "confidence_level", JReal(0.0)));
    Ok(Digest(PyStr(total), mood, themes, typeTexts, concerns, confidence))
  }

  /** The summary of replies that all succeeded. */
  function Rendered(analysisResult: Json, insightsResult: Json, concernsResult: Json): (r: Result<string, string>)
    ensures r.Ok? ==> r.value != Incomplete
  {
    var d :- ReadDigest(analysisResult, insightsResult, concernsResult);
    OverviewIsNotIncomplete(d);
    Ok(Render(d))
  }

  /** `generate_see_more_summary` */
  function SeeMoreSummary(analysisResult: Json, insightsResult: Json, themesResult: Json, concernsResult: Json): (r: Result<string, string>)
  {
    var ok :- AllSucceeded([analysisResult, insightsResult, themesResult, concernsResult]);
    if !ok then Ok(Incomplete) else Rendered(analysisResult, insightsResult, concernsResult)
  }

  /**
    Replies whose sentiment is a string and whose themes, stakeholder types
    and concerns are lists of strings are read field by field: the text of
    the comment count (0 when absent), the sentiment, the first three themes
    and stakeholder types, the first two concerns and the confidence (0.0
    when absent).
   */
  lemma ReadRepliesDigest(
      a: Json, i: Json, c: Json,
      analysis: Fields, insights: Fields, engagement: Fields, concernAnalysis: Fields,
      sentiment: string, themes: seq<string>, types: seq<string>, concerns: seq<string>)
    requires a.JObj? && Lookup(a.fields, "analysis") == Some(JObj(analysis))
    requires i.JObj? && Lookup(i.fields, "insights") == Some(JObj(insights))
    requires c.JObj? && Lookup(c.fields, "concern_analysis") == Some(JObj(concernAnalysis))
    requires Lookup(insights, "sentiment") == Some(JStr(sentiment))
    requires Lookup(insights, "primary_themes") == Some(StrList(themes))
    requires Lookup(insights, "stakeholder_engagement") == Some(JObj(engagement))
    requires Lookup(engagement, "stakeholder_types") == Some(StrList(types))
    requires Lookup(concernAnalysis, "top_concerns") == Some(StrList(concerns))
    requires AsNumber(Field(insights, "confidence_level", JReal(0.0))).Some?
    ensures ReadDigest(a, i, c)
            == Ok(Digest(
                 PyStr(Field(analysis, "total_comments_analyzed", JInt(0))), sentiment,
                 Take(themes, 3), Take(types, 3), Take(concerns, 2),
                 AsNumber(Field(insights, "confidence_level", JReal(0.0))).value))
  {
    FirstTextsOfList(themes, 3);
    FirstTextsOfList(types, 3);
    FirstConcernsOfList(concerns);
    assert Get(a, "analysis", JObj([])) == Ok(JObj(analysis));
    assert Get(i, "insights", JObj([])) == Ok(JObj(insights));
    assert Get(c, "concern_analysis", JObj([])) == Ok(JObj(concernAnalysis));
    assert Get(JObj(insights), "sentiment", JStr("Unknown")) == Ok(JStr(sentiment));
    assert Field(insights, "primary_themes", JArr([])) == StrList(themes);
    assert Get(JObj(engagement), "stakeholder_types", JArr([])) == Ok(StrList(types));
    assert Get(JObj(concernAnalysis), "top_concerns", JArr([])) == Ok(StrList(concerns));
  }

  /**
    When all four replies succeed and hold the fields `ReadRepliesDigest`
    reads, the summary is the rendering of exactly that digest.
   */
  lemma SummaryOfReplies(
      a: Json, i: Json, t: Json, c: Json,
      analysis: Fields, insights: Fields, engagement: Fields, concernAnalysis: Fields,
      sentiment: string, themes: seq<string>, types: seq<string>, concerns: seq<string>)
    requires Succeeded(a) && Succeeded(i) && Succeeded(t) && Succeeded(c)
    requires a.JObj? && Lookup(a.fields, "analysis") == Some(JObj(analysis))
    requires i.JObj? && Lookup(i.fields, "insights") == Some(JObj(insights))
    requires c.JObj? && Lookup(c.fields, "concern_analysis") == Some(JObj(concernAnalysis))
    requires Lookup(insights, "sentiment") == Some(JStr(sentiment))
    requires Lookup(insights, "primary_themes") == Some(StrList(themes))
    requires Lookup(insights, "stakeholder_engagement") == Some(JObj(engagement))
    requires Lookup(engagement, "stakeholder_types") == Some(StrList(types))
    requires Lookup(concernAnalysis, "top_concerns") == Some(StrList(concerns))
    requires AsNumber(Field(insights, "confidence_level", JReal(0.0))).Some?
    ensures SeeMoreSummary(a, i, t, c)
            == Ok(Render(Digest(
                 PyStr(Field(analysis, "total_comments_analyzed", JInt(0))), sentiment,
                 Take(themes, 3), Take(types, 3), Take(concerns, 2),
                 AsNumber(Field(insights, "confidence_level", JReal(0.0))).value)))
  {
    ReadRepliesDigest(a, i, c, analysis, insights, engagement, concernAnalysis, sentiment, themes, types, concerns);
    AllSucceededRenders(a, i, t, c);
  }

  /** Four dict replies of which one lacks `success` give exactly the failure message. */
  lemma AnyFailureIsIncomplete(a: Json, i: Json, t: Json, c: Json)
    requires a.JObj? && i.JObj? && t.JObj? && c.JObj?
    requires !(Succeeded(a) && Succeeded(i) && Succeeded(t) && Succeeded(c))
    ensures SeeMoreSummary(a, i, t, c) == Ok(Incomplete)
  {
    var rs := [a, i, t, c];
    AllSucceededMeans(rs);
    assert !Succeeded(rs[0]) || !Succeeded(rs[1]) || !Succeeded(rs[2]) || !Succeeded(rs[3]);
  }

  /**
    When all four replies succeed, the summary is the rendering of what was
    read, or the error reading raised (and `Rendered` is never the failure
    message).
   */
  lemma AllSucceededRenders(a: Json, i: Json, t: Json, c: Json)
    requires Succeeded(a) && Succeeded(i) && Succeeded(t) && Succeeded(c)
    ensures SeeMoreSummary(a, i, t, c) == Rendered(a, i, c)
  {
    GateOfFour(a, i, t, c);
  }

  lemma GateOfFour(a: Json, i: Json, t: Json, c: Json)
    requires Succeeded(a) && Succeeded(i) && Succeeded(t) && Succeeded(c)
    ensures AllSucceeded([a, i, t, c]) == Ok(true)
  {
    var rs := [a, i, t, c];
    assert forall k | 0 <= k < |rs| :: Succeeded(rs[k]);
    AllSucceededMeans(rs);
  }
}

=== FILE: sentence_extractors.dfy ===
/**
  The sentence extractors of the advanced analyzer. A comment is cut into
  sentences at every `.`, `!` and `?` (empty pieces kept); the sentences that
  mention a keyword are stripped and collected over all comments; the
  distinct fragments are capped (5 per issue list, 10 recommendations).
  Recommendations first look for a regular expression of the shape
  `word\s+word…` in the lower-cased comment and then keep the first sentence
  that passes a word test.
 */
module SentenceExtractors {
  import opened Wrappers
  import opened Strings

  const SentenceDelims: set<char> := {'.', '!', '?'}

  /** `re.split(r'[.!?]', text)` */
  function Sentences(text: string): seq<string> {
    SplitOn(text, SentenceDelims)
  }

  /** `any(k in s.lower() for k in kws)` */
  predicate MentionsAny(s: string, kws: seq<string>) {
    ContainsAny(Lower(s), kws)
  }

  /** The distinct elements of `xs` in first-seen order, capped at `cap`: `list(set(xs))[:cap]`. */
  function DistinctCapped(xs: seq<string>, cap: nat): (r: seq<string>)
    ensures |r| <= cap && NoDup(r)
    ensures forall i | 0 <= i < |r| :: r[i] in xs
    ensures |r| < cap ==> forall i | 0 <= i < |xs| :: xs[i] in r
  {
    var d := Dedup(xs);
    if |d| <= cap then d
    else
      assert forall i | 0 <= i < cap :: d[..cap][i] == d[i];
      d[..cap]
  }

  // ---------------------------------------------------------------- issue lists

  const TechnicalKeywords: seq<string> := [
    "technical", "technology", "methodology", "standard", "specification",
    "measurement", "testing", "validation", "calibration", "accuracy",
    "precision", "reliability", "interoperability", "compatibility"]

  const EconomicKeywords: seq<string> := [
    "cost", "price", "economic", "financial", "budget", "expense",
    "investment", "revenue", "profit", "loss", "market", "competition",
    "efficiency", "productivity", "employment", "jobs"]

  const TimelineKeywords: seq<string> := [
    "timeline", "deadline", "schedule", "implementation", "effective date",
    "compliance date", "phase", "transition", "grace period", "timeframe",
    "too fast", "too slow", "rushed", "delayed", "extended"]

  const ChallengeKeywords: seq<string> := [
    "challenge", "barrier", "obstacle", "difficulty", "problem",
    "issue", "concern", "limitation", "constraint", "burden",
    "complex", "complicated", "unclear", "confusing", "impractical"]

  /** `f` is the stripped form of a sentence among `sentences` that mentions a keyword. */
  predicate HitOf(sentences: seq<string>, kws: seq<string>, f: string) {
    exists j | 0 <= j < |sentences| :: MentionsAny(sentences[j], kws) && f == Strip(sentences[j])
  }

  /** The stripped sentences that mention a keyword, in order. */
  function SentenceHits(sentences: seq<string>, kws: seq<string>): (r: seq<string>)
    ensures forall i | 0 <= i < |r| :: HitOf(sentences, kws, r[i])
    decreases |sentences|
  {
    if |sentences| == 0 then []
    else
      var rest := SentenceHits(sentences[1..], kws);
      forall i | 0 <= i < |rest|
        ensures HitOf(sentences, kws, rest[i])
      {
        HitOfTail(sentences, kws, rest[i]);
      }
      if MentionsAny(sentences[0], kws) then [Strip(sentences[0])] + rest else rest
  }

  lemma HitOfTail(sentences: seq<string>, kws: seq<string>, f: string)
    requires |sentences| > 0 && HitOf(sentences[1..], kws, f)
    ensures HitOf(sentences, kws, f)
  {
    var j :| 0 <= j < |sentences[1..]| && MentionsAny(sentences[1..][j], kws) && f == Strip(sentences[1..][j]);
    assert sentences[1..][j] == sentences[j + 1];
  }

  /** What one comment contributes: nothing unless the comment as a whole mentions a keyword. */
  function TextHits(text: string, kws: seq<string>): seq<string> {
    if MentionsAny(text, kws) then SentenceHits(Sentences(text), kws) else []
  }

  /** What `f` contributes for each comment, comment after comment. */
  function Flatten(texts: seq<string>, f: string -> seq<string>): seq<string>
    decreases |texts|
  {
    if |texts| == 0 then [] else f(texts[0]) + Flatten(texts[1..], f)
  }

  lemma {:induction false} FlattenFrom(texts: seq<string>, f: string -> seq<string>, x: string)
    requires x in Flatten(texts, f)
    ensures exists t | t in texts :: x in f(t)
    decreases |texts|
  {
    if x !in f(texts[0]) {
      FlattenFrom(texts[1..], f, x);
      var t :| t in texts[1..] && x in f(t);
      assert t in texts;
    }
  }

  lemma {:induction false} FlattenNonEmpty(texts: seq<string>, f: string -> seq<string>, k: nat)
    requires k < |texts| && |f(texts[k])| > 0
    ensures |Flatten(texts, f)| > 0
    decreases k
  {
    if k > 0 {
      assert texts[1..][k - 1] == texts[k];
      FlattenNonEmpty(texts[1..], f, k - 1);
    }
  }

  lemma {:induction false} FlattenEmpty(texts: seq<string>, f: string -> seq<string>)
    requires forall t | t in texts :: f(t) == []
    ensures Flatten(texts, f) == []
    decreases |texts|
  {
    if |texts| > 0 {
      assert texts[0] in texts;
      assert forall t | t in texts[1..] :: t in texts;
      FlattenEmpty(texts[1..], f);
    }
  }

  /** All fragments, comment after comment. */
  function Fragments(texts: seq<string>, kws: seq<string>): seq<string> {
    Flatten(texts, t => TextHits(t, kws))
  }

  /** Every fragment is a stripped sentence of some comment that mentions a keyword. */
  lemma FragmentOrigin(texts: seq<string>, kws: seq<string>, f: string)
    requires f in Fragments(texts, kws)
    ensures exists t, s | t in texts && s in Sentences(t) :: MentionsAny(s, kws) && f == Strip(s)
  {
    FlattenFrom(texts, t => TextHits(t, kws), f);
    var t :| t in texts && f in TextHits(t, kws);
    HitOrigin(Sentences(t), kws, f);
  }

  lemma HitOrigin(sentences: seq<string>, kws: seq<string>, f: string)
    requires f in SentenceHits(sentences, kws)
    ensures exists s | s in sentences :: MentionsAny(s, kws) && f == Strip(s)
  {
    var hits := SentenceHits(sentences, kws);
    var i :| 0 <= i < |hits| && hits[i] == f;
    var j :| 0 <= j < |sentences| && MentionsAny(sentences[j], kws) && f == Strip(sentences[j]);
    assert sentences[j] in sentences;
  }

  /** The issue list shape shared by the four extractors: at most five distinct fragments. */
  function ExtractIssues(texts: seq<string>, kws: seq<string>): (r: seq<string>)
    ensures |r| <= 5 && NoDup(r)
    ensures forall i | 0 <= i < |r| :: r[i] in Fragments(texts, kws)
    ensures |r| < 5 ==> forall f | f in Fragments(texts, kws) :: f in r
  {
    DistinctCapped(Fragments(texts, kws), 5)
  }

  predicate AllTrimmed(kws: seq<string>) {
    forall i | 0 <= i < |kws| :: TrimmedKeyword(kws[i])
  }

  /**
    Every reported issue itself mentions a keyword: stripping a sentence only
    drops white space, and no keyword starts or ends with white space.
   */
  lemma IssueMentionsKeyword(texts: seq<string>, kws: seq<string>, i: nat)
    requires AllTrimmed(kws)
    requires i < |ExtractIssues(texts, kws)|
    ensures MentionsAny(ExtractIssues(texts, kws)[i], kws)
  {
    var f := ExtractIssues(texts, kws)[i];
    FragmentOrigin(texts, kws, f);
    var t, s :| t in texts && s in Sentences(t) && MentionsAny(s, kws) && f == Strip(s);
    var j :| 0 <= j < |kws| && Contains(Lower(s), kws[j]);
    StripKeepsKeyword(s, kws[j]);
  }

  lemma IssueTablesTrimmed()
    ensures AllTrimmed(TechnicalKeywords) && AllTrimmed(EconomicKeywords)
    ensures AllTrimmed(TimelineKeywords) && AllTrimmed(ChallengeKeywords)
  {
    TechnicalTrimmed();
    EconomicTrimmed();
    TimelineTrimmed();
    ChallengeTrimmed();
  }

  lemma TechnicalTrimmed()
    ensures AllTrimmed(TechnicalKeywords)
  {
  }

  lemma EconomicTrimmed()
    ensures AllTrimmed(EconomicKeywords)
  {
  }

  lemma TimelineTrimmed()
    ensures AllTrimmed(TimelineKeywords)
  {
  }

  lemma ChallengeTrimmed()
    ensures AllTrimmed(ChallengeKeywords)
  {
  }

  /** `_identify_technical_issues` */
  function IdentifyTechnicalIssues(texts: seq<string>): (r: seq<string>)
    ensures |r| <= 5 && NoDup(r)
    ensures forall i | 0 <= i < |r| :: MentionsAny(r[i], TechnicalKeywords)
  {
    IssuesMentionKeywords(texts, TechnicalKeywords);
    ExtractIssues(texts, TechnicalKeywords)
  }

  /** `_identify_economic_concerns` */
  function IdentifyEconomicConcerns(texts: seq<string>): (r: seq<string>)
    ensures |r| <= 5 && NoDup(r)
    ensures forall i | 0 <= i < |r| :: MentionsAny(r[i], EconomicKeywords)
  {
    IssuesMentionKeywords(texts, EconomicKeywords);
    ExtractIssues(texts, EconomicKeywords)
  }

  /** `_identify_timeline_concerns` */
  function IdentifyTimelineConcerns(texts: seq<string>): (r: seq<string>)
    ensures |r| <= 5 && NoDup(r)
    ensures forall i | 0 <= i < |r| :: MentionsAny(r[i], TimelineKeywords)
  {
    IssuesMentionKeywords(texts, TimelineKeywords);
    ExtractIssues(texts, TimelineKeywords)
  }

  /** `_identify_implementation_challenges` */
  function IdentifyImplementationChallenges(texts: seq<string>): (r: seq<string>)
    ensures |r| <= 5 && NoDup(r)
    ensures forall i | 0 <= i < |r| :: MentionsAny(r[i], ChallengeKeywords)
  {
    IssuesMentionKeywords(texts, ChallengeKeywords);
    ExtractIssues(texts, ChallengeKeywords)
  }

  lemma IssuesMentionKeywords(texts: seq<string>, kws: seq<string>)
    requires kws in [TechnicalKeywords, EconomicKeywords, TimelineKeywords, ChallengeKeywords]
    ensures forall i | 0 <= i < |ExtractIssues(texts, kws)| :: MentionsAny(ExtractIssues(texts, kws)[i], kws)
  {
    IssueTablesTrimmed();
    forall i | 0 <= i < |ExtractIssues(texts, kws)|
      ensures MentionsAny(ExtractIssues(texts, kws)[i], kws)
    {
      IssueMentionsKeyword(texts, kws, i);
    }
  }

  // ---------------------------------------------------------------- recommendations

  /**
    A regular expression of the shape `w1\s+w2…\s+wn`, optionally followed by
    a final `\s+`, kept both as its source text and parsed into its words.
   */
  datatype Pattern = Pattern(raw: string, words: seq<string>, trailingSpace: bool)

  const SpacePlus: string := @"\s+"

  /** The source text of the expression with `words` and an optional trailing `\s+`. */
  function PatternSource(words: seq<string>, trailingSpace: bool): string {
    Join(SpacePlus, words) + (if trailingSpace then SpacePlus else "")
  }

  const RecommendThat := Pattern(@"recommend\s+that", ["recommend", "that"], false)
  const SuggestThat := Pattern(@"suggest\s+that", ["suggest", "that"], false)
  const ProposeThat := Pattern(@"propose\s+that", ["propose", "that"], false)
  const UrgeThat := Pattern(@"urge\s+that", ["urge", "that"], false)
  const RequestThat := Pattern(@"request\s+that", ["request", "that"], false)
  const ShouldBe := Pattern(@"should\s+be", ["should", "be"], false)
  const WouldBeBetter := Pattern(@"would\s+be\s+better", ["would", "be", "better"], false)
  const Consider := Pattern(@"consider\s+", ["consider"], true)
  const WeRecommend := Pattern(@"we\s+recommend", ["we", "recommend"], false)
  const WeSuggest := Pattern(@"we\s+suggest", ["we", "suggest"], false)

  const RecommendationPatterns: seq<Pattern> := [
    RecommendThat, SuggestThat, ProposeThat, UrgeThat, RequestThat,
    ShouldBe, WouldBeBetter, Consider, WeRecommend, WeSuggest]

  /** The pattern's words are exactly the words of its source text. */
  predicate Parsed(p: Pattern) {
    p.raw == PatternSource(p.words, p.trailingSpace)
  }

  /** The source text is one word, and it holds a backslash. */
  predicate OneWordWithBackslash(raw: string) {
    |raw| > 0 && NoSpace(raw) && '\\' in raw
  }

  /** The pattern's first word is non-empty and free of sentence delimiters. */
  predicate PlainWords(p: Pattern) {
    |p.words| > 0 && |p.words[0]| > 0 && FreeOf(p.words[0], SentenceDelims)
  }

  /** Every word is non-empty and holds no white space. */
  predicate SpaceFreeWords(words: seq<string>) {
    forall i | 0 <= i < |words| :: |words[i]| > 0 && NoSpace(words[i])
  }

  /** What the table states directly about a pattern: its source text, its words, and at least one `\s+`. */
  predicate Written(p: Pattern) {
    Parsed(p) && PlainWords(p) && SpaceFreeWords(p.words) && (|p.words| > 1 || p.trailingSpace)
  }

  /** What the rest of this module relies on about a recommendation pattern. */
  predicate WellFormed(p: Pattern) {
    Parsed(p) && OneWordWithBackslash(p.raw) && PlainWords(p)
  }

  lemma NoSpaceConcat(a: string, b: string)
    requires NoSpace(a) && NoSpace(b)
    ensures NoSpace(a + b)
  {
    forall i | 0 <= i < |a + b|
      ensures !IsSpace((a + b)[i])
    {
      if i >= |a| {
        assert (a + b)[i] == b[i - |a|];
      }
    }
  }

  /** Space-free words joined by `\s+` give one non-empty word. */
  lemma {:induction false} JoinedWord(words: seq<string>)
    requires |words| > 0 && SpaceFreeWords(words)
    ensures |Join(SpacePlus, words)| > 0 && NoSpace(Join(SpacePlus, words))
    decreases |words|
  {
    if |words| > 1 {
      JoinedWord(words[1..]);
      NoSpaceConcat(words[0], SpacePlus);
      NoSpaceConcat(words[0] + SpacePlus, Join(SpacePlus, words[1..]));
    }
  }

  /** A source text with at least one `\s+` between or after space-free words is one word with a backslash. */
  lemma SourceOneWord(words: seq<string>, trailingSpace: bool)
    requires |words| > 0 && SpaceFreeWords(words) && (|words| > 1 || trailingSpace)
    ensures OneWordWithBackslash(PatternSource(words, trailingSpace))
  {
    var joined := Join(SpacePlus, words);
    var src := PatternSource(words, trailingSpace);
    JoinedWord(words);
    NoSpaceConcat(joined, if trailingSpace then SpacePlus else "");
    if |words| > 1 {
      assert joined == words[0] + SpacePlus + Join(SpacePlus, words[1..]);
      assert joined[|words[0]|] == '\\';
      assert src[|words[0]|] == '\\';
    } else {
      assert src[|joined|] == '\\';
    }
  }

  lemma RecommendThatWritten() ensures Written(RecommendThat) {}
  lemma SuggestThatWritten() ensures Written(SuggestThat) {}
  lemma ProposeThatWritten() ensures Written(ProposeThat) {}
  lemma UrgeThatWritten() ensures Written(UrgeThat) {}
  lemma RequestThatWritten() ensures Written(RequestThat) {}
  lemma ShouldBeWritten() ensures Written(ShouldBe) {}
  lemma WouldBeBetterWritten() ensures Written(WouldBeBetter) {}
  lemma ConsiderWritten() ensures Written(Consider) {}
  lemma WeRecommendWritten() ensures Written(WeRecommend) {}
  lemma WeSuggestWritten() ensures Written(WeSuggest) {}

  lemma PatternWritten(p: Pattern)
    requires p in RecommendationPatterns
    ensures Written(p)
  {
    if p == RecommendThat { RecommendThatWritten(); }
    else if p == SuggestThat { SuggestThatWritten(); }
    else if p == ProposeThat { ProposeThatWritten(); }
    else if p == UrgeThat { UrgeThatWritten(); }
    else if p == RequestThat { RequestThatWritten(); }
    else if p == ShouldBe { ShouldBeWritten(); }
    else if p == WouldBeBetter { WouldBeBetterWritten(); }
    else if p == Consider { ConsiderWritten(); }
    else if p == WeRecommend { WeRecommendWritten(); }
    else { WeSuggestWritten(); }
  }

  /**
    Every recommendation pattern is parsed into its words, its source text is
    a single word containing a backslash, and its first word is plain.
   */
  lemma PatternWellFormed(p: Pattern)
    requires p in RecommendationPatterns
    ensures WellFormed(p)
  {
    PatternWritten(p);
    SourceOneWord(p.words, p.trailingSpace);
  }

  /**
    The expression matches `t` starting at `i`. Each `\s+` takes the whole run
    of white space before the next word: every word starts with a letter, so
    no shorter run can be followed by it.
   */
  predicate MatchAt(t: string, words: seq<string>, trailingSpace: bool, i: nat)
    decreases |words|
  {
    |words| > 0 && OccursAt(t, words[0], i)
    && var k := i + |words[0]|;
       if |words| == 1 then !trailingSpace || (k < |t| && IsSpace(t[k]))
       else
         var n := LeadingSpaces(t[k..]);
         n > 0 && MatchAt(t, words[1..], trailingSpace, k + n)
  }

  /** `re.findall(pattern, t)` is non-empty */
  predicate Search(t: string, p: Pattern) {
    exists i | 0 <= i <= |t| :: MatchAt(t, p.words, p.trailingSpace, i)
  }

  /** The first sentence that mentions a test word, stripped (the loop's `break`). */
  function FirstHit(sentences: seq<string>, words: seq<string>): (r: Option<string>)
    ensures r.Some? <==> exists j | 0 <= j < |sentences| :: MentionsAny(sentences[j], words)
    ensures r.Some? ==> HitOf(sentences, words, r.value)
    decreases |sentences|
  {
    if |sentences| == 0 then None
    else if MentionsAny(sentences[0], words) then Some(Strip(sentences[0]))
    else
      var r := FirstHit(sentences[1..], words);
      assert forall j | 1 <= j < |sentences| :: sentences[j] == sentences[1..][j - 1];
      assert r.Some? ==> HitOf(sentences, words, r.value) by {
        if r.Some? {
          HitOfTail(sentences, words, r.value);
        }
      }
      r
  }

  /** `pattern.split()`: the words the source tests sentences with. */
  function WrittenWords(p: Pattern): seq<string> {
    SplitWhitespace(p.raw)
  }

  /** The words of the expression itself. */
  function IntendedWords(p: Pattern): seq<string> {
    p.words
  }

  /** What one comment contributes: at most one sentence per matching pattern, in pattern order. */
  function PatternHits(text: string, pats: seq<Pattern>, testWords: Pattern -> seq<string>): seq<string>
    decreases |pats|
  {
    if |pats| == 0 then []
    else
      var here :=
        if Search(Lower(text), pats[0]) then
          match FirstHit(Sentences(text), testWords(pats[0]))
          case Some(f) => [f]
          case None => []
        else [];
      here + PatternHits(text, pats[1..], testWords)
  }

  function RecommendationFragments(texts: seq<string>, pats: seq<Pattern>, testWords: Pattern -> seq<string>): seq<string> {
    Flatten(texts, t => PatternHits(t, pats, testWords))
  }

  /** `_extract_recommendations` as written: sentences are tested with `pattern.split()`. */
  function ExtractRecommendationsAsWritten(texts: seq<string>): (r: seq<string>)
    ensures |r| <= 10 && NoDup(r)
    ensures forall i | 0 <= i < |r| :: r[i] in RecommendationFragments(texts, RecommendationPatterns, WrittenWords)
  {
    DistinctCapped(RecommendationFragments(texts, RecommendationPatterns, WrittenWords), 10)
  }

  /** `_extract_recommendations` with sentences tested against the expression's own words. */
  function ExtractRecommendations(texts: seq<string>): (r: seq<string>)
    ensures |r| <= 10 && NoDup(r)
    ensures forall i | 0 <= i < |r| :: r[i] in RecommendationFragments(texts, RecommendationPatterns, IntendedWords)
    ensures |RecommendationFragments(texts, RecommendationPatterns, IntendedWords)| > 0 ==> |r| > 0
  {
    DistinctCapped(RecommendationFragments(texts, RecommendationPatterns, IntendedWords), 10)
  }

  // ---- the written test word is the whole expression, backslash included

  lemma LowerKeepsBackslash(s: string)
    requires '\\' in Lower(s)
    ensures '\\' in s
  {
    var i :| 0 <= i < |s| && Lower(s)[i] == '\\';
    assert s[i] == '\\';
  }

  /** A sentence passes the written test only if its comment contains a backslash. */
  lemma WrittenTestNeedsBackslash(text: string, p: Pattern, s: string)
    requires p in RecommendationPatterns
    requires s in Sentences(text) && MentionsAny(s, WrittenWords(p))
    ensures '\\' in text
  {
    PatternWellFormed(p);
    SplitWhitespaceWord(p.raw);
    var i :| 0 <= i <= |Lower(s)| - |p.raw| && OccursAt(Lower(s), p.raw, i);
    var b :| 0 <= b < |p.raw| && p.raw[b] == '\\';
    assert Lower(s)[i + b] == '\\';
    LowerKeepsBackslash(s);
    SplitPieces(text, SentenceDelims);
  }

  lemma {:induction false} PatternHitsNeedBackslash(text: string, pats: seq<Pattern>)
    requires forall j | 0 <= j < |pats| :: pats[j] in RecommendationPatterns
    requires '\\' !in text
    ensures PatternHits(text, pats, WrittenWords) == []
    decreases |pats|
  {
    if |pats| > 0 {
      PatternHitsNeedBackslash(text, pats[1..]);
      var h := FirstHit(Sentences(text), WrittenWords(pats[0]));
      if h.Some? {
        var j :| 0 <= j < |Sentences(text)| && MentionsAny(Sentences(text)[j], WrittenWords(pats[0]));
        WrittenTestNeedsBackslash(text, pats[0], Sentences(text)[j]);
      }
    }
  }

  lemma FragmentsNeedBackslash(texts: seq<string>, pats: seq<Pattern>)
    requires forall j | 0 <= j < |pats| :: pats[j] in RecommendationPatterns
    requires forall i | 0 <= i < |texts| :: '\\' !in texts[i]
    ensures RecommendationFragments(texts, pats, WrittenWords) == []
  {
    var hits := t => PatternHits(t, pats, WrittenWords);
    forall t | t in texts
      ensures hits(t) == []
    {
      PatternHitsNeedBackslash(t, pats);
    }
    FlattenEmpty(texts, hits);
  }

  /**
    As written, no recommendation is ever extracted from comments without a
    backslash, whatever they say: the sentence test looks for the source text
    of the regular expression, such as `recommend\s+that`.
   */
  lemma RecommendationsNeedBackslash(texts: seq<string>)
    requires forall i | 0 <= i < |texts| :: '\\' !in texts[i]
    ensures ExtractRecommendationsAsWritten(texts) == []
  {
    FragmentsNeedBackslash(texts, RecommendationPatterns);
  }

  /** A concrete comment that plainly recommends something and matches the first pattern. */
  const RecommendingComment: string := "we " + "recommend" + " " + "that" + " the rule be delayed."

  /** The comment matches `recommend\s+that` at its second word. */
  lemma RecommendingCommentMatches()
    ensures Search(Lower(RecommendingComment), RecommendThat)
  {
    var t := RecommendingComment;
    RecommendingCommentLower();
    RecommendingCommentWords();
    assert MatchAt(t, ["that"], false, 13);
    assert MatchAt(t, ["recommend", "that"], false, 3);
  }

  lemma RecommendingCommentLower()
    ensures Lower(RecommendingComment) == RecommendingComment
  {
    LowerOfLowercase(RecommendingComment);
  }

  lemma RecommendingCommentWords()
    ensures OccursAt(RecommendingComment, "recommend", 3)
    ensures OccursAt(RecommendingComment, "that", 13)
    ensures LeadingSpaces(RecommendingComment[12..]) == 1
  {
    var t := RecommendingComment;
    assert t[3..12] == "recommend";
    assert t[13..17] == "that";
  }

  lemma CommentHasNoBackslash()
    ensures '\\' !in RecommendingComment
  {
    assert '\\' !in "we " && '\\' !in "recommend";
    assert '\\' !in " " && '\\' !in "that";
    assert '\\' !in " the rule be delayed.";
  }

  /**
    The comment matches `recommend\s+that`, yet the written extractor returns
    nothing for it.
   */
  lemma WrittenMissesRecommendation()
    ensures Search(Lower(RecommendingComment), RecommendThat)
    ensures ExtractRecommendationsAsWritten([RecommendingComment]) == []
  {
    RecommendingCommentMatches();
    CommentHasNoBackslash();
    RecommendationsNeedBackslash([RecommendingComment]);
  }

  // ---- the intended test: a matching comment always yields a recommendation

  lemma LowerCharDelims()
    ensures forall c :: LowerChar(c) in SentenceDelims <==> c in SentenceDelims
  {
  }

  /** A comment matching a pattern has a sentence mentioning the pattern's first word. */
  lemma MatchHasSentence(text: string, p: Pattern)
    requires p in RecommendationPatterns && Search(Lower(text), p)
    ensures exists j | 0 <= j < |Sentences(text)| :: MentionsAny(Sentences(text)[j], p.words)
  {
    PatternWellFormed(p);
    var i :| 0 <= i <= |Lower(text)| && MatchAt(Lower(text), p.words, p.trailingSpace, i);
    var w := p.words[0];
    ContainsWitness(Lower(text), w, i);
    SplitKeepsFree(Lower(text), SentenceDelims, w);
    LowerCharDelims();
    SplitLower(text, SentenceDelims);
    var j :| 0 <= j < |SplitOn(Lower(text), SentenceDelims)| && Contains(SplitOn(Lower(text), SentenceDelims)[j], w);
    assert Contains(Lower(Sentences(text)[j]), p.words[0]);
  }

  lemma {:induction false} PatternHitsFound(text: string, pats: seq<Pattern>, p: Pattern)
    requires forall j | 0 <= j < |pats| :: pats[j] in RecommendationPatterns
    requires p in pats && Search(Lower(text), p)
    ensures |PatternHits(text, pats, IntendedWords)| > 0
    decreases |pats|
  {
    if pats[0] == p {
      MatchHasSentence(text, p);
    } else {
      assert p in pats[1..];
      PatternHitsFound(text, pats[1..], p);
    }
  }

  lemma FragmentsFound(texts: seq<string>, pats: seq<Pattern>, k: nat)
    requires k < |texts| && |PatternHits(texts[k], pats, IntendedWords)| > 0
    ensures |RecommendationFragments(texts, pats, IntendedWords)| > 0
  {
    FlattenNonEmpty(texts, t => PatternHits(t, pats, IntendedWords), k);
  }

  /**
    With the sentence test taken from the expression's words, every comment
    that matches a recommendation pattern yields at least one recommendation.
   */
  lemma IntendedFindsRecommendation(texts: seq<string>, k: nat, p: Pattern)
    requires k < |texts| && p in RecommendationPatterns && Search(Lower(texts[k]), p)
    ensures |ExtractRecommendations(texts)| > 0
  {
    PatternHitsFound(texts[k], RecommendationPatterns, p);
    FragmentsFound(texts, RecommendationPatterns, k);
  }
}

=== FILE: stable_sort.dfy ===
/**
  Python's `list.sort(key=..., reverse=True)`: a stable sort by descending key.
  Elements with equal keys keep their input order, which the contract states
  as "for every key value, the sub-sequence carrying that key is unchanged".
 */
module StableSort {

  predicate SortedDesc<T>(xs: seq<T>, key: T -> real) {
    forall i, j | 0 <= i < j < |xs| :: key(xs[i]) >= key(xs[j])
  }

  /** The elements of `xs` whose key is `v`, in order. */
  function WithKey<T>(xs: seq<T>, key: T -> real, v: real): seq<T>
    decreases |xs|
  {
    if |xs| == 0 then []
    else (if key(xs[0]) == v then [xs[0]] else []) + WithKey(xs[1..], key, v)
  }

  lemma {:induction false} WithKeyConcat<T>(a: seq<T>, b: seq<T>, key: T -> real, v: real)
    ensures WithKey(a + b, key, v) == WithKey(a, key, v) + WithKey(b, key, v)
    decreases |a|
  {
    if |a| == 0 {
      assert a + b == b;
    } else {
      var h: seq<T> := if key(a[0]) == v then [a[0]] else [];
      var ab := a + b;
      assert ab[0] == a[0] && ab[1..] == a[1..] + b;
      WithKeyConcat(a[1..], b, key, v);
      calc {
        WithKey(ab, key, v);
        h + WithKey(a[1..] + b, key, v);
        h + (WithKey(a[1..], key, v) + WithKey(b, key, v));
        (h + WithKey(a[1..], key, v)) + WithKey(b, key, v);
      }
    }
  }

  lemma {:induction false} WithKeyAbsent<T>(xs: seq<T>, key: T -> real, v: real)
    requires forall i | 0 <= i < |xs| :: key(xs[i]) < v
    ensures WithKey(xs, key, v) == []
    decreases |xs|
  {
    if |xs| > 0 {
      WithKeyAbsent(xs[1..], key, v);
    }
  }

  lemma ConsSorted<T>(h: T, xs: seq<T>, key: T -> real)
    requires SortedDesc(xs, key)
    requires |xs| > 0 ==> key(h) >= key(xs[0])
    ensures SortedDesc([h] + xs, key)
  {
    var r := [h] + xs;
    forall i, j | 0 <= i < j < |r|
      ensures key(r[i]) >= key(r[j])
    {
      if i == 0 {
        assert r[j] == xs[j - 1];
      } else {
        assert r[i] == xs[i - 1] && r[j] == xs[j - 1];
      }
    }
  }

  /** Inserts `x` after every element whose key is at least `key(x)`. */
  function Insert<T>(x: T, xs: seq<T>, key: T -> real): (r: seq<T>)
    ensures |r| == |xs| + 1
    ensures r[0] == if |xs| == 0 || key(x) > key(xs[0]) then x else xs[0]
    decreases |xs|
  {
    if |xs| == 0 then [x]
    else if key(xs[0]) >= key(x) then [xs[0]] + Insert(x, xs[1..], key)
    else [x] + xs
  }

  /** Inserting into a sorted sequence keeps it sorted. */
  lemma {:induction false} InsertSorted<T>(x: T, xs: seq<T>, key: T -> real)
    requires SortedDesc(xs, key)
    ensures SortedDesc(Insert(x, xs, key), key)
    decreases |xs|
  {
    if |xs| > 0 && key(xs[0]) >= key(x) {
      assert SortedDesc(xs[1..], key) by {
        forall i, j | 0 <= i < j < |xs| - 1
          ensures key(xs[1..][i]) >= key(xs[1..][j])
        {
          assert xs[1..][i] == xs[i + 1] && xs[1..][j] == xs[j + 1];
        }
      }
      InsertSorted(x, xs[1..], key);
      ConsSorted(xs[0], Insert(x, xs[1..], key), key);
    } else if |xs| > 0 {
      ConsSorted(x, xs, key);
    }
  }

  lemma {:induction false} InsertPermutes<T>(x: T, xs: seq<T>, key: T -> real)
    ensures multiset(Insert(x, xs, key)) == multiset(xs) + multiset{x}
    decreases |xs|
  {
    if |xs| > 0 && key(xs[0]) >= key(x) {
      InsertPermutes(x, xs[1..], key);
      assert xs == [xs[0]] + xs[1..];
    }
  }

  lemma {:induction false} InsertStable<T>(x: T, xs: seq<T>, key: T -> real, v: real)
    requires SortedDesc(xs, key)
    ensures WithKey(Insert(x, xs, key), key, v)
         == WithKey(xs, key, v) + (if key(x) == v then [x] else [])
    decreases |xs|
  {
    if |xs| == 0 {
      assert WithKey([x], key, v) == (if key(x) == v then [x] else []) + WithKey([], key, v);
    } else if key(xs[0]) >= key(x) {
      InsertStable(x, xs[1..], key, v);
      InsertStableAfter(x, xs, key, v);
    } else {
      InsertStableFront(x, xs, key, v);
    }
  }

  /** The head stays in front of an element that goes further down. */
  lemma InsertStableAfter<T>(x: T, xs: seq<T>, key: T -> real, v: real)
    requires |xs| > 0 && key(xs[0]) >= key(x)
    requires WithKey(Insert(x, xs[1..], key), key, v)
          == WithKey(xs[1..], key, v) + (if key(x) == v then [x] else [])
    ensures WithKey(Insert(x, xs, key), key, v)
         == WithKey(xs, key, v) + (if key(x) == v then [x] else [])
  {
    var ins := Insert(x, xs, key);
    var h: seq<T> := if key(xs[0]) == v then [xs[0]] else [];
    var tail: seq<T> := if key(x) == v then [x] else [];
    assert ins[0] == xs[0] && ins[1..] == Insert(x, xs[1..], key);
    calc {
      WithKey(ins, key, v);
      h + WithKey(Insert(x, xs[1..], key), key, v);
      h + (WithKey(xs[1..], key, v) + tail);
      (h + WithKey(xs[1..], key, v)) + tail;
      WithKey(xs, key, v) + tail;
    }
  }

  /** An element with a key above every other goes first, and no other carries its key. */
  lemma InsertStableFront<T>(x: T, xs: seq<T>, key: T -> real, v: real)
    requires SortedDesc(xs, key) && |xs| > 0 && key(xs[0]) < key(x)
    ensures WithKey(Insert(x, xs, key), key, v)
         == WithKey(xs, key, v) + (if key(x) == v then [x] else [])
  {
    assert Insert(x, xs, key) == [x] + xs;
    WithKeyConcat([x], xs, key, v);
    assert WithKey([x], key, v) == (if key(x) == v then [x] else []) + WithKey([], key, v);
    if key(x) == v {
      forall i | 0 <= i < |xs|
        ensures key(xs[i]) < v
      {
        assert key(xs[0]) >= key(xs[i]) || i == 0;
      }
      WithKeyAbsent(xs, key, v);
    }
  }

  /** Insertion sort; each new element goes after the equal ones already placed. */
  function SortDesc<T>(xs: seq<T>, key: T -> real): (r: seq<T>)
    ensures SortedDesc(r, key)
    ensures |r| == |xs|
    decreases |xs|
  {
    if |xs| == 0 then []
    else
      var sorted := SortDesc(xs[..|xs| - 1], key);
      InsertSorted(xs[|xs| - 1], sorted, key);
      Insert(xs[|xs| - 1], sorted, key)
  }

  /** The sort is a permutation of its input. */
  lemma {:induction false} SortDescPermutes<T>(xs: seq<T>, key: T -> real)
    ensures multiset(SortDesc(xs, key)) == multiset(xs)
    decreases |xs|
  {
    if |xs| > 0 {
      var init, last := xs[..|xs| - 1], xs[|xs| - 1];
      SortDescPermutes(init, key);
      InsertPermutes(last, SortDesc(init, key), key);
      assert xs == init + [last];
    }
  }

  /** Stability: for every key value the elements carrying it keep their input order. */
  lemma {:induction false} SortDescStable<T>(xs: seq<T>, key: T -> real, v: real)
    ensures WithKey(SortDesc(xs, key), key, v) == WithKey(xs, key, v)
    decreases |xs|
  {
    if |xs| > 0 {
      var init, last := xs[..|xs| - 1], xs[|xs| - 1];
      SortDescStable(init, key, v);
      InsertStable(last, SortDesc(init, key), key, v);
      assert xs == init + [last];
      WithKeyConcat(init, [last], key, v);
    }
  }

  /** A prefix of a sorted sequence is sorted. */
  lemma SortedPrefix<T>(xs: seq<T>, key: T -> real, n: nat)
    requires SortedDesc(xs, key) && n <= |xs|
    ensures SortedDesc(xs[..n], key)
  {
    assert forall i | 0 <= i < n :: xs[..n][i] == xs[i];
  }

  /** `sorted(xs, key=key, reverse=True)[:n]` */
  function Top<T>(xs: seq<T>, key: T -> real, n: nat): (r: seq<T>)
    ensures SortedDesc(r, key)
    ensures |r| == if |xs| <= n then |xs| else n
    ensures r <= SortDesc(xs, key)
  {
    var sorted := SortDesc(xs, key);
    if |sorted| <= n then sorted
    else
      SortedPrefix(sorted, key, n);
      sorted[..n]
  }

  /** Every element of the selection comes from the input. */
  lemma TopMembers<T>(xs: seq<T>, key: T -> real, n: nat)
    ensures forall i | 0 <= i < |Top(xs, key, n)| :: Top(xs, key, n)[i] in xs
  {
    SortDescPermutes(xs, key);
    var r := Top(xs, key, n);
    forall i | 0 <= i < |r|
      ensures r[i] in xs
    {
      assert r[i] == SortDesc(xs, key)[i];
      assert r[i] in multiset(xs);
    }
  }

  /** An element left out of the selection ranks no higher than any element kept. */
  lemma TopKeepsBest<T>(xs: seq<T>, key: T -> real, n: nat, c: T)
    requires c in xs && c !in Top(xs, key, n)
    ensures |Top(xs, key, n)| == n
    ensures forall i | 0 <= i < n :: key(Top(xs, key, n)[i]) >= key(c)
  {
    var sorted := SortDesc(xs, key);
    var r := Top(xs, key, n);
    SortDescPermutes(xs, key);
    assert c in multiset(sorted);
    var p :| 0 <= p < |sorted| && sorted[p] == c;
    assert forall i | 0 <= i < |r| :: r[i] == sorted[i];
    assert p >= |r|;
    assert forall i | 0 <= i < n :: sorted[i] == r[i];
  }

  /** Ties keep input order: for every key value the selection is a prefix of the input's elements carrying it. */
  lemma TopStable<T>(xs: seq<T>, key: T -> real, n: nat, v: real)
    ensures WithKey(Top(xs, key, n), key, v) <= WithKey(xs, key, v)
  {
    var sorted := SortDesc(xs, key);
    var r := Top(xs, key, n);
    SortDescStable(xs, key, v);
    assert sorted == r + sorted[|r|..];
    WithKeyConcat(r, sorted[|r|..], key, v);
  }
}

=== FILE: strings.dfy ===
/**
  The slice of Python's `str` behaviour the analyzers rely on: lower-casing,
  substring tests, non-overlapping counting (`str.count`), `find`, `split`,
  `strip`, `join`, `title`, decimal rendering and `int()` parsing.
  Character classes are ASCII: `lower`/`title` only map A-Z/a-z, and white
  space is the ASCII set Python's `str.isspace` accepts.
 */
module Strings {
  import opened Wrappers

  predicate IsSpace(c: char) {
    c == ' ' || ('\t' <= c <= '\r') || ('\U{1C}' <= c <= '\U{1F}')
  }

  predicate IsUpper(c: char) { 'A' <= c <= 'Z' }
  predicate IsLowerCase(c: char) { 'a' <= c <= 'z' }
  predicate IsAlpha(c: char) { IsUpper(c) || IsLowerCase(c) }
  predicate IsDigit(c: char) { '0' <= c <= '9' }

  function LowerChar(c: char): char {
    if IsUpper(c) then (c as int + 32) as char else c
  }

  function UpperChar(c: char): char {
    if IsLowerCase(c) then (c as int - 32) as char else c
  }

  /** `s.lower()` */
  function Lower(s: string): (r: string)
    ensures |r| == |s|
    ensures forall i | 0 <= i < |s| :: r[i] == LowerChar(s[i])
  {
    seq(|s|, i requires 0 <= i < |s| => LowerChar(s[i]))
  }

  lemma LowerCharSpace(c: char)
    ensures IsSpace(LowerChar(c)) == IsSpace(c)
  {
  }

  lemma LowerSlice(s: string, a: int, b: int)
    requires 0 <= a <= b <= |s|
    ensures Lower(s[a..b]) == Lower(s)[a..b]
  {
  }

  /** Lower-casing changes nothing in a string without capitals. */
  lemma LowerOfLowercase(s: string)
    requires forall i | 0 <= i < |s| :: !IsUpper(s[i])
    ensures Lower(s) == s
  {
  }

  lemma LowerConcat(a: string, b: string)
    ensures Lower(a + b) == Lower(a) + Lower(b)
  {
  }

  // ---------------------------------------------------------------- substrings

  predicate OccursAt(s: string, k: string, i: int) {
    0 <= i && i + |k| <= |s| && s[i..i + |k|] == k
  }

  /** `k in s` */
  predicate Contains(s: string, k: string) {
    exists i | 0 <= i <= |s| - |k| :: OccursAt(s, k, i)
  }

  /** `any(k in s for k in ks)` */
  predicate ContainsAny(s: string, ks: seq<string>) {
    exists j | 0 <= j < |ks| :: Contains(s, ks[j])
  }

  predicate StartsWith(s: string, p: string) {
    |p| <= |s| && s[..|p|] == p
  }

  predicate EndsWith(s: string, p: string) {
    |p| <= |s| && s[|s| - |p|..] == p
  }

  lemma ContainsWitness(s: string, k: string, i: int)
    requires OccursAt(s, k, i)
    ensures Contains(s, k)
  {
  }

  /** A text lacking one of the characters of `k` does not contain `k`. */
  lemma MissingCharNotContained(s: string, k: string, c: char)
    requires c in k && c !in s
    ensures !Contains(s, k)
  {
    var j :| 0 <= j < |k| && k[j] == c;
    forall i | 0 <= i <= |s| - |k|
      ensures !OccursAt(s, k, i)
    {
      assert s[i..i + |k|][j] == s[i + j];
    }
  }

  /** A substring of a slice is a substring of the whole. */
  lemma ContainsInSlice(s: string, a: int, b: int, k: string)
    requires 0 <= a <= b <= |s|
    requires Contains(s[a..b], k)
    ensures Contains(s, k)
  {
    var t := s[a..b];
    var i :| 0 <= i <= |t| - |k| && OccursAt(t, k, i);
    forall j | 0 <= j < |k|
      ensures k[j] == s[a + i + j]
    {
      assert k[j] == t[i..i + |k|][j];
    }
    assert s[a + i..a + i + |k|] == k;
    assert OccursAt(s, k, a + i);
  }

  /**
    `s.find(k, start)`: the lowest index at or after `start` where `k` occurs,
    or -1.
   */
  function FindFrom(s: string, k: string, start: nat): (r: int)
    ensures r == -1 || (start <= r && OccursAt(s, k, r))
    ensures r >= 0 ==> forall i | start <= i < r :: !OccursAt(s, k, i)
    ensures r == -1 ==> forall i | start <= i :: !OccursAt(s, k, i)
    decreases |s| - start
  {
    if start + |k| > |s| then -1
    else if OccursAt(s, k, start) then start
    else FindFrom(s, k, start + 1)
  }

  /** `find` stops at an occurrence when no earlier position from `start` holds the key's first character. */
  lemma FindFirstAt(s: string, k: string, start: nat, p: nat)
    requires |k| > 0 && start <= p && OccursAt(s, k, p)
    requires forall i | start <= i < p :: s[i] != k[0]
    ensures FindFrom(s, k, start) == p
  {
    forall i | start <= i < p
      ensures !OccursAt(s, k, i)
    {
      if i + |k| <= |s| {
        assert s[i..i + |k|][0] == s[i];
      }
    }
  }

  /** `find` returns the first occurrence from `start`. */
  lemma FindFromFirst(s: string, k: string, start: nat, p: nat)
    requires start <= p && OccursAt(s, k, p)
    requires forall i | start <= i < p :: !OccursAt(s, k, i)
    ensures FindFrom(s, k, start) == p
  {
  }

  /** A text occurs in the middle of a concatenation, right after its first part. */
  lemma OccursBetween(a: string, k: string, b: string)
    ensures OccursAt(a + k + b, k, |a|) && Contains(a + k + b, k)
  {
    var s := a + k + b;
    assert s[|a|..|a| + |k|] == k;
    ContainsWitness(s, k, |a|);
  }

  /**
    `s.count(k)` for a non-empty `k`: occurrences found scanning left to
    right and resuming after each match, so they never overlap.
   */
  function CountOcc(s: string, k: string): nat
    requires |k| > 0
    decreases |s|
  {
    if |s| < |k| then 0
    else if s[..|k|] == k then 1 + CountOcc(s[|k|..], k)
    else CountOcc(s[1..], k)
  }

  lemma {:induction false} CountOccPositive(s: string, k: string)
    requires |k| > 0
    ensures CountOcc(s, k) > 0 <==> Contains(s, k)
    decreases |s|
  {
    if |s| < |k| {
    } else if s[..|k|] == k {
      assert OccursAt(s, k, 0);
    } else {
      CountOccPositive(s[1..], k);
      if Contains(s[1..], k) {
        assert s[1..|s|] == s[1..];
        ContainsInSlice(s, 1, |s|, k);
      }
      if Contains(s, k) {
        var i :| 0 <= i <= |s| - |k| && OccursAt(s, k, i);
        assert i != 0;
        assert s[1..][i - 1..i - 1 + |k|] == s[i..i + |k|];
        assert OccursAt(s[1..], k, i - 1);
      }
    }
  }

  /** Occurrences are at most |s| / |k|: each consumes |k| characters. */
  lemma {:induction false} CountOccBound(s: string, k: string)
    requires |k| > 0
    ensures CountOcc(s, k) * |k| <= |s|
    decreases |s|
  {
    if |s| < |k| {
    } else if s[..|k|] == k {
      CountOccBound(s[|k|..], k);
    } else {
      CountOccBound(s[1..], k);
    }
  }

  /** `s.count(k)` for any `k`: the empty string occurs |s| + 1 times. */
  function PyCount(s: string, k: string): nat {
    if |k| == 0 then |s| + 1 else CountOcc(s, k)
  }

  /** `sum(s.count(k) for k in ks)` */
  function CountAll(s: string, ks: seq<string>): nat
    decreases |ks|
  {
    if |ks| == 0 then 0 else PyCount(s, ks[0]) + CountAll(s, ks[1..])
  }

  /** The summed count is positive exactly when some keyword occurs (or one is empty). */
  lemma {:induction false} CountAllPositive(s: string, ks: seq<string>)
    requires forall i | 0 <= i < |ks| :: |ks[i]| > 0
    ensures CountAll(s, ks) > 0 <==> ContainsAny(s, ks)
    decreases |ks|
  {
    if |ks| > 0 {
      CountOccPositive(s, ks[0]);
      CountAllPositive(s, ks[1..]);
      if ContainsAny(s, ks[1..]) {
        var j :| 0 <= j < |ks[1..]| && Contains(s, ks[1..][j]);
        assert Contains(s, ks[j + 1]);
      }
      if ContainsAny(s, ks) {
        var j :| 0 <= j < |ks| && Contains(s, ks[j]);
        if j > 0 {
          assert Contains(s, ks[1..][j - 1]);
        }
      }
    }
  }

  /** Summing over two keyword lists one after the other. */
  lemma {:induction false} CountAllConcat(s: string, a: seq<string>, b: seq<string>)
    ensures CountAll(s, a + b) == CountAll(s, a) + CountAll(s, b)
    decreases |a|
  {
    if |a| == 0 {
      assert a + b == b;
    } else {
      assert (a + b)[1..] == a[1..] + b;
      CountAllConcat(s, a[1..], b);
    }
  }

  lemma EmptyHasNoKeyword(ks: seq<string>)
    requires forall i | 0 <= i < |ks| :: |ks[i]| > 0
    ensures !ContainsAny("", ks)
  {
  }

  // ---------------------------------------------------------------- join / split

  /** `sep.join(xs)` */
  function Join(sep: string, xs: seq<string>): string
    decreases |xs|
  {
    if |xs| == 0 then ""
    else if |xs| == 1 then xs[0]
    else xs[0] + sep + Join(sep, xs[1..])
  }

  lemma {:induction false} JoinHead(sep: string, xs: seq<string>)
    requires |xs| >= 1
    ensures StartsWith(Join(sep, xs), xs[0])
  {
    if |xs| > 1 {
      assert Join(sep, xs) == xs[0] + (sep + Join(sep, xs[1..]));
    }
  }

  lemma {:induction false} JoinLast(sep: string, xs: seq<string>)
    requires |xs| >= 1
    ensures EndsWith(Join(sep, xs), xs[|xs| - 1])
    decreases |xs|
  {
    if |xs| > 1 {
      JoinLast(sep, xs[1..]);
      var p := xs[0] + sep;
      var rest := Join(sep, xs[1..]);
      assert Join(sep, xs) == p + rest;
      assert (p + rest)[|p + rest| - |xs[|xs| - 1]|..] == rest[|rest| - |xs[|xs| - 1]|..];
    }
  }

  /** A join of at least two parts starts with the first two and the separator between them. */
  /** Every part of a join occurs in it. */
  lemma {:induction false} JoinContainsPart(sep: string, xs: seq<string>, i: nat)
    requires i < |xs|
    ensures Contains(Join(sep, xs), xs[i])
    decreases |xs|
  {
    var s := Join(sep, xs);
    if i == 0 {
      JoinHead(sep, xs);
      ContainsWitness(s, xs[0], 0);
    } else {
      JoinContainsPart(sep, xs[1..], i - 1);
      var p := |xs[0] + sep|;
      assert s == (xs[0] + sep) + Join(sep, xs[1..]);
      assert s[p..|s|] == Join(sep, xs[1..]);
      ContainsInSlice(s, p, |s|, xs[i]);
    }
  }

  lemma JoinFirstTwo(sep: string, xs: seq<string>)
    requires |xs| >= 2
    ensures StartsWith(Join(sep, xs), xs[0] + sep + xs[1])
  {
    var rest := Join(sep, xs[1..]);
    JoinHead(sep, xs[1..]);
    var p := xs[0] + sep;
    assert Join(sep, xs) == p + rest;
    assert (p + rest)[..|p| + |xs[1]|] == p + rest[..|xs[1]|];
  }

  predicate FreeOf(s: string, delims: set<char>) {
    forall i | 0 <= i < |s| :: s[i] !in delims
  }

  /**
    Splitting on single delimiter characters and keeping empty pieces, as
    `s.split("-")` and `re.split(r"[.!?]", s)` do: n delimiters give n + 1
    pieces.
   */
  function SplitOn(s: string, delims: set<char>): (r: seq<string>)
    ensures |r| >= 1
    decreases |s|
  {
    if |s| == 0 then [""]
    else
      var rest := SplitOn(s[1..], delims);
      if s[0] in delims then [""] + rest
      else [[s[0]] + rest[0]] + rest[1..]
  }

  /** No piece holds a delimiter, and every character of a piece comes from `s`. */
  lemma {:induction false} SplitPieces(s: string, delims: set<char>)
    ensures forall p | p in SplitOn(s, delims) :: FreeOf(p, delims)
    ensures forall p, c | p in SplitOn(s, delims) && c in p :: c in s
    decreases |s|
  {
    if |s| > 0 {
      SplitPieces(s[1..], delims);
      var rest := SplitOn(s[1..], delims);
      if s[0] !in delims {
        var head := [s[0]] + rest[0];
        assert FreeOf(rest[0], delims);
        assert FreeOf(head, delims) by {
          forall i | 0 <= i < |head|
            ensures head[i] !in delims
          {
            if i > 0 { assert head[i] == rest[0][i - 1]; }
          }
        }
        forall c | c in head
          ensures c in s
        {
          if c != s[0] {
            assert c in rest[0];
            assert c in s[1..];
          }
        }
        forall p, c | p in SplitOn(s, delims) && c in p
          ensures c in s
        {
          if p != head {
            assert p in rest;
            assert c in s[1..];
          }
        }
      } else {
        forall p, c | p in SplitOn(s, delims) && c in p
          ensures c in s
        {
          assert p in rest;
          assert c in s[1..];
        }
      }
    }
  }

  lemma {:induction false} SplitFree(s: string, delims: set<char>)
    requires FreeOf(s, delims)
    ensures SplitOn(s, delims) == [s]
    decreases |s|
  {
    if |s| > 0 {
      SplitFree(s[1..], delims);
      assert [s[0]] + s[1..] == s;
    }
  }

  lemma {:induction false} SplitAfterPiece(a: string, c: char, b: string, delims: set<char>)
    requires FreeOf(a, delims) && c in delims
    ensures SplitOn(a + [c] + b, delims) == [a] + SplitOn(b, delims)
    decreases |a|
  {
    var s := a + [c] + b;
    if |a| == 0 {
      assert s[1..] == b;
    } else {
      assert s[1..] == a[1..] + [c] + b;
      SplitAfterPiece(a[1..], c, b, delims);
      assert [a[0]] + a[1..] == a;
    }
  }

  /** Splitting undoes joining when no piece holds the separator. */
  /** A delimiter-free prefix of `s` starts the first piece. */
  lemma {:induction false} SplitFirstPrefix(s: string, delims: set<char>, m: nat)
    requires m <= |s| && FreeOf(s[..m], delims)
    ensures StartsWith(SplitOn(s, delims)[0], s[..m])
    decreases m
  {
    if m > 0 {
      assert s[0] == s[..m][0];
      var t := s[1..];
      forall i | 0 <= i < m - 1
        ensures t[i] !in delims
      {
        assert t[i] == s[..m][i + 1];
      }
      assert FreeOf(t[..m - 1], delims);
      SplitFirstPrefix(s[1..], delims, m - 1);
      var rest := SplitOn(s[1..], delims);
      assert SplitOn(s, delims)[0] == [s[0]] + rest[0];
      assert s[..m] == [s[0]] + s[1..][..m - 1];
    }
  }

  /** A delimiter-free substring of `s` lies inside a single piece. */
  lemma {:induction false} SplitKeepsFree(s: string, delims: set<char>, k: string)
    requires |k| > 0 && FreeOf(k, delims) && Contains(s, k)
    ensures exists j | 0 <= j < |SplitOn(s, delims)| :: Contains(SplitOn(s, delims)[j], k)
    decreases |s|
  {
    var r := SplitOn(s, delims);
    var rest := SplitOn(s[1..], delims);
    var i :| 0 <= i <= |s| - |k| && OccursAt(s, k, i);
    if i == 0 {
      assert s[..|k|] == k;
      assert s[0] !in delims by { assert s[0] == k[0]; }
      SplitFirstPrefix(s, delims, |k|);
      assert OccursAt(r[0], k, 0);
    } else {
      assert OccursAt(s[1..], k, i - 1) by {
        assert s[1..][i - 1..i - 1 + |k|] == s[i..i + |k|];
      }
      SplitKeepsFree(s[1..], delims, k);
      var j :| 0 <= j < |rest| && Contains(rest[j], k);
      if s[0] in delims {
        assert r[j + 1] == rest[j];
      } else if j > 0 {
        assert r[j] == rest[j];
      } else {
        assert r[0] == [s[0]] + rest[0];
        assert r[0][1..|r[0]|] == rest[0];
        ContainsInSlice(r[0], 1, |r[0]|, k);
      }
    }
  }

  /**
    Lower-casing commutes with splitting when no delimiter changes under
    lower-casing: the pieces of the lower-cased text are the lower-cased pieces.
   */
  lemma {:induction false} SplitLower(s: string, delims: set<char>)
    requires forall c :: LowerChar(c) in delims <==> c in delims
    ensures |SplitOn(Lower(s), delims)| == |SplitOn(s, delims)|
    ensures forall j | 0 <= j < |SplitOn(s, delims)| ::
      SplitOn(Lower(s), delims)[j] == Lower(SplitOn(s, delims)[j])
    decreases |s|
  {
    if |s| > 0 {
      SplitLower(s[1..], delims);
      var l := Lower(s);
      assert l[1..] == Lower(s[1..]);
      assert l[0] in delims <==> s[0] in delims;
      var rest := SplitOn(s[1..], delims);
      if s[0] !in delims {
        LowerConcat([s[0]], rest[0]);
        assert Lower([s[0]]) == [l[0]];
        var r := SplitOn(s, delims);
        var lr := SplitOn(l, delims);
        forall j | 0 <= j < |r|
          ensures lr[j] == Lower(r[j])
        {
          if j > 0 {
            assert r[j] == rest[j];
          }
        }
      }
    }
  }

  lemma {:induction false} SplitJoin(ps: seq<string>, c: char)
    requires |ps| >= 1
    requires forall i | 0 <= i < |ps| :: FreeOf(ps[i], {c})
    ensures SplitOn(Join([c], ps), {c}) == ps
    decreases |ps|
  {
    if |ps| == 1 {
      SplitFree(ps[0], {c});
    } else {
      SplitJoin(ps[1..], c);
      SplitAfterPiece(ps[0], c, Join([c], ps[1..]), {c});
      assert [ps[0]] + ps[1..] == ps;
    }
  }

  /** Joining the pieces of a split on one character gives the text back. */
  lemma {:induction false} JoinOfSplit(s: string, c: char)
    ensures Join([c], SplitOn(s, {c})) == s
    decreases |s|
  {
    if |s| > 0 {
      JoinOfSplit(s[1..], c);
      var rest := SplitOn(s[1..], {c});
      if s[0] == c {
        assert SplitOn(s, {c}) == [""] + rest;
        assert Join([c], [""] + rest) == "" + [c] + Join([c], rest);
      } else {
        JoinPrepend([c], [s[0]], rest);
      }
      assert [s[0]] + s[1..] == s;
    }
  }

  /** Prepending text to the first part prepends it to the join. */
  lemma JoinPrepend(sep: string, a: string, xs: seq<string>)
    requires |xs| >= 1
    ensures Join(sep, [a + xs[0]] + xs[1..]) == a + Join(sep, xs)
  {
    var ys := [a + xs[0]] + xs[1..];
    assert ys[1..] == xs[1..];
  }

  /** The join of the first `k` parts starts the join of all of them. */
  lemma {:induction false} JoinPrefix(sep: string, xs: seq<string>, k: nat)
    requires 1 <= k <= |xs|
    ensures StartsWith(Join(sep, xs), Join(sep, xs[..k]))
    decreases k
  {
    if k == 1 {
      JoinHead(sep, xs);
      assert xs[..1] == [xs[0]];
    } else {
      JoinPrefix(sep, xs[1..], k - 1);
      assert xs[..k][1..] == xs[1..][..k - 1];
      var p := xs[0] + sep;
      var whole, part := Join(sep, xs[1..]), Join(sep, xs[1..][..k - 1]);
      assert Join(sep, xs) == p + whole;
      assert Join(sep, xs[..k]) == p + part;
      assert (p + whole)[..|p| + |part|] == p + whole[..|part|];
    }
  }

  /** Splitting on one character gives one piece more than it has occurrences. */
  lemma {:induction false} SplitCount(s: string, c: char)
    ensures |SplitOn(s, {c})| == multiset(s)[c] + 1
    decreases |s|
  {
    if |s| > 0 {
      SplitCount(s[1..], c);
      assert s == [s[0]] + s[1..];
      assert multiset(s) == multiset{s[0]} + multiset(s[1..]);
    }
  }

  /** Length of the run of non-space characters at the front of `s`. */
  function WordLength(s: string): (n: nat)
    ensures n <= |s|
    ensures forall i | 0 <= i < n :: !IsSpace(s[i])
    ensures n < |s| ==> IsSpace(s[n])
  {
    if |s| > 0 && !IsSpace(s[0]) then 1 + WordLength(s[1..]) else 0
  }

  /** `s.split()` with no argument: maximal runs of non-space characters. */
  function SplitWhitespace(s: string): seq<string>
    decreases |s|
  {
    var t := s[LeadingSpaces(s)..];
    if |t| == 0 then []
    else
      var n := WordLength(t);
      [t[..n]] + SplitWhitespace(t[n..])
  }

  predicate NoSpace(s: string) {
    forall i | 0 <= i < |s| :: !IsSpace(s[i])
  }

  lemma SplitWhitespaceWord(s: string)
    requires |s| > 0 && NoSpace(s)
    ensures SplitWhitespace(s) == [s]
  {
    assert LeadingSpaces(s) == 0;
    assert s[0..] == s;
    assert WordLength(s) == |s|;
    assert s[..|s|] == s;
    assert s[|s|..] == [];
    assert SplitWhitespace([]) == [];
  }

  // ---------------------------------------------------------------- strip

  function LeadingSpaces(s: string): (n: nat)
    ensures n <= |s|
    ensures forall i | 0 <= i < n :: IsSpace(s[i])
    ensures n < |s| ==> !IsSpace(s[n])
  {
    if |s| > 0 && IsSpace(s[0]) then 1 + LeadingSpaces(s[1..]) else 0
  }

  function TrailingSpaces(s: string): (n: nat)
    ensures n <= |s|
    ensures forall i | |s| - n <= i < |s| :: IsSpace(s[i])
    ensures n < |s| ==> !IsSpace(s[|s| - n - 1])
  {
    if |s| > 0 && IsSpace(s[|s| - 1]) then 1 + TrailingSpaces(s[..|s| - 1]) else 0
  }

  /** `s.strip()` */
  function Strip(s: string): string {
    var t := s[LeadingSpaces(s)..];
    t[..|t| - TrailingSpaces(t)]
  }

  /** What stripping keeps: a contiguous slice of `s` cut at non-space ends. */
  lemma StripSlice(s: string) returns (a: nat, b: nat)
    ensures a <= b <= |s| && Strip(s) == s[a..b]
    ensures forall i | 0 <= i < a :: IsSpace(s[i])
    ensures forall i | b <= i < |s| :: IsSpace(s[i])
  {
    a := LeadingSpaces(s);
    var t := s[a..];
    b := a + |t| - TrailingSpaces(t);
    assert forall i | b <= i < |s| :: s[i] == t[i - a];
  }

  predicate TrimmedKeyword(k: string) {
    |k| > 0 && !IsSpace(k[0]) && !IsSpace(k[|k| - 1])
  }

  /**
    Stripping white space never removes a keyword that neither starts nor
    ends with white space.
   */
  lemma StripKeepsKeyword(s: string, k: string)
    requires TrimmedKeyword(k)
    requires Contains(Lower(s), k)
    ensures Contains(Lower(Strip(s)), k)
  {
    var u := Lower(s);
    var p :| 0 <= p <= |s| - |k| && OccursAt(u, k, p);
    var a, b := StripSlice(s);
    var q := p + |k| - 1;
    assert u[p] == k[0] && u[q] == k[|k| - 1];
    LowerCharSpace(s[p]);
    LowerCharSpace(s[q]);
    assert a <= p && q < b;
    LowerSlice(s, a, b);
    OccursInSlice(u, k, p, a, b);
  }

  lemma OccursInSlice(u: string, k: string, p: nat, a: nat, b: nat)
    requires a <= p && p + |k| <= b <= |u| && OccursAt(u, k, p)
    ensures OccursAt(u[a..b], k, p - a)
  {
    var x, y := u[a..b][p - a..p - a + |k|], u[p..p + |k|];
    assert forall i | 0 <= i < |k| :: x[i] == y[i];
    assert x == y;
  }

  // ---------------------------------------------------------------- small sequence helpers

  /** `xs[:n]` for a non-negative `n` */
  function Take<T>(xs: seq<T>, n: nat): (r: seq<T>)
    ensures |r| == if n <= |xs| then n else |xs|
    ensures r <= xs
  {
    if n <= |xs| then xs[..n] else xs
  }

  predicate NoDup<T(==)>(xs: seq<T>) {
    forall i, j | 0 <= i < j < |xs| :: xs[i] != xs[j]
  }

  /**
    The distinct elements of `xs` in first-seen order: what appending "if not
    already present" produces.
   */
  function Dedup<T(==)>(xs: seq<T>): (r: seq<T>)
    ensures NoDup(r)
    ensures forall i | 0 <= i < |r| :: r[i] in xs
    ensures forall i | 0 <= i < |xs| :: xs[i] in r
    ensures |r| <= |xs|
    decreases |xs|
  {
    if |xs| == 0 then []
    else
      var d := Dedup(xs[..|xs| - 1]);
      var x := xs[|xs| - 1];
      assert xs == xs[..|xs| - 1] + [x];
      if x in d then d else d + [x]
  }

  // ---------------------------------------------------------------- text case

  /** `s.replace(a, b)` for single characters */
  function ReplaceChar(s: string, a: char, b: char): (r: string)
    ensures |r| == |s|
  {
    seq(|s|, i requires 0 <= i < |s| => if s[i] == a then b else s[i])
  }

  function TitleFrom(s: string, afterLetter: bool): (r: string)
    ensures |r| == |s|
    decreases |s|
  {
    if |s| == 0 then ""
    else
      var c := s[0];
      var c' := if !IsAlpha(c) then c else if afterLetter then LowerChar(c) else UpperChar(c);
      [c'] + TitleFrom(s[1..], IsAlpha(c))
  }

  /** `s.title()`: a letter is upper-cased after a non-letter, lower-cased after a letter. */
  function Title(s: string): string {
    TitleFrom(s, false)
  }

  // ---------------------------------------------------------------- numbers

  function DigitChar(d: nat): char
    requires d < 10
  {
    ('0' as int + d) as char
  }

  predicate AllDigits(s: string) {
    forall i | 0 <= i < |s| :: IsDigit(s[i])
  }

  /** `str(n)` for a non-negative integer */
  function NatToString(n: nat): (r: string)
    ensures |r| >= 1 && AllDigits(r)
  {
    if n < 10 then [DigitChar(n)] else NatToString(n / 10) + [DigitChar(n % 10)]
  }

  /** `str(i)` */
  function IntToString(i: int): string {
    if i < 0 then "-" + NatToString(-i) else NatToString(i)
  }

  function DigitsValue(s: string): nat
    requires AllDigits(s)
  {
    if |s| == 0 then 0 else DigitsValue(s[..|s| - 1]) * 10 + (s[|s| - 1] as int - '0' as int)
  }

  /**
    The digits `int()` accepts: decimal digits, where a single underscore may
    separate two digits ("1_000").
   */
  predicate DigitGroups(s: string) {
    && |s| > 0 && IsDigit(s[0]) && IsDigit(s[|s| - 1])
    && (forall i | 0 <= i < |s| :: IsDigit(s[i]) || s[i] == '_')
    && (forall i | 0 <= i < |s| - 1 :: s[i] == '_' ==> IsDigit(s[i + 1]))
  }

  /** The digits of `s` with the grouping underscores removed. */
  function Ungrouped(s: string): (r: string)
    ensures (forall i | 0 <= i < |s| :: IsDigit(s[i]) || s[i] == '_') ==> AllDigits(r)
    ensures AllDigits(s) ==> r == s
    decreases |s|
  {
    if |s| == 0 then ""
    else
      assert forall i | 0 <= i < |s| - 1 :: s[1..][i] == s[i + 1];
      (if s[0] == '_' then "" else [s[0]]) + Ungrouped(s[1..])
  }

  /**
    `int(s)` on a string: surrounding white space, an optional sign and at
    least one decimal digit, digits possibly grouped by single underscores;
    anything else is the `ValueError` case, `None`.
   */
  function ParseInt(s: string): Option<int> {
    var t := Strip(s);
    if |t| > 0 && (t[0] == '-' || t[0] == '+') then
      var body := t[1..];
      if DigitGroups(body) then
        Some(if t[0] == '-' then -(DigitsValue(Ungrouped(body)) as int) else DigitsValue(Ungrouped(body)) as int)
      else None
    else if DigitGroups(t) then Some(DigitsValue(Ungrouped(t)) as int)
    else None
  }

  lemma {:induction false} DigitsOfNat(n: nat)
    ensures DigitsValue(NatToString(n)) == n
  {
    if n >= 10 {
      DigitsOfNat(n / 10);
      var s := NatToString(n);
      assert s[..|s| - 1] == NatToString(n / 10);
    }
  }

  lemma NoSpaceStrip(s: string)
    requires |s| > 0 && !IsSpace(s[0]) && !IsSpace(s[|s| - 1])
    ensures Strip(s) == s
  {
    assert LeadingSpaces(s) == 0;
    assert s[0..] == s;
    assert TrailingSpaces(s) == 0;
  }

  lemma {:induction false} ParseDigits(s: string)
    requires |s| > 0 && AllDigits(s)
    ensures ParseInt(s) == Some(DigitsValue(s) as int)
  {
    DigitsAreGroups(s);
    NoSpaceStrip(s);
  }

  lemma {:induction false} ParseNegativeDigits(t: string, v: nat)
    requires |t| > 1 && t[0] == '-' && AllDigits(t[1..]) && DigitsValue(t[1..]) == v
    ensures ParseInt(t) == Some(-(v as int))
  {
    DigitsAreGroups(t[1..]);
    assert t[|t| - 1] == t[1..][|t| - 2];
    NoSpaceStrip(t);
    ParseMinus(t);
  }

  /** Plain digits are a well-formed digit group. */
  lemma DigitsAreGroups(s: string)
    requires |s| > 0 && AllDigits(s)
    ensures DigitGroups(s) && !IsSpace(s[0]) && !IsSpace(s[|s| - 1])
  {
  }

  /** A minus sign before well-formed digit groups, with nothing to strip, reads as the negated value. */
  lemma {:induction false} ParseMinus(t: string)
    requires |t| > 1 && t[0] == '-' && Strip(t) == t && DigitGroups(t[1..])
    ensures ParseInt(t) == Some(-(DigitsValue(Ungrouped(t[1..])) as int))
  {
  }

  lemma ParseNatString(n: nat)
    ensures ParseInt(NatToString(n)) == Some(n as int)
  {
    var d := NatToString(n);
    DigitsOfNat(n);
    ParseDigits(d);
  }

  lemma {:induction false} ParseNegString(n: nat)
    requires n > 0
    ensures ParseInt("-" + NatToString(n)) == Some(-(n as int))
  {
    DigitsOfNat(n);
    ParseMinusDigits(NatToString(n));
  }

  lemma {:induction false} ParseMinusDigits(d: string)
    requires |d| > 0 && AllDigits(d)
    ensures ParseInt("-" + d) == Some(-(DigitsValue(d) as int))
  {
    DropSign(d);
    ParseNegativeDigits("-" + d, DigitsValue(d));
  }

  lemma DropSign(d: string)
    ensures |"-" + d| == |d| + 1 && ("-" + d)[0] == '-' && ("-" + d)[1..] == d
  {
  }

  /** `int(str(i)) == i` */
  lemma ParseIntRoundTrip(i: int)
    ensures ParseInt(IntToString(i)) == Some(i)
  {
    if i < 0 {
      ParseNegString(-i);
    } else {
      ParseNatString(i);
    }
  }

  lemma {:induction false} UngroupedConcat(a: string, b: string)
    ensures Ungrouped(a + b) == Ungrouped(a) + Ungrouped(b)
    decreases |a|
  {
    if |a| > 0 {
      assert (a + b)[1..] == a[1..] + b;
      UngroupedConcat(a[1..], b);
    } else {
      assert a + b == b;
    }
  }

  lemma ParseGroups(s: string)
    requires DigitGroups(s)
    ensures ParseInt(s) == Some(DigitsValue(Ungrouped(s)) as int)
  {
    NoSpaceStrip(s);
  }

  lemma AllDigitsConcat(a: string, b: string)
    requires AllDigits(a) && AllDigits(b)
    ensures AllDigits(a + b)
  {
    forall i | 0 <= i < |a + b| ensures IsDigit((a + b)[i]) {
      if i < |a| { assert (a + b)[i] == a[i]; } else { assert (a + b)[i] == b[i - |a|]; }
    }
  }

  lemma GroupedIsDigitGroups(a: string, b: string)
    requires |a| > 0 && AllDigits(a) && |b| > 0 && AllDigits(b)
    ensures DigitGroups(a + "_" + b)
  {
    var g := a + "_" + b;
    assert g[0] == a[0] && g[|g| - 1] == b[|b| - 1];
    forall i | 0 <= i < |g| ensures IsDigit(g[i]) || g[i] == '_' {
      if i < |a| { assert g[i] == a[i]; } else if i > |a| { assert g[i] == b[i - |a| - 1]; }
    }
    forall i | 0 <= i < |g| - 1 ensures g[i] == '_' ==> IsDigit(g[i + 1]) {
      if i < |a| { assert g[i] == a[i]; } else if i == |a| { assert g[i + 1] == b[0]; } else { assert g[i] == b[i - |a| - 1]; }
    }
  }

  lemma UngroupedGrouped(a: string, b: string)
    requires AllDigits(a) && AllDigits(b)
    ensures Ungrouped(a + "_" + b) == a + b
  {
    assert Ungrouped("_") == "" by {
      assert "_"[0] == '_' && "_"[1..] == "";
    }
    UngroupedConcat(a, "_");
    assert Ungrouped(a + "_") == a;
    UngroupedConcat(a + "_", b);
  }

  /**
    An underscore between two runs of digits does not change the value:
    `int("1_000") == int("1000")`.
   */
  lemma GroupingKeepsValue(a: string, b: string)
    requires |a| > 0 && AllDigits(a) && |b| > 0 && AllDigits(b)
    ensures ParseInt(a + "_" + b) == ParseInt(a + b) == Some(DigitsValue(a + b) as int)
  {
    GroupedIsDigitGroups(a, b);
    ParseGroups(a + "_" + b);
    UngroupedGrouped(a, b);
    AllDigitsConcat(a, b);
    ParseDigits(a + b);
  }

  /** `int("1_000") == 1000` */
  lemma GroupedThousand()
    ensures ParseInt("1_000") == Some(1000)
  {
    assert "1" + "_" + "000" == "1_000";
    assert "1" + "000" == "1000";
    GroupingKeepsValue("1", "000");
    DigitsOfNat(1000);
    assert NatToString(1000) == "1000" by {
      assert NatToString(1) == "1";
      assert NatToString(10) == "10";
      assert NatToString(100) == "100";
    }
  }
}

=== FILE: theme_detectors.dfy ===
/**
  The keyword-table detectors of the advanced analyzer: regulatory themes
  (summed non-overlapping keyword counts over the joined lower-cased corpus),
  impact categories (which comments mention a category) and stakeholder
  concerns (one entry per matching concern type and comment, routed by the
  commenter's stakeholder kind).
 */
module ThemeDetectors {
  import opened Wrappers
  import opened Strings
  import opened StableSort
  import opened Comments
  import opened Counter

  /** A dict of keyword lists, in insertion order. */
  type Table = seq<(string, seq<string>)>

  predicate NonEmptyKeywords(table: Table) {
    forall k, i | 0 <= k < |table| && 0 <= i < |table[k].1| :: |table[k].1[i]| > 0
  }

  /** `' '.join(texts).lower()` */
  function AllText(texts: seq<string>): string {
    Lower(Join(" ", texts))
  }

  // ---------------------------------------------------------------- themes

  const ThemePatterns: Table := [
    ("compliance_burden", ["compliance", "burden", "administrative", "paperwork", "reporting",
                           "recordkeeping", "monitoring", "certification"]),
    ("economic_impact", ["cost", "economic", "financial", "budget", "expense", "investment",
                         "revenue", "profit", "market", "competition"]),
    ("environmental_concerns", ["environment", "pollution", "emissions", "waste", "conservation",
                                "sustainability", "climate", "greenhouse", "carbon"]),
    ("safety_health", ["safety", "health", "risk", "hazard", "protection", "injury",
                       "illness", "exposure", "toxic", "dangerous"]),
    ("implementation_timeline", ["timeline", "deadline", "implementation", "effective date",
                                 "phase", "transition", "grace period", "compliance date"]),
    ("technical_standards", ["standard", "specification", "requirement", "criteria",
                             "methodology", "procedure", "protocol", "guideline"])
  ]

  datatype Theme = Theme(theme: string, frequency: nat, keywordsFound: seq<string>, relevanceScore: real)

  function Relevance(t: Theme): real {
    t.relevanceScore
  }

  /** `[kw for kw in keywords if kw in text]` */
  function KeywordsFound(text: string, kws: seq<string>): (r: seq<string>)
    ensures forall i | 0 <= i < |r| :: r[i] in kws && Contains(text, r[i])
    ensures forall i | 0 <= i < |kws| && Contains(text, kws[i]) :: kws[i] in r
    decreases |kws|
  {
    if |kws| == 0 then []
    else (if Contains(text, kws[0]) then [kws[0]] else []) + KeywordsFound(text, kws[1..])
  }

  /** `min(frequency / n, 1.0)`, where Python's `min` keeps its first argument unless the second is smaller. */
  function CappedRatio(frequency: nat, n: nat): (r: real)
    requires n > 0
    ensures 0.0 <= r <= 1.0
    ensures r == 1.0 || r * n as real == frequency as real
    ensures frequency > 0 ==> r > 0.0
  {
    var x := frequency as real / n as real;
    if 1.0 < x then 1.0 else x
  }

  /** The theme record of one table row. */
  function ThemeOf(all: string, n: nat, row: (string, seq<string>)): (t: Theme)
    requires n > 0
    ensures t.theme == row.0 && t.frequency == CountAll(all, row.1)
    ensures t.relevanceScore == CappedRatio(t.frequency, n)
  {
    var freq := CountAll(all, row.1);
    Theme(row.0, freq, KeywordsFound(all, row.1), CappedRatio(freq, n))
  }

  /** A positive frequency needs a non-empty text, so the division by the text count is defined. */
  lemma PositiveNeedsText(all: string, n: nat, kws: seq<string>)
    requires n > 0 || |all| == 0
    requires forall i | 0 <= i < |kws| :: |kws[i]| > 0
    requires CountAll(all, kws) > 0
    ensures n > 0
  {
    if n == 0 {
      CountAllPositive(all, kws);
      EmptyHasNoKeyword(kws);
    }
  }

  lemma NonEmptyKeywordsTail(table: Table)
    requires |table| > 0 && NonEmptyKeywords(table)
    ensures NonEmptyKeywords(table[1..])
  {
    forall k, i | 0 <= k < |table[1..]| && 0 <= i < |table[1..][k].1|
      ensures |table[1..][k].1[i]| > 0
    {
      assert table[1..][k] == table[k + 1];
    }
  }

  /** The theme record of every table row whose frequency is positive, in table order. */
  function ThemeCandidates(all: string, n: nat, table: Table): (r: seq<Theme>)
    requires n > 0 || |all| == 0
    requires NonEmptyKeywords(table)
    ensures |r| <= |table|
    ensures forall i | 0 <= i < |r| :: r[i].frequency > 0 && 0.0 < r[i].relevanceScore <= 1.0
    decreases |table|
  {
    if |table| == 0 then []
    else
      NonEmptyKeywordsTail(table);
      var rest := ThemeCandidates(all, n, table[1..]);
      if CountAll(all, table[0].1) > 0 then
        PositiveNeedsText(all, n, table[0].1);
        [ThemeOf(all, n, table[0])] + rest
      else rest
  }

  /** `t` is the theme record of some row of `table`. */
  predicate RowTheme(all: string, n: nat, table: Table, t: Theme) {
    n > 0 && exists k | 0 <= k < |table| :: t == ThemeOf(all, n, table[k])
  }

  /** Every candidate is the theme record of some row. */
  lemma {:induction false} ThemeCandidatesSound(all: string, n: nat, table: Table)
    requires n > 0 || |all| == 0
    requires NonEmptyKeywords(table)
    ensures forall t | t in ThemeCandidates(all, n, table) :: RowTheme(all, n, table, t)
    decreases |table|
  {
    if |table| > 0 {
      NonEmptyKeywordsTail(table);
      ThemeCandidatesSound(all, n, table[1..]);
      var rest := ThemeCandidates(all, n, table[1..]);
      if CountAll(all, table[0].1) > 0 {
        PositiveNeedsText(all, n, table[0].1);
        assert ThemeCandidates(all, n, table) == [ThemeOf(all, n, table[0])] + rest;
      }
      forall t | t in ThemeCandidates(all, n, table)
        ensures RowTheme(all, n, table, t)
      {
        if t in rest {
          RowThemeTail(all, n, table, t);
        }
      }
    }
  }

  lemma RowThemeTail(all: string, n: nat, table: Table, t: Theme)
    requires |table| > 0 && RowTheme(all, n, table[1..], t)
    ensures RowTheme(all, n, table, t)
  {
    var k :| 0 <= k < |table[1..]| && t == ThemeOf(all, n, table[1..][k]);
    assert table[1..][k] == table[k + 1];
  }

  /** No row with a positive frequency is missed. */
  lemma {:induction false} ThemeCandidatesComplete(all: string, n: nat, table: Table)
    requires n > 0 || |all| == 0
    requires NonEmptyKeywords(table)
    ensures forall k | 0 <= k < |table| && CountAll(all, table[k].1) > 0 ::
      n > 0 && ThemeOf(all, n, table[k]) in ThemeCandidates(all, n, table)
    decreases |table|
  {
    if |table| > 0 {
      NonEmptyKeywordsTail(table);
      ThemeCandidatesComplete(all, n, table[1..]);
      var r := ThemeCandidates(all, n, table);
      var rest := ThemeCandidates(all, n, table[1..]);
      var o := if CountAll(all, table[0].1) > 0 then 1 else 0;
      if o == 1 {
        PositiveNeedsText(all, n, table[0].1);
      }
      assert r == (if o == 1 then [ThemeOf(all, n, table[0])] else []) + rest;
      forall k | 0 <= k < |table| && CountAll(all, table[k].1) > 0
        ensures n > 0 && ThemeOf(all, n, table[k]) in r
      {
        if k > 0 {
          assert table[k] == table[1..][k - 1];
        }
      }
    }
  }

  /**
    The candidates are exactly the theme records of the rows with a positive
    frequency: nothing else is emitted and no such row is missed.
   */
  lemma ThemeCandidatesExact(all: string, n: nat, table: Table)
    requires n > 0 || |all| == 0
    requires NonEmptyKeywords(table)
    ensures forall i | 0 <= i < |ThemeCandidates(all, n, table)| ::
      RowTheme(all, n, table, ThemeCandidates(all, n, table)[i])
    ensures forall k | 0 <= k < |table| && CountAll(all, table[k].1) > 0 ::
      n > 0 && ThemeOf(all, n, table[k]) in ThemeCandidates(all, n, table)
  {
    ThemeCandidatesSound(all, n, table);
    ThemeCandidatesComplete(all, n, table);
    var r := ThemeCandidates(all, n, table);
    assert forall i | 0 <= i < |r| :: r[i] in r;
  }

  lemma JoinEmpty()
    ensures Join(" ", []) == ""
  {
  }

  lemma ThemeTableWellFormed()
    ensures NonEmptyKeywords(ThemePatterns)
  {
  }

  /** Every emitted theme names at least one keyword that occurs in the corpus. */
  lemma ThemeKeywordsFound(all: string, n: nat, row: (string, seq<string>))
    requires n > 0
    requires forall i | 0 <= i < |row.1| :: |row.1[i]| > 0
    requires CountAll(all, row.1) > 0
    ensures |ThemeOf(all, n, row).keywordsFound| > 0
  {
    CountAllPositive(all, row.1);
    var j :| 0 <= j < |row.1| && Contains(all, row.1[j]);
    assert row.1[j] in KeywordsFound(all, row.1);
  }

  predicate Emitted(t: Theme) {
    t.frequency > 0 && 0.0 < t.relevanceScore <= 1.0
  }

  /** The selection keeps only candidates, so it keeps what holds of all of them. */
  lemma TopKeepsEmitted(cands: seq<Theme>, n: nat)
    requires forall i | 0 <= i < |cands| :: Emitted(cands[i])
    ensures forall i | 0 <= i < |Top(cands, Relevance, n)| :: Emitted(Top(cands, Relevance, n)[i])
  {
    TopMembers(cands, Relevance, n);
  }

  function ThemeCandidatesOf(texts: seq<string>): (r: seq<Theme>)
    ensures forall i | 0 <= i < |r| :: Emitted(r[i])
  {
    ThemeTableWellFormed();
    JoinEmpty();
    ThemeCandidates(AllText(texts), |texts|, ThemePatterns)
  }

  /** `_identify_regulatory_themes`: the five most relevant themes, stable on ties. */
  function IdentifyThemes(texts: seq<string>): (r: seq<Theme>)
    ensures |r| <= 5
    ensures SortedDesc(r, Relevance)
    ensures forall i | 0 <= i < |r| :: Emitted(r[i])
  {
    var cands := ThemeCandidatesOf(texts);
    TopKeepsEmitted(cands, 5);
    Top(cands, Relevance, 5)
  }

  /**
    Ties keep table order: for every relevance value, the emitted themes
    carrying it are a prefix of the candidates carrying it, in the same order.
   */
  lemma ThemesStable(texts: seq<string>, v: real)
    ensures WithKey(IdentifyThemes(texts), Relevance, v) <= WithKey(ThemeCandidatesOf(texts), Relevance, v)
  {
    TopStable(ThemeCandidatesOf(texts), Relevance, 5, v);
  }

  /** Top five: a candidate left out is no more relevant than any theme kept. */
  lemma ThemesTopFive(texts: seq<string>, c: Theme)
    requires c in ThemeCandidatesOf(texts) && c !in IdentifyThemes(texts)
    ensures |IdentifyThemes(texts)| == 5
    ensures forall i | 0 <= i < 5 :: IdentifyThemes(texts)[i].relevanceScore >= c.relevanceScore
  {
    TopKeepsBest(ThemeCandidatesOf(texts), Relevance, 5, c);
  }

  // ---------------------------------------------------------------- impacts

  const ImpactCategories: Table := [
    ("industry_impact", ["industry", "business", "company", "firm", "sector", "market",
                         "competition", "innovation", "investment"]),
    ("consumer_impact", ["consumer", "customer", "public", "user", "end user", "buyer",
                         "purchaser", "beneficiary"]),
    ("government_impact", ["government", "agency", "federal", "state", "local", "regulatory",
                           "enforcement", "oversight", "compliance"]),
    ("environmental_impact", ["environment", "ecosystem", "natural", "wildlife", "habitat",
                              "biodiversity", "conservation"])
  ]

  datatype Impact = Impact(impactType: string, mentionCount: nat, affectedComments: seq<nat>, impactScore: real)

  predicate StrictlyIncreasing(xs: seq<nat>) {
    forall i, j | 0 <= i < j < |xs| :: xs[i] < xs[j]
  }

  /** Whether a comment mentions any keyword of a category (lower-cased substring test). */
  predicate Mentions(text: string, kws: seq<string>) {
    ContainsAny(Lower(text), kws)
  }

  /** The positions of the texts that mention a keyword, ascending. */
  function Affected(texts: seq<string>, kws: seq<string>): (r: seq<nat>)
    ensures StrictlyIncreasing(r)
    ensures |r| <= |texts|
    ensures forall i | 0 <= i < |r| :: r[i] < |texts|
    ensures forall i | 0 <= i < |texts| :: i in r <==> Mentions(texts[i], kws)
    decreases |texts|
  {
    if |texts| == 0 then []
    else
      var n := |texts| - 1;
      var prev := Affected(texts[..n], kws);
      assert forall i | 0 <= i < n :: texts[..n][i] == texts[i];
      prev + (if Mentions(texts[n], kws) then [n] else [])
  }

  /** `count / n` for `0 < count <= n` */
  function Ratio(count: nat, n: nat): (r: real)
    requires 0 < count <= n
    ensures r * n as real == count as real
    ensures 0.0 < r <= 1.0
  {
    var r := count as real / n as real;
    assert r * n as real == count as real;
    assert r <= 1.0 by {
      if r > 1.0 {
        assert r * n as real > 1.0 * n as real;
      }
    }
    r
  }

  /** What every impact record satisfies, for a corpus of `n` texts. */
  predicate ImpactOk(imp: Impact, n: nat) {
    0 < imp.mentionCount == |imp.affectedComments| <= n
    && imp.impactScore * n as real == imp.mentionCount as real
    && 0.0 < imp.impactScore <= 1.0
    && StrictlyIncreasing(imp.affectedComments)
    && forall j | 0 <= j < |imp.affectedComments| :: imp.affectedComments[j] < n
  }

  function ImpactOf(texts: seq<string>, row: (string, seq<string>)): (imp: Impact)
    requires |Affected(texts, row.1)| > 0
    ensures ImpactOk(imp, |texts|)
    ensures imp.impactType == row.0 && imp.affectedComments == Affected(texts, row.1)
  {
    var hits := Affected(texts, row.1);
    assert hits[0] < |texts|;
    var score := Ratio(|hits|, |texts|);
    Impact(row.0, |hits|, hits, score)
  }

  /** One impact record per category that some comment mentions, in table order. */
  function ImpactsFrom(texts: seq<string>, table: Table): (r: seq<Impact>)
    ensures |r| <= |table|
    ensures forall i | 0 <= i < |r| :: ImpactOk(r[i], |texts|)
    decreases |table|
  {
    if |table| == 0 then []
    else
      var rest := ImpactsFrom(texts, table[1..]);
      if |Affected(texts, table[0].1)| > 0 then [ImpactOf(texts, table[0])] + rest else rest
  }

  /** `_assess_regulatory_impacts` */
  function AssessImpacts(texts: seq<string>): (r: seq<Impact>)
    ensures |r| <= 4
    ensures forall i | 0 <= i < |r| :: ImpactOk(r[i], |texts|)
  {
    ImpactsFrom(texts, ImpactCategories)
  }

  /** `imp` is the impact record of some row of `table`. */
  predicate RowImpact(texts: seq<string>, table: Table, imp: Impact) {
    exists k | 0 <= k < |table| :: |Affected(texts, table[k].1)| > 0 && imp == ImpactOf(texts, table[k])
  }

  lemma {:induction false} ImpactsSound(texts: seq<string>, table: Table)
    ensures forall imp | imp in ImpactsFrom(texts, table) :: RowImpact(texts, table, imp)
    decreases |table|
  {
    if |table| > 0 {
      ImpactsSound(texts, table[1..]);
      var rest := ImpactsFrom(texts, table[1..]);
      if |Affected(texts, table[0].1)| > 0 {
        assert ImpactsFrom(texts, table) == [ImpactOf(texts, table[0])] + rest;
      }
      forall imp | imp in ImpactsFrom(texts, table)
        ensures RowImpact(texts, table, imp)
      {
        if imp in rest {
          RowImpactTail(texts, table, imp);
        }
      }
    }
  }

  lemma RowImpactTail(texts: seq<string>, table: Table, imp: Impact)
    requires |table| > 0 && RowImpact(texts, table[1..], imp)
    ensures RowImpact(texts, table, imp)
  {
    var k :| 0 <= k < |table[1..]| && |Affected(texts, table[1..][k].1)| > 0
      && imp == ImpactOf(texts, table[1..][k]);
    assert table[1..][k] == table[k + 1];
  }

  lemma {:induction false} ImpactsComplete(texts: seq<string>, table: Table)
    ensures forall k | 0 <= k < |table| && |Affected(texts, table[k].1)| > 0 ::
      ImpactOf(texts, table[k]) in ImpactsFrom(texts, table)
    decreases |table|
  {
    if |table| > 0 {
      ImpactsComplete(texts, table[1..]);
      var r := ImpactsFrom(texts, table);
      forall k | 0 <= k < |table| && |Affected(texts, table[k].1)| > 0
        ensures ImpactOf(texts, table[k]) in r
      {
        if k > 0 {
          assert table[k] == table[1..][k - 1];
        }
      }
    }
  }

  /**
    The impact records are exactly those of the categories some comment
    mentions: each record belongs to such a row, and no such row is missed.
   */
  lemma ImpactsExact(texts: seq<string>, table: Table)
    ensures forall i | 0 <= i < |ImpactsFrom(texts, table)| :: RowImpact(texts, table, ImpactsFrom(texts, table)[i])
    ensures forall k | 0 <= k < |table| && |Affected(texts, table[k].1)| > 0 ::
      ImpactOf(texts, table[k]) in ImpactsFrom(texts, table)
  {
    ImpactsSound(texts, table);
    ImpactsComplete(texts, table);
    var r := ImpactsFrom(texts, table);
    assert forall i | 0 <= i < |r| :: r[i] in r;
  }

  /**
    A comment position is listed under an impact category exactly when that
    comment mentions one of the category's keywords; a category some comment
    mentions always gets a record.
   */
  lemma ImpactMentions(texts: seq<string>, k: nat, i: nat)
    requires k < |ImpactCategories| && i < |texts|
    ensures i in Affected(texts, ImpactCategories[k].1) <==> Mentions(texts[i], ImpactCategories[k].1)
    ensures Mentions(texts[i], ImpactCategories[k].1) ==>
      ImpactOf(texts, ImpactCategories[k]) in AssessImpacts(texts)
  {
    ImpactsExact(texts, ImpactCategories);
  }

  // ---------------------------------------------------------------- stakeholder concerns

  const ConcernPatterns: Table := [
    ("cost_concerns", ["expensive", "costly", "burden", "financial impact"]),
    ("timeline_concerns", ["too fast", "too slow", "deadline", "timeline"]),
    ("complexity_concerns", ["complex", "complicated", "confusing", "unclear"]),
    ("feasibility_concerns", ["impossible", "unrealistic", "impractical", "feasible"])
  ]

  datatype Concerns = Concerns(organizations: seq<string>, individuals: seq<string>, common: seq<string>)

  /** `f"{concern_type.replace('_', ' ').title()}: {text[:100]}..."` */
  function ConcernText(concernType: string, text: string): string {
    Title(ReplaceChar(concernType, '_', ' ')) + ": " + Take(text, 100) + "..."
  }

  /** `e` is the entry of a concern type of `table` that `text` mentions. */
  predicate RowConcern(text: string, table: Table, e: string) {
    exists k | 0 <= k < |table| :: Mentions(text, table[k].1) && e == ConcernText(table[k].0, text)
  }

  /**
    The concern entries one comment produces, with its stakeholder kind, in
    table order; TextEntriesSound and TextEntriesComplete say which.
   */
  function TextEntries(text: string, kind: StakeholderKind, table: Table): (r: seq<(string, StakeholderKind)>)
    ensures forall i | 0 <= i < |r| :: r[i].1 == kind
    decreases |table|
  {
    if |table| == 0 then []
    else
      var rest := TextEntries(text, kind, table[1..]);
      if Mentions(text, table[0].1) then [(ConcernText(table[0].0, text), kind)] + rest
      else rest
  }

  /** Each entry of a comment is the concern text of a row it mentions. */
  lemma {:induction false} TextEntriesSound(text: string, kind: StakeholderKind, table: Table, e: (string, StakeholderKind))
    requires e in TextEntries(text, kind, table)
    ensures RowConcern(text, table, e.0)
    decreases |table|
  {
    var rest := TextEntries(text, kind, table[1..]);
    if e in rest {
      TextEntriesSound(text, kind, table[1..], e);
      var k :| 0 <= k < |table[1..]| && Mentions(text, table[1..][k].1) && e.0 == ConcernText(table[1..][k].0, text);
      assert table[1..][k] == table[k + 1];
    } else {
      assert Mentions(text, table[0].1) && e.0 == ConcernText(table[0].0, text);
    }
  }

  /** The entries of the first `n` (text, stakeholder) pairs, as `zip` pairs them. */
  function Entries(texts: seq<string>, stakeholders: seq<Stakeholder>, n: nat): seq<(string, StakeholderKind)>
    requires n <= |texts| && n <= |stakeholders|
  {
    TableEntries(ConcernPatterns, texts, stakeholders, n)
  }

  /** `Entries` for any table of concern types. */
  function TableEntries(table: Table, texts: seq<string>, stakeholders: seq<Stakeholder>, n: nat)
    : seq<(string, StakeholderKind)>
    requires n <= |texts| && n <= |stakeholders|
  {
    if n == 0 then []
    else TableEntries(table, texts, stakeholders, n - 1) + TextEntries(texts[n - 1], stakeholders[n - 1].kind, table)
  }

  function ConcernEntries(text: string, kind: StakeholderKind): seq<(string, StakeholderKind)> {
    TextEntries(text, kind, ConcernPatterns)
  }

  lemma EntriesNext(texts: seq<string>, stakeholders: seq<Stakeholder>, i: nat)
    requires i < |texts| && i < |stakeholders|
    ensures Entries(texts, stakeholders, i + 1)
         == Entries(texts, stakeholders, i) + ConcernEntries(texts[i], stakeholders[i].kind)
  {
  }

  /** The entry texts of one stakeholder kind, in order. */
  function Bucket(es: seq<(string, StakeholderKind)>, kind: StakeholderKind): seq<string>
    decreases |es|
  {
    if |es| == 0 then []
    else
      var last := es[|es| - 1];
      Bucket(es[..|es| - 1], kind) + (if last.1 == kind then [last.0] else [])
  }

  function Step(c: Concerns, e: (string, StakeholderKind)): Concerns {
    Concerns(
      if e.1 == Organization then c.organizations + [e.0] else c.organizations,
      if e.1 == Organization then c.individuals else c.individuals + [e.0],
      if e.0 in c.common then c.common else c.common + [e.0])
  }

  /** The reference result: the two buckets and the distinct entries in first-seen order. */
  function Reference(es: seq<(string, StakeholderKind)>): Concerns {
    Concerns(Bucket(es, Organization), Bucket(es, Individual), Dedup(Keys(es)))
  }

  lemma ReferenceStep(es: seq<(string, StakeholderKind)>, e: (string, StakeholderKind))
    ensures Reference(es + [e]) == Step(Reference(es), e)
  {
    var es' := es + [e];
    assert es'[..|es'| - 1] == es;
    assert Keys(es') == Keys(es) + [e.0];
    assert Keys(es')[..|Keys(es')| - 1] == Keys(es);
  }

  lemma ReferenceSteps(es: seq<(string, StakeholderKind)>, more: seq<(string, StakeholderKind)>, j: nat)
    requires j < |more|
    ensures Reference(es + more[..j + 1]) == Step(Reference(es + more[..j]), more[j])
  {
    assert es + more[..j + 1] == (es + more[..j]) + [more[j]];
    ReferenceStep(es + more[..j], more[j]);
  }

  /** The inner loop: the entries of one comment, appended one at a time. */
  method AddEntries(c0: Concerns, ghost done: seq<(string, StakeholderKind)>, es: seq<(string, StakeholderKind)>)
    returns (c: Concerns)
    requires c0 == Reference(done)
    ensures c == Reference(done + es)
  {
    c := c0;
    var j := 0;
    assert done + es[..0] == done;
    while j < |es|
      invariant 0 <= j <= |es|
      invariant c == Reference(done + es[..j])
    {
      ReferenceSteps(done, es, j);
      c := Step(c, es[j]);
      j := j + 1;
    }
    assert es[..|es|] == es;
  }

  /**
    `_analyze_stakeholder_concerns`, as the nested loops run: every matching
    concern type of every (text, stakeholder) pair appends one entry to the
    bucket of the stakeholder's kind and, when new, to `common`.
   */
  method AnalyzeStakeholderConcerns(texts: seq<string>, stakeholders: seq<Stakeholder>) returns (c: Concerns)
    ensures var n := if |texts| <= |stakeholders| then |texts| else |stakeholders|;
      c == Reference(Entries(texts, stakeholders, n))
  {
    var n := if |texts| <= |stakeholders| then |texts| else |stakeholders|;
    c := Concerns([], [], []);
    var i := 0;
    while i < n
      invariant 0 <= i <= n
      invariant c == Reference(Entries(texts, stakeholders, i))
    {
      c := AddEntries(c, Entries(texts, stakeholders, i), ConcernEntries(texts[i], stakeholders[i].kind));
      EntriesNext(texts, stakeholders, i);
      i := i + 1;
    }
  }

  lemma {:induction false} BucketMembers(es: seq<(string, StakeholderKind)>, kind: StakeholderKind, x: string)
    ensures x in Bucket(es, kind) <==> (x, kind) in es
    decreases |es|
  {
    if |es| > 0 {
      var init := es[..|es| - 1];
      BucketMembers(init, kind, x);
      assert es == init + [es[|es| - 1]];
    }
  }

  /**
    `common` holds no entry twice, and an entry is common exactly when it was
    routed to the organization or the individual bucket.
   */
  lemma CommonIsUnionOfBuckets(es: seq<(string, StakeholderKind)>, x: string)
    ensures NoDup(Reference(es).common)
    ensures x in Reference(es).common <==> x in Reference(es).organizations || x in Reference(es).individuals
  {
    BucketMembers(es, Organization, x);
    BucketMembers(es, Individual, x);
    var names := Keys(es);
    if x in Reference(es).common {
      var i :| 0 <= i < |names| && names[i] == x;
      if es[i].1 == Organization {
        assert es[i] == (x, Organization);
      } else {
        assert es[i] == (x, Individual);
      }
    }
    if (x, Organization) in es || (x, Individual) in es {
      var i :| 0 <= i < |es| && es[i].0 == x;
      assert names[i] == x;
    }
  }

  /**
    Every entry comes from one of the paired comments: its text is that
    comment's concern text for a type it mentions, and its kind is that
    commenter's kind.
   */
  lemma EntriesFromPairs(texts: seq<string>, stakeholders: seq<Stakeholder>, n: nat, e: (string, StakeholderKind))
    requires n <= |texts| && n <= |stakeholders|
    requires e in Entries(texts, stakeholders, n)
    ensures exists i | 0 <= i < n :: e.1 == stakeholders[i].kind && RowConcern(texts[i], ConcernPatterns, e.0)
  {
    TableEntriesFromPairs(ConcernPatterns, texts, stakeholders, n, e);
  }

  lemma {:induction false} TableEntriesFromPairs(table: Table, texts: seq<string>, stakeholders: seq<Stakeholder>, n: nat,
                                                 e: (string, StakeholderKind))
    requires n <= |texts| && n <= |stakeholders|
    requires e in TableEntries(table, texts, stakeholders, n)
    ensures exists i | 0 <= i < n :: e.1 == stakeholders[i].kind && RowConcern(texts[i], table, e.0)
    decreases n
  {
    var last := TextEntries(texts[n - 1], stakeholders[n - 1].kind, table);
    if e in TableEntries(table, texts, stakeholders, n - 1) {
      TableEntriesFromPairs(table, texts, stakeholders, n - 1, e);
    } else {
      var j :| 0 <= j < |last| && last[j] == e;
      TextEntriesSound(texts[n - 1], stakeholders[n - 1].kind, table, e);
    }
  }

  /**
    The organization bucket only holds concerns of organization commenters,
    the individual bucket only those of individuals.
   */
  lemma ConcernRouting(texts: seq<string>, stakeholders: seq<Stakeholder>, x: string, kind: StakeholderKind)
    requires |texts| == |stakeholders|
    requires x in Bucket(Entries(texts, stakeholders, |texts|), kind)
    ensures exists i | 0 <= i < |texts| :: stakeholders[i].kind == kind && RowConcern(texts[i], ConcernPatterns, x)
  {
    TableRouting(ConcernPatterns, texts, stakeholders, |texts|, x, kind);
  }

  /** `ConcernRouting` for any table of concern types and any number of pairs. */
  lemma TableRouting(table: Table, texts: seq<string>, stakeholders: seq<Stakeholder>, n: nat, x: string,
                     kind: StakeholderKind)
    requires n <= |texts| && n <= |stakeholders|
    requires x in Bucket(TableEntries(table, texts, stakeholders, n), kind)
    ensures exists i | 0 <= i < n :: stakeholders[i].kind == kind && RowConcern(texts[i], table, x)
  {
    BucketMembers(TableEntries(table, texts, stakeholders, n), kind, x);
    TableEntriesFromPairs(table, texts, stakeholders, n, (x, kind));
  }

  /**
    Conversely, a comment that mentions a concern row puts that row's concern
    text into the bucket of its commenter's kind and into `common`.
   */
  lemma {:induction false} ConcernReachesBucket(texts: seq<string>, stakeholders: seq<Stakeholder>, i: nat, k: nat)
    requires i < |texts| && i < |stakeholders| && k < |ConcernPatterns|
    requires Mentions(texts[i], ConcernPatterns[k].1)
    ensures var es := Entries(texts, stakeholders, if |texts| <= |stakeholders| then |texts| else |stakeholders|);
      ConcernText(ConcernPatterns[k].0, texts[i]) in Bucket(es, stakeholders[i].kind)
      && ConcernText(ConcernPatterns[k].0, texts[i]) in Reference(es).common
  {
    var n := if |texts| <= |stakeholders| then |texts| else |stakeholders|;
    TableReachesBucket(ConcernPatterns, texts, stakeholders, n, i, k);
  }

  /** `ConcernReachesBucket` for any table of concern types and any number of pairs. */
  lemma TableReachesBucket(table: Table, texts: seq<string>, stakeholders: seq<Stakeholder>, n: nat, i: nat, k: nat)
    requires n <= |texts| && n <= |stakeholders| && i < n && k < |table|
    requires Mentions(texts[i], table[k].1)
    ensures var es := TableEntries(table, texts, stakeholders, n);
      ConcernText(table[k].0, texts[i]) in Bucket(es, stakeholders[i].kind)
      && ConcernText(table[k].0, texts[i]) in Reference(es).common
  {
    var es := TableEntries(table, texts, stakeholders, n);
    var x := ConcernText(table[k].0, texts[i]);
    TableEntriesComplete(table, texts, stakeholders, n, i, k);
    BucketMembers(es, stakeholders[i].kind, x);
    CommonIsUnionOfBuckets(es, x);
  }

  /** Every mentioned row of a paired comment yields its entry, with the commenter's kind. */
  lemma TableEntriesComplete(table: Table, texts: seq<string>, stakeholders: seq<Stakeholder>, n: nat, i: nat, k: nat)
    requires n <= |texts| && n <= |stakeholders| && i < n && k < |table|
    requires Mentions(texts[i], table[k].1)
    ensures (ConcernText(table[k].0, texts[i]), stakeholders[i].kind) in TableEntries(table, texts, stakeholders, n)
  {
    var e := (ConcernText(table[k].0, texts[i]), stakeholders[i].kind);
    TextEntriesComplete(texts[i], stakeholders[i].kind, table, k);
    PairEntryKept(table, texts, stakeholders, n, i, e);
  }

  /** The entries of each paired comment are among the entries of all of them. */
  lemma {:induction false} PairEntryKept(table: Table, texts: seq<string>, stakeholders: seq<Stakeholder>, n: nat, i: nat,
                                         e: (string, StakeholderKind))
    requires n <= |texts| && n <= |stakeholders| && i < n
    requires e in TextEntries(texts[i], stakeholders[i].kind, table)
    ensures e in TableEntries(table, texts, stakeholders, n)
    decreases n
  {
    if i == n - 1 {
      EntryOfLast(table, texts, stakeholders, n, e);
    } else {
      PairEntryKept(table, texts, stakeholders, n - 1, i, e);
      EntryOfPrefix(table, texts, stakeholders, n, e);
    }
  }

  lemma EntryOfPrefix(table: Table, texts: seq<string>, stakeholders: seq<Stakeholder>, n: nat, e: (string, StakeholderKind))
    requires 0 < n <= |texts| && n <= |stakeholders|
    requires e in TableEntries(table, texts, stakeholders, n - 1)
    ensures e in TableEntries(table, texts, stakeholders, n)
  {
  }

  lemma EntryOfLast(table: Table, texts: seq<string>, stakeholders: seq<Stakeholder>, n: nat, e: (string, StakeholderKind))
    requires 0 < n <= |texts| && n <= |stakeholders|
    requires e in TextEntries(texts[n - 1], stakeholders[n - 1].kind, table)
    ensures e in TableEntries(table, texts, stakeholders, n)
  {
  }

  /** A comment yields the entry of every row it mentions. */
  lemma {:induction false} TextEntriesComplete(text: string, kind: StakeholderKind, table: Table, k: nat)
    requires k < |table| && Mentions(text, table[k].1)
    ensures (ConcernText(table[k].0, text), kind) in TextEntries(text, kind, table)
    decreases |table|
  {
    if k > 0 {
      TextEntriesComplete(text, kind, table[1..], k - 1);
      assert table[1..][k - 1] == table[k];
    }
  }
}

=== FILE: tools.dfy ===
/**
  The tool interface offered to the language model: the registry of six tool
  definitions, the dispatcher that binds a parameter dictionary to a tool's
  keyword arguments, and the tools themselves. Each tool turns every failure
  into a `success: false` dictionary instead of raising. The regulations.gov
  client is a `Services` value supplied by the caller.
 */
module Tools {
  import opened Wrappers
  import opened Strings
  import opened Json
  import opened Comments
  import opened AdvancedAnalyzer
  import opened AnalysisPayload

  // ---------------------------------------------------------------------
  // Tool definitions

  /** One tool schema; `required` is absent for the tool without parameters. */
  datatype ToolDef = ToolDef(name: string, description: string, properties: Fields, required: Option<seq<string>>)

  function Prop(kind: string, description: string): Json {
    JObj([("type", JStr(kind)), ("description", JStr(description))])
  }

  function AnalysisResultsProp(): Json {
    Prop("object", "Results from " + "analyze_regulatory_comments " + "function")
  }

  function AnalyzeDocumentProp(): Json {
    Prop("string", "The regulations.gov " + "document ID to analyze " + "(e.g., " + "'EPA-HQ-OAR-2021-0317-0001')")
  }

  function CountDocumentProp(): Json {
    Prop("string", "The regulations.gov " + "document ID")
  }

  function MaxCommentsProp(): Json {
    JObj([
      ("type", JStr("integer")),
      ("description", JStr("Maximum number of " + "comments to analyze " + "(default: 30, max: 100)")),
      ("default", JInt(30)),
      ("minimum", JInt(1)),
      ("maximum", JInt(100))])
  }

  function AnalysisDepthProp(): Json {
    JObj([
      ("type", JStr("string")),
      ("enum", JArr([JStr("basic"), JStr("advanced"), JStr("comprehensive")])),
      ("description", JStr("Depth of analysis to perform")),
      ("default", JStr("advanced"))])
  }

  function AnalyzeDescription(): string {
    "Analyze public comments " + "on a regulatory document " + "using AI to extract key " + "points, common " + "perspectives, and " + "stakeholder concerns"
  }

  function AnalyzeTool(): ToolDef {
    ToolDef(
      "analyze_regulatory_comments",
      AnalyzeDescription(),
      [("document_id", AnalyzeDocumentProp()),
       ("max_comments", MaxCommentsProp()),
       ("analysis_depth", AnalysisDepthProp())],
      Some(["document_id"]))
  }

  function CountDescription(): string {
    "Get the total number of " + "public comments on a " + "regulatory document"
  }

  function CountTool(): ToolDef {
    ToolDef(
      "get_comment_count",
      CountDescription(),
      [("document_id", CountDocumentProp())],
      Some(["document_id"]))
  }

  function SummaryTypeProp(): Json {
    JObj([
      ("type", JStr("string")),
      ("enum", JArr([JStr("executive"), JStr("technical"), JStr("stakeholder")])),
      ("description", JStr("Type of summary to generate")),
      ("default", JStr("executive"))])
  }

  function SynthesizeDescription(): string {
    "Synthesize key insights " + "from comment analysis " + "for executive summary"
  }

  function SynthesizeTool(): ToolDef {
    ToolDef(
      "synthesize_comment_insights",
      SynthesizeDescription(),
      [("analysis_results", AnalysisResultsProp()), ("summary_type", SummaryTypeProp())],
      Some(["analysis_results"]))
  }

  function ThemesDescription(): string {
    "Identify and categorize " + "key regulatory themes " + "from comment analysis"
  }

  function ThemesTool(): ToolDef {
    ToolDef(
      "identify_regulatory_themes",
      ThemesDescription(),
      [("analysis_results", AnalysisResultsProp())],
      Some(["analysis_results"]))
  }

  function ConcernsDescription(): string {
    "Assess and categorize " + "stakeholder concerns by " + "type and frequency"
  }

  function ConcernsTool(): ToolDef {
    ToolDef(
      "assess_stakeholder_concerns",
      ConcernsDescription(),
      [("analysis_results", AnalysisResultsProp())],
      Some(["analysis_results"]))
  }

  function ConnectionDescription(): string {
    "Test the connection to " + "regulations.gov API"
  }

  function ConnectionTool(): ToolDef {
    ToolDef("test_api_connection", ConnectionDescription(), [], None)
  }

  function ToolDefinitions(): seq<ToolDef> {
    [AnalyzeTool(), CountTool(), SynthesizeTool(), ThemesTool(), ConcernsTool(), ConnectionTool()]
  }

  /** A definition as the dictionary `get_tool_definitions` returns. */
  function ToolJson(t: ToolDef): Json {
    var required := if t.required.Some? then [("required", StrList(t.required.value))] else [];
    JObj([
      ("type", JStr("function")),
      ("function", JObj([
        ("name", JStr(t.name)),
        ("description", JStr(t.description)),
        ("parameters", JObj([("type", JStr("object")), ("properties", JObj(t.properties))] + required))]))])
  }

  function ToolsJson(ts: seq<ToolDef>): (r: seq<Json>)
    ensures |r| == |ts|
    ensures forall i | 0 <= i < |ts| :: r[i] == ToolJson(ts[i])
  {
    seq(|ts|, i requires 0 <= i < |ts| => ToolJson(ts[i]))
  }

  /** `get_tool_definitions()` */
  function GetToolDefinitions(): seq<Json> {
    ToolsJson(ToolDefinitions())
  }

  /** The six tools the dispatcher knows. */
  datatype ToolId = AnalyzeComments | CommentCount | SynthesizeInsights | RegulatoryThemes | StakeholderConcerns | ApiConnection

  const Ids := [AnalyzeComments, CommentCount, SynthesizeInsights, RegulatoryThemes, StakeholderConcerns, ApiConnection]

  function NameOf(id: ToolId): string {
    match id
    case AnalyzeComments => "analyze_regulatory_comments"
    case CommentCount => "get_comment_count"
    case SynthesizeInsights => "synthesize_comment_insights"
    case RegulatoryThemes => "identify_regulatory_themes"
    case StakeholderConcerns => "assess_stakeholder_concerns"
    case ApiConnection => "test_api_connection"
  }

  /** The names the dispatcher recognises, in its `elif` order. */
  const DispatchedNames := [
    "analyze_regulatory_comments", "get_comment_count", "synthesize_comment_insights",
    "identify_regulatory_themes", "assess_stakeholder_concerns", "test_api_connection"]

  /** The dispatcher's `if/elif` chain on the tool name. */
  function Dispatch(name: string): (r: Option<ToolId>)
    ensures r.Some? ==> NameOf(r.value) == name
    ensures r.None? <==> name !in DispatchedNames
  {
    if name == "analyze_regulatory_comments" then Some(AnalyzeComments)
    else if name == "get_comment_count" then Some(CommentCount)
    else if name == "synthesize_comment_insights" then Some(SynthesizeInsights)
    else if name == "identify_regulatory_themes" then Some(RegulatoryThemes)
    else if name == "assess_stakeholder_concerns" then Some(StakeholderConcerns)
    else if name == "test_api_connection" then Some(ApiConnection)
    else None
  }

  /** `[tool["function"]["name"] for tool in definitions]` */
  function FunctionNames(defs: seq<Json>): (r: Result<seq<Json>, string>)
    ensures r.Ok? ==> |r.value| == |defs|
    decreases |defs|
  {
    if |defs| == 0 then Ok([])
    else
      var entry :- Index(defs[0], "function");
      var name :- Index(entry, "name");
      var rest :- FunctionNames(defs[1..]);
      Ok([name] + rest)
  }

  lemma ToolJsonName(t: ToolDef)
    ensures Index(ToolJson(t), "function").Ok?
    ensures Index(Index(ToolJson(t), "function").value, "name") == Ok(JStr(t.name))
  {
    LookupFirst(ToolJson(t).fields, "function", 1);
    LookupFirst(Index(ToolJson(t), "function").value.fields, "name", 0);
  }

  function NamesOf(ts: seq<ToolDef>): (r: seq<Json>)
    ensures |r| == |ts|
    ensures forall i | 0 <= i < |ts| :: r[i] == JStr(ts[i].name)
  {
    seq(|ts|, i requires 0 <= i < |ts| => JStr(ts[i].name))
  }

  lemma {:induction false} FunctionNamesOf(ts: seq<ToolDef>)
    ensures FunctionNames(ToolsJson(ts)) == Ok(NamesOf(ts))
    decreases |ts|
  {
    if |ts| > 0 {
      var defs := ToolsJson(ts);
      assert defs[1..] == ToolsJson(ts[1..]);
      FunctionNamesOf(ts[1..]);
      ToolJsonName(ts[0]);
      FunctionNamesStep(defs, JStr(ts[0].name));
      assert NamesOf(ts) == [JStr(ts[0].name)] + NamesOf(ts[1..]);
    }
  }

  lemma FunctionNamesStep(defs: seq<Json>, name: Json)
    requires |defs| > 0 && Index(defs[0], "function").Ok?
    requires Index(Index(defs[0], "function").value, "name") == Ok(name)
    requires FunctionNames(defs[1..]).Ok?
    ensures FunctionNames(defs) == Ok([name] + FunctionNames(defs[1..]).value)
  {
  }

  /**
    The names listed for an unknown tool are the six definitions' names, in
    definition order, and they are exactly the names the dispatcher handles.
   */
  lemma AvailableToolsAreDispatched()
    ensures FunctionNames(GetToolDefinitions()) == Ok(StrList(DispatchedNames).items)
  {
    FunctionNamesOf(ToolDefinitions());
    DefinitionNames();
  }

  lemma DefinitionNames()
    ensures NamesOf(ToolDefinitions()) == StrList(DispatchedNames).items
  {
  }

  // ---------------------------------------------------------------------
  // Keyword binding

  /** A keyword parameter of a tool method and its default value, if any. */
  datatype Param = Param(name: string, default: Option<Json>)

  /** The keyword parameters of each tool method, in declaration order. */
  function Signature(tool: ToolId): seq<Param> {
    match tool
    case AnalyzeComments =>
      [Param("document_id", None), Param("max_comments", Some(JInt(30))), Param("analysis_depth", Some(JStr("advanced")))]
    case CommentCount => [Param("document_id", None)]
    case SynthesizeInsights => [Param("analysis_results", None), Param("summary_type", Some(JStr("executive")))]
    case RegulatoryThemes => [Param("analysis_results", None)]
    case StakeholderConcerns => [Param("analysis_results", None)]
    case ApiConnection => []
  }

  function ParamNames(sig: seq<Param>): (r: seq<string>)
    ensures |r| == |sig|
    ensures forall i | 0 <= i < |sig| :: r[i] == sig[i].name
  {
    seq(|sig|, i requires 0 <= i < |sig| => sig[i].name)
  }

  /** The `default` a property schema declares. */
  function SchemaDefault(p: Json): Option<Json> {
    if p.JObj? then Lookup(p.fields, "default") else None
  }

  /** The schema lists the method's keyword parameters, in order. */
  predicate SameNames(t: ToolDef, sig: seq<Param>) {
    |t.properties| == |sig| && forall i | 0 <= i < |sig| :: t.properties[i].0 == sig[i].name
  }

  /** Each schema property declares the method's default, or none when the method has none. */
  predicate SameDefaults(t: ToolDef, sig: seq<Param>) {
    |t.properties| == |sig| && forall i | 0 <= i < |sig| :: SchemaDefault(t.properties[i].1) == sig[i].default
  }

  /** A parameter is required exactly when the method gives it no default. */
  predicate SameRequired(t: ToolDef, sig: seq<Param>) {
    (forall i | 0 <= i < |sig| :: sig[i].default.None? <==> sig[i].name in t.required.GetOr([]))
    && (forall n | n in t.required.GetOr([]) :: exists i | 0 <= i < |sig| :: sig[i].name == n)
  }

  /** A schema agrees with its method: same parameters in order, same defaults, required exactly when without default. */
  predicate Agrees(t: ToolDef, sig: seq<Param>) {
    SameNames(t, sig) && SameDefaults(t, sig) && SameRequired(t, sig)
  }

  lemma MaxCommentsDefault()
    ensures SchemaDefault(MaxCommentsProp()) == Some(JInt(30))
  {
    LookupFirst(MaxCommentsProp().fields, "default", 2);
  }

  lemma AnalysisDepthDefault()
    ensures SchemaDefault(AnalysisDepthProp()) == Some(JStr("advanced"))
  {
    LookupFirst(AnalysisDepthProp().fields, "default", 3);
  }

  lemma SummaryTypeDefault()
    ensures SchemaDefault(SummaryTypeProp()) == Some(JStr("executive"))
  {
    LookupFirst(SummaryTypeProp().fields, "default", 3);
  }

  lemma {:induction false} DefaultsByIndex(t: ToolDef, sig: seq<Param>)
    requires |t.properties| == |sig| <= 3
    requires 0 < |sig| ==> SchemaDefault(t.properties[0].1) == sig[0].default
    requires 1 < |sig| ==> SchemaDefault(t.properties[1].1) == sig[1].default
    requires 2 < |sig| ==> SchemaDefault(t.properties[2].1) == sig[2].default
    ensures SameDefaults(t, sig)
  {
    forall i | 0 <= i < |sig|
      ensures SchemaDefault(t.properties[i].1) == sig[i].default
    {
      if i == 0 {
      } else if i == 1 {
      } else {
      }
    }
  }

  /** The defaults the analysis schema declares. */
  lemma AnalyzeDefaults()
    ensures SameDefaults(AnalyzeTool(), Signature(AnalyzeComments))
  {
    var t, sig := AnalyzeTool(), Signature(AnalyzeComments);
    MaxCommentsDefault();
    AnalysisDepthDefault();
    DefaultsByIndex(t, sig);
  }

  lemma AnalyzeToolAgrees()
    ensures Agrees(AnalyzeTool(), Signature(AnalyzeComments))
  {
    AnalyzeDefaults();
    assert Signature(AnalyzeComments)[0].name == AnalyzeTool().required.value[0];
  }

  lemma CountToolAgrees()
    ensures Agrees(CountTool(), Signature(CommentCount))
  {
    assert SchemaDefault(CountDocumentProp()) == None;
    assert Signature(CommentCount)[0].name == CountTool().required.value[0];
  }

  /** The defaults the synthesis schema declares. */
  lemma SynthesizeDefaults()
    ensures SameDefaults(SynthesizeTool(), Signature(SynthesizeInsights))
  {
    var t, sig := SynthesizeTool(), Signature(SynthesizeInsights);
    SummaryTypeDefault();
    DefaultsByIndex(t, sig);
  }

  lemma SynthesizeToolAgrees()
    ensures Agrees(SynthesizeTool(), Signature(SynthesizeInsights))
  {
    SynthesizeDefaults();
    assert Signature(SynthesizeInsights)[0].name == SynthesizeTool().required.value[0];
  }

  lemma ThemesToolAgrees()
    ensures Agrees(ThemesTool(), Signature(RegulatoryThemes))
  {
    assert SchemaDefault(AnalysisResultsProp()) == None;
    assert Signature(RegulatoryThemes)[0].name == ThemesTool().required.value[0];
  }

  lemma ConcernsToolAgrees()
    ensures Agrees(ConcernsTool(), Signature(StakeholderConcerns))
  {
    assert SchemaDefault(AnalysisResultsProp()) == None;
    assert Signature(StakeholderConcerns)[0].name == ConcernsTool().required.value[0];
  }

  lemma ConnectionToolAgrees()
    ensures Agrees(ConnectionTool(), Signature(ApiConnection))
  {
  }

  /** Every tool schema describes the keyword parameters of the method it dispatches to. */
  lemma SchemasMatchSignatures()
    ensures forall i | 0 <= i < |ToolDefinitions()| ::
      ToolDefinitions()[i].name == NameOf(Ids[i]) && Agrees(ToolDefinitions()[i], Signature(Ids[i]))
  {
    AnalyzeToolAgrees();
    CountToolAgrees();
    SynthesizeToolAgrees();
    ThemesToolAgrees();
    ConcernsToolAgrees();
    ConnectionToolAgrees();
  }

  function Qualified(tool: ToolId): string {
    "GPTOSSToolInterface._" + NameOf(tool) + "()"
  }

  /** The first key of the dictionary that names no parameter. */
  function UnexpectedKey(fields: Fields, names: seq<string>): (r: Option<string>)
    ensures r.None? <==> forall i | 0 <= i < |fields| :: fields[i].0 in names
    ensures r.Some? ==> r.value !in names && exists i | 0 <= i < |fields| :: fields[i].0 == r.value
    decreases |fields|
  {
    if |fields| == 0 then None
    else if fields[0].0 !in names then Some(fields[0].0)
    else
      var r := UnexpectedKey(fields[1..], names);
      assert forall i | 1 <= i < |fields| :: fields[i] == fields[1..][i - 1];
      r
  }

  /** The required parameters the dictionary does not supply. */
  function MissingNames(fields: Fields, sig: seq<Param>): (r: seq<string>)
    ensures forall n | n in r :: Lookup(fields, n).None?
    ensures |r| == 0 <==> forall i | 0 <= i < |sig| :: sig[i].default.Some? || Lookup(fields, sig[i].name).Some?
    decreases |sig|
  {
    if |sig| == 0 then []
    else
      var rest := MissingNames(fields, sig[1..]);
      assert forall i | 1 <= i < |sig| :: sig[i] == sig[1..][i - 1];
      (if sig[0].default.None? && Lookup(fields, sig[0].name).None? then [sig[0].name] else []) + rest
  }

  function Quoted(n: string): string {
    "'" + n + "'"
  }

  /** Python's list of missing names: `'a'`, `'a' and 'b'`, `'a', 'b', and 'c'`. */
  function QuotedList(names: seq<string>): string
    decreases |names|
  {
    if |names| == 0 then ""
    else if |names| == 1 then Quoted(names[0])
    else if |names| == 2 then Quoted(names[0]) + " and " + Quoted(names[1])
    else if |names| == 3 then Quoted(names[0]) + ", " + Quoted(names[1]) + ", and " + Quoted(names[2])
    else Quoted(names[0]) + ", " + QuotedList(names[1..])
  }

  /** Python's message for missing required arguments. */
  function MissingMessage(names: seq<string>): string {
    var plural := if |names| == 1 then "argument" else "arguments";
    "missing " + NatToString(|names|) + " required positional " + plural + ": " + QuotedList(names)
  }

  /** The value a parameter receives: the supplied one, else its default. */
  function ArgValue(fields: Fields, p: Param): Json {
    match Lookup(fields, p.name)
    case Some(v) => v
    case None => p.default.GetOr(JNull)
  }

  /**
    `method(**parameters)`: the keyword arguments in declaration order, or the
    `TypeError` Python raises — for a non-mapping, then for the first key that
    names no parameter, then for the missing required ones.
   */
  function Bind(tool: ToolId, params: Json): (r: Result<seq<Json>, string>)
    ensures r.Ok? <==>
      params.JObj? && UnexpectedKey(params.fields, ParamNames(Signature(tool))).None?
      && |MissingNames(params.fields, Signature(tool))| == 0
    ensures r.Ok? ==> |r.value| == |Signature(tool)|
    ensures r.Ok? ==> forall i | 0 <= i < |Signature(tool)| ::
      var p := Signature(tool)[i];
      (Lookup(params.fields, p.name).Some? ==> r.value[i] == Lookup(params.fields, p.name).value)
      && (Lookup(params.fields, p.name).None? ==> p.default == Some(r.value[i]))
  {
    var sig := Signature(tool);
    if !params.JObj? then
      Err(Qualified(tool) + " argument after ** must be a mapping, not " + TypeName(params))
    else
      match UnexpectedKey(params.fields, ParamNames(sig))
      case Some(k) =>
        if k == "self" then Err(Qualified(tool) + " got multiple values for argument 'self'")
        else Err(Qualified(tool) + " got an unexpected keyword argument '" + k + "'")
      case None =>
        var missing := MissingNames(params.fields, sig);
        if |missing| > 0 then Err(Qualified(tool) + " " + MissingMessage(missing))
        else Ok(seq(|sig|, i requires 0 <= i < |sig| => ArgValue(params.fields, sig[i])))
  }

  // ---------------------------------------------------------------------
  // Envelopes shared by the tools

  function Failure(e: string): Json {
    JObj([("success", JBool(false)), ("error", JStr(e))])
  }

  /** `not analysis_results.get("success")` on a dictionary */
  predicate Unsuccessful(results: Json) {
    results.JObj? && !Truthy(Lookup(results.fields, "success").GetOr(JNull))
  }

  /** A tool body that either returns a dictionary or raises, wrapped in `try/except`. */
  function Caught(outcome: Result<Json, string>): Json {
    match outcome
    case Ok(v) => v
    case Err(e) => Failure(e)
  }

  // ---------------------------------------------------------------------
  // analyze_regulatory_comments, get_comment_count, test_api_connection

  /**
    The collaborators the interface holds: the regulations.gov client (the
    comments fetched for a document id and a maximum, the comment count of a
    document id, the outcome of the connection test) and the advanced analyzer.
   */
  datatype Services = Services(
    fetch: (Json, Json) -> Result<seq<Comment>, string>,
    commentCount: Json -> Json,
    connection: Result<string, string>,
    analyze: seq<Comment> -> Analysis)

  /** The interface as constructed: its analyzer is the advanced analyzer of this model. */
  function Interface(fetch: (Json, Json) -> Result<seq<Comment>, string>, commentCount: Json -> Json, connection: Result<string, string>): (s: Services)
    ensures forall comments :: s.analyze(comments) == AnalysisOf(comments)
  {
    Services(fetch, commentCount, connection, AnalysisOf)
  }

  function NoCommentsEnvelope(documentId: Json): Json {
    JObj([
      ("success", JBool(true)),
      ("document_id", documentId),
      ("message", JStr("No comments found for this document")),
      ("analysis", JObj([
        ("total_comments_analyzed", JInt(0)),
        ("key_points", JArr([])),
        ("common_perspectives", JArr([])),
        ("sentiment_summary", JStr("No comments available for analysis")),
        ("stakeholder_types", JArr([])),
        ("summary", JStr("No public comments were found for this document."))]))])
  }

  /** The simplified dictionary of the basic depth. */
  function BasicJson(a: Analysis): Json {
    JObj([
      ("key_points", StrList(a.keyPoints)),
      ("common_perspectives", StrList(a.commonPerspectives)),
      ("sentiment_summary", JStr(a.sentimentSummary)),
      ("stakeholder_types", StrList(a.stakeholderTypes)),
      ("summary", JStr(a.summary)),
      ("total_comments_analyzed", JInt(a.totalCommentsAnalyzed))])
  }

  /** The advanced analysis with the comprehensive metadata appended. */
  function ComprehensiveJson(a: Analysis, comments: seq<Comment>): Json {
    JObj(AnalysisJson(a).fields + [("comprehensive_metadata", JObj([
      ("analysis_version", JStr("1.0")),
      ("features_used", StrList(["sentiment", "themes", "impacts", "stakeholders", "recommendations"])),
      ("data_quality_score", JReal(DataQualityScore(comments))),
      ("analysis_confidence", JReal(a.confidenceScores.overall))]))])
  }

  /** The analysis dictionary for a depth: `"basic"`, `"advanced"`, or anything else. */
  function DepthAnalysis(depth: Json, a: Analysis, comments: seq<Comment>): Json {
    if depth == JStr("basic") then BasicJson(a)
    else if depth == JStr("advanced") then AnalysisJson(a)
    else ComprehensiveJson(a, comments)
  }

  function AnalyzeRegulatoryComments(s: Services, documentId: Json, maxComments: Json, depth: Json): (r: Json)
    ensures r.JObj? && |r.fields| >= 3
    ensures r.fields[0] == ("success", JBool(s.fetch(documentId, maxComments).Ok?))
    ensures s.fetch(documentId, maxComments).Err? ==>
      r.fields == [("success", JBool(false)), ("error", JStr(s.fetch(documentId, maxComments).error)), ("document_id", documentId)]
    ensures s.fetch(documentId, maxComments) == Ok([]) ==> r == NoCommentsEnvelope(documentId)
    ensures s.fetch(documentId, maxComments).Ok? && |s.fetch(documentId, maxComments).value| > 0 ==>
      var comments := s.fetch(documentId, maxComments).value;
      |r.fields| == 5 && r.fields[1] == ("document_id", documentId)
      && r.fields[2] == ("analysis_depth", depth)
      && r.fields[3] == ("total_comments_found", JInt(|comments|))
      && r.fields[4] == ("analysis", DepthAnalysis(depth, s.analyze(comments), comments))
  {
    match s.fetch(documentId, maxComments)
    case Err(e) => JObj([("success", JBool(false)), ("error", JStr(e)), ("document_id", documentId)])
    case Ok(comments) =>
      if |comments| == 0 then NoCommentsEnvelope(documentId)
      else JObj([
        ("success", JBool(true)),
        ("document_id", documentId),
        ("analysis_depth", depth),
        ("total_comments_found", JInt(|comments|)),
        ("analysis", DepthAnalysis(depth, s.analyze(comments), comments))])
  }

  /** Only the exact strings `"basic"` and `"advanced"` select their depth. */
  lemma DepthDispatch(depth: Json, a: Analysis, comments: seq<Comment>)
    ensures depth == JStr("basic") ==> DepthAnalysis(depth, a, comments) == BasicJson(a)
    ensures depth == JStr("advanced") ==> DepthAnalysis(depth, a, comments) == AnalysisJson(a)
  {
  }

  /** Any other depth value runs the comprehensive analysis: the advanced fields followed by the metadata. */
  lemma {:induction false} OtherDepthIsComprehensive(depth: Json, a: Analysis, comments: seq<Comment>)
    requires depth != JStr("basic") && depth != JStr("advanced")
    ensures DepthAnalysis(depth, a, comments).JObj?
    ensures |DepthAnalysis(depth, a, comments).fields| == 16
    ensures DepthAnalysis(depth, a, comments).fields[..15] == AnalysisJson(a).fields
    ensures DepthAnalysis(depth, a, comments).fields[15].0 == "comprehensive_metadata"
  {
    var fields := AnalysisJson(a).fields;
    var meta := ComprehensiveJson(a, comments).fields[15];
    assert DepthAnalysis(depth, a, comments).fields == fields + [meta];
  }

  /**
    The count of a document; the client's count never raises, so this always
    succeeds, passing on whatever value the client reports.
   */
  function GetCommentCount(s: Services, documentId: Json): (r: Json)
    ensures r.JObj? && |r.fields| == 3 && r.fields[0] == ("success", JBool(true))
    ensures Lookup(r.fields, "document_id") == Some(documentId)
    ensures Lookup(r.fields, "comment_count") == Some(s.commentCount(documentId))
  {
    var fields := [("success", JBool(true)), ("document_id", documentId), ("comment_count", s.commentCount(documentId))];
    LookupFirst(fields, "document_id", 1);
    LookupFirst(fields, "comment_count", 2);
    JObj(fields)
  }

  /** Succeeds exactly when the client's connection test does, carrying its message or its error. */
  function TestApiConnection(s: Services): (r: Json)
    ensures r.JObj? && |r.fields| == 2 && r.fields[0] == ("success", JBool(s.connection.Ok?))
    ensures s.connection.Ok? ==> r.fields[1] == ("message", JStr(s.connection.value))
    ensures s.connection.Err? ==> r.fields[1] == ("error", JStr(s.connection.error))
  {
    match s.connection
    case Ok(message) => JObj([("success", JBool(true)), ("message", JStr(message))])
    case Err(e) => Failure(e)
  }

  // ---------------------------------------------------------------------
  // Data quality

  /** Completeness of one comment: 0.4 for text over 50 characters, 0.3 for a name, 0.2 for a date, 0.1 for a title. */
  function CommentQuality(c: Comment): (r: real)
    ensures 0.0 <= r <= 1.0
    ensures r == 1.0 <==>
      |c.commentText| > 50 && (Present(c.submitterName) || Present(c.organizationName))
      && |c.postedDate| > 0 && Present(c.title)
  {
    (if |c.commentText| > 50 then 0.4 else 0.0)
    + (if Present(c.submitterName) || Present(c.organizationName) then 0.3 else 0.0)
    + (if |c.postedDate| > 0 then 0.2 else 0.0)
    + (if Present(c.title) then 0.1 else 0.0)
  }

  function QualityTotal(comments: seq<Comment>): (r: real)
    ensures 0.0 <= r <= |comments| as real
    ensures r == |comments| as real <==> forall i | 0 <= i < |comments| :: CommentQuality(comments[i]) == 1.0
    decreases |comments|
  {
    if |comments| == 0 then 0.0
    else
      var rest := QualityTotal(comments[1..]);
      assert forall i | 1 <= i < |comments| :: comments[i] == comments[1..][i - 1];
      CommentQuality(comments[0]) + rest
  }

  /** The average completeness, 0.0 for no comments. */
  function DataQualityScore(comments: seq<Comment>): (r: real)
    ensures 0.0 <= r <= 1.0
    ensures |comments| == 0 ==> r == 0.0
    ensures |comments| > 0 ==> (r == 1.0 <==> forall i | 0 <= i < |comments| :: CommentQuality(comments[i]) == 1.0)
  {
    if |comments| == 0 then 0.0
    else
      var total, n := QualityTotal(comments), |comments| as real;
      RatioBounds(total, n);
      total / n
  }

  /** A share of a positive whole lies in [0, 1] and is 1 exactly for the whole. */
  lemma RatioBounds(part: real, whole: real)
    requires 0.0 <= part <= whole && whole > 0.0
    ensures 0.0 <= part / whole <= 1.0
    ensures part / whole == 1.0 <==> part == whole
  {
    var q := part / whole;
    assert q * whole == part;
    if q < 1.0 {
      var d := 1.0 - q;
      assert d > 0.0;
      assert d * whole > 0.0;
      assert whole - part == d * whole;
    }
  }

  // ---------------------------------------------------------------------
  // The three summary views

  /** `[item.get(key, default) for item in items]` */
  function GetEach(items: seq<Json>, key: string, default: Json): (r: Result<seq<Json>, string>)
    ensures r.Ok? <==> forall i | 0 <= i < |items| :: items[i].JObj?
    ensures r.Ok? ==> |r.value| == |items|
    ensures r.Ok? ==> forall i | 0 <= i < |items| :: Get(items[i], key, default) == Ok(r.value[i])
    decreases |items|
  {
    if |items| == 0 then Ok([])
    else
      assert forall i | 1 <= i < |items| :: items[i] == items[1..][i - 1];
      var head :- Get(items[0], key, default);
      var rest :- GetEach(items[1..], key, default);
      Ok([head] + rest)
  }

  /** `j` is a list or a string of at most `n` elements. */
  predicate AtMost(j: Json, n: nat) {
    (j.JArr? && |j.items| <= n) || (j.JStr? && |j.s| <= n)
  }

  /** `analysis.get(key, [])[:n]` */
  function SliceField(f: Fields, key: string, n: nat): (r: Result<Json, string>)
    ensures r.Ok? ==> AtMost(r.value, n)
    ensures r.Ok? <==> Field(f, key, JArr([])).JArr? || Field(f, key, JArr([])).JStr?
  {
    SliceTo(Field(f, key, JArr([])), n)
  }

  /** `[t.get("theme", "") for t in themes[:3]]` */
  function PrimaryThemes(themes: Json): (r: Result<Json, string>)
    ensures r.Ok? ==> r.value.JArr? && |r.value.items| <= 3
    ensures (themes.JArr? && forall i | 0 <= i < |themes.items| :: themes.items[i].JObj?) ==> r.Ok?
  {
    var first :- SliceTo(themes, 3);
    var items :- Iterate(first);
    var names :- GetEach(items, "theme", JStr(""));
    Ok(JArr(names))
  }

  function ExecutiveSummary(analysis: Json): (r: Result<Json, string>)
    ensures !analysis.JObj? ==> r == Err(AttributeError(analysis, "get"))
    ensures r.Ok? ==> r.value.JObj? && |r.value.fields| == 6
    ensures r.Ok? ==> r.value.fields[1].0 == "key_findings" && AtMost(r.value.fields[1].1, 3)
    ensures r.Ok? ==> r.value.fields[4].0 == "primary_themes" && AtMost(r.value.fields[4].1, 3)
  {
    if !analysis.JObj? then Err(AttributeError(analysis, "get"))
    else
      var f := analysis.fields;
      var findings :- SliceField(f, "key_points", 3);
      var names :- PrimaryThemes(Field(f, "regulatory_themes", JArr([])));
      var confidence :- Get(Field(f, "confidence_scores", JObj([])), "overall_confidence", JReal(0.0));
      Ok(JObj(ExecutiveFields(f, findings, names, confidence)))
  }

  /** The executive view's fields, around the sliced findings, the theme names and the confidence. */
  function ExecutiveFields(f: Fields, findings: Json, names: Json, confidence: Json): (r: Fields)
    ensures |r| == 6
    ensures r[1] == ("key_findings", findings) && r[4] == ("primary_themes", names)
  {
    [("overview", Field(f, "summary", JStr(""))),
     ("key_findings", findings),
     ("sentiment", Field(f, "sentiment_summary", JStr(""))),
     ("stakeholder_engagement", JObj([
       ("total_comments", Field(f, "total_comments_analyzed", JInt(0))),
       ("stakeholder_types", Field(f, "stakeholder_types", JArr([])))])),
     ("primary_themes", names),
     ("confidence_level", confidence)]
  }

  function TechnicalSummary(analysis: Json): (r: Result<Json, string>)
    ensures !analysis.JObj? ==> r == Err(AttributeError(analysis, "get"))
    ensures r.Ok? ==> r.value.JObj? && |r.value.fields| == 6
    ensures r.Ok? ==> r.value.fields[0].0 == "technical_issues" && AtMost(r.value.fields[0].1, 5)
    ensures r.Ok? ==> r.value.fields[1].0 == "implementation_challenges" && AtMost(r.value.fields[1].1, 5)
    ensures r.Ok? ==> r.value.fields[4].0 == "recommendations" && AtMost(r.value.fields[4].1, 5)
  {
    if !analysis.JObj? then Err(AttributeError(analysis, "get"))
    else
      var f := analysis.fields;
      var issues :- SliceField(f, "technical_issues", 5);
      var challenges :- SliceField(f, "implementation_challenges", 5);
      var recommendations :- SliceField(f, "recommendation_patterns", 5);
      Ok(JObj(TechnicalFields(f, issues, challenges, recommendations)))
  }

  /** The technical view's fields, around the three sliced lists. */
  function TechnicalFields(f: Fields, issues: Json, challenges: Json, recommendations: Json): (r: Fields)
    ensures |r| == 6
    ensures r[0] == ("technical_issues", issues) && r[1] == ("implementation_challenges", challenges)
    ensures r[4] == ("recommendations", recommendations)
  {
    [("technical_issues", issues),
     ("implementation_challenges", challenges),
     ("regulatory_themes", Field(f, "regulatory_themes", JArr([]))),
     ("impact_assessments", Field(f, "impact_assessments", JArr([]))),
     ("recommendations", recommendations),
     ("data_quality", Field(f, "confidence_scores", JObj([])))]
  }

  function StakeholderSummary(analysis: Json): (r: Result<Json, string>)
    ensures !analysis.JObj? ==> r == Err(AttributeError(analysis, "get"))
    ensures r.Ok? ==> r.value.JObj? && |r.value.fields| == 6
    ensures r.Ok? ==> r.value.fields[3].0 == "economic_concerns" && AtMost(r.value.fields[3].1, 5)
    ensures r.Ok? ==> r.value.fields[4].0 == "timeline_concerns" && AtMost(r.value.fields[4].1, 5)
  {
    if !analysis.JObj? then Err(AttributeError(analysis, "get"))
    else
      var f := analysis.fields;
      var economic :- SliceField(f, "economic_concerns", 5);
      var timeline :- SliceField(f, "timeline_concerns", 5);
      Ok(JObj([
        ("stakeholder_concerns", Field(f, "stakeholder_concerns", JObj([]))),
        ("stakeholder_types", Field(f, "stakeholder_types", JArr([]))),
        ("common_perspectives", Field(f, "common_perspectives", JArr([]))),
        ("economic_concerns", economic),
        ("timeline_concerns", timeline),
        ("engagement_level", Field(f, "total_comments_analyzed", JInt(0)))]))
  }

  /** An empty analysis yields every field's default. */
  lemma SummariesOfEmptyAnalysis()
    ensures ExecutiveSummary(JObj([])) == Ok(JObj([
      ("overview", JStr("")),
      ("key_findings", JArr([])),
      ("sentiment", JStr("")),
      ("stakeholder_engagement", JObj([("total_comments", JInt(0)), ("stakeholder_types", JArr([]))])),
      ("primary_themes", JArr([])),
      ("confidence_level", JReal(0.0))]))
    ensures TechnicalSummary(JObj([])) == Ok(JObj([
      ("technical_issues", JArr([])),
      ("implementation_challenges", JArr([])),
      ("regulatory_themes", JArr([])),
      ("impact_assessments", JArr([])),
      ("recommendations", JArr([])),
      ("data_quality", JObj([]))]))
    ensures StakeholderSummary(JObj([])) == Ok(JObj([
      ("stakeholder_concerns", JObj([])),
      ("stakeholder_types", JArr([])),
      ("common_perspectives", JArr([])),
      ("economic_concerns", JArr([])),
      ("timeline_concerns", JArr([])),
      ("engagement_level", JInt(0))]))
  {
    assert Take<Json>([], 3) == [] && Take<Json>([], 5) == [];
  }

  /** The view a summary type selects: executive, technical, and the stakeholder view for any other type. */
  function Insights(analysis: Json, summaryType: Json): Result<Json, string> {
    if summaryType == JStr("executive") then ExecutiveSummary(analysis)
    else if summaryType == JStr("technical") then TechnicalSummary(analysis)
    else StakeholderSummary(analysis)
  }

  function SynthesisOutcome(results: Json, summaryType: Json): Result<Json, string> {
    var success :- Get(results, "success", JNull);
    if !Truthy(success) then Ok(results)
    else
      var insights :- Insights(Field(results.fields, "analysis", JObj([])), summaryType);
      Ok(SynthesisJson(results, summaryType, insights))
  }

  function SynthesisJson(results: Json, summaryType: Json, insights: Json): Json
    requires results.JObj?
  {
    JObj([
      ("success", JBool(true)),
      ("summary_type", summaryType),
      ("insights", insights),
      ("document_id", Field(results.fields, "document_id", JNull))])
  }

  function SynthesizeCommentInsights(results: Json, summaryType: Json): (r: Json)
    ensures Unsuccessful(results) ==> r == results
    ensures !results.JObj? ==> r == Failure(AttributeError(results, "get"))
  {
    Caught(SynthesisOutcome(results, summaryType))
  }

  // ---------------------------------------------------------------------
  // identify_regulatory_themes

  const Categories := ["compliance", "economic", "environmental", "safety", "technical", "timeline"]

  /** The index of the first category `name` contains, evaluated left to right. */
  function FirstCategory(name: Json, cats: seq<string>): (r: Result<Option<nat>, string>)
    ensures r.Ok? && r.value.Some? ==>
      r.value.value < |cats| && In(cats[r.value.value], name) == Ok(true)
      && forall j | 0 <= j < r.value.value :: In(cats[j], name) == Ok(false)
    ensures r.Ok? && r.value.None? ==> forall j | 0 <= j < |cats| :: In(cats[j], name) == Ok(false)
    decreases |cats|
  {
    if |cats| == 0 then Ok(None)
    else
      var hit :- In(cats[0], name);
      if hit then Ok(Some(0))
      else
        var rest :- FirstCategory(name, cats[1..]);
        assert forall j | 1 <= j < |cats| :: cats[j] == cats[1..][j - 1];
        Ok(if rest.Some? then Some(rest.value + 1) else None)
  }

  function TagOf(theme: Json, cats: seq<string>): Result<Option<nat>, string> {
    var name :- Get(theme, "theme", JStr(""));
    FirstCategory(name, cats)
  }

  /** The bucket of every theme, or the first exception. */
  function ThemeTags(themes: seq<Json>, cats: seq<string>): (r: Result<seq<Option<nat>>, string>)
    ensures r.Ok? ==> |r.value| == |themes|
    ensures r.Ok? ==> forall i | 0 <= i < |themes| :: TagOf(themes[i], cats) == Ok(r.value[i])
    decreases |themes|
  {
    if |themes| == 0 then Ok([])
    else
      assert forall i | 1 <= i < |themes| :: themes[i] == themes[1..][i - 1];
      var head :- TagOf(themes[0], cats);
      var rest :- ThemeTags(themes[1..], cats);
      Ok([head] + rest)
  }

  /** The themes tagged `k`, in input order. */
  function Bucket(themes: seq<Json>, tags: seq<Option<nat>>, k: nat): (r: seq<Json>)
    requires |tags| == |themes|
    ensures |r| <= |themes|
    decreases |themes|
  {
    if |themes| == 0 then []
    else (if tags[0] == Some(k) then [themes[0]] else []) + Bucket(themes[1..], tags[1..], k)
  }

  function CategoriesJson(themes: seq<Json>, tags: seq<Option<nat>>): Json
    requires |tags| == |themes|
  {
    JObj(seq(|Categories|, k requires 0 <= k < |Categories| => (Categories[k], JArr(Bucket(themes, tags, k)))))
  }

  function ThemesOutcome(results: Json): Result<Json, string> {
    var success :- Get(results, "success", JNull);
    if !Truthy(success) then Ok(results)
    else
      var analysis := Field(results.fields, "analysis", JObj([]));
      var themesJson :- Get(analysis, "regulatory_themes", JArr([]));
      var themes :- Iterate(themesJson);
      var tags :- ThemeTags(themes, Categories);
      Ok(JObj([
        ("success", JBool(true)),
        ("theme_categories", CategoriesJson(themes, tags)),
        ("total_themes", JInt(|themes|)),
        ("document_id", Field(results.fields, "document_id", JNull))]))
  }

  function IdentifyRegulatoryThemes(results: Json): (r: Json)
    ensures Unsuccessful(results) ==> r == results
    ensures !results.JObj? ==> r == Failure(AttributeError(results, "get"))
  {
    Caught(ThemesOutcome(results))
  }

  /** A theme is in bucket `k` exactly when some position holding it is tagged `k`. */
  lemma {:induction false} BucketMembers(themes: seq<Json>, tags: seq<Option<nat>>, k: nat, x: Json)
    requires |tags| == |themes|
    ensures x in Bucket(themes, tags, k) <==> exists i | 0 <= i < |themes| :: themes[i] == x && tags[i] == Some(k)
    decreases |themes|
  {
    if |themes| > 0 {
      BucketMembers(themes[1..], tags[1..], k, x);
      if exists i | 1 <= i < |themes| :: themes[i] == x && tags[i] == Some(k) {
        var i :| 1 <= i < |themes| && themes[i] == x && tags[i] == Some(k);
        assert themes[1..][i - 1] == x && tags[1..][i - 1] == Some(k);
      }
      if exists i | 0 <= i < |themes| - 1 :: themes[1..][i] == x && tags[1..][i] == Some(k) {
        var i :| 0 <= i < |themes| - 1 && themes[1..][i] == x && tags[1..][i] == Some(k);
        assert themes[i + 1] == x && tags[i + 1] == Some(k);
      }
    }
  }

  /** The sizes of the buckets `0 .. n-1`. */
  function BucketSizes(themes: seq<Json>, tags: seq<Option<nat>>, n: nat): nat
    requires |tags| == |themes|
  {
    if n == 0 then 0 else BucketSizes(themes, tags, n - 1) + |Bucket(themes, tags, n - 1)|
  }

  /** The number of themes tagged with some bucket. */
  function Matched(tags: seq<Option<nat>>): (r: nat)
    ensures r <= |tags|
    decreases |tags|
  {
    if |tags| == 0 then 0 else (if tags[0].Some? then 1 else 0) + Matched(tags[1..])
  }

  /** The number of themes tagged with a bucket below `n`. */
  function TaggedBelow(tags: seq<Option<nat>>, n: nat): nat
    decreases |tags|
  {
    if |tags| == 0 then 0 else (if tags[0].Some? && tags[0].value < n then 1 else 0) + TaggedBelow(tags[1..], n)
  }

  /** Bucket `k` holds exactly the themes tagged `k`. */
  lemma {:induction false} TaggedBelowStep(themes: seq<Json>, tags: seq<Option<nat>>, k: nat)
    requires |tags| == |themes|
    ensures TaggedBelow(tags, k + 1) == TaggedBelow(tags, k) + |Bucket(themes, tags, k)|
    decreases |themes|
  {
    if |themes| > 0 {
      TaggedBelowStep(themes[1..], tags[1..], k);
    }
  }

  lemma {:induction false} TaggedBelowZero(tags: seq<Option<nat>>)
    ensures TaggedBelow(tags, 0) == 0
    decreases |tags|
  {
    if |tags| > 0 {
      TaggedBelowZero(tags[1..]);
    }
  }

  lemma {:induction false} BucketSizesTagged(themes: seq<Json>, tags: seq<Option<nat>>, n: nat)
    requires |tags| == |themes|
    ensures BucketSizes(themes, tags, n) == TaggedBelow(tags, n)
  {
    if n > 0 {
      BucketSizesTagged(themes, tags, n - 1);
      TaggedBelowStep(themes, tags, n - 1);
    } else {
      TaggedBelowZero(tags);
    }
  }

  lemma {:induction false} TaggedBelowAll(tags: seq<Option<nat>>, n: nat)
    requires forall i | 0 <= i < |tags| && tags[i].Some? :: tags[i].value < n
    ensures TaggedBelow(tags, n) == Matched(tags)
    decreases |tags|
  {
    if |tags| > 0 {
      assert tags[0].Some? ==> tags[0].value < n;
      assert forall i | 0 <= i < |tags| - 1 :: tags[1..][i] == tags[i + 1];
      TaggedBelowAll(tags[1..], n);
    }
  }

  /** Every tagged theme lands in exactly one bucket; untagged themes are dropped. */
  lemma BucketsPartition(themes: seq<Json>, tags: seq<Option<nat>>, n: nat)
    requires |tags| == |themes|
    requires forall i | 0 <= i < |tags| && tags[i].Some? :: tags[i].value < n
    ensures BucketSizes(themes, tags, n) == Matched(tags) <= |themes|
  {
    BucketSizesTagged(themes, tags, n);
    TaggedBelowAll(tags, n);
  }

  /** The themes in the buckets number at most `total_themes`. */
  lemma ThemeTotalsBound(themes: seq<Json>, cats: seq<string>)
    requires ThemeTags(themes, cats).Ok?
    ensures BucketSizes(themes, ThemeTags(themes, cats).value, |cats|) == Matched(ThemeTags(themes, cats).value) <= |themes|
  {
    var tags := ThemeTags(themes, cats).value;
    forall i | 0 <= i < |tags| && tags[i].Some?
      ensures tags[i].value < |cats|
    {
      assert TagOf(themes[i], cats) == Ok(tags[i]);
    }
    BucketsPartition(themes, tags, |cats|);
  }

  // ---------------------------------------------------------------------
  // assess_stakeholder_concerns

  function Values(fields: Fields): (r: seq<Json>)
    ensures |r| == |fields|
  {
    seq(|fields|, i requires 0 <= i < |fields| => fields[i].1)
  }

  /** `sum(len(v) for v in values)` */
  function SumLens(values: seq<Json>): (r: Result<nat, string>)
    ensures r.Ok? <==> forall i | 0 <= i < |values| :: Len(values[i]).Ok?
    decreases |values|
  {
    if |values| == 0 then Ok(0)
    else
      assert forall i | 1 <= i < |values| :: values[i] == values[1..][i - 1];
      var head :- Len(values[0]);
      var rest :- SumLens(values[1..]);
      Ok(head + rest)
  }

  /** `concerns_by_type`: the length of each list the dictionary holds, `[]` when absent. */
  function ConcernCounts(f: Fields): Result<Json, string> {
    var organizationCount :- Len(Field(f, "organizations", JArr([])));
    var individualCount :- Len(Field(f, "individuals", JArr([])));
    var commonCount :- Len(Field(f, "common", JArr([])));
    Ok(JObj([
      ("organizations", JInt(organizationCount)),
      ("individuals", JInt(individualCount)),
      ("common", JInt(commonCount))]))
  }

  /** `top_concerns` and `stakeholder_distribution`: the first five common, the first three of each bucket. */
  function ConcernSamples(f: Fields): Result<(Json, Json), string> {
    var top :- SliceTo(Field(f, "common", JArr([])), 5);
    var organizationSample :- SliceTo(Field(f, "organizations", JArr([])), 3);
    var individualSample :- SliceTo(Field(f, "individuals", JArr([])), 3);
    Ok((top, JObj([("organization_concerns", organizationSample), ("individual_concerns", individualSample)])))
  }

  function ConcernAnalysis(concerns: Json): (r: Result<Json, string>)
    ensures !concerns.JObj? ==> r == Err(AttributeError(concerns, "values"))
  {
    if !concerns.JObj? then Err(AttributeError(concerns, "values"))
    else
      var total :- SumLens(Values(concerns.fields));
      var byType :- ConcernCounts(concerns.fields);
      var samples :- ConcernSamples(concerns.fields);
      Ok(JObj([
        ("total_concerns", JInt(total)),
        ("concerns_by_type", byType),
        ("top_concerns", samples.0),
        ("stakeholder_distribution", samples.1)]))
  }

  function ConcernsOutcome(results: Json): Result<Json, string> {
    var success :- Get(results, "success", JNull);
    if !Truthy(success) then Ok(results)
    else
      var analysis := Field(results.fields, "analysis", JObj([]));
      var concerns :- Get(analysis, "stakeholder_concerns", JObj([]));
      var assessment :- ConcernAnalysis(concerns);
      Ok(JObj([
        ("success", JBool(true)),
        ("concern_analysis", assessment),
        ("document_id", Field(results.fields, "document_id", JNull))]))
  }

  function AssessStakeholderConcerns(results: Json): (r: Json)
    ensures Unsuccessful(results) ==> r == results
    ensures !results.JObj? ==> r == Failure(AttributeError(results, "get"))
  {
    Caught(ConcernsOutcome(results))
  }

  lemma ConcernFields(c: ThemeDetectors.Concerns)
    ensures Field(ConcernsJson(c).fields, "organizations", JArr([])) == StrList(c.organizations)
    ensures Field(ConcernsJson(c).fields, "individuals", JArr([])) == StrList(c.individuals)
    ensures Field(ConcernsJson(c).fields, "common", JArr([])) == StrList(c.common)
    ensures Values(ConcernsJson(c).fields) == [StrList(c.organizations), StrList(c.individuals), StrList(c.common)]
  {
    var f := ConcernsJson(c).fields;
    LookupFirst(f, "organizations", 0);
    LookupFirst(f, "individuals", 1);
    LookupFirst(f, "common", 2);
  }

  /** The three buckets of a concerns dictionary, as string lists. */
  predicate HoldsBuckets(f: Fields, organizations: seq<string>, individuals: seq<string>, common: seq<string>) {
    && Field(f, "organizations", JArr([])) == StrList(organizations)
    && Field(f, "individuals", JArr([])) == StrList(individuals)
    && Field(f, "common", JArr([])) == StrList(common)
  }

  /** The number of concerns across the three buckets. */
  function BucketTotal(organizations: seq<string>, individuals: seq<string>, common: seq<string>): nat {
    |organizations| + |individuals| + |common|
  }

  lemma SumOfThreeLists(a: seq<string>, b: seq<string>, c: seq<string>)
    ensures SumLens([StrList(a), StrList(b), StrList(c)]) == Ok(BucketTotal(a, b, c))
  {
    var values := [StrList(a), StrList(b), StrList(c)];
    assert SumLens(values[2..]) == Ok(|c|) by {
      assert values[2..][1..] == [];
    }
    assert values[1..][1..] == values[2..];
    assert SumLens(values[1..]) == Ok(|b| + |c|);
  }

  lemma BucketCounts(f: Fields, organizations: seq<string>, individuals: seq<string>, common: seq<string>)
    requires HoldsBuckets(f, organizations, individuals, common)
    ensures ConcernCounts(f) == Ok(JObj([
      ("organizations", JInt(|organizations|)),
      ("individuals", JInt(|individuals|)),
      ("common", JInt(|common|))]))
  {
    assert Len(StrList(organizations)) == Ok(|organizations|);
    assert Len(StrList(individuals)) == Ok(|individuals|);
    assert Len(StrList(common)) == Ok(|common|);
  }

  lemma BucketSamples(f: Fields, organizations: seq<string>, individuals: seq<string>, common: seq<string>)
    requires HoldsBuckets(f, organizations, individuals, common)
    ensures ConcernSamples(f) == Ok((StrList(Take(common, 5)), JObj([
      ("organization_concerns", StrList(Take(organizations, 3))),
      ("individual_concerns", StrList(Take(individuals, 3)))])))
  {
    StrListTake(common, 5);
    StrListTake(organizations, 3);
    StrListTake(individuals, 3);
  }

  /** When the three steps succeed on a dictionary, the assessment assembles their results. */
  lemma ConcernAnalysisOfDict(f: Fields, total: nat, byType: Json, top: Json, distribution: Json)
    requires SumLens(Values(f)) == Ok(total)
    requires ConcernCounts(f) == Ok(byType)
    requires ConcernSamples(f) == Ok((top, distribution))
    ensures ConcernAnalysis(JObj(f)) == Ok(JObj([
      ("total_concerns", JInt(total)),
      ("concerns_by_type", byType),
      ("top_concerns", top),
      ("stakeholder_distribution", distribution)]))
  {
  }

  /**
    On any dictionary holding exactly three string lists under the three
    bucket names, the assessment totals and counts the lists and samples them.
   */
  lemma ConcernAnalysisOfLists(f: Fields, organizations: seq<string>, individuals: seq<string>, common: seq<string>)
    requires Values(f) == [StrList(organizations), StrList(individuals), StrList(common)]
    requires HoldsBuckets(f, organizations, individuals, common)
    ensures ConcernAnalysis(JObj(f)) == Ok(JObj([
      ("total_concerns", JInt(BucketTotal(organizations, individuals, common))),
      ("concerns_by_type", JObj([
        ("organizations", JInt(|organizations|)),
        ("individuals", JInt(|individuals|)),
        ("common", JInt(|common|))])),
      ("top_concerns", StrList(Take(common, 5))),
      ("stakeholder_distribution", JObj([
        ("organization_concerns", StrList(Take(organizations, 3))),
        ("individual_concerns", StrList(Take(individuals, 3)))]))]))
  {
    SumOfThreeLists(organizations, individuals, common);
    BucketCounts(f, organizations, individuals, common);
    BucketSamples(f, organizations, individuals, common);
    ConcernAnalysisOfDict(f, BucketTotal(organizations, individuals, common),
      JObj([
        ("organizations", JInt(|organizations|)),
        ("individuals", JInt(|individuals|)),
        ("common", JInt(|common|))]),
      StrList(Take(common, 5)),
      JObj([
        ("organization_concerns", StrList(Take(organizations, 3))),
        ("individual_concerns", StrList(Take(individuals, 3)))]));
  }

  /**
    On the concerns of an analysis, the total is the sum of the three list
    lengths, each count is its list's length, and the samples are the first
    five common and first three of each bucket.
   */
  lemma ConcernAnalysisOfConcerns(c: ThemeDetectors.Concerns)
    ensures ConcernAnalysis(ConcernsJson(c)) == Ok(JObj([
      ("total_concerns", JInt(BucketTotal(c.organizations, c.individuals, c.common))),
      ("concerns_by_type", JObj([
        ("organizations", JInt(|c.organizations|)),
        ("individuals", JInt(|c.individuals|)),
        ("common", JInt(|c.common|))])),
      ("top_concerns", StrList(Take(c.common, 5))),
      ("stakeholder_distribution", JObj([
        ("organization_concerns", StrList(Take(c.organizations, 3))),
        ("individual_concerns", StrList(Take(c.individuals, 3)))]))]))
  {
    ConcernFields(c);
    ConcernAnalysisOfLists(ConcernsJson(c).fields, c.organizations, c.individuals, c.common);
  }

  // ---------------------------------------------------------------------
  // The three analysis tools on a successful envelope

  /** `analysis_results.get("success")` is truthy on a dictionary. */
  predicate Succeeded(results: Json) {
    results.JObj? && Truthy(Lookup(results.fields, "success").GetOr(JNull))
  }

  /** `analysis_results.get("analysis", {})` */
  function AnalysisOfEnvelope(results: Json): Json
    requires results.JObj?
  {
    Field(results.fields, "analysis", JObj([]))
  }

  /** A tool's success dictionary: `success` is true, `key` holds `value`, and the envelope's document id is passed on. */
  predicate SuccessWith(r: Json, results: Json, key: string, value: Json)
    requires results.JObj?
  {
    && r.JObj?
    && Lookup(r.fields, "success") == Some(JBool(true))
    && Lookup(r.fields, key) == Some(value)
    && Lookup(r.fields, "document_id") == Some(Field(results.fields, "document_id", JNull))
  }

  /** Each of four distinct keys finds its own value. */
  lemma {:induction false} FourLookups(k0: string, k1: string, k2: string, k3: string, v0: Json, v1: Json, v2: Json, v3: Json)
    requires k0 != k1 && k0 != k2 && k0 != k3 && k1 != k2 && k1 != k3 && k2 != k3
    ensures var f := [(k0, v0), (k1, v1), (k2, v2), (k3, v3)];
      Lookup(f, k0) == Some(v0) && Lookup(f, k1) == Some(v1) && Lookup(f, k2) == Some(v2) && Lookup(f, k3) == Some(v3)
  {
    var f := [(k0, v0), (k1, v1), (k2, v2), (k3, v3)];
    LookupFirst(f, k0, 0);
    LookupFirst(f, k1, 1);
    LookupFirst(f, k2, 2);
    LookupFirst(f, k3, 3);
  }

  /** The four fields of a tool's success dictionary, with the payload under `key`. */
  lemma FourFields(results: Json, key: string, value: Json, extraKey: string, extra: Json)
    requires results.JObj?
    requires key != "success" && key != "document_id" && extraKey != "success" && extraKey != "document_id" && key != extraKey
    ensures var r := JObj([("success", JBool(true)), (key, value), (extraKey, extra),
                           ("document_id", Field(results.fields, "document_id", JNull))]);
      SuccessWith(r, results, key, value) && Lookup(r.fields, extraKey) == Some(extra)
  {
    var fields := [("success", JBool(true)), (key, value), (extraKey, extra),
                   ("document_id", Field(results.fields, "document_id", JNull))];
    LookupFirst(fields, "success", 0);
    LookupFirst(fields, key, 1);
    LookupFirst(fields, extraKey, 2);
    LookupFirst(fields, "document_id", 3);
  }

  /**
    On a successful envelope the insights are the view the summary type
    selects (`Insights`); the result echoes the summary type and the document
    id, and a view that raises becomes the failure dictionary.
   */
  lemma InsightsResult(results: Json, summaryType: Json)
    requires Succeeded(results)
    ensures var v, r := Insights(AnalysisOfEnvelope(results), summaryType), SynthesizeCommentInsights(results, summaryType);
      v.Ok? ==> SuccessWith(r, results, "insights", v.value) && Lookup(r.fields, "summary_type") == Some(summaryType)
    ensures var v, r := Insights(AnalysisOfEnvelope(results), summaryType), SynthesizeCommentInsights(results, summaryType);
      v.Err? ==> r == Failure(v.error)
  {
    var v := Insights(AnalysisOfEnvelope(results), summaryType);
    if v.Ok? {
      SynthesisJsonFields(results, summaryType, v.value);
    }
  }

  lemma SynthesisJsonFields(results: Json, summaryType: Json, insights: Json)
    requires results.JObj?
    ensures SuccessWith(SynthesisJson(results, summaryType, insights), results, "insights", insights)
    ensures Lookup(SynthesisJson(results, summaryType, insights).fields, "summary_type") == Some(summaryType)
  {
    FourLookups("success", "summary_type", "insights", "document_id",
      JBool(true), summaryType, insights, Field(results.fields, "document_id", JNull));
  }

  /** An executive or technical type selects that view; every other type selects the stakeholder view. */
  lemma InsightsChoice(analysis: Json, summaryType: Json)
    ensures summaryType == JStr("executive") ==> Insights(analysis, summaryType) == ExecutiveSummary(analysis)
    ensures summaryType == JStr("technical") ==> Insights(analysis, summaryType) == TechnicalSummary(analysis)
    ensures summaryType != JStr("executive") && summaryType != JStr("technical") ==>
      Insights(analysis, summaryType) == StakeholderSummary(analysis)
  {
  }

  /** Category `k` of `theme_categories` lists exactly bucket `k`. */
  lemma CategoryLookup(themes: seq<Json>, tags: seq<Option<nat>>, k: nat)
    requires |tags| == |themes| && k < |Categories|
    ensures Lookup(CategoriesJson(themes, tags).fields, Categories[k]) == Some(JArr(Bucket(themes, tags, k)))
  {
    assert forall j | 0 <= j < k :: Categories[j] != Categories[k];
    LookupFirst(CategoriesJson(themes, tags).fields, Categories[k], k);
  }

  /**
    On a successful envelope whose analysis lists `themes`: `total_themes` is
    the number of themes, each category lists the themes tagged with it, and
    those lists together hold at most `total_themes` themes. A theme whose
    name cannot be tested makes the tool fail with that error.
   */
  lemma ThemesResult(results: Json, themes: seq<Json>)
    requires Succeeded(results)
    requires Get(AnalysisOfEnvelope(results), "regulatory_themes", JArr([])).Ok?
    requires Iterate(Get(AnalysisOfEnvelope(results), "regulatory_themes", JArr([])).value) == Ok(themes)
    ensures var r := IdentifyRegulatoryThemes(results);
      ThemeTags(themes, Categories).Err? ==> r == Failure(ThemeTags(themes, Categories).error)
    ensures var r, tags := IdentifyRegulatoryThemes(results), ThemeTags(themes, Categories);
      tags.Ok? ==>
        && SuccessWith(r, results, "theme_categories", CategoriesJson(themes, tags.value))
        && Lookup(r.fields, "total_themes") == Some(JInt(|themes|))
        && (forall k | 0 <= k < |Categories| ::
              Lookup(CategoriesJson(themes, tags.value).fields, Categories[k]) == Some(JArr(Bucket(themes, tags.value, k))))
        && BucketSizes(themes, tags.value, |Categories|) <= |themes|
  {
    var tags := ThemeTags(themes, Categories);
    if tags.Ok? {
      var cj := CategoriesJson(themes, tags.value);
      FourFields(results, "theme_categories", cj, "total_themes", JInt(|themes|));
      assert IdentifyRegulatoryThemes(results) == JObj([("success", JBool(true)), ("theme_categories", cj),
        ("total_themes", JInt(|themes|)), ("document_id", Field(results.fields, "document_id", JNull))]);
      forall k | 0 <= k < |Categories|
        ensures Lookup(cj.fields, Categories[k]) == Some(JArr(Bucket(themes, tags.value, k)))
      {
        CategoryLookup(themes, tags.value, k);
      }
      ThemeTotalsBound(themes, Categories);
    }
  }

  /**
    On a successful envelope whose analysis holds `concerns`, the result's
    `concern_analysis` is the concern analysis of that dictionary, or the tool
    fails with the error computing it raises.
   */
  lemma ConcernsResult(results: Json, concerns: Json)
    requires Succeeded(results)
    requires Get(AnalysisOfEnvelope(results), "stakeholder_concerns", JObj([])) == Ok(concerns)
    ensures var r := AssessStakeholderConcerns(results);
      ConcernAnalysis(concerns).Ok? ==> SuccessWith(r, results, "concern_analysis", ConcernAnalysis(concerns).value)
    ensures var r := AssessStakeholderConcerns(results);
      ConcernAnalysis(concerns).Err? ==> r == Failure(ConcernAnalysis(concerns).error)
  {
    if ConcernAnalysis(concerns).Ok? {
      var fields := [("success", JBool(true)), ("concern_analysis", ConcernAnalysis(concerns).value),
                     ("document_id", Field(results.fields, "document_id", JNull))];
      assert AssessStakeholderConcerns(results) == JObj(fields);
      LookupFirst(fields, "success", 0);
      LookupFirst(fields, "concern_analysis", 1);
      LookupFirst(fields, "document_id", 2);
    }
  }

  // ---------------------------------------------------------------------
  // The dispatcher

  function UnknownTool(name: string, available: seq<Json>): Json {
    JObj([
      ("success", JBool(false)),
      ("error", JStr("Unknown tool: " + name)),
      ("available_tools", JArr(available))])
  }

  function ToolFailure(name: string, e: string): Json {
    JObj([("success", JBool(false)), ("error", JStr(e)), ("tool", JStr(name))])
  }

  /** The bound tool method's result. */
  function RunTool(s: Services, tool: ToolId, args: seq<Json>): Json
    requires |args| == |Signature(tool)|
  {
    match tool
    case AnalyzeComments => AnalyzeRegulatoryComments(s, args[0], args[1], args[2])
    case CommentCount => GetCommentCount(s, args[0])
    case SynthesizeInsights => SynthesizeCommentInsights(args[0], args[1])
    case RegulatoryThemes => IdentifyRegulatoryThemes(args[0])
    case StakeholderConcerns => AssessStakeholderConcerns(args[0])
    case ApiConnection => TestApiConnection(s)
  }

  /**
    The reply to a name the dispatcher does not know. The available names are
    those of the tool definitions, in definition order, which
    `AvailableToolsAreDispatched` shows is the dispatched list.
   */
  function UnknownOutcome(name: string): Json {
    UnknownTool(name, StrList(DispatchedNames).items)
  }

  /**
    `execute_tool`: never raises. An unknown name lists the available tools;
    a parameter dictionary that does not bind becomes a failure naming the tool.
   */
  function ExecuteTool(s: Services, name: string, params: Json): (r: Json)
    ensures name !in DispatchedNames ==> r.JObj? && |r.fields| == 3 && r.fields[0] == ("success", JBool(false))
  {
    match Dispatch(name)
    case None => UnknownOutcome(name)
    case Some(tool) => ToolOutcome(s, tool, params)
  }

  /** A known tool's reply: its bound method's result, or a failure naming it when the parameters do not bind. */
  function ToolOutcome(s: Services, tool: ToolId, params: Json): (r: Json)
    ensures Bind(tool, params).Err? ==> r == ToolFailure(NameOf(tool), Bind(tool, params).error)
  {
    match Bind(tool, params)
    case Err(e) => ToolFailure(NameOf(tool), e)
    case Ok(args) => RunTool(s, tool, args)
  }

  /**
    An unknown name is not dispatched, and its reply lists the names read
    from the tool definitions.
   */
  lemma UnknownToolListsAll(name: string)
    requires name !in DispatchedNames
    ensures Dispatch(name).None?
    ensures FunctionNames(GetToolDefinitions()).Ok?
    ensures UnknownOutcome(name) == UnknownTool(name, FunctionNames(GetToolDefinitions()).value)
  {
    AvailableToolsAreDispatched();
  }

  /** Executing an unknown name replies with the error and the six dispatched names. */
  lemma ExecuteUnknownTool(s: Services, name: string, params: Json)
    requires name !in DispatchedNames
    ensures ExecuteTool(s, name, params) == UnknownTool(name, StrList(DispatchedNames).items)
  {
    assert Dispatch(name).None?;
  }

  /**
    Executing a tool by its name gives that tool's outcome, which fails
    naming the tool when the parameters do not bind.
   */
  lemma ExecuteKnownTool(s: Services, tool: ToolId, params: Json)
    ensures ExecuteTool(s, NameOf(tool), params) == ToolOutcome(s, tool, params)
    ensures Bind(tool, params).Err? ==>
      ExecuteTool(s, NameOf(tool), params) == ToolFailure(NameOf(tool), Bind(tool, params).error)
  {
    assert Dispatch(NameOf(tool)) == Some(tool);
  }

  /** A key that names no parameter of the tool fails the binding, so the call fails with the tool's name. */
  lemma UnexpectedKeyFails(tool: ToolId, params: Json, i: nat)
    requires params.JObj? && i < |params.fields|
    requires params.fields[i].0 !in ParamNames(Signature(tool))
    ensures Dispatch(NameOf(tool)) == Some(tool)
    ensures Bind(tool, params).Err?
  {
  }
}

=== FILE: wrappers.dfy ===
/** Optional values and results, used wherever the Python code returns `None` or raises. */
module Wrappers {

  datatype Option<+T> = None | Some(value: T) {
    predicate IsFailure() { None? }

    function PropagateFailure<U>(): Option<U>
      requires None?
    {
      None
    }

    function Extract(): T
      requires Some?
    {
      value
    }

    function GetOr(default: T): T {
      match this
      case Some(v) => v
      case None => default
    }
  }

  /** `Err` carries the text of the exception the Python code would raise (`str(e)`). */
  datatype Result<+R, +E> = Ok(value: R) | Err(error: E) {
    predicate IsFailure() { Err? }

    function PropagateFailure<U>(): Result<U, E>
      requires Err?
    {
      Err(error)
    }

    function Extract(): R
      requires Ok?
    {
      value
    }
  }
}
